=== FILE: README.md ===
# Presentation Pulse, modelled in Dafny

Presentation Pulse collects simulated-audience feedback on a slide deck. A
user uploads a .pptx file and describes one or more personas. The back end
expands each persona into a population of simulated participants (TinyTroupe
agents). The deck is shown to them, and feedback is elicited in two phases:
an analysis and a question-and-answer round. Each phase ends with a
language-model summary. A session, its personas, their phases and their
agents can be saved and loaded again. Two front ends (a React app and a
static page) keep per-persona settings in the browser and start a run.

This project models the deterministic bookkeeping around the language-model
and simulation calls, as pure functions over immutable values. It proves
what that bookkeeping promises.

- **Prompt resolution and templating** (`Utils`, `Template`, `PromptText`,
  `Constants`, `PersonaAction`, `Phases`, `Ppt`):
  - the three-way prompt priority;
  - `str.format_map` over a `defaultdict`, scanned as CPython 3.12 scans it
    (fields, conversions, nested format specs, the errors and the keys a
    render inserts), with a parse/unparse round trip; attribute and index
    access, `!a` and non-empty format specs are parameters;
  - the placeholder sets of the prompt constants;
  - each phase's namespace, export/import and reset;
  - the ordered effects of one run, with GPT, the world and the results
    extractor as oracles recorded in a trace;
  - the rendering of a deck into prompt text.
- **Sessions, cohorts and agents** (`Pulse`, `Persona`, `Agents`,
  `Collaborators`, `Paths`):
  - constructor validation and id assignment;
  - the exact key sets of every `to_dict` and the load/export round trips;
  - the population guard and the factory guard;
  - folder resolution and the save preconditions.
- **Upload and slide-text extraction** (`Upload`, `Pptx`, `Sorting`):
  - the extension filter and the magic-number check;
  - the split of the extracted text into the page's strings;
  - the collection of `}t` text elements in document order;
  - the sorted slide order and the "Slide n" entries.
- **Front-end state** (`JsValues`, `PersonaSettings`, `FileHandler`,
  `ResultsReset`, `RunFlow`):
  - adding, removing and updating persona settings;
  - the normalisation of a loaded JSON configuration;
  - clearing results;
  - the row collection and the "all results present" test, which decides
    whether the analysis request is made.

Shared modules:
- `Wrappers` holds Option and Result.
- `Text` holds the string helpers.
- `PyValues` holds Python values and exceptions.
- `JsValues` holds JavaScript values.

External services are function parameters:
- GPT;
- TinyWorld, TinyPersonFactory and ResultsExtractor;
- `uuid4`, `json.load`/`JSON.parse`, `ET.fromstring`;
- the file system, a set of existing paths plus the contents read from them.

The capitalised `backend.utils.Persona` and `backend.utils.PPT` modules that
the session code imports are not part of this model. They are opaque types in
`Collaborators`, known only by the methods called on them. The lower-case
persona.py and ppt.py are modelled as components of their own.

## Model

| member | source | states |
|---|---|---|
| Utils.EnsureKeysExist | backend/utils/utils.py:4-7 | succeeds exactly when every listed key is in the dict; a failure is always a ValueError |
| Utils.EnsureKeysExistReportsFirstMissing | backend/utils/utils.py:5-7 | the error names the first key, in list order, that the dict lacks, with the extra message appended |
| Utils.MissingKeyMessageWithoutExtra | backend/utils/utils.py:7 | with no extra message, the stripped text ends at "agent data." with no trailing space |
| Utils.GetPrompt | backend/utils/utils.py:9-15 | the result always starts with the joined additional prompts; GPT is called at most once, and not at all exactly when the explicit prompt is truthy; a called GPT gets the prefix plus its prompt; a missing default gives a TypeError |
| Utils.ExplicitPromptWins | backend/utils/utils.py:11 | a non-empty explicit prompt decides the result whatever GPT, the drafting prompt and the default are |
| Utils.DraftingPromptCallsGptOnce | backend/utils/utils.py:12-13 | with no explicit prompt, a non-empty drafting prompt is sent to GPT once behind the prefix, and the default is ignored |
| Utils.DefaultPromptFallback | backend/utils/utils.py:14-15 | with neither prompt truthy, GPT drafts from the default; a None default is a TypeError |
| Utils.GetPromptWithoutDefault | backend/utils/utils.py:9-15 | with no default and no additional prompts, the call succeeds exactly when the explicit or the drafting prompt is a truthy string |
| Utils.EmptyPrefix | backend/utils/utils.py:10 | no additional prompts give an empty prefix |
| PersonaAction.NewAction | backend/utils/PersonaAction.py:30-44 | a new phase keeps its kind and intent, has no deck, no truthy prompt and None for both results |
| PersonaAction.Mapping | backend/utils/PersonaAction.py:82-93 | the namespace entries are exactly the five `<kind>_...` keys, each holding the matching current field |
| PersonaAction.MappingKeysDistinct | backend/utils/PersonaAction.py:83-89 | the five keys are pairwise different for every kind, so no entry shadows another |
| PersonaAction.ToDict | backend/utils/PersonaAction.py:60-67 | the export holds exactly the three prompts and the two results |
| PersonaAction.Load | backend/utils/PersonaAction.py:46-58 | loading keeps kind and intent; an absent prompt becomes '' and an absent result None |
| PersonaAction.LoadToDict | backend/utils/PersonaAction.py:46-67 | loading an export gives back every exported field; only the deck is what loading an empty dict yields |
| PersonaAction.Reset | backend/utils/PersonaAction.py:69-78 | the three prompts become '' while results, kind, intent and deck stay |
| PersonaAction.ResetIdempotent | backend/utils/PersonaAction.py:75-78 | resetting twice is resetting once, and a reset phase has no prompt left |
| PersonaAction.FormatIfSet | backend/utils/PersonaAction.py:101-102 | a falsy prompt is kept and the namespace left alone; a truthy non-string fails with AttributeError; a string is rendered, a malformed one failing and one of plain fields giving the substitution; the namespace gains at most the keys the prompt looks up, and exactly those when it renders |
| PersonaAction.FormatSummary | backend/utils/PersonaAction.py:126 | the summary template is rendered unconditionally, so a non-string fails with AttributeError; a malformed template fails; the namespace gains at most the keys it looks up, and exactly those when it renders |
| PersonaAction.FormatIfSetExtended | backend/utils/PersonaAction.py:101-102 | a prompt renders to the same value against a namespace that only gained default entries, which is why formatting the first prompt cannot change the second |
| PersonaAction.Asks | backend/utils/PersonaAction.py:106 | one GPT call is recorded per message, in order |
| PersonaAction.Prepare | backend/utils/PersonaAction.py:95-104 | without a deck the run fails with the ValueError before any effect; a formatting failure keeps the keys inserted so far; otherwise the two prompts are the formatted ones, and the namespace holds the old keys, the keys the prompts look up and the five phase keys, the phase keys holding the mapping and every other key its old value or the default |
| PersonaAction.Run | backend/utils/PersonaAction.py:95-131 | a run never changes kind, intent or deck, and without a deck it stops at once with the ValueError |
| PersonaAction.Respond | backend/utils/PersonaAction.py:106-128 | the prompt is what prompt resolution returns, the world sees the slides then that prompt, the result is what the extractor returns, and the namespace gains the keys the summary template looks up |
| PersonaAction.Summarise | backend/utils/PersonaAction.py:125-131 | the new summarisation prompt is the formatted template followed by the response header and the results, and the combined result is GPT's answer to the deck prompt plus it; the keys the template looks up are inserted even when it then fails |
| PersonaAction.RunEffects | backend/utils/PersonaAction.py:95-131 | a completed run makes at most one drafting call, four world effects and one summarisation call, and stores the extracted result and GPT's summary |
| PersonaAction.RunNamespace | backend/utils/PersonaAction.py:101-126 | after a run the namespace holds the caller's keys, the five phase keys and every key the prompt, the drafting prompt and the summary template look up; every key outside the phase's five keeps its value or holds the default, and the phase keys hold the formatted prompts and the earlier results |
| PersonaAction.RunDraftsOnlyWithoutPrompt | backend/utils/PersonaAction.py:106 | GPT drafts the prompt exactly when the formatted prompt is empty |
| PersonaAction.RunAppendsToSummary | backend/utils/PersonaAction.py:126-128 | a template without fields is kept verbatim and the results are appended after the header |
| PersonaAction.SecondRunSkipsDrafting | backend/utils/PersonaAction.py:101-106 | when a first run resolved a non-empty prompt holding no brace, a second run reuses that prompt and asks GPT only for the summary |
| PersonaAction.RunNeedsPpt | backend/utils/PersonaAction.py:96-97 | with no deck the run has no effect and changes nothing |
| Constants.TinyTroupeInfoIsPlain | backend/utils/Constants.py:3-18 | the assistant's system text holds no brace, so it has no fields |
| Constants.TinyTroupeInfoNonEmpty | backend/utils/Constants.py:3-18 | the system text is non-empty, hence truthy |
| Constants.TinyTroupeInfoFormatsToItself | backend/utils/Constants.py:3-18 | rendering the system text against any namespace returns it unchanged |
| Constants.PersonaGptPromptPlaceholders | backend/utils/Constants.py:20-52 | the persona drafting template parses and its fields are exactly persona_name, persona_description and persona_population_size |
| Constants.FieldNamesAreGood | backend/utils/Constants.py:20-170 | every key the templates name is a plain identifier, so `{key}` is a simple field looking it up |
| Constants.AnalysisGptPromptIsPlain | backend/utils/Constants.py:54-90 | the analysis drafting template holds no brace |
| Constants.AnalysisGptPromptNonEmpty | backend/utils/Constants.py:54-90 | the analysis drafting template is non-empty, hence truthy |
| Constants.AnalysisGptPromptFormatsToItself | backend/utils/Constants.py:54-90 | rendering the analysis drafting template changes nothing |
| Constants.QnaGptPromptIsPlain | backend/utils/Constants.py:92-122 | the question drafting template holds no brace |
| Constants.QnaGptPromptNonEmpty | backend/utils/Constants.py:92-122 | the question drafting template is non-empty, hence truthy |
| Constants.QnaGptPromptFormatsToItself | backend/utils/Constants.py:92-122 | rendering the question drafting template changes nothing |
| Constants.AnalysisSummarizationPromptPlaceholders | backend/utils/Constants.py:124-148 | the analysis summary template parses and its fields are exactly persona_name, persona_description, ppt_details, analysis_prompt and analysis_result |
| Constants.QnaSummarizationPromptPlaceholders | backend/utils/Constants.py:150-170 | the question summary template parses and its fields are exactly persona_name, persona_description, ppt_details, qna_prompt and qna_result |
| Phases.NewPhase | backend/utils/PersonaAction.py:177-208 | a new analysis or question phase has the kind's drafting and summary templates, no prompt, no results and no deck |
| Phases.LoadPhase | backend/utils/PersonaAction.py:186-218 | a stored template is taken as it is, and an absent one falls back to the kind's default |
| Phases.ResetPhase | backend/utils/PersonaAction.py:196-223 | the prompt becomes '' and the kind's two templates come back, while results, deck, kind and intent stay |
| Phases.LoadPhaseToDict | backend/utils/PersonaAction.py:186-194 | loading an export of a phase of the kind restores everything except the deck |
| Phases.LoadPhaseEmpty | backend/utils/PersonaAction.py:186-194 | loading an empty dict gives the freshly constructed phase |
| Phases.ResetPhaseOfNew | backend/utils/PersonaAction.py:196-199 | a reset phase is a new phase that keeps its results and deck, with '' instead of None as its prompt |
| Phases.AnalysisSummaryReadsOwnMapping | backend/utils/Constants.py:124-148 | of the analysis summary template's fields, the phase's own mapping supplies exactly its prompt and its result |
| Phases.QnaSummaryReadsOwnMapping | backend/utils/Constants.py:150-170 | of the question summary template's fields, the phase's own mapping supplies exactly its prompt and its result |
| Phases.OwnFieldsSplit | backend/utils/PersonaAction.py:83-89 | the five summary fields meet the phase's mapping keys in exactly the prompt and result keys |
| Phases.NewPhaseDraftsFromTemplate | backend/utils/PersonaAction.py:101-106 | a new phase has no prompt, so a completed first run asks GPT to draft from the kind's template verbatim |
| Phases.NewPhaseRunNamespace | backend/utils/PersonaAction.py:101-126 | the first completed run of a new analysis or question phase adds exactly the five phase keys and persona_name, persona_description and ppt_details to the caller's namespace |
| Phases.KindNames | backend/utils/Constants.py:54-170 | the phase named "analysis" or "qna" carries that name; its drafting template looks up no key, and its summary template looks up the three persona and deck keys plus the phase's prompt and result |
| Phases.AnalysisDraftsVerbatim | backend/utils/PersonaAction.py:180 | the analysis default drafting template is non-empty and has no fields |
| Phases.QnaDraftsVerbatim | backend/utils/PersonaAction.py:204 | the question default drafting template is non-empty and has no fields |
| Template.FormatMap | backend/utils/PersonaAction.py:101-126 | rendering only adds keys, each holding the default value, and keeps every existing entry; a render that succeeds comes from a template that parses |
| Template.FormatPlain | backend/utils/PersonaAction.py:101-126 | text with no brace renders to itself under every namespace and inserts nothing |
| Template.FormatSimple | backend/utils/PersonaAction.py:101-126 | a template whose fields are plain keys renders to its literal text with each field replaced by str() of its entry, or of the default when the key is missing |
| Template.FormatScanError | backend/utils/PersonaAction.py:101-126 | a malformed template whose fields before the fault are plain keys raises ValueError with CPython's message for that fault |
| Template.FormatMapNames | backend/utils/PersonaAction.py:101-126 | rendering adds at most the keys the template looks up, nested specs included, and exactly those when it succeeds |
| Template.FormatDependsOnNames | backend/utils/PersonaAction.py:101-126 | the rendered text depends only on the entries of the keys the template looks up, a missing key reading as the default |
| Template.TemplateNamesOfPlaceholders | backend/utils/PersonaAction.py:101-126 | for a template of plain fields, the keys it looks up are exactly its placeholders |
| Template.ParseUnparse | backend/utils/PersonaAction.py:101-126 | well-formed pieces survive writing back as template text and parsing again |
| Template.UnparseParse | backend/utils/PersonaAction.py:101-126 | whatever parses is well formed and writes back to the very same text |
| Template.AttributeFieldExample | backend/utils/PersonaAction.py:101 | "{a.b}" is one field named "a.b", and the key it looks up is "a" |
| Template.PositionalExample | backend/utils/PersonaAction.py:101 | "{}" and "{0}" raise the positional-fields error |
| Template.ConversionExample | backend/utils/PersonaAction.py:101 | "{a!r}" is one field with conversion r; rendering inserts a missing "a" with the default and gives the repr of its value |
| Template.InterleavePlaceholders | backend/utils/Constants.py:20-52 | a template built from brace-free texts and good names parses, and its fields are exactly those names |
| Ppt.DetailsPromptLines | backend/utils/ppt.py:6-12 | when no detail spans several lines, the details prompt splits at newlines into an empty line, the four labelled lines in order, and an empty line |
| Ppt.MissingDetailsRenderEmpty | backend/utils/ppt.py:8-11 | a detail the dict lacks renders as the empty string after its caption |
| Ppt.SlideKeyInjective | backend/utils/ppt.py:17 | different slide numbers give different keys |
| Ppt.StripSlideBlock | backend/utils/ppt.py:18-23 | stripping a rendered slide removes only the template's surrounding indentation |
| Ppt.OrderedSlides | backend/utils/ppt.py:16-20 | the lookup of slides from..n succeeds exactly when every key is present, giving them in index order, and otherwise raises a KeyError |
| Ppt.OrderedSlidesReportsFirstMissing | backend/utils/ppt.py:16-20 | the KeyError names the first missing key in index order |
| Ppt.SlideBlocks | backend/utils/ppt.py:16-23 | the j-th block renders the j-th slide under number j+1 |
| Ppt.SlideContentPrompt | backend/utils/ppt.py:14-24 | rendering succeeds exactly when slide1..slideN are all present for N slides; no slides give "" and one slide gives just its block |
| Ppt.SlideContentNeedsExactKeys | backend/utils/ppt.py:16-20 | rendering succeeds exactly when the keys are precisely slide1 .. slideN |
| Ppt.SlideKeysCount | backend/utils/ppt.py:16-17 | the keys slide1 .. slideN are N different keys |
| Ppt.SlideContentBlocks | backend/utils/ppt.py:14-24 | a rendered content is one block per slide joined by the separator, the j-th starting with its own "Slide j+1" label |
| Ppt.SlideBlockLabel | backend/utils/ppt.py:19-23 | every block starts with its slide label |
| Ppt.TextAndNotesVisible | backend/utils/ppt.py:20-21 | the text and notes lines always hold visible text, so stripping never reaches the label |
| Ppt.SlideBlockExact | backend/utils/ppt.py:18-23 | a slide whose notes end in visible text renders as exactly the label, the text line and the notes line |
| Ppt.EmptySlideBlock | backend/utils/ppt.py:20-21 | a slide with neither text nor notes shows 'No Text' and 'No Notes' |
| Persona.NewSpec | backend/utils/persona.py:16-23 | a new spec holds exactly the type, description, id (the given one when truthy, else a fresh one), population size, a None population folder and empty prompts |
| Persona.Create | backend/utils/persona.py:11-28 | without a folder, construction succeeds exactly when type and description are truthy and otherwise raises the ValueError; with a folder it loads as written, so a loaded persona has a spec file, passes the identity checks, holds 'type' and 'description' keys and has no factory attribute; a missing spec file raises the stated ValueError |
| Persona.CreateIntended | backend/utils/persona.py:11-42 | with the closing message reading the keys the spec holds, construction is unchanged without a folder and agrees with the as-written constructor wherever that succeeds |
| Persona.GetFolder | backend/utils/persona.py:80-86 | the argument when truthy, else the spec's entry; it succeeds exactly when that value is truthy and names an existing path, and raises ValueError otherwise |
| Persona.JsonFiles | backend/utils/persona.py:69-70 | the picked names are exactly the listed names ending in ".json" |
| Persona.JsonFilesAppend | backend/utils/persona.py:69-70 | filtering a listing piece by piece gives the filtered listing, so listing order is kept |
| Persona.LoadPeople | backend/utils/persona.py:69-71 | one loaded person per picked file, in listing order, from the path folder/file |
| Persona.LoadPopulation | backend/utils/persona.py:64-72 | loading succeeds exactly when the folder resolves; the resolved folder is recorded in the spec and one person is loaded per ".json" file |
| Persona.CheckIdentity | backend/utils/persona.py:36-41 | the identity checks pass exactly when type, description and id are all truthy, and fail with ValueError otherwise |
| Persona.LoadPersona | backend/utils/persona.py:30-41 | loading a folder succeeds exactly when its spec file exists, the population loads and the identity checks pass; a missing spec file raises the stated ValueError; a loaded persona is the spec read with its population folder recorded, the people of that folder's .json files, and no factory assigned |
| Persona.LoadPersonaAsWritten | backend/utils/persona.py:30-42 | with its closing message the loader can only succeed where the corrected loader does |
| Persona.LoadPersonaAsWrittenRejectsOwnSpecs | backend/utils/persona.py:42 | a spec that passes every check but lacks a 'type' key fails with KeyError('type') |
| Persona.NewSpecHasNoTypeKey | backend/utils/persona.py:16-23 | a spec made by the constructor has neither a 'type' nor a 'description' key, so every saved persona fails to load as written |
| Persona.LoadConstructedSpec | backend/utils/persona.py:11-42 | a folder holding a constructed spec with an existing population folder loads back to that spec and the folder's people when the closing message is fixed, and raises KeyError('type') as written; with a None population folder both raise the folder ValueError |
| Persona.DefaultFolder | backend/utils/persona.py:45 | the default folder is "persona_", the type with spaces turned into underscores, "_" and the id; a missing type is a KeyError and a non-string type an AttributeError |
| Persona.DefaultFolderHasNoSpaceFromType | backend/utils/persona.py:45 | the part of the default folder built from the type holds no space |
| Persona.SaveTarget | backend/utils/persona.py:44-45 | a truthy argument is the target as it is, otherwise the default folder |
| Persona.SavePopulationTargetAsWritten | backend/utils/persona.py:50-86 | a spec entry for the population folder, even None, wins over the default "<folder>/population", and a falsy one makes the save raise ValueError |
| Persona.NewPersonaSaveFails | backend/utils/persona.py:21-50 | saving a freshly constructed persona fails at the population folder |
| Persona.LoadPrompts | backend/utils/persona.py:88-102 | the prompts become exactly the eight keys, each the given value, or '' (the criteria default text for the two criteria keys) |
| Persona.LoadPromptsIdempotent | backend/utils/persona.py:88-102 | loading the prompts a persona already holds changes nothing |
| Persona.LoadPromptsIgnoresUnknown | backend/utils/persona.py:93-102 | keys outside the eight do not affect the loaded prompts |
| Persona.UpdatedPrompts | backend/utils/persona.py:104-113 | the updated prompts hold the old keys plus those of the argument that are among the eight |
| Persona.UpdatePrompts | backend/utils/persona.py:104-113 | every accepted key takes the argument's value, every other key keeps its old value, and an absent or empty prompts entry starts from {} |
| Persona.UpdatedPromptsIdempotent | backend/utils/persona.py:104-113 | updating twice with the same dict is updating once |
| Persona.UpdateAfterLoadKeepsKeys | backend/utils/persona.py:93-113 | after loading the prompts, an update keeps exactly the eight keys |
| Persona.ChangePopulationSize | backend/utils/persona.py:115-116 | only the population size changes |
| Persona.CreateFactory | backend/utils/persona.py:118-122 | a factory is built exactly when the spec has a truthy top-level 'persona_prompt', from that prompt, and otherwise the ValueError is raised |
| Persona.CreateFactoryIgnoresPromptsEntry | backend/utils/persona.py:119 | the prompt stored under 'prompts' plays no part in building the factory |
| Persona.NewPersonaHasNoFactoryPrompt | backend/utils/persona.py:93-119 | no freshly created persona can build a factory, whatever prompts it loads |
| Persona.CreatePopulation | backend/utils/persona.py:124-131 | an existing population without force raises ValueError; a loaded persona, whose factory was never assigned, then raises AttributeError; otherwise the kept or new factory generates the spec's population size, 5 when absent |
| Persona.LoadedPersonaCannotCreatePopulation | backend/utils/persona.py:12-14 | a persona loaded from a folder fails to create a population: with ValueError when it has people and is not forced, with AttributeError otherwise |
| Persona.CreatePopulationForcedTwice | backend/utils/persona.py:124-131 | forcing a second creation keeps the spec and the factory, and calls the generator with the same factory and the same size as the first |
| Persona.Criteria | backend/utils/persona.py:135-141 | reading the criteria needs the 'prompts' entry and raises KeyError('prompts') without it |
| Persona.ResultExtractorAsWritten | backend/utils/persona.py:133-155 | the extractors as written always fail: they read a name that is never assigned |
| Persona.ResultExtractor | backend/utils/persona.py:133-155 | each argument is used when truthy and otherwise replaced by its default (criteria, situation text, the kind's field, the kind's criteria as hint); a needed criteria lookup without prompts raises KeyError |
| Persona.ExtractorUsesLoadedCriteria | backend/utils/persona.py:93-155 | after loading the prompts, the default extractor uses the loaded criteria, or the default text when none was given |
| Pulse.AttachAll | backend/utils/pulse.py:30-53 | every persona, in order, gets the deck and keeps everything else |
| Pulse.New | backend/utils/pulse.py:22-32 | a truthy id is kept and a fresh one taken otherwise; with a deck every persona carries it, without one the list is kept as given |
| Pulse.LoadedDeck | backend/utils/pulse.py:44-49 | a deck is loaded exactly when the dict's 'ppt' entry, {} by default, is truthy |
| Pulse.Iterate | backend/utils/pulse.py:50 | a list iterates to its items and a str to its characters; None and numbers are not iterable |
| Pulse.LoadDict | backend/utils/pulse.py:34-54 | loading a dict succeeds exactly when 'personas' can be iterated, a '' giving no personas; name and description default to '', each item is loaded in order with the root folder and every persona carries the loaded deck |
| Pulse.LoadDictStrPersonas | backend/utils/pulse.py:50 | a str under 'personas' loads one persona per character, in order |
| Pulse.LoadPath | backend/utils/pulse.py:37-43 | a directory stands for its pulse_spec.json; a missing file raises the stated ValueError; otherwise the JSON is loaded with the path's directory as the default root folder |
| Pulse.ExportPersonas | backend/utils/pulse.py:62 | each persona is exported in order |
| Pulse.ToDict | backend/utils/pulse.py:56-63 | the export has exactly the five keys with the session's values, and fails with AttributeError when there is no deck |
| Pulse.LoadToDict | backend/utils/pulse.py:34-63 | loading an export restores the truthy id, the name, the description and every persona in order, and a deck is present again exactly when its export is truthy |
| Pulse.FirstFailure | backend/utils/pulse.py:90-91 | the index at which a run stops: every persona before it runs cleanly, and the persona at it (when there is one) raises |
| Pulse.Run | backend/utils/pulse.py:87-91 | a run takes a fresh id and calls the personas in list order up to and including the first one that raises; each called persona is stored as its call left it, including a failing one, the uncalled rest stay as they were, and the exception is the failing call's |
| Pulse.Reset | backend/utils/pulse.py:93-96 | each persona is reset in place, and id, name, description and deck stay |
| Pulse.WritesBeforeExport | backend/utils/pulse.py:69-77 | the session folder is made, then each persona is saved into it in order, then the spec file is opened |
| Pulse.SavedCount | backend/utils/pulse.py:73-74 | the personas saved before the first failing save, all of them when none fails |
| Pulse.Export | backend/utils/pulse.py:76-80 | after the persona saves, the spec file is dumped exactly when there is a deck (otherwise AttributeError after the file is opened), and the HTML page follows only when asked |
| Pulse.Save | backend/utils/pulse.py:65-80 | a missing folder raises the stated ValueError before any write; the session folder is made and the personas save in order, the first failing save ending the call with its exception; a save completes exactly when the folder exists, every persona saves and there is a deck; a completed save dumps the export, then writes the HTML page when asked |
| Pulse.AddName | backend/utils/pulse.py:173 | only the name changes |
| Pulse.AddDescription | backend/utils/pulse.py:174 | only the description changes |
| Pulse.AddPpt | backend/utils/pulse.py:175-179 | a dict is loaded as the deck, anything else becomes the deck as it is; the personas are not touched |
| Pulse.AddPptStrandsPersonas | backend/utils/pulse.py:175-179 | replacing the deck of a session that has personas breaks the rule that every persona carries the session's deck |
| Pulse.AddPersona | backend/utils/pulse.py:181-187 | one persona is appended, loaded first when a dict is given, carrying the session's deck; nothing else changes |
| Pulse.AddPersonaKeepsCarries | backend/utils/pulse.py:181-187 | appending one persona keeps every persona carrying the session's deck |
| Pulse.AddPersonas | backend/utils/pulse.py:188 | the list is extended as given, with no deck attached |
| Pulse.AddPersonasCarries | backend/utils/pulse.py:188 | extending keeps every persona carrying the deck exactly when the added ones already carry it |
| Pulse.RemovePersonas | backend/utils/pulse.py:189 | the list becomes empty and nothing else changes |
| Agents.DataPath | backend/utils/Agent.py:108 | joining root folder and file succeeds exactly when both are strings, and raises TypeError otherwise |
| Agents.ReadJson | backend/utils/Agent.py:109 | reading a missing path raises FileNotFoundError; an existing one gives its parsed JSON |
| Agents.LoadAgentData | backend/utils/Agent.py:106-109 | no file gives None; a file with a non-string root folder is a TypeError; a loaded value is the JSON at root/file |
| Agents.NewAgent | backend/utils/Agent.py:23-30 | a truthy id is kept and a fresh one taken otherwise; truthy data and a given person are kept without reading the file; with no data, a file and no root folder construction raises TypeError |
| Agents.LoadDict | backend/utils/Agent.py:33-44 | loading a dict needs all four keys, raising ValueError otherwise, and takes id, name, description and file from it with the given root folder |
| Agents.LoadDictWithoutRootFails | backend/utils/Agent.py:33-109 | loading a dict with a truthy file and no root folder always raises TypeError |
| Agents.LoadPath | backend/utils/Agent.py:45-62 | the file is looked up under the root folder when one is given; a missing file raises the stated ValueError; a loaded agent has a fresh id, the file name and the root folder |
| Agents.Load | backend/utils/Agent.py:33-62 | a dict is loaded by the dict branch and a str by the path branch, with their results and errors; any other argument falls through both `isinstance` tests and gives None, and only it does |
| Agents.FromTinyPerson | backend/utils/Agent.py:67-73 | an agent built from a person always succeeds, with a fresh id, no file or root folder, that person, its name (None when absent), its minibio as description and its JSON as data, None when the JSON is falsy |
| Agents.Create | backend/utils/Agent.py:64-86 | any failure is wrapped in the "Error creating agent from prompt" message; an argument that is neither a person nor a string fails with the wrapped ValueError; a created agent has a fresh id, no file and a person |
| Agents.ToDict | backend/utils/Agent.py:88-94 | the export has exactly id, name, description and file |
| Agents.LoadDictToDict | backend/utils/Agent.py:33-94 | loading an export restores id, name, description and file, and always succeeds when the agent has no file |
| Agents.Save | backend/utils/Agent.py:96-104 | a save succeeds exactly when the argument or the agent's own file is truthy, else raises "Agent file not valid."; it writes the data there, records the file and returns the export |
| Agents.SaveAgain | backend/utils/Agent.py:96-104 | a second save without an argument goes to the same file with the same result |
| Pptx.Iter | pptx_extractor.py:24 | the traversal starts with the element itself |
| Pptx.Texts | pptx_extractor.py:24-27 | at most one text per element, and every collected text is non-empty |
| Pptx.TextsAppend | pptx_extractor.py:24-27 | collecting piece by piece gives the collection of the whole, in document order |
| Pptx.ElementBeforeDescendants | pptx_extractor.py:24-27 | an element's own text comes before the texts of its descendants |
| Pptx.PlainTagIgnored | pptx_extractor.py:25 | a tag without a namespace is not collected, whatever its text |
| Pptx.NamespacedTagCollected | pptx_extractor.py:25-27 | a namespaced text element with non-blank text is collected, stripped |
| Pptx.ExtractText | pptx_extractor.py:18-30 | XML that does not parse gives ""; otherwise the collected texts joined by newlines |
| Pptx.ExtractTextEmpty | pptx_extractor.py:28-50 | the extracted text is empty exactly when nothing was collected |
| Pptx.DigitRun | pptx_extractor.py:44-58 | the longest run of digits at the start of the text |
| Pptx.SearchNumber | pptx_extractor.py:44-58 | a found slide number is a non-empty run of digits |
| Pptx.SearchNumberLeftmost | pptx_extractor.py:44-55 | the search finds no number exactly when no occurrence of the prefix is followed by a digit; otherwise the number is the digit run after the leftmost such occurrence |
| Pptx.SearchNumberOfName | pptx_extractor.py:44-58 | a file named prefix, number, ".xml" yields exactly that number's digits |
| Pptx.Entry | pptx_extractor.py:51-63 | every entry starts with "Slide " and holds a newline between header and text |
| Pptx.Then | pptx_extractor.py:42-63 | entries computed one after the other: the first error wins, otherwise the lists are concatenated |
| Pptx.ThenAssoc | pptx_extractor.py:42-63 | chaining entry computations is associative |
| Pptx.FileEntry | pptx_extractor.py:43-63 | a non-.xml file contributes nothing; an .xml file without a number raises AttributeError; otherwise it contributes one entry exactly when its text is non-empty |
| Pptx.Entries | pptx_extractor.py:42-63 | a listing's entries come from at most one per file, each "Slide ..." with a newline, and the only error is AttributeError |
| Pptx.EntriesAppend | pptx_extractor.py:42-56 | the entries of a listing are the entries of its parts, in order, and the first failure wins |
| Pptx.NoXmlNoEntries | pptx_extractor.py:43-57 | a listing without .xml files contributes nothing |
| Pptx.OneSlideEntry | pptx_extractor.py:43-51 | one numbered slide file with text gives exactly its entry |
| Pptx.ExtractContent | pptx_extractor.py:32-73 | without a slides directory nothing is collected; slides and then notes are read in sorted name order; notes and media are read only when the slides directory exists |
| Pptx.TenBeforeTwo | pptx_extractor.py:42 | sorting is by code point, so slide10.xml is processed before slide2.xml |
| Pptx.TwoAfterTen | pptx_extractor.py:42 | "slide2.xml" does not sort before "slide10.xml" |
| Pptx.LexLeCommonPrefix | pptx_extractor.py:42 | a common prefix does not change the order |
| Sorting.Insert | pptx_extractor.py:42-56 | inserting into a sorted list keeps it sorted and adds exactly one element |
| Sorting.Sort | pptx_extractor.py:42-56 | `sorted` returns a sorted permutation of the listing |
| Sorting.SortedHeadLeast | pptx_extractor.py:42-56 | the head of a sorted list is its least element |
| Paths.PathJoin | backend/utils/pulse.py:41-77 | joining with an absolute second part gives that part; otherwise the result starts with the first part and ends with the second, with one slash between when needed |
| Paths.RStripSlashes | backend/utils/pulse.py:39 | trailing slashes are removed and nothing else |
| Paths.Dirname | backend/utils/pulse.py:39 | a path without a slash has an empty directory; the directory is always a prefix of the path |
| Paths.DirnameOfJoin | backend/utils/pulse.py:39-41 | the directory of folder/name is the folder |
| Collaborators.AttachDeck | backend/utils/pulse.py:186-188 | attaching a deck changes only the persona's deck |
| Upload.AllowedFile | app.py:17-18 | a name without a dot is never allowed |
| Upload.AllowedIffSuffix | app.py:11-18 | a name is allowed exactly when its lower-cased form ends in ".pptx" |
| Upload.AllowedHasSuffix | app.py:17-18 | an allowed name ends in ".pptx", ignoring case |
| Upload.SuffixAllowed | app.py:17-18 | a name ending in ".pptx", ignoring case, is allowed |
| Upload.LaterExtensionRejected | app.py:18 | "a.pptx.zip" is rejected: only the part after the last dot counts |
| Upload.Magic | app.py:42 | the signature is the first four bytes, fewer for a shorter file |
| Upload.Classify | app.py:41-47 | a file is taken as a zip archive exactly when it starts with PK\x03\x04, and as the old format exactly when it starts with \xd0\xcf\x11\xe0 |
| Upload.ClassifyFirstFour | app.py:42-44 | only the first four bytes decide the classification |
| Upload.ShortFileUnknown | app.py:42-44 | a file shorter than four bytes is neither kind |
| Upload.AfterFirstNewline | app.py:66 | the text after the first newline, a proper suffix; no newline raises IndexError |
| Upload.FirstSlideContent | app.py:66 | no slides give ""; otherwise it fails exactly when the first entry has no newline |
| Upload.FirstSlideOfEntry | app.py:66 | for an extracted entry the first-slide content is exactly the slide's text |
| Upload.FirstSlideNeverFails | app.py:66 | on what the extractor produces, the first-slide split never fails |
| Upload.TextContent | app.py:69 | with two slides the remaining text is exactly the second entry |
| Upload.TextSkipsFirst | app.py:69 | the remaining text is the entries after the first, joined by blank lines |
| Upload.NotesContent | app.py:70 | a single notes entry is shown as it is |
| Upload.NotesContentIsJoin | app.py:70 | the notes are all entries joined by blank lines, "" when there are none |
| Upload.JoinEmpty | app.py:69-70 | joining non-empty entries gives "" exactly when there are none |
| Upload.TextContentEmpty | app.py:69 | the remaining text is empty exactly when there is at most one slide entry |
| Upload.NatStrNoNewline | app.py:60-62 | a count never contains a newline |
| Upload.CountLineOneLine | app.py:60-62 | each count line is one line |
| Upload.SummaryReadsBack | app.py:56-63 | for a path without newlines the summary splits back into its eight lines: title, rule, blank, source, the three counts and a final empty line |
| Upload.MiddleDetermined | app.py:60-62 | two texts with the same head and tail that are equal have equal middles |
| Upload.SummaryDeterminesCounts | app.py:56-63 | the summary determines the three counts |
| Upload.Extract | app.py:52-70 | extraction fails exactly when unpacking or the extractor fails; otherwise the page shows the counts, the text after the first slide, the notes, and the first slide's text, "" when there are no slides |
| Upload.Process | app.py:39-85 | the saved file is always removed; an old-format file and any other non-zip file are redirected with their messages; a zip file gets a page with the extraction or with the processing error |
| Upload.UploadFile | app.py:20-90 | GET shows the empty page; a missing or empty file name redirects with "No file selected"; a file is saved exactly when its name is allowed, under the secured name in the upload folder; a disallowed name gets the page with the message |
| Upload.NothingLeftBehind | app.py:48-84 | every file the route saves is removed again |
| Upload.PageCounts | app.py:56-63 | the summary shown reads back as the counts of text entries, notes entries and media files the extractor produced |
| JsValues.Or | frontend/src/hooks/useFileHandler.ts:50-77 | the JavaScript "or" is its left operand when that is truthy and its right operand otherwise |
| JsValues.Prop | frontend/src/hooks/useFileHandler.ts:48-52 | reading a property of null or undefined is a TypeError; an object gives its property or undefined |
| JsValues.OptProp | static/js/run.js:70-71 | optional chaining gives undefined instead of the TypeError |
| JsValues.Spread | frontend/src/hooks/usePersonaSettings.ts:72-98 | spreading an object copies its own properties; null, undefined, booleans, numbers and (admitted weaker) strings and arrays give {} |
| JsValues.KeyCount | static/js/run.js:70-71 | `Object.keys(v).length` on a value other than null and undefined (which make it throw, and which the callers exclude by testing truthiness first) counts an object's properties, an array's or a string's indices, and is 0 for booleans and numbers |
| PersonaSettings.EmptySection | frontend/src/hooks/usePersonaSettings.ts:41-52 | an empty section has its kind's two prompts, an empty extracted result and an empty combined result |
| PersonaSettings.DefaultPersonaShape | frontend/src/hooks/usePersonaSettings.ts:33-40 | the entry `addPersona` writes has a null id, empty texts, a population of five and no agents |
| PersonaSettings.DefaultPersonaSections | frontend/src/hooks/usePersonaSettings.ts:41-52 | the entry `addPersona` writes has two empty sections |
| PersonaSettings.IndexKeys | frontend/src/hooks/usePersonaSettings.ts:30 | the row indices "0" .. "n-1" are n different keys, and no larger number's text is among them |
| PersonaSettings.AddPersona | frontend/src/hooks/usePersonaSettings.ts:29-54 | the default entry is stored under the number of keys as a string, replacing whatever was there, and every other entry stays |
| PersonaSettings.Put | frontend/src/hooks/usePersonaSettings.ts:31-33 | storing under a key adds that key with the new value and keeps every other entry |
| PersonaSettings.DenseAddIsFresh | frontend/src/hooks/usePersonaSettings.ts:30 | when the keys are exactly "0" .. "n-1", the new key is fresh and the keys stay dense |
| PersonaSettings.IndexKeysStep | frontend/src/hooks/usePersonaSettings.ts:30 | the indices up to n+1 are those up to n plus the text of n |
| PersonaSettings.RemovePersona | frontend/src/hooks/usePersonaSettings.ts:57-66 | the entry is dropped, every other entry stays, and the open panel is closed exactly when it was this entry's |
| PersonaSettings.RemoveUndoesAdd | frontend/src/hooks/usePersonaSettings.ts:29-66 | on dense keys, removing what was just added gives the settings back |
| PersonaSettings.NextIndexOfOne | frontend/src/hooks/usePersonaSettings.ts:30 | with one entry the next key is "1", whatever that entry's key |
| PersonaSettings.AddAfterRemoveOverwrites | frontend/src/hooks/usePersonaSettings.ts:30-61 | after removing "0" from {"0","1"}, adding overwrites the entry under "1" instead of adding a row |
| PersonaSettings.Stored | frontend/src/hooks/usePersonaSettings.ts:72 | the stored entry, or nothing when the index is absent |
| PersonaSettings.UpdatePersona | frontend/src/hooks/usePersonaSettings.ts:68-76 | the entry becomes the stored fields overridden by the updates, created when absent; every other entry stays |
| PersonaSettings.UpdateIdempotent | frontend/src/hooks/usePersonaSettings.ts:68-76 | applying the same update twice is applying it once |
| PersonaSettings.UpdateNothing | frontend/src/hooks/usePersonaSettings.ts:68-76 | an empty update of an existing entry changes nothing |
| PersonaSettings.TargetOf | frontend/src/hooks/usePersonaSettings.ts:89-101 | the two persona prompts are set at top level; other fields go into the section their prefix names, or nowhere |
| PersonaSettings.PromptFieldsPlaced | frontend/src/hooks/usePersonaSettings.ts:80-101 | each of the six allowed fields has a place |
| PersonaSettings.SetInSection | frontend/src/hooks/usePersonaSettings.ts:92-100 | the section becomes an object with its old properties plus the field set to the value; the rest of the persona stays |
| PersonaSettings.UpdatePersonaPrompts | frontend/src/hooks/usePersonaSettings.ts:78-108 | an absent index changes nothing; otherwise only that entry changes, in the field or in the section the field belongs to, with the keys unchanged |
| PersonaSettings.PersonaPromptIsUpdate | frontend/src/hooks/usePersonaSettings.ts:68-90 | setting a top-level prompt is the same as updating the entry with that one field |
| PersonaSettings.SectionPromptIsUpdate | frontend/src/hooks/usePersonaSettings.ts:68-100 | setting a section prompt is the same as updating the entry with the section spread plus the field |
| PersonaSettings.SetInSectionTwice | frontend/src/hooks/usePersonaSettings.ts:92-100 | setting a section field twice is setting it once |
| PersonaSettings.PromptsIdempotent | frontend/src/hooks/usePersonaSettings.ts:78-108 | setting the same prompt twice is setting it once |
| PersonaSettings.Open | frontend/src/hooks/usePersonaSettings.ts:110-112 | opening marks the index as active and leaves the settings alone |
| PersonaSettings.Close | frontend/src/hooks/usePersonaSettings.ts:114-116 | closing clears the active index and leaves the settings alone |
| PersonaSettings.RemoveOpened | frontend/src/hooks/usePersonaSettings.ts:63-112 | removing the open entry closes the panel, and removing another keeps it open |
| FileHandler.Field | frontend/src/hooks/useFileHandler.ts:50-77 | a property of a readable value is its property or undefined |
| FileHandler.InfoOf | frontend/src/hooks/useFileHandler.ts:49-53 | each presentation field is the stored one when truthy and '' otherwise |
| FileHandler.NormalField | frontend/src/hooks/useFileHandler.ts:59-77 | the id is taken as it is; every other field is the stored value when truthy and its empty default otherwise |
| FileHandler.NormalizePersona | frontend/src/hooks/useFileHandler.ts:58-78 | a loaded persona has exactly the nine fields, each normalised |
| FileHandler.IndexMap | frontend/src/hooks/useFileHandler.ts:56-58 | the values are stored under "0" .. "n-1" in array order |
| FileHandler.LoadPersonas | frontend/src/hooks/useFileHandler.ts:55-80 | the load fails exactly when some element is null or undefined; otherwise the i-th persona, normalised, is stored under the text of i |
| FileHandler.HandleFileChange | frontend/src/hooks/useFileHandler.ts:39-85 | no file does nothing; any file is selected; a non-.json name does nothing more; a parse error or a null document only alerts; otherwise the info is set exactly when 'ppt' is truthy, the personas exactly when 'personas' is an array of readable elements, and the alert shown exactly when it is an array holding null or undefined |
| FileHandler.OnlyFirstFile | frontend/src/hooks/useFileHandler.ts:39-40 | only the first chosen file matters |
| FileHandler.ReloadLoadedPersonas | frontend/src/hooks/useFileHandler.ts:55-80 | loading the personas a load produced, written back as objects in index order, gives the same settings |
| FileHandler.ReloadConfiguration | frontend/src/hooks/useFileHandler.ts:39-85 | a configuration file whose personas are those a load produced loads to the same settings |
| FileHandler.NormalizeIdempotent | frontend/src/hooks/useFileHandler.ts:58-78 | loading what a load produced changes nothing |
| FileHandler.EmptyLoadsAsDefault | frontend/src/hooks/useFileHandler.ts:58-78 | an empty persona object loads as the entry `addPersona` writes, except that its id is undefined rather than null |
| FileHandler.ZeroPopulationBecomesFive | frontend/src/hooks/useFileHandler.ts:64 | a population size of 0 is falsy and becomes 5 |
| FileHandler.LoadedThenAdd | frontend/src/hooks/useFileHandler.ts:56-58 | loaded settings are keyed "0" .. "n-1", so the next `addPersona` adds a new entry |
| FileHandler.NullPersonaHalfLoads | frontend/src/hooks/useFileHandler.ts:48-84 | a null persona aborts the load after the presentation info was set: the info changes, the personas do not, and the alert is shown |
| ResultsReset.ResetSection | static/js/core.js:99-107 | an object section gets `{}` responses, a `{}` extracted result and an empty combined result, with its other properties kept; any other value stays |
| ResultsReset.ResetIn | static/js/core.js:98-104 | only a present, truthy section is reset, and the persona keeps its keys |
| ResultsReset.ResetPersona | static/js/core.js:97-109 | both sections are reset where present and truthy; every other field is unchanged and no section is added |
| ResultsReset.ResetResults | static/js/core.js:95-110 | every persona is reset and none is added or dropped |
| ResultsReset.ResetSectionIdempotent | static/js/core.js:99-101 | resetting a section twice is resetting it once |
| ResultsReset.ResetPersonaIdempotent | static/js/core.js:97-109 | resetting a persona twice is resetting it once |
| ResultsReset.ResetResultsIdempotent | static/js/core.js:95-110 | `resetResults` is idempotent |
| ResultsReset.NoResultAfterReset | static/js/core.js:100-107 | after a reset an object section holds an empty extracted result and an empty combined result |
| RunFlow.Merge | static/js/run.js:23-28 | the pushed persona has a null id and the trimmed inputs, and every stored field overrides them |
| RunFlow.Pushed | static/js/run.js:21-29 | a row pushes its merged persona when both inputs are non-blank, and nothing otherwise |
| RunFlow.Collect | static/js/run.js:16-30 | at most one persona per row |
| RunFlow.CollectAppend | static/js/run.js:18-30 | the list for two groups of rows is the two lists one after the other, so row order is kept |
| RunFlow.CollectOne | static/js/run.js:21-29 | a single row yields its persona exactly when both trimmed inputs are non-empty |
| RunFlow.CollectAllKept | static/js/run.js:18-30 | when every row is kept, the i-th persona comes from the i-th row |
| RunFlow.CollectNoneKept | static/js/run.js:21 | blank rows contribute nothing |
| RunFlow.StoredNameWins | static/js/run.js:25-27 | a stored name replaces the trimmed input |
| RunFlow.HasAllResults | static/js/run.js:69-72 | holds exactly when every persona has a non-empty extracted result and a truthy combined result in both sections; vacuously true for no personas |
| RunFlow.Run | static/js/run.js:47-130 | the save request is always made first; a failed save stops before anything else; the analysis is requested, once, exactly when the save succeeded and some persona lacks results; the page data is shown when all have results |
| RunFlow.EmptyRunOnlySaves | static/js/run.js:69-85 | with no rows only the save request is made |
| RunFlow.ResetSectionNotDone | static/js/run.js:70-71 | a section that went through the reset never counts as done |
| RunFlow.MergeNotComplete | static/js/run.js:23-72 | a persona merged from reset settings is never complete |
| RunFlow.MergedNotComplete | static/js/run.js:18-72 | no persona collected from reset settings is complete |
| RunFlow.ResetForcesAnalysis | static/js/run.js:69-108 | after `resetResults`, running with at least one kept row always requests the analysis again |
| Text.Trim | static/js/run.js:21-26 | the trimmed text neither starts nor ends with whitespace, is empty exactly when the input is all whitespace, and is no longer than the input |
| Text.TrimIsMiddle | static/js/run.js:21-26 | trimming removes exactly the leading and trailing whitespace: the result is a slice of the input with only whitespace before and after it |
| Text.LastIndexOf | app.py:18 | the last position of the character, none exactly when it does not occur |
| Text.JoinSplit | app.py:66-70 | splitting a joined text at the separator gives back the parts |
| Text.NatStrInjective | frontend/src/hooks/usePersonaSettings.ts:30 | different numbers have different decimal texts |

## Left out

- File I/O is abstract: the zip extraction and temp-directory cleanup of the extractor, the JSON reads and writes of every save and load, and Flask's upload handling. Only the existence checks and the values read are modelled, as parameters.
- Network and simulation services are oracles: the Azure OpenAI client (its polling loop included), TinyTroupe's world, factory, person and extractor, and `uuid4`. Their answers arrive as parameters and their calls are recorded.
- The capitalised `PPT.load` and `Persona.load`/`to_dict`/`run`/`reset`/`save` used by the session and phase code are not part of this model. Their results arrive through the `Collaborators` and `Pulse.Host` records.
- HTML and markdown rendering is not modelled: `to_html` of the phase, the session and the agent, `save_html`, and `updateResultsUI`. It is a projection of state the model already holds.
- Logging, `print`, `console.log`, the `sleep` before the analysis request and Flask's `secret_key` and `MAX_CONTENT_LENGTH` have no effect on the modelled results and are left out.
- The `update_context` route of app.py is not part of the upload flow modelled here, so it is left out.
- React re-rendering and batching, the browser's asynchronous FileReader and DOM event wiring are not modelled. Each handler is one function from the state before to the state after.
- JavaScript numbers are integers. Fractions and NaN have no role in the code modelled.
- Property assignment in strict mode, and on an array section, is not modelled. The static scripts are sloppy-mode, so an assignment to a primitive is ignored.
- `Text.Lower` folds ASCII letters only. Python's `str.lower` and the browser's `toLowerCase` fold all of Unicode, which does not change the `.pptx`/`.json` suffix tests for ASCII names.
- `Paths.PathJoin` does not normalise `..` or repeated separators, which `os.path.exists` would resolve on a real file system.
- The mutable default `personas=[]` of `Pulse.__init__` is one list shared by every session built without personas. The model has value semantics, so that aliasing is not modelled.
- `addPersona` reads the settings from its render's closure. Two additions in one render would both see the old count; the model applies each handler to the latest state.
- `resetResults` in core.js clears core.js's own `let personaSettings` (core.js:2, 97), which is published as `window.personaSettings` once, at core.js:120. The run script reads `window.personaSettings` (run.js:27). persona.js:2 assigns a new object to that window property without touching core.js's binding. When persona.js runs after core.js, the reset therefore clears an object the run no longer reads. The model resets the one settings map it is given, so `RunFlow.ResetForcesAnalysis` holds only when core.js's object is the one run.js reads.
- `ResultsReset.ResetResults` treats every persona entry as an object. An entry that is a primitive would make the loop's property reads behave differently, but the page never stores one.
- `RunFlow.Collect`: its own contract gives only a length bound. What it collects is stated by `RunFlow.CollectAppend`, `RunFlow.CollectOne`, `RunFlow.CollectAllKept` and `RunFlow.CollectNoneKept`.
- `Upload.AllowedFile`: its own contract states only that a dot is needed. The full test is stated by `Upload.AllowedIffSuffix`.
- `PersonaAction.Load`: its own contract covers the kind, the intent and the two absent-key defaults. The restoring of an export is stated by `PersonaAction.LoadToDict`.
- `Template.Scan` reads only ASCII digits as an index. CPython also reads other Unicode decimal digits, so a key such as `{٣}` is positional there and a plain key here.
- `Template.Formatter`: attribute and index steps after the key, the `!a` conversion and a non-empty format spec are applied by parameters. Their own rules (`getattr`, `__getitem__`, `ascii`, the format-spec mini-language) are not modelled. The error messages are those of CPython 3.12.
- `Pulse.LoadDict`: a 'personas' value that is a dict or another iterable object is treated as not iterable, giving TypeError. Python would iterate a dict's keys. The model's values do not keep a nested dict's keys.
- `Persona.CreatePopulationForcedTwice`: the population generator is a parameter, a fixed function of the factory and the size. The real generator is a language-model call whose two answers may differ, so the lemma promises equal arguments, not equal populations.
- `Pptx.SearchNumber` and `Pptx.DigitRun` read ASCII digits only. Python's `\d` also matches other Unicode decimal digits, which the slide part names inside a deck do not contain.
- `PyValues.StrRepr` escapes as Python does for characters up to U+00FF only. Above that, Python writes non-printable characters as `\u` or `\U` escapes, which the model leaves as they are.
- `JsValues.Spread`: spreading a string or an array gives `{}` here, where JavaScript copies their index properties. Neither is spread in the code modelled.
- Some defects are modelled as written rather than corrected, because the behaviour they cause is part of what the code does:
  - a persona loaded from a folder has no `factory` attribute, so `create_population` raises AttributeError (`Persona.LoadedPersonaCannotCreatePopulation`);
  - a failing persona save stops `Pulse.save` before the spec file is written (`Pulse.Save`);
  - a new persona's save fails at `population_folder` (`Persona.NewPersonaSaveFails`);
  - loading an agent from a dict without a root folder fails (`Agents.LoadDictWithoutRootFails`);
  - a `null` persona aborts the configuration load after the presentation info was already set (`FileHandler.NullPersonaHalfLoads`);
  - a loaded empty persona gets an `undefined` id where `addPersona` writes `null` (`FileHandler.EmptyLoadsAsDefault`).

## Findings

| source | as written | input that shows it | evidently intended | confidence | as-written member | corrected member |
|---|---|---|---|---|---|---|
| backend/utils/persona.py:42 | after every check passes, the closing message reads the spec keys 'type' and 'description' | a folder whose spec is one the constructor built, with its population folder set to an existing directory: `Persona(persona_folder=f)` raises KeyError('type') | report persona_type and persona_description, so a valid spec loads | not executed | Persona.LoadConstructedSpec | Persona.CreateIntended |
| backend/utils/persona.py:140 | the hints test reads the local `field_hints`, but the parameter is named `fields_hints` | any call with a truthy objective, e.g. `analysis_result_extractor("x")`: UnboundLocalError | use the caller's hints when truthy, else `{kind: criteria}` | not executed | Persona.ResultExtractorAsWritten | Persona.ResultExtractor |

=== FILE: agent.dfy ===
/** The `Agent` of backend/utils/Agent.py: one simulated participant, known by
    an id, a name, a description, the file its TinyPerson specification lives
    in, the root folder that file is relative to, the specification's data and
    the TinyPerson built from it.

    TinyPerson and TinyPersonFactory are opaque: a `Person` is known only
    through the functions of the `PersonOps` record.  The file system is the
    set of existing paths plus what `json.load` returns for each; both may
    fail, and so may building a TinyPerson. */
module Agents {

  import opened Wrappers
  import opened Text
  import opened PyValues
  import opened Paths
  import opened Utils

  /** A TinyPerson instance. */
  datatype Person = Person(body: Value)

  /** What the code asks of TinyPerson, TinyPersonFactory and the file system. */
  datatype PersonOps = PersonOps(
    field: (Person, string) -> Option<Value>,   // `person.get(key)`, None when absent
    minibio: Person -> Value,
    toJson: Person -> Value,
    text: Person -> string,                     // `str(person)`
    loadSpecification: Value -> Result<Person, Exc>,
    generate: string -> Result<Person, Exc>,    // `TinyPersonFactory(prompt).generate_person()`
    paths: set<string>,
    readJson: string -> Result<Value, Exc>)

  datatype Agent = Agent(id: Value, name: Value, description: Value, file: Value, rootFolder: Value,
                         data: Value, person: Option<Person>)

  /** `Path(root_folder) / file` for the data file of an agent: both must be
      str (`Path(None)` raises TypeError). */
  function DataPath(file: Value, root: Value): (r: Result<string, Exc>)
    ensures r.Success? <==> root.VStr? && file.VStr?
    ensures r.Failure? ==> r.error == TypeError
    ensures r.Success? ==> r.value == PathJoin(root.s, file.s)
  {
    if !root.VStr? || !file.VStr? then Failure(TypeError) else Success(PathJoin(root.s, file.s))
  }

  /** `json.load(open(path))`: the path must exist. */
  function ReadJson(path: string, ops: PersonOps): (r: Result<Value, Exc>)
    ensures path !in ops.paths ==> r == Failure(FileNotFoundError(path))
    ensures path in ops.paths ==> r == ops.readJson(path)
  {
    if path !in ops.paths then Failure(FileNotFoundError(path)) else ops.readJson(path)
  }

  /** `_load_agent_data_from_file()`: None without a file, else the JSON at
      `Path(root_folder) / file`. */
  function LoadAgentData(file: Value, root: Value, ops: PersonOps): (r: Result<Value, Exc>)
    ensures !Truthy(file) ==> r == Success(VNone)
    ensures Truthy(file) && !root.VStr? ==> r == Failure(TypeError)
    ensures Truthy(file) && r.Success? ==>
      root.VStr? && file.VStr? &&
      PathJoin(root.s, file.s) in ops.paths && r == ops.readJson(PathJoin(root.s, file.s))
  {
    if !Truthy(file) then Success(VNone)
    else
      var path :- DataPath(file, root);
      ReadJson(path, ops)
  }

  /** `Agent(name, description, id, file, root_folder, data, tinyPerson)`: a
      truthy id is kept, otherwise a fresh one is taken; missing data is read
      from the file, and a missing TinyPerson is built from the data. */
  function NewAgent(name: Value, description: Value, id: Value, file: Value, root: Value,
                    data: Value, person: Option<Person>, freshId: string, ops: PersonOps): (r: Result<Agent, Exc>)
    ensures r.Success? ==>
      r.value.id == (if Truthy(id) then id else VStr(freshId)) &&
      r.value.name == name && r.value.description == description &&
      r.value.file == file && r.value.rootFolder == root
    ensures r.Success? && Truthy(data) ==> r.value.data == data
    ensures r.Success? && person.Some? ==> r.value.person == person
    ensures Truthy(data) && person.Some? ==> r.Success?
    ensures !Truthy(data) && Truthy(file) && !root.VStr? ==> r == Failure(TypeError)
  {
    var d :- if Truthy(data) then Success(data) else LoadAgentData(file, root, ops);
    var p :- if person.Some? then Success(person)
             else if Truthy(d) then
               match ops.loadSpecification(d)
               case Failure(e) => Failure(e)
               case Success(p) => Success(Some(p))
             else Success(None);
    Success(Agent(if Truthy(id) then id else VStr(freshId), name, description, file, root, d, p))
  }

  const AgentKeys: seq<string> := ["id", "name", "description", "file"]

  const LoadKeysExtra: string :=
    "Agents cannot be loaded without id, name, description and file. If you are creating an agent, using the create method."

  /** `Agent.load(dict, root_folder)`: the four keys must be present, and
      their values go into the new agent, which then reads its data file. */
  function LoadDict(d: Dict, root: Value, freshId: string, ops: PersonOps): (r: Result<Agent, Exc>)
    ensures !(forall j | 0 <= j < |AgentKeys| :: AgentKeys[j] in d) ==> r.Failure? && r.error.ValueError?
    ensures r.Success? ==>
      "id" in d && "name" in d && "description" in d && "file" in d &&
      r.value.id == (if Truthy(d["id"]) then d["id"] else VStr(freshId)) &&
      r.value.name == d["name"] && r.value.description == d["description"] &&
      r.value.file == d["file"] && r.value.rootFolder == root
  {
    var _ :- EnsureKeysExist(d, AgentKeys, LoadKeysExtra);
    assert AgentKeys[0] in d && AgentKeys[1] in d && AgentKeys[2] in d && AgentKeys[3] in d;
    NewAgent(d["name"], d["description"], d["id"], d["file"], root, VNone, None, freshId, ops)
  }

  /** As written, loading from a dict without a root folder fails whenever the
      dict names a file: the constructor reads the data through
      `Path(None) / file`. */
  lemma LoadDictWithoutRootFails(d: Dict, freshId: string, ops: PersonOps)
    requires "id" in d && "name" in d && "description" in d && "file" in d
    requires Truthy(d["file"])
    ensures LoadDict(d, VNone, freshId, ops) == Failure(TypeError)
  {
    assert forall j | 0 <= j < |AgentKeys| :: AgentKeys[j] in d;
  }

  /** `Agent.load(path, root_folder)`: the file is looked up under the root
      folder when one is given; the JSON and the TinyPerson are loaded with
      their errors wrapped in a generic Exception; the agent gets a fresh id
      (the constructor is given None), the TinyPerson's name (default '') and
      minibio. */
  function LoadPath(file: string, root: Value, freshId: string, ops: PersonOps): (r: Result<Agent, Exc>)
    ensures Truthy(root) && !root.VStr? ==> r == Failure(TypeError)
    ensures r.Success? ==> r.value.id == VStr(freshId) && r.value.file == VStr(file) && r.value.rootFolder == root
    ensures r.Success? ==>
      var path := if Truthy(root) then PathJoin(root.s, file) else file;
      path in ops.paths && ops.readJson(path).Success? && ops.loadSpecification(ops.readJson(path).value).Success?
    ensures (if Truthy(root) && root.VStr? then PathJoin(root.s, file) else file) !in ops.paths &&
            (!Truthy(root) || root.VStr?) ==>
      r == Failure(ValueError("File " + file + " not found."))
  {
    var path :- if Truthy(root) then DataPath(VStr(file), root) else Success(file);
    if path !in ops.paths then Failure(ValueError("File " + file + " not found."))
    else
      var prefix := "Error loading agent from file: " + file + ". Error: ";
      match ops.readJson(path)
      case Failure(e) => Failure(Chained(prefix, e))
      case Success(data) =>
        match ops.loadSpecification(data)
        case Failure(e) => Failure(Chained(prefix, e))
        case Success(p) =>
          var name := match ops.field(p, "name") case Some(v) => v case None => VStr("");
          NewAgent(name, ops.minibio(p), VNone, VStr(file), root, data, Some(p), freshId, ops)
  }

  /** The argument of `Agent.load`: a dict, a path, or anything else. */
  datatype LoadArg = DictArg(d: Dict) | PathArg(file: string) | OtherArg(v: Value)

  /** `Agent.load(file_or_dict, root_folder)`: a dict goes to the dict
      branch, a str to the path branch; any other argument matches neither
      `isinstance` test and the method returns None. */
  function Load(arg: LoadArg, root: Value, freshId: string, ops: PersonOps): (r: Result<Option<Agent>, Exc>)
    ensures r == Success(None) <==> arg.OtherArg?
    ensures arg.DictArg? ==>
      (r.Success? <==> LoadDict(arg.d, root, freshId, ops).Success?) &&
      (r.Success? ==> r.value == Some(LoadDict(arg.d, root, freshId, ops).value)) &&
      (r.Failure? ==> r.error == LoadDict(arg.d, root, freshId, ops).error)
    ensures arg.PathArg? ==>
      (r.Success? <==> LoadPath(arg.file, root, freshId, ops).Success?) &&
      (r.Success? ==> r.value == Some(LoadPath(arg.file, root, freshId, ops).value)) &&
      (r.Failure? ==> r.error == LoadPath(arg.file, root, freshId, ops).error)
  {
    match arg
    case DictArg(d) =>
      var a :- LoadDict(d, root, freshId, ops);
      Success(Some(a))
    case PathArg(file) =>
      var a :- LoadPath(file, root, freshId, ops);
      Success(Some(a))
    case OtherArg(_) => Success(None)
  }

  /** The argument of `Agent.create`. */
  datatype CreateArg = FromPerson(p: Person) | FromPrompt(prompt: string) | Other(v: Value)

  /** `str()` of the argument, as the wrapped error message shows it. */
  function ArgText(arg: CreateArg, ops: PersonOps): string {
    match arg
    case FromPerson(p) => ops.text(p)
    case FromPrompt(s) => s
    case Other(v) => Show(v)
  }

  /** An agent built from a TinyPerson: its name (None when absent), minibio
      and JSON, no file.  With no file to read, a falsy JSON leaves the data
      None. */
  function FromTinyPerson(p: Person, freshId: string, ops: PersonOps): (r: Result<Agent, Exc>)
    ensures r.Success?
    ensures r.value.id == VStr(freshId) && r.value.file == VNone && r.value.rootFolder == VNone
    ensures r.value.person == Some(p)
    ensures ops.field(p, "name").Some? ==> r.value.name == ops.field(p, "name").value
    ensures ops.field(p, "name").None? ==> r.value.name == VNone
    ensures r.value.description == ops.minibio(p)
    ensures r.value.data == (if Truthy(ops.toJson(p)) then ops.toJson(p) else VNone)
  {
    var name := match ops.field(p, "name") case Some(v) => v case None => VNone;
    NewAgent(name, ops.minibio(p), VNone, VNone, VNone, ops.toJson(p), Some(p), freshId, ops)
  }

  const NotPersonOrPromptMessage: string := "Prompt must be a TinyPerson object or a string."

  /** `Agent.create(prompt_or_tinyPerson)`: a TinyPerson is used as it is, a
      prompt goes through the factory, and anything else is refused; every
      error comes out wrapped in a generic Exception naming the argument. */
  function Create(arg: CreateArg, freshId: string, ops: PersonOps): (r: Result<Agent, Exc>)
    ensures arg.Other? ==>
      r == Failure(Chained("Error creating agent from prompt: " + Show(arg.v) + ". Error: ",
                           ValueError(NotPersonOrPromptMessage)))
    ensures r.Failure? ==> r.error.Chained? && r.error.prefix == "Error creating agent from prompt: " + ArgText(arg, ops) + ". Error: "
    ensures r.Success? ==> r.value.id == VStr(freshId) && r.value.file == VNone && r.value.person.Some?
    ensures arg.FromPerson? && r.Success? ==> r.value.person == Some(arg.p)
  {
    var attempt :=
      match arg
      case FromPerson(p) => FromTinyPerson(p, freshId, ops)
      case FromPrompt(s) =>
        (match ops.generate(s)
         case Failure(e) => Failure(e)
         case Success(p) => FromTinyPerson(p, freshId, ops))
      case Other(_) => Failure(ValueError(NotPersonOrPromptMessage));
    match attempt
    case Failure(e) => Failure(Chained("Error creating agent from prompt: " + ArgText(arg, ops) + ". Error: ", e))
    case Success(a) => Success(a)
  }

  /** `to_dict()`. */
  function ToDict(a: Agent): (r: Dict)
    ensures r.Keys == {"id", "name", "description", "file"}
    ensures r["id"] == a.id && r["name"] == a.name && r["description"] == a.description && r["file"] == a.file
  {
    map["id" := a.id, "name" := a.name, "description" := a.description, "file" := a.file]
  }

  /** Loading an agent's export gives back its id (when truthy), name,
      description and file, whenever the data file can be read again. */
  lemma LoadDictToDict(a: Agent, root: Value, freshId: string, ops: PersonOps)
    requires Truthy(a.id)
    ensures LoadDict(ToDict(a), root, freshId, ops).Success? ==>
      var b := LoadDict(ToDict(a), root, freshId, ops).value;
      b.id == a.id && b.name == a.name && b.description == a.description && b.file == a.file
    ensures !Truthy(a.file) ==> LoadDict(ToDict(a), root, freshId, ops).Success?
  {
    var d := ToDict(a);
    assert forall j | 0 <= j < |AgentKeys| :: AgentKeys[j] in d;
  }

  /** What `save(file)` does: the agent with its file updated, the data
      written and the path it went to, and the returned export. */
  datatype Saved = Saved(agent: Agent, target: Value, written: Value, returned: Dict)

  /** `save(file)`: writes to the argument, else to the agent's own file; with
      neither it raises before writing anything. */
  function Save(a: Agent, file: Value): (r: Result<Saved, Exc>)
    ensures r.Success? <==> Truthy(file) || Truthy(a.file)
    ensures r.Failure? ==> r.error == ValueError("Agent file not valid.")
    ensures r.Success? ==>
      r.value.target == (if Truthy(file) then file else a.file) &&
      r.value.agent == a.(file := r.value.target) &&
      r.value.written == a.data &&
      r.value.returned == ToDict(r.value.agent)
  {
    var target := if Truthy(file) then file else a.file;
    if !Truthy(target) then Failure(ValueError("Agent file not valid."))
    else
      var b := a.(file := target);
      Success(Saved(b, target, a.data, ToDict(b)))
  }

  /** A second save without an argument goes to the same file and returns the
      same export. */
  lemma SaveAgain(a: Agent, file: Value)
    requires Save(a, file).Success?
    ensures Save(Save(a, file).value.agent, VNone).Success?
    ensures Save(Save(a, file).value.agent, VNone).value == Save(a, file).value
  {
  }
}

=== FILE: collaborators.dfy ===
/** Classes the modelled code calls but whose source is not part of this model:
    the capitalised `PPT` and `Persona` of the back end's session code.  Each is
    known only by what its called methods return, and everything they compute
    on their own arrives as a function parameter at the call site. */
module Collaborators {

  import opened Wrappers
  import opened PyValues

  /** A capitalised `PPT` instance: the texts of `ppt_prompt()` and
      `ppt_and_slide_prompt()` and the dict `to_dict()` exports. */
  datatype Deck = Deck(pptPrompt: string, pptAndSlidePrompt: string, exported: Value)

  /** A capitalised `Persona` instance: its own opaque state and the deck
      attached to it by `add_ppt`. */
  datatype Member = Member(body: Value, ppt: Option<Deck>)

  /** `persona.add_ppt(ppt)`: attaches the deck (or None) and touches nothing else. */
  function AttachDeck(m: Member, ppt: Option<Deck>): (r: Member)
    ensures r.ppt == ppt && r.body == m.body
  {
    m.(ppt := ppt)
  }
}

=== FILE: constants.dfy ===
/** The prompt templates and settings of the back end. */
module Constants {

  import opened Wrappers
  import opened PyValues
  import opened Template
  import opened PromptText

  /** Default number of retries. */
  const MaxRetryDefault: nat := 3

  const TinyTroupeInfoBlock1: string :=
    Concat([InfoPart1, InfoPart2, InfoPart3, InfoPart4, InfoPart5, InfoPart6, InfoPart7, InfoPart8, InfoPart9, InfoPart10])

  const TinyTroupeInfoBlock2: string :=
    Concat([InfoPart11, InfoPart12, InfoPart13, InfoPart14, InfoPart15, InfoPart16, InfoPart17, InfoPart18, InfoPart19, InfoPart20])

  const TinyTroupeInfoBlock3: string :=
    Concat([InfoPart21, InfoPart22, InfoPart23, InfoPart24, InfoPart25, InfoPart26, InfoPart27, InfoPart28, InfoPart29, InfoPart30])

  const TinyTroupeInfoBlock4: string :=
    Concat([InfoPart31, InfoPart32, InfoPart33, InfoPart34, InfoPart35, InfoPart36, InfoPart37, InfoPart38, InfoPart39, InfoPart40])

  const TinyTroupeInfoBlock5: string :=
    Concat([InfoPart41, InfoPart42, InfoPart43, InfoPart44, InfoPart45, InfoPart46, InfoPart47, InfoPart48, InfoPart49, InfoPart50])

  const TinyTroupeInfoBlock6: string :=
    Concat([InfoPart51, InfoPart52, InfoPart53, InfoPart54, InfoPart55, InfoPart56, InfoPart57, InfoPart58])

  /** Background on TinyTroupe, the system prompt of every phase assistant. */
  const TinyTroupeInfo: string :=
    Concat([TinyTroupeInfoBlock1, TinyTroupeInfoBlock2, TinyTroupeInfoBlock3, TinyTroupeInfoBlock4, TinyTroupeInfoBlock5, TinyTroupeInfoBlock6])

  const PersonaSeg1: string :=
    Concat([PersonaSeg1Part1, PersonaSeg1Part2])

  const PersonaSeg3Block1: string :=
    Concat([PersonaSeg3Part1, PersonaSeg3Part2, PersonaSeg3Part3, PersonaSeg3Part4, PersonaSeg3Part5, PersonaSeg3Part6, PersonaSeg3Part7, PersonaSeg3Part8, PersonaSeg3Part9, PersonaSeg3Part10])

  const PersonaSeg3Block2: string :=
    Concat([PersonaSeg3Part11])

  const PersonaSeg3: string :=
    Concat([PersonaSeg3Block1, PersonaSeg3Block2])

  const PersonaSeg4Block1: string :=
    Concat([PersonaSeg4Part1, PersonaSeg4Part2, PersonaSeg4Part3, PersonaSeg4Part4, PersonaSeg4Part5, PersonaSeg4Part6, PersonaSeg4Part7, PersonaSeg4Part8, PersonaSeg4Part9, PersonaSeg4Part10])

  const PersonaSeg4Block2: string :=
    Concat([PersonaSeg4Part11, PersonaSeg4Part12, PersonaSeg4Part13, PersonaSeg4Part14, PersonaSeg4Part15, PersonaSeg4Part16, PersonaSeg4Part17, PersonaSeg4Part18, PersonaSeg4Part19, PersonaSeg4Part20])

  const PersonaSeg4Block3: string :=
    Concat([PersonaSeg4Part21, PersonaSeg4Part22, PersonaSeg4Part23, PersonaSeg4Part24, PersonaSeg4Part25, PersonaSeg4Part26, PersonaSeg4Part27, PersonaSeg4Part28, PersonaSeg4Part29, PersonaSeg4Part30])

  const PersonaSeg4Block4: string :=
    Concat([PersonaSeg4Part31])

  const PersonaSeg4: string :=
    Concat([PersonaSeg4Block1, PersonaSeg4Block2, PersonaSeg4Block3, PersonaSeg4Block4])

  /** Template from which GPT drafts a persona prompt. */
  const PersonaGptPrompt: string :=
    Interleave([PersonaSeg1, PersonaSeg2, PersonaSeg3, PersonaSeg4],
               ["persona_name", "persona_description", "persona_population_size"])

  const AnalysisGptPromptBlock1: string :=
    Concat([AnalysisPart1, AnalysisPart2, AnalysisPart3, AnalysisPart4, AnalysisPart5, AnalysisPart6, AnalysisPart7, AnalysisPart8, AnalysisPart9, AnalysisPart10])

  const AnalysisGptPromptBlock2: string :=
    Concat([AnalysisPart11, AnalysisPart12, AnalysisPart13, AnalysisPart14, AnalysisPart15, AnalysisPart16, AnalysisPart17, AnalysisPart18, AnalysisPart19, AnalysisPart20])

  const AnalysisGptPromptBlock3: string :=
    Concat([AnalysisPart21, AnalysisPart22, AnalysisPart23, AnalysisPart24, AnalysisPart25, AnalysisPart26, AnalysisPart27, AnalysisPart28, AnalysisPart29, AnalysisPart30])

  const AnalysisGptPromptBlock4: string :=
    Concat([AnalysisPart31, AnalysisPart32, AnalysisPart33, AnalysisPart34, AnalysisPart35, AnalysisPart36, AnalysisPart37, AnalysisPart38, AnalysisPart39, AnalysisPart40])

  const AnalysisGptPromptBlock5: string :=
    Concat([AnalysisPart41, AnalysisPart42, AnalysisPart43, AnalysisPart44, AnalysisPart45, AnalysisPart46, AnalysisPart47, AnalysisPart48, AnalysisPart49, AnalysisPart50])

  const AnalysisGptPromptBlock6: string :=
    Concat([AnalysisPart51, AnalysisPart52, AnalysisPart53, AnalysisPart54, AnalysisPart55, AnalysisPart56, AnalysisPart57, AnalysisPart58, AnalysisPart59, AnalysisPart60])

  const AnalysisGptPromptBlock7: string :=
    Concat([AnalysisPart61, AnalysisPart62, AnalysisPart63, AnalysisPart64, AnalysisPart65, AnalysisPart66, AnalysisPart67, AnalysisPart68])

  /** Template from which GPT drafts the analysis prompt. */
  const AnalysisGptPrompt: string :=
    Concat([AnalysisGptPromptBlock1, AnalysisGptPromptBlock2, AnalysisGptPromptBlock3, AnalysisGptPromptBlock4, AnalysisGptPromptBlock5, AnalysisGptPromptBlock6, AnalysisGptPromptBlock7])

  const QnaGptPromptBlock1: string :=
    Concat([QnaPart1, QnaPart2, QnaPart3, QnaPart4, QnaPart5, QnaPart6, QnaPart7, QnaPart8, QnaPart9, QnaPart10])

  const QnaGptPromptBlock2: string :=
    Concat([QnaPart11, QnaPart12, QnaPart13, QnaPart14, QnaPart15, QnaPart16, QnaPart17, QnaPart18, QnaPart19, QnaPart20])

  const QnaGptPromptBlock3: string :=
    Concat([QnaPart21, QnaPart22, QnaPart23, QnaPart24, QnaPart25, QnaPart26, QnaPart27, QnaPart28, QnaPart29, QnaPart30])

  const QnaGptPromptBlock4: string :=
    Concat([QnaPart31, QnaPart32, QnaPart33, QnaPart34, QnaPart35, QnaPart36, QnaPart37, QnaPart38, QnaPart39, QnaPart40])

  const QnaGptPromptBlock5: string :=
    Concat([QnaPart41, QnaPart42, QnaPart43, QnaPart44, QnaPart45, QnaPart46, QnaPart47, QnaPart48, QnaPart49, QnaPart50])

  const QnaGptPromptBlock6: string :=
    Concat([QnaPart51, QnaPart52, QnaPart53, QnaPart54, QnaPart55, QnaPart56])

  /** Template from which GPT drafts the question-and-answer prompt. */
  const QnaGptPrompt: string :=
    Concat([QnaGptPromptBlock1, QnaGptPromptBlock2, QnaGptPromptBlock3, QnaGptPromptBlock4, QnaGptPromptBlock5, QnaGptPromptBlock6])

  const AnalysisSummSeg1: string :=
    Concat([AnalysisSummSeg1Part1, AnalysisSummSeg1Part2])

  const AnalysisSummSeg3: string :=
    Concat([AnalysisSummSeg3Part1, AnalysisSummSeg3Part2, AnalysisSummSeg3Part3])

  const AnalysisSummSeg4: string :=
    Concat([AnalysisSummSeg4Part1, AnalysisSummSeg4Part2, AnalysisSummSeg4Part3])

  const AnalysisSummSeg5: string :=
    Concat([AnalysisSummSeg5Part1, AnalysisSummSeg5Part2])

  const AnalysisSummSeg6Block1: string :=
    Concat([AnalysisSummSeg6Part1, AnalysisSummSeg6Part2, AnalysisSummSeg6Part3, AnalysisSummSeg6Part4, AnalysisSummSeg6Part5, AnalysisSummSeg6Part6, AnalysisSummSeg6Part7, AnalysisSummSeg6Part8, AnalysisSummSeg6Part9, AnalysisSummSeg6Part10])

  const AnalysisSummSeg6Block2: string :=
    Concat([AnalysisSummSeg6Part11, AnalysisSummSeg6Part12, AnalysisSummSeg6Part13, AnalysisSummSeg6Part14, AnalysisSummSeg6Part15, AnalysisSummSeg6Part16, AnalysisSummSeg6Part17, AnalysisSummSeg6Part18, AnalysisSummSeg6Part19, AnalysisSummSeg6Part20])

  const AnalysisSummSeg6Block3: string :=
    Concat([AnalysisSummSeg6Part21, AnalysisSummSeg6Part22, AnalysisSummSeg6Part23, AnalysisSummSeg6Part24, AnalysisSummSeg6Part25, AnalysisSummSeg6Part26, AnalysisSummSeg6Part27, AnalysisSummSeg6Part28, AnalysisSummSeg6Part29, AnalysisSummSeg6Part30])

  const AnalysisSummSeg6Block4: string :=
    Concat([AnalysisSummSeg6Part31, AnalysisSummSeg6Part32, AnalysisSummSeg6Part33, AnalysisSummSeg6Part34, AnalysisSummSeg6Part35, AnalysisSummSeg6Part36])

  const AnalysisSummSeg6: string :=
    Concat([AnalysisSummSeg6Block1, AnalysisSummSeg6Block2, AnalysisSummSeg6Block3, AnalysisSummSeg6Block4])

  /** Summarisation template of the analysis phase. */
  const AnalysisSummarizationPrompt: string :=
    Interleave([AnalysisSummSeg1, AnalysisSummSeg2, AnalysisSummSeg3, AnalysisSummSeg4, AnalysisSummSeg5, AnalysisSummSeg6],
               ["persona_name", "persona_description", "ppt_details", "analysis_prompt", "analysis_result"])

  const QnaSummSeg1: string :=
    Concat([QnaSummSeg1Part1, QnaSummSeg1Part2])

  const QnaSummSeg3: string :=
    Concat([QnaSummSeg3Part1, QnaSummSeg3Part2, QnaSummSeg3Part3, QnaSummSeg3Part4])

  const QnaSummSeg4: string :=
    Concat([QnaSummSeg4Part1, QnaSummSeg4Part2, QnaSummSeg4Part3])

  const QnaSummSeg5: string :=
    Concat([QnaSummSeg5Part1, QnaSummSeg5Part2])

  const QnaSummSeg6Block1: string :=
    Concat([QnaSummSeg6Part1, QnaSummSeg6Part2, QnaSummSeg6Part3, QnaSummSeg6Part4, QnaSummSeg6Part5, QnaSummSeg6Part6, QnaSummSeg6Part7, QnaSummSeg6Part8, QnaSummSeg6Part9, QnaSummSeg6Part10])

  const QnaSummSeg6Block2: string :=
    Concat([QnaSummSeg6Part11, QnaSummSeg6Part12, QnaSummSeg6Part13, QnaSummSeg6Part14, QnaSummSeg6Part15, QnaSummSeg6Part16, QnaSummSeg6Part17, QnaSummSeg6Part18, QnaSummSeg6Part19, QnaSummSeg6Part20])

  const QnaSummSeg6Block3: string :=
    Concat([QnaSummSeg6Part21, QnaSummSeg6Part22, QnaSummSeg6Part23, QnaSummSeg6Part24, QnaSummSeg6Part25])

  const QnaSummSeg6: string :=
    Concat([QnaSummSeg6Block1, QnaSummSeg6Block2, QnaSummSeg6Block3])

  /** Summarisation template of the question-and-answer phase. */
  const QnaSummarizationPrompt: string :=
    Interleave([QnaSummSeg1, QnaSummSeg2, QnaSummSeg3, QnaSummSeg4, QnaSummSeg5, QnaSummSeg6],
               ["persona_name", "persona_description", "ppt_details", "qna_prompt", "qna_result"])

  /** Every key the templates name. */
  const FieldNames: set<string> := {"persona_name", "persona_description", "persona_population_size", "ppt_details", "analysis_prompt", "analysis_result", "qna_prompt", "qna_result"}

  /** Every key the templates name is a plain identifier: no digit first, no brace,
      colon, bang, dot or bracket, so `{key}` is a simple field looking it up. */
  lemma FieldNamesAreGood()
    ensures forall n | n in FieldNames :: GoodName(n)
  {
  }

  lemma TinyTroupeInfoBlock1IsPlain()
    ensures Plain(TinyTroupeInfoBlock1)
  {
    PlainOfNoBraces(InfoPart1);
    PlainOfNoBraces(InfoPart2);
    PlainOfNoBraces(InfoPart3);
    PlainOfNoBraces(InfoPart4);
    PlainOfNoBraces(InfoPart5);
    PlainOfNoBraces(InfoPart6);
    PlainOfNoBraces(InfoPart7);
    PlainOfNoBraces(InfoPart8);
    PlainOfNoBraces(InfoPart9);
    PlainOfNoBraces(InfoPart10);
    PlainConcatAll([InfoPart1, InfoPart2, InfoPart3, InfoPart4, InfoPart5, InfoPart6, InfoPart7, InfoPart8, InfoPart9, InfoPart10]);
  }

  lemma TinyTroupeInfoBlock2IsPlain()
    ensures Plain(TinyTroupeInfoBlock2)
  {
    PlainOfNoBraces(InfoPart11);
    PlainOfNoBraces(InfoPart12);
    PlainOfNoBraces(InfoPart13);
    PlainOfNoBraces(InfoPart14);
    PlainOfNoBraces(InfoPart15);
    PlainOfNoBraces(InfoPart16);
    PlainOfNoBraces(InfoPart17);
    PlainOfNoBraces(InfoPart18);
    PlainOfNoBraces(InfoPart19);
    PlainOfNoBraces(InfoPart20);
    PlainConcatAll([InfoPart11, InfoPart12, InfoPart13, InfoPart14, InfoPart15, InfoPart16, InfoPart17, InfoPart18, InfoPart19, InfoPart20]);
  }

  lemma TinyTroupeInfoBlock3IsPlain()
    ensures Plain(TinyTroupeInfoBlock3)
  {
    PlainOfNoBraces(InfoPart21);
    PlainOfNoBraces(InfoPart22);
    PlainOfNoBraces(InfoPart23);
    PlainOfNoBraces(InfoPart24);
    PlainOfNoBraces(InfoPart25);
    PlainOfNoBraces(InfoPart26);
    PlainOfNoBraces(InfoPart27);
    PlainOfNoBraces(InfoPart28);
    PlainOfNoBraces(InfoPart29);
    PlainOfNoBraces(InfoPart30);
    PlainConcatAll([InfoPart21, InfoPart22, InfoPart23, InfoPart24, InfoPart25, InfoPart26, InfoPart27, InfoPart28, InfoPart29, InfoPart30]);
  }

  lemma TinyTroupeInfoBlock4IsPlain()
    ensures Plain(TinyTroupeInfoBlock4)
  {
    PlainOfNoBraces(InfoPart31);
    PlainOfNoBraces(InfoPart32);
    PlainOfNoBraces(InfoPart33);
    PlainOfNoBraces(InfoPart34);
    PlainOfNoBraces(InfoPart35);
    PlainOfNoBraces(InfoPart36);
    PlainOfNoBraces(InfoPart37);
    PlainOfNoBraces(InfoPart38);
    PlainOfNoBraces(InfoPart39);
    PlainOfNoBraces(InfoPart40);
    PlainConcatAll([InfoPart31, InfoPart32, InfoPart33, InfoPart34, InfoPart35, InfoPart36, InfoPart37, InfoPart38, InfoPart39, InfoPart40]);
  }

  lemma TinyTroupeInfoBlock5IsPlain()
    ensures Plain(TinyTroupeInfoBlock5)
  {
    PlainOfNoBraces(InfoPart41);
    PlainOfNoBraces(InfoPart42);
    PlainOfNoBraces(InfoPart43);
    PlainOfNoBraces(InfoPart44);
    PlainOfNoBraces(InfoPart45);
    PlainOfNoBraces(InfoPart46);
    PlainOfNoBraces(InfoPart47);
    PlainOfNoBraces(InfoPart48);
    PlainOfNoBraces(InfoPart49);
    PlainOfNoBraces(InfoPart50);
    PlainConcatAll([InfoPart41, InfoPart42, InfoPart43, InfoPart44, InfoPart45, InfoPart46, InfoPart47, InfoPart48, InfoPart49, InfoPart50]);
  }

  lemma TinyTroupeInfoBlock6IsPlain()
    ensures Plain(TinyTroupeInfoBlock6)
  {
    PlainOfNoBraces(InfoPart51);
    PlainOfNoBraces(InfoPart52);
    PlainOfNoBraces(InfoPart53);
    PlainOfNoBraces(InfoPart54);
    PlainOfNoBraces(InfoPart55);
    PlainOfNoBraces(InfoPart56);
    PlainOfNoBraces(InfoPart57);
    PlainOfNoBraces(InfoPart58);
    PlainConcatAll([InfoPart51, InfoPart52, InfoPart53, InfoPart54, InfoPart55, InfoPart56, InfoPart57, InfoPart58]);
  }

  lemma TinyTroupeInfoIsPlain()
    ensures Plain(TinyTroupeInfo)
  {
    TinyTroupeInfoBlock1IsPlain();
    TinyTroupeInfoBlock2IsPlain();
    TinyTroupeInfoBlock3IsPlain();
    TinyTroupeInfoBlock4IsPlain();
    TinyTroupeInfoBlock5IsPlain();
    TinyTroupeInfoBlock6IsPlain();
    PlainConcatAll([TinyTroupeInfoBlock1, TinyTroupeInfoBlock2, TinyTroupeInfoBlock3, TinyTroupeInfoBlock4, TinyTroupeInfoBlock5, TinyTroupeInfoBlock6]);
  }

  lemma PersonaSeg1IsPlain()
    ensures Plain(PersonaSeg1)
  {
    PlainOfNoBraces(PersonaSeg1Part1);
    PlainOfNoBraces(PersonaSeg1Part2);
    PlainConcatAll([PersonaSeg1Part1, PersonaSeg1Part2]);
  }

  lemma PersonaSeg2IsPlain()
    ensures Plain(PersonaSeg2)
  {
    PlainOfNoBraces(PersonaSeg2);
  }

  lemma PersonaSeg3Block1IsPlain()
    ensures Plain(PersonaSeg3Block1)
  {
    PlainOfNoBraces(PersonaSeg3Part1);
    PlainOfNoBraces(PersonaSeg3Part2);
    PlainOfNoBraces(PersonaSeg3Part3);
    PlainOfNoBraces(PersonaSeg3Part4);
    PlainOfNoBraces(PersonaSeg3Part5);
    PlainOfNoBraces(PersonaSeg3Part6);
    PlainOfNoBraces(PersonaSeg3Part7);
    PlainOfNoBraces(PersonaSeg3Part8);
    PlainOfNoBraces(PersonaSeg3Part9);
    PlainOfNoBraces(PersonaSeg3Part10);
    PlainConcatAll([PersonaSeg3Part1, PersonaSeg3Part2, PersonaSeg3Part3, PersonaSeg3Part4, PersonaSeg3Part5, PersonaSeg3Part6, PersonaSeg3Part7, PersonaSeg3Part8, PersonaSeg3Part9, PersonaSeg3Part10]);
  }

  lemma PersonaSeg3Block2IsPlain()
    ensures Plain(PersonaSeg3Block2)
  {
    PlainOfNoBraces(PersonaSeg3Part11);
    PlainConcatAll([PersonaSeg3Part11]);
  }

  lemma PersonaSeg3IsPlain()
    ensures Plain(PersonaSeg3)
  {
    PersonaSeg3Block1IsPlain();
    PersonaSeg3Block2IsPlain();
    PlainConcatAll([PersonaSeg3Block1, PersonaSeg3Block2]);
  }

  lemma PersonaSeg4Block1IsPlain()
    ensures Plain(PersonaSeg4Block1)
  {
    PlainOfNoBraces(PersonaSeg4Part1);
    PlainOfNoBraces(PersonaSeg4Part2);
    PlainOfNoBraces(PersonaSeg4Part3);
    PlainOfNoBraces(PersonaSeg4Part4);
    PlainOfNoBraces(PersonaSeg4Part5);
    PlainOfNoBraces(PersonaSeg4Part6);
    PlainOfNoBraces(PersonaSeg4Part7);
    PlainOfNoBraces(PersonaSeg4Part8);
    PlainOfNoBraces(PersonaSeg4Part9);
    PlainOfNoBraces(PersonaSeg4Part10);
    PlainConcatAll([PersonaSeg4Part1, PersonaSeg4Part2, PersonaSeg4Part3, PersonaSeg4Part4, PersonaSeg4Part5, PersonaSeg4Part6, PersonaSeg4Part7, PersonaSeg4Part8, PersonaSeg4Part9, PersonaSeg4Part10]);
  }

  lemma PersonaSeg4Block2IsPlain()
    ensures Plain(PersonaSeg4Block2)
  {
    PlainOfNoBraces(PersonaSeg4Part11);
    PlainOfNoBraces(PersonaSeg4Part12);
    PlainOfNoBraces(PersonaSeg4Part13);
    PlainOfNoBraces(PersonaSeg4Part14);
    PlainOfNoBraces(PersonaSeg4Part15);
    PlainOfNoBraces(PersonaSeg4Part16);
    PlainOfNoBraces(PersonaSeg4Part17);
    PlainOfNoBraces(PersonaSeg4Part18);
    PlainOfNoBraces(PersonaSeg4Part19);
    PlainOfNoBraces(PersonaSeg4Part20);
    PlainConcatAll([PersonaSeg4Part11, PersonaSeg4Part12, PersonaSeg4Part13, PersonaSeg4Part14, PersonaSeg4Part15, PersonaSeg4Part16, PersonaSeg4Part17, PersonaSeg4Part18, PersonaSeg4Part19, PersonaSeg4Part20]);
  }

  lemma PersonaSeg4Block3IsPlain()
    ensures Plain(PersonaSeg4Block3)
  {
    PlainOfNoBraces(PersonaSeg4Part21);
    PlainOfNoBraces(PersonaSeg4Part22);
    PlainOfNoBraces(PersonaSeg4Part23);
    PlainOfNoBraces(PersonaSeg4Part24);
    PlainOfNoBraces(PersonaSeg4Part25);
    PlainOfNoBraces(PersonaSeg4Part26);
    PlainOfNoBraces(PersonaSeg4Part27);
    PlainOfNoBraces(PersonaSeg4Part28);
    PlainOfNoBraces(PersonaSeg4Part29);
    PlainOfNoBraces(PersonaSeg4Part30);
    PlainConcatAll([PersonaSeg4Part21, PersonaSeg4Part22, PersonaSeg4Part23, PersonaSeg4Part24, PersonaSeg4Part25, PersonaSeg4Part26, PersonaSeg4Part27, PersonaSeg4Part28, PersonaSeg4Part29, PersonaSeg4Part30]);
  }

  lemma PersonaSeg4Block4IsPlain()
    ensures Plain(PersonaSeg4Block4)
  {
    PlainOfNoBraces(PersonaSeg4Part31);
    PlainConcatAll([PersonaSeg4Part31]);
  }

  lemma PersonaSeg4IsPlain()
    ensures Plain(PersonaSeg4)
  {
    PersonaSeg4Block1IsPlain();
    PersonaSeg4Block2IsPlain();
    PersonaSeg4Block3IsPlain();
    PersonaSeg4Block4IsPlain();
    PlainConcatAll([PersonaSeg4Block1, PersonaSeg4Block2, PersonaSeg4Block3, PersonaSeg4Block4]);
  }

  lemma PersonaGptPromptPlaceholders()
    ensures HasPlaceholders(PersonaGptPrompt, {"persona_name", "persona_description", "persona_population_size"})
  {
    PersonaSeg1IsPlain();
    PersonaSeg2IsPlain();
    PersonaSeg3IsPlain();
    PersonaSeg4IsPlain();
    FieldNamesAreGood();
    InterleavePlaceholders([PersonaSeg1, PersonaSeg2, PersonaSeg3, PersonaSeg4], ["persona_name", "persona_description", "persona_population_size"]);
    NamesOfIsNameSet(["persona_name", "persona_description", "persona_population_size"]);
  }

  lemma AnalysisGptPromptBlock1IsPlain()
    ensures Plain(AnalysisGptPromptBlock1)
  {
    PlainOfNoBraces(AnalysisPart1);
    PlainOfNoBraces(AnalysisPart2);
    PlainOfNoBraces(AnalysisPart3);
    PlainOfNoBraces(AnalysisPart4);
    PlainOfNoBraces(AnalysisPart5);
    PlainOfNoBraces(AnalysisPart6);
    PlainOfNoBraces(AnalysisPart7);
    PlainOfNoBraces(AnalysisPart8);
    PlainOfNoBraces(AnalysisPart9);
    PlainOfNoBraces(AnalysisPart10);
    PlainConcatAll([AnalysisPart1, AnalysisPart2, AnalysisPart3, AnalysisPart4, AnalysisPart5, AnalysisPart6, AnalysisPart7, AnalysisPart8, AnalysisPart9, AnalysisPart10]);
  }

  lemma AnalysisGptPromptBlock2IsPlain()
    ensures Plain(AnalysisGptPromptBlock2)
  {
    PlainOfNoBraces(AnalysisPart11);
    PlainOfNoBraces(AnalysisPart12);
    PlainOfNoBraces(AnalysisPart13);
    PlainOfNoBraces(AnalysisPart14);
    PlainOfNoBraces(AnalysisPart15);
    PlainOfNoBraces(AnalysisPart16);
    PlainOfNoBraces(AnalysisPart17);
    PlainOfNoBraces(AnalysisPart18);
    PlainOfNoBraces(AnalysisPart19);
    PlainOfNoBraces(AnalysisPart20);
    PlainConcatAll([AnalysisPart11, AnalysisPart12, AnalysisPart13, AnalysisPart14, AnalysisPart15, AnalysisPart16, AnalysisPart17, AnalysisPart18, AnalysisPart19, AnalysisPart20]);
  }

  lemma AnalysisGptPromptBlock3IsPlain()
    ensures Plain(AnalysisGptPromptBlock3)
  {
    PlainOfNoBraces(AnalysisPart21);
    PlainOfNoBraces(AnalysisPart22);
    PlainOfNoBraces(AnalysisPart23);
    PlainOfNoBraces(AnalysisPart24);
    PlainOfNoBraces(AnalysisPart25);
    PlainOfNoBraces(AnalysisPart26);
    PlainOfNoBraces(AnalysisPart27);
    PlainOfNoBraces(AnalysisPart28);
    PlainOfNoBraces(AnalysisPart29);
    PlainOfNoBraces(AnalysisPart30);
    PlainConcatAll([AnalysisPart21, AnalysisPart22, AnalysisPart23, AnalysisPart24, AnalysisPart25, AnalysisPart26, AnalysisPart27, AnalysisPart28, AnalysisPart29, AnalysisPart30]);
  }

  lemma AnalysisGptPromptBlock4IsPlain()
    ensures Plain(AnalysisGptPromptBlock4)
  {
    PlainOfNoBraces(AnalysisPart31);
    PlainOfNoBraces(AnalysisPart32);
    PlainOfNoBraces(AnalysisPart33);
    PlainOfNoBraces(AnalysisPart34);
    PlainOfNoBraces(AnalysisPart35);
    PlainOfNoBraces(AnalysisPart36);
    PlainOfNoBraces(AnalysisPart37);
    PlainOfNoBraces(AnalysisPart38);
    PlainOfNoBraces(AnalysisPart39);
    PlainOfNoBraces(AnalysisPart40);
    PlainConcatAll([AnalysisPart31, AnalysisPart32, AnalysisPart33, AnalysisPart34, AnalysisPart35, AnalysisPart36, AnalysisPart37, AnalysisPart38, AnalysisPart39, AnalysisPart40]);
  }

  lemma AnalysisGptPromptBlock5IsPlain()
    ensures Plain(AnalysisGptPromptBlock5)
  {
    PlainOfNoBraces(AnalysisPart41);
    PlainOfNoBraces(AnalysisPart42);
    PlainOfNoBraces(AnalysisPart43);
    PlainOfNoBraces(AnalysisPart44);
    PlainOfNoBraces(AnalysisPart45);
    PlainOfNoBraces(AnalysisPart46);
    PlainOfNoBraces(AnalysisPart47);
    PlainOfNoBraces(AnalysisPart48);
    PlainOfNoBraces(AnalysisPart49);
    PlainOfNoBraces(AnalysisPart50);
    PlainConcatAll([AnalysisPart41, AnalysisPart42, AnalysisPart43, AnalysisPart44, AnalysisPart45, AnalysisPart46, AnalysisPart47, AnalysisPart48, AnalysisPart49, AnalysisPart50]);
  }

  lemma AnalysisGptPromptBlock6IsPlain()
    ensures Plain(AnalysisGptPromptBlock6)
  {
    PlainOfNoBraces(AnalysisPart51);
    PlainOfNoBraces(AnalysisPart52);
    PlainOfNoBraces(AnalysisPart53);
    PlainOfNoBraces(AnalysisPart54);
    PlainOfNoBraces(AnalysisPart55);
    PlainOfNoBraces(AnalysisPart56);
    PlainOfNoBraces(AnalysisPart57);
    PlainOfNoBraces(AnalysisPart58);
    PlainOfNoBraces(AnalysisPart59);
    PlainOfNoBraces(AnalysisPart60);
    PlainConcatAll([AnalysisPart51, AnalysisPart52, AnalysisPart53, AnalysisPart54, AnalysisPart55, AnalysisPart56, AnalysisPart57, AnalysisPart58, AnalysisPart59, AnalysisPart60]);
  }

  lemma AnalysisGptPromptBlock7IsPlain()
    ensures Plain(AnalysisGptPromptBlock7)
  {
    PlainOfNoBraces(AnalysisPart61);
    PlainOfNoBraces(AnalysisPart62);
    PlainOfNoBraces(AnalysisPart63);
    PlainOfNoBraces(AnalysisPart64);
    PlainOfNoBraces(AnalysisPart65);
    PlainOfNoBraces(AnalysisPart66);
    PlainOfNoBraces(AnalysisPart67);
    PlainOfNoBraces(AnalysisPart68);
    PlainConcatAll([AnalysisPart61, AnalysisPart62, AnalysisPart63, AnalysisPart64, AnalysisPart65, AnalysisPart66, AnalysisPart67, AnalysisPart68]);
  }

  lemma AnalysisGptPromptIsPlain()
    ensures Plain(AnalysisGptPrompt)
  {
    AnalysisGptPromptBlock1IsPlain();
    AnalysisGptPromptBlock2IsPlain();
    AnalysisGptPromptBlock3IsPlain();
    AnalysisGptPromptBlock4IsPlain();
    AnalysisGptPromptBlock5IsPlain();
    AnalysisGptPromptBlock6IsPlain();
    AnalysisGptPromptBlock7IsPlain();
    PlainConcatAll([AnalysisGptPromptBlock1, AnalysisGptPromptBlock2, AnalysisGptPromptBlock3, AnalysisGptPromptBlock4, AnalysisGptPromptBlock5, AnalysisGptPromptBlock6, AnalysisGptPromptBlock7]);
  }

  lemma QnaGptPromptBlock1IsPlain()
    ensures Plain(QnaGptPromptBlock1)
  {
    PlainOfNoBraces(QnaPart1);
    PlainOfNoBraces(QnaPart2);
    PlainOfNoBraces(QnaPart3);
    PlainOfNoBraces(QnaPart4);
    PlainOfNoBraces(QnaPart5);
    PlainOfNoBraces(QnaPart6);
    PlainOfNoBraces(QnaPart7);
    PlainOfNoBraces(QnaPart8);
    PlainOfNoBraces(QnaPart9);
    PlainOfNoBraces(QnaPart10);
    PlainConcatAll([QnaPart1, QnaPart2, QnaPart3, QnaPart4, QnaPart5, QnaPart6, QnaPart7, QnaPart8, QnaPart9, QnaPart10]);
  }

  lemma QnaGptPromptBlock2IsPlain()
    ensures Plain(QnaGptPromptBlock2)
  {
    PlainOfNoBraces(QnaPart11);
    PlainOfNoBraces(QnaPart12);
    PlainOfNoBraces(QnaPart13);
    PlainOfNoBraces(QnaPart14);
    PlainOfNoBraces(QnaPart15);
    PlainOfNoBraces(QnaPart16);
    PlainOfNoBraces(QnaPart17);
    PlainOfNoBraces(QnaPart18);
    PlainOfNoBraces(QnaPart19);
    PlainOfNoBraces(QnaPart20);
    PlainConcatAll([QnaPart11, QnaPart12, QnaPart13, QnaPart14, QnaPart15, QnaPart16, QnaPart17, QnaPart18, QnaPart19, QnaPart20]);
  }

  lemma QnaGptPromptBlock3IsPlain()
    ensures Plain(QnaGptPromptBlock3)
  {
    PlainOfNoBraces(QnaPart21);
    PlainOfNoBraces(QnaPart22);
    PlainOfNoBraces(QnaPart23);
    PlainOfNoBraces(QnaPart24);
    PlainOfNoBraces(QnaPart25);
    PlainOfNoBraces(QnaPart26);
    PlainOfNoBraces(QnaPart27);
    PlainOfNoBraces(QnaPart28);
    PlainOfNoBraces(QnaPart29);
    PlainOfNoBraces(QnaPart30);
    PlainConcatAll([QnaPart21, QnaPart22, QnaPart23, QnaPart24, QnaPart25, QnaPart26, QnaPart27, QnaPart28, QnaPart29, QnaPart30]);
  }

  lemma QnaGptPromptBlock4IsPlain()
    ensures Plain(QnaGptPromptBlock4)
  {
    PlainOfNoBraces(QnaPart31);
    PlainOfNoBraces(QnaPart32);
    PlainOfNoBraces(QnaPart33);
    PlainOfNoBraces(QnaPart34);
    PlainOfNoBraces(QnaPart35);
    PlainOfNoBraces(QnaPart36);
    PlainOfNoBraces(QnaPart37);
    PlainOfNoBraces(QnaPart38);
    PlainOfNoBraces(QnaPart39);
    PlainOfNoBraces(QnaPart40);
    PlainConcatAll([QnaPart31, QnaPart32, QnaPart33, QnaPart34, QnaPart35, QnaPart36, QnaPart37, QnaPart38, QnaPart39, QnaPart40]);
  }

  lemma QnaGptPromptBlock5IsPlain()
    ensures Plain(QnaGptPromptBlock5)
  {
    PlainOfNoBraces(QnaPart41);
    PlainOfNoBraces(QnaPart42);
    PlainOfNoBraces(QnaPart43);
    PlainOfNoBraces(QnaPart44);
    PlainOfNoBraces(QnaPart45);
    PlainOfNoBraces(QnaPart46);
    PlainOfNoBraces(QnaPart47);
    PlainOfNoBraces(QnaPart48);
    PlainOfNoBraces(QnaPart49);
    PlainOfNoBraces(QnaPart50);
    PlainConcatAll([QnaPart41, QnaPart42, QnaPart43, QnaPart44, QnaPart45, QnaPart46, QnaPart47, QnaPart48, QnaPart49, QnaPart50]);
  }

  lemma QnaGptPromptBlock6IsPlain()
    ensures Plain(QnaGptPromptBlock6)
  {
    PlainOfNoBraces(QnaPart51);
    PlainOfNoBraces(QnaPart52);
    PlainOfNoBraces(QnaPart53);
    PlainOfNoBraces(QnaPart54);
    PlainOfNoBraces(QnaPart55);
    PlainOfNoBraces(QnaPart56);
    PlainConcatAll([QnaPart51, QnaPart52, QnaPart53, QnaPart54, QnaPart55, QnaPart56]);
  }

  lemma QnaGptPromptIsPlain()
    ensures Plain(QnaGptPrompt)
  {
    QnaGptPromptBlock1IsPlain();
    QnaGptPromptBlock2IsPlain();
    QnaGptPromptBlock3IsPlain();
    QnaGptPromptBlock4IsPlain();
    QnaGptPromptBlock5IsPlain();
    QnaGptPromptBlock6IsPlain();
    PlainConcatAll([QnaGptPromptBlock1, QnaGptPromptBlock2, QnaGptPromptBlock3, QnaGptPromptBlock4, QnaGptPromptBlock5, QnaGptPromptBlock6]);
  }

  lemma AnalysisSummSeg1IsPlain()
    ensures Plain(AnalysisSummSeg1)
  {
    PlainOfNoBraces(AnalysisSummSeg1Part1);
    PlainOfNoBraces(AnalysisSummSeg1Part2);
    PlainConcatAll([AnalysisSummSeg1Part1, AnalysisSummSeg1Part2]);
  }

  lemma AnalysisSummSeg2IsPlain()
    ensures Plain(AnalysisSummSeg2)
  {
    PlainOfNoBraces(AnalysisSummSeg2);
  }

  lemma AnalysisSummSeg3IsPlain()
    ensures Plain(AnalysisSummSeg3)
  {
    PlainOfNoBraces(AnalysisSummSeg3Part1);
    PlainOfNoBraces(AnalysisSummSeg3Part2);
    PlainOfNoBraces(AnalysisSummSeg3Part3);
    PlainConcatAll([AnalysisSummSeg3Part1, AnalysisSummSeg3Part2, AnalysisSummSeg3Part3]);
  }

  lemma AnalysisSummSeg4IsPlain()
    ensures Plain(AnalysisSummSeg4)
  {
    PlainOfNoBraces(AnalysisSummSeg4Part1);
    PlainOfNoBraces(AnalysisSummSeg4Part2);
    PlainOfNoBraces(AnalysisSummSeg4Part3);
    PlainConcatAll([AnalysisSummSeg4Part1, AnalysisSummSeg4Part2, AnalysisSummSeg4Part3]);
  }

  lemma AnalysisSummSeg5IsPlain()
    ensures Plain(AnalysisSummSeg5)
  {
    PlainOfNoBraces(AnalysisSummSeg5Part1);
    PlainOfNoBraces(AnalysisSummSeg5Part2);
    PlainConcatAll([AnalysisSummSeg5Part1, AnalysisSummSeg5Part2]);
  }

  lemma AnalysisSummSeg6Block1IsPlain()
    ensures Plain(AnalysisSummSeg6Block1)
  {
    PlainOfNoBraces(AnalysisSummSeg6Part1);
    PlainOfNoBraces(AnalysisSummSeg6Part2);
    PlainOfNoBraces(AnalysisSummSeg6Part3);
    PlainOfNoBraces(AnalysisSummSeg6Part4);
    PlainOfNoBraces(AnalysisSummSeg6Part5);
    PlainOfNoBraces(AnalysisSummSeg6Part6);
    PlainOfNoBraces(AnalysisSummSeg6Part7);
    PlainOfNoBraces(AnalysisSummSeg6Part8);
    PlainOfNoBraces(AnalysisSummSeg6Part9);
    PlainOfNoBraces(AnalysisSummSeg6Part10);
    PlainConcatAll([AnalysisSummSeg6Part1, AnalysisSummSeg6Part2, AnalysisSummSeg6Part3, AnalysisSummSeg6Part4, AnalysisSummSeg6Part5, AnalysisSummSeg6Part6, AnalysisSummSeg6Part7, AnalysisSummSeg6Part8, AnalysisSummSeg6Part9, AnalysisSummSeg6Part10]);
  }

  lemma AnalysisSummSeg6Block2IsPlain()
    ensures Plain(AnalysisSummSeg6Block2)
  {
    PlainOfNoBraces(AnalysisSummSeg6Part11);
    PlainOfNoBraces(AnalysisSummSeg6Part12);
    PlainOfNoBraces(AnalysisSummSeg6Part13);
    PlainOfNoBraces(AnalysisSummSeg6Part14);
    PlainOfNoBraces(AnalysisSummSeg6Part15);
    PlainOfNoBraces(AnalysisSummSeg6Part16);
    PlainOfNoBraces(AnalysisSummSeg6Part17);
    PlainOfNoBraces(AnalysisSummSeg6Part18);
    PlainOfNoBraces(AnalysisSummSeg6Part19);
    PlainOfNoBraces(AnalysisSummSeg6Part20);
    PlainConcatAll([AnalysisSummSeg6Part11, AnalysisSummSeg6Part12, AnalysisSummSeg6Part13, AnalysisSummSeg6Part14, AnalysisSummSeg6Part15, AnalysisSummSeg6Part16, AnalysisSummSeg6Part17, AnalysisSummSeg6Part18, AnalysisSummSeg6Part19, AnalysisSummSeg6Part20]);
  }

  lemma AnalysisSummSeg6Block3IsPlain()
    ensures Plain(AnalysisSummSeg6Block3)
  {
    PlainOfNoBraces(AnalysisSummSeg6Part21);
    PlainOfNoBraces(AnalysisSummSeg6Part22);
    PlainOfNoBraces(AnalysisSummSeg6Part23);
    PlainOfNoBraces(AnalysisSummSeg6Part24);
    PlainOfNoBraces(AnalysisSummSeg6Part25);
    PlainOfNoBraces(AnalysisSummSeg6Part26);
    PlainOfNoBraces(AnalysisSummSeg6Part27);
    PlainOfNoBraces(AnalysisSummSeg6Part28);
    PlainOfNoBraces(AnalysisSummSeg6Part29);
    PlainOfNoBraces(AnalysisSummSeg6Part30);
    PlainConcatAll([AnalysisSummSeg6Part21, AnalysisSummSeg6Part22, AnalysisSummSeg6Part23, AnalysisSummSeg6Part24, AnalysisSummSeg6Part25, AnalysisSummSeg6Part26, AnalysisSummSeg6Part27, AnalysisSummSeg6Part28, AnalysisSummSeg6Part29, AnalysisSummSeg6Part30]);
  }

  lemma AnalysisSummSeg6Block4IsPlain()
    ensures Plain(AnalysisSummSeg6Block4)
  {
    PlainOfNoBraces(AnalysisSummSeg6Part31);
    PlainOfNoBraces(AnalysisSummSeg6Part32);
    PlainOfNoBraces(AnalysisSummSeg6Part33);
    PlainOfNoBraces(AnalysisSummSeg6Part34);
    PlainOfNoBraces(AnalysisSummSeg6Part35);
    PlainOfNoBraces(AnalysisSummSeg6Part36);
    PlainConcatAll([AnalysisSummSeg6Part31, AnalysisSummSeg6Part32, AnalysisSummSeg6Part33, AnalysisSummSeg6Part34, AnalysisSummSeg6Part35, AnalysisSummSeg6Part36]);
  }

  lemma AnalysisSummSeg6IsPlain()
    ensures Plain(AnalysisSummSeg6)
  {
    AnalysisSummSeg6Block1IsPlain();
    AnalysisSummSeg6Block2IsPlain();
    AnalysisSummSeg6Block3IsPlain();
    AnalysisSummSeg6Block4IsPlain();
    PlainConcatAll([AnalysisSummSeg6Block1, AnalysisSummSeg6Block2, AnalysisSummSeg6Block3, AnalysisSummSeg6Block4]);
  }

  lemma AnalysisSummarizationPromptPlaceholders()
    ensures HasPlaceholders(AnalysisSummarizationPrompt, {"persona_name", "persona_description", "ppt_details", "analysis_prompt", "analysis_result"})
  {
    AnalysisSummSeg1IsPlain();
    AnalysisSummSeg2IsPlain();
    AnalysisSummSeg3IsPlain();
    AnalysisSummSeg4IsPlain();
    AnalysisSummSeg5IsPlain();
    AnalysisSummSeg6IsPlain();
    FieldNamesAreGood();
    InterleavePlaceholders([AnalysisSummSeg1, AnalysisSummSeg2, AnalysisSummSeg3, AnalysisSummSeg4, AnalysisSummSeg5, AnalysisSummSeg6], ["persona_name", "persona_description", "ppt_details", "analysis_prompt", "analysis_result"]);
    NamesOfIsNameSet(["persona_name", "persona_description", "ppt_details", "analysis_prompt", "analysis_result"]);
  }

  lemma QnaSummSeg1IsPlain()
    ensures Plain(QnaSummSeg1)
  {
    PlainOfNoBraces(QnaSummSeg1Part1);
    PlainOfNoBraces(QnaSummSeg1Part2);
    PlainConcatAll([QnaSummSeg1Part1, QnaSummSeg1Part2]);
  }

  lemma QnaSummSeg2IsPlain()
    ensures Plain(QnaSummSeg2)
  {
    PlainOfNoBraces(QnaSummSeg2);
  }

  lemma QnaSummSeg3IsPlain()
    ensures Plain(QnaSummSeg3)
  {
    PlainOfNoBraces(QnaSummSeg3Part1);
    PlainOfNoBraces(QnaSummSeg3Part2);
    PlainOfNoBraces(QnaSummSeg3Part3);
    PlainOfNoBraces(QnaSummSeg3Part4);
    PlainConcatAll([QnaSummSeg3Part1, QnaSummSeg3Part2, QnaSummSeg3Part3, QnaSummSeg3Part4]);
  }

  lemma QnaSummSeg4IsPlain()
    ensures Plain(QnaSummSeg4)
  {
    PlainOfNoBraces(QnaSummSeg4Part1);
    PlainOfNoBraces(QnaSummSeg4Part2);
    PlainOfNoBraces(QnaSummSeg4Part3);
    PlainConcatAll([QnaSummSeg4Part1, QnaSummSeg4Part2, QnaSummSeg4Part3]);
  }

  lemma QnaSummSeg5IsPlain()
    ensures Plain(QnaSummSeg5)
  {
    PlainOfNoBraces(QnaSummSeg5Part1);
    PlainOfNoBraces(QnaSummSeg5Part2);
    PlainConcatAll([QnaSummSeg5Part1, QnaSummSeg5Part2]);
  }

  lemma QnaSummSeg6Block1IsPlain()
    ensures Plain(QnaSummSeg6Block1)
  {
    PlainOfNoBraces(QnaSummSeg6Part1);
    PlainOfNoBraces(QnaSummSeg6Part2);
    PlainOfNoBraces(QnaSummSeg6Part3);
    PlainOfNoBraces(QnaSummSeg6Part4);
    PlainOfNoBraces(QnaSummSeg6Part5);
    PlainOfNoBraces(QnaSummSeg6Part6);
    PlainOfNoBraces(QnaSummSeg6Part7);
    PlainOfNoBraces(QnaSummSeg6Part8);
    PlainOfNoBraces(QnaSummSeg6Part9);
    PlainOfNoBraces(QnaSummSeg6Part10);
    PlainConcatAll([QnaSummSeg6Part1, QnaSummSeg6Part2, QnaSummSeg6Part3, QnaSummSeg6Part4, QnaSummSeg6Part5, QnaSummSeg6Part6, QnaSummSeg6Part7, QnaSummSeg6Part8, QnaSummSeg6Part9, QnaSummSeg6Part10]);
  }

  lemma QnaSummSeg6Block2IsPlain()
    ensures Plain(QnaSummSeg6Block2)
  {
    PlainOfNoBraces(QnaSummSeg6Part11);
    PlainOfNoBraces(QnaSummSeg6Part12);
    PlainOfNoBraces(QnaSummSeg6Part13);
    PlainOfNoBraces(QnaSummSeg6Part14);
    PlainOfNoBraces(QnaSummSeg6Part15);
    PlainOfNoBraces(QnaSummSeg6Part16);
    PlainOfNoBraces(QnaSummSeg6Part17);
    PlainOfNoBraces(QnaSummSeg6Part18);
    PlainOfNoBraces(QnaSummSeg6Part19);
    PlainOfNoBraces(QnaSummSeg6Part20);
    PlainConcatAll([QnaSummSeg6Part11, QnaSummSeg6Part12, QnaSummSeg6Part13, QnaSummSeg6Part14, QnaSummSeg6Part15, QnaSummSeg6Part16, QnaSummSeg6Part17, QnaSummSeg6Part18, QnaSummSeg6Part19, QnaSummSeg6Part20]);
  }

  lemma QnaSummSeg6Block3IsPlain()
    ensures Plain(QnaSummSeg6Block3)
  {
    PlainOfNoBraces(QnaSummSeg6Part21);
    PlainOfNoBraces(QnaSummSeg6Part22);
    PlainOfNoBraces(QnaSummSeg6Part23);
    PlainOfNoBraces(QnaSummSeg6Part24);
    PlainOfNoBraces(QnaSummSeg6Part25);
    PlainConcatAll([QnaSummSeg6Part21, QnaSummSeg6Part22, QnaSummSeg6Part23, QnaSummSeg6Part24, QnaSummSeg6Part25]);
  }

  lemma QnaSummSeg6IsPlain()
    ensures Plain(QnaSummSeg6)
  {
    QnaSummSeg6Block1IsPlain();
    QnaSummSeg6Block2IsPlain();
    QnaSummSeg6Block3IsPlain();
    PlainConcatAll([QnaSummSeg6Block1, QnaSummSeg6Block2, QnaSummSeg6Block3]);
  }

  lemma QnaSummarizationPromptPlaceholders()
    ensures HasPlaceholders(QnaSummarizationPrompt, {"persona_name", "persona_description", "ppt_details", "qna_prompt", "qna_result"})
  {
    QnaSummSeg1IsPlain();
    QnaSummSeg2IsPlain();
    QnaSummSeg3IsPlain();
    QnaSummSeg4IsPlain();
    QnaSummSeg5IsPlain();
    QnaSummSeg6IsPlain();
    FieldNamesAreGood();
    InterleavePlaceholders([QnaSummSeg1, QnaSummSeg2, QnaSummSeg3, QnaSummSeg4, QnaSummSeg5, QnaSummSeg6], ["persona_name", "persona_description", "ppt_details", "qna_prompt", "qna_result"]);
    NamesOfIsNameSet(["persona_name", "persona_description", "ppt_details", "qna_prompt", "qna_result"]);
  }

  /** TinyTroupeInfo is not empty, so it is truthy. */
  lemma TinyTroupeInfoNonEmpty()
    ensures |TinyTroupeInfo| > 0
  {
    ConcatHead([TinyTroupeInfoBlock1, TinyTroupeInfoBlock2, TinyTroupeInfoBlock3, TinyTroupeInfoBlock4, TinyTroupeInfoBlock5, TinyTroupeInfoBlock6]);
    ConcatHead([InfoPart1, InfoPart2, InfoPart3, InfoPart4, InfoPart5, InfoPart6, InfoPart7, InfoPart8, InfoPart9, InfoPart10]);
    assert |InfoPart1| > 0;
  }

  /** TinyTroupeInfo holds no brace, so `format_map` returns it unchanged whatever the namespace. */
  lemma TinyTroupeInfoFormatsToItself(ns: Dict, f: Formatter)
    ensures FormatMap(TinyTroupeInfo, ns, f) == Formatted(ns, Success(TinyTroupeInfo))
  {
    TinyTroupeInfoIsPlain();
    FormatPlain(TinyTroupeInfo, ns, f);
  }

  /** AnalysisGptPrompt is not empty, so it is truthy. */
  lemma AnalysisGptPromptNonEmpty()
    ensures |AnalysisGptPrompt| > 0
  {
    ConcatHead([AnalysisGptPromptBlock1, AnalysisGptPromptBlock2, AnalysisGptPromptBlock3, AnalysisGptPromptBlock4, AnalysisGptPromptBlock5, AnalysisGptPromptBlock6, AnalysisGptPromptBlock7]);
    ConcatHead([AnalysisPart1, AnalysisPart2, AnalysisPart3, AnalysisPart4, AnalysisPart5, AnalysisPart6, AnalysisPart7, AnalysisPart8, AnalysisPart9, AnalysisPart10]);
    assert |AnalysisPart1| > 0;
  }

  /** AnalysisGptPrompt holds no brace, so `format_map` returns it unchanged whatever the namespace. */
  lemma AnalysisGptPromptFormatsToItself(ns: Dict, f: Formatter)
    ensures FormatMap(AnalysisGptPrompt, ns, f) == Formatted(ns, Success(AnalysisGptPrompt))
  {
    AnalysisGptPromptIsPlain();
    FormatPlain(AnalysisGptPrompt, ns, f);
  }

  /** QnaGptPrompt is not empty, so it is truthy. */
  lemma QnaGptPromptNonEmpty()
    ensures |QnaGptPrompt| > 0
  {
    ConcatHead([QnaGptPromptBlock1, QnaGptPromptBlock2, QnaGptPromptBlock3, QnaGptPromptBlock4, QnaGptPromptBlock5, QnaGptPromptBlock6]);
    ConcatHead([QnaPart1, QnaPart2, QnaPart3, QnaPart4, QnaPart5, QnaPart6, QnaPart7, QnaPart8, QnaPart9, QnaPart10]);
    assert |QnaPart1| > 0;
  }

  /** QnaGptPrompt holds no brace, so `format_map` returns it unchanged whatever the namespace. */
  lemma QnaGptPromptFormatsToItself(ns: Dict, f: Formatter)
    ensures FormatMap(QnaGptPrompt, ns, f) == Formatted(ns, Success(QnaGptPrompt))
  {
    QnaGptPromptIsPlain();
    FormatPlain(QnaGptPrompt, ns, f);
  }

}

=== FILE: file_handler.dfy ===
/** The `useFileHandler` hook of the React front end: a chosen file becomes
    the selected file, and a `.json` file is read as a saved configuration
    whose presentation fields and persona list replace the page's state.

    The browser's FileReader and `JSON.parse` are a parameter (None for a
    parse error); the two state setters and the alert become the fields of
    the returned effects. */
module FileHandler {

  import opened Wrappers
  import opened Text
  import opened JsValues
  import opened PersonaSettings

  datatype File = File(name: string, content: string)

  /** `{title, description, intent}` as the page stores it. */
  datatype PresentationInfo = PresentationInfo(title: JsValue, description: JsValue, intent: JsValue)

  /** What one change event does: the file selected, the presentation info
      and persona settings set (None when the setter is not called), and
      whether the parse-error alert is shown. */
  datatype Effects = Effects(selected: Option<File>, info: Option<PresentationInfo>,
                             personas: Option<Settings>, alerted: bool)

  /** A value whose properties can be read without a TypeError. */
  predicate Readable(v: JsValue) {
    v != JUndefined && v != JNull
  }

  function Field(v: JsValue, k: string): (r: JsValue)
    requires Readable(v)
    ensures r == Prop(v, k).value
  {
    Prop(v, k).value
  }

  /** `jsonData.ppt.ppt_title || ''` and its two siblings. */
  function InfoOf(ppt: JsValue): (r: PresentationInfo)
    requires Readable(ppt)
    ensures Truthy(Field(ppt, "ppt_title")) ==> r.title == Field(ppt, "ppt_title")
    ensures !Truthy(Field(ppt, "ppt_title")) ==> r.title == JStr("")
    ensures Truthy(Field(ppt, "ppt_description")) ==> r.description == Field(ppt, "ppt_description")
    ensures !Truthy(Field(ppt, "ppt_description")) ==> r.description == JStr("")
    ensures Truthy(Field(ppt, "ppt_intent")) ==> r.intent == Field(ppt, "ppt_intent")
    ensures !Truthy(Field(ppt, "ppt_intent")) ==> r.intent == JStr("")
  {
    PresentationInfo(Or(Field(ppt, "ppt_title"), JStr("")),
                     Or(Field(ppt, "ppt_description"), JStr("")),
                     Or(Field(ppt, "ppt_intent"), JStr("")))
  }

  // ------------------------------------------------------------ one persona

  /** One field of a loaded persona: `persona.id`, otherwise
      `persona.<k> || <fallback>`. */
  function NormalField(p: JsValue, k: string): (r: JsValue)
    requires Readable(p)
    ensures k == "id" ==> r == Field(p, "id")
    ensures k != "id" && Truthy(Field(p, k)) ==> r == Field(p, k)
    ensures k != "id" && !Truthy(Field(p, k)) ==> r == Fallback(k)
  {
    if k == "id" then Field(p, k) else Or(Field(p, k), Fallback(k))
  }

  /** The settings built from one element of the loaded `personas` array. */
  function NormalizePersona(p: JsValue): (r: Obj)
    requires Readable(p)
    ensures r.Keys == PersonaFields
    ensures forall k | k in PersonaFields :: r[k] == NormalField(p, k)
  {
    map k | k in PersonaFields :: NormalField(p, k)
  }

  // ------------------------------------------------------------ the list

  /** The values keyed "0" .. "n-1" in order, as assigning `settings[index]`
      for each index does. */
  function IndexMap(vals: seq<Obj>): (r: Settings)
    ensures r.Keys == IndexKeys(|vals|)
    ensures forall i | 0 <= i < |vals| :: r[NatStr(i)] == vals[i]
  {
    if |vals| == 0 then map[]
    else
      var n := |vals| - 1;
      var m := IndexMap(vals[..n]);
      var key := NatStr(n);
      IndexKeysStep(n);
      var r := Put(m, key, vals[n]);
      forall i | 0 <= i < n ensures r[NatStr(i)] == vals[i] {
        assert NatStr(i) in m && NatStr(i) != key;
        assert vals[..n][i] == vals[i];
      }
      r
  }

  predicate AllReadable(items: seq<JsValue>) {
    forall i | 0 <= i < |items| :: Readable(items[i])
  }

  /** `personas.forEach((persona, index) => settings[index] = ...)`: None
      when some element is `null` (reading its fields throws), otherwise the
      settings keyed "0" .. "n-1" in array order. */
  function LoadPersonas(items: seq<JsValue>): (r: Option<Settings>)
    ensures r.None? <==> !AllReadable(items)
    ensures r.Some? ==> r.value.Keys == IndexKeys(|items|)
    ensures r.Some? ==> forall i | 0 <= i < |items| :: r.value[NatStr(i)] == NormalizePersona(items[i])
  {
    if AllReadable(items) then
      Some(IndexMap(seq(|items|, i requires 0 <= i < |items| && Readable(items[i]) => NormalizePersona(items[i]))))
    else None
  }

  /** Whether a file name ends in ".json", ignoring case. */
  predicate IsJsonName(name: string) {
    EndsWith(Lower(name), ".json")
  }

  // ------------------------------------------------------------ the handler

  /** `handleFileChange(e, setPresentationInfo, setPersonaSettings)`. */
  function HandleFileChange(files: seq<File>, parse: string -> Option<JsValue>): (r: Effects)
    ensures |files| == 0 ==> r == Effects(None, None, None, false)
    ensures |files| > 0 ==> r.selected == Some(files[0])
    ensures |files| > 0 && !IsJsonName(files[0].name) ==> r == Effects(Some(files[0]), None, None, false)
    ensures |files| > 0 && IsJsonName(files[0].name) && parse(files[0].content).None? ==>
      r == Effects(Some(files[0]), None, None, true)
    ensures r.info.Some? ==>
      var data := parse(files[0].content).value;
      Readable(data) && Truthy(Field(data, "ppt")) && r.info.value == InfoOf(Field(data, "ppt"))
    ensures r.personas.Some? ==>
      var data := parse(files[0].content).value;
      Readable(data) && Field(data, "personas").JArr?
      && LoadPersonas(Field(data, "personas").items) == r.personas
    ensures |files| > 0 && IsJsonName(files[0].name) && parse(files[0].content).Some?
            && !Readable(parse(files[0].content).value) ==>
      r == Effects(Some(files[0]), None, None, true)
    ensures |files| > 0 && IsJsonName(files[0].name) && parse(files[0].content).Some?
            && Readable(parse(files[0].content).value) ==>
      var data := parse(files[0].content).value;
      var list := Field(data, "personas");
      && (r.info.Some? <==> Truthy(Field(data, "ppt")))
      && (r.personas.Some? <==> list.JArr? && AllReadable(list.items))
      && (r.alerted <==> list.JArr? && !AllReadable(list.items))
  {
    if |files| == 0 then Effects(None, None, None, false)
    else
      var f := files[0];
      if !IsJsonName(f.name) then Effects(Some(f), None, None, false)
      else
        match parse(f.content)
        case None => Effects(Some(f), None, None, true)
        case Some(data) =>
          if !Readable(data) then Effects(Some(f), None, None, true)
          else
            var ppt := Field(data, "ppt");
            var info := if Truthy(ppt) then Some(InfoOf(ppt)) else None;
            var list := Field(data, "personas");
            if Truthy(list) && list.JArr? then
              match LoadPersonas(list.items)
              case None => Effects(Some(f), info, None, true)
              case Some(m) => Effects(Some(f), info, Some(m), false)
            else Effects(Some(f), info, None, false)
  }

  // ------------------------------------------------------------ properties

  /** Loading what a load produced changes nothing: every fallback is truthy
      or is the empty string, which falls back to itself. */
  lemma NormalizeIdempotent(p: JsValue)
    requires Readable(p)
    ensures NormalizePersona(JObj(NormalizePersona(p))) == NormalizePersona(p)
  {
    var n := NormalizePersona(p);
    var m := NormalizePersona(JObj(n));
    forall k | k in m ensures m[k] == n[k] {
      NormalFieldStable(p, k);
    }
    SameMap(m, n);
  }

  /** Normalising a field again keeps it: a truthy value is kept, and a
      fallback falls back to itself. */
  lemma NormalFieldStable(p: JsValue, k: string)
    requires Readable(p) && k in PersonaFields
    ensures NormalField(JObj(NormalizePersona(p)), k) == NormalizePersona(p)[k]
  {
    var n := NormalizePersona(p);
    assert Field(JObj(n), k) == n[k];
  }

  lemma SameMap(a: Obj, b: Obj)
    requires a.Keys == b.Keys
    requires forall k | k in a :: a[k] == b[k]
    ensures a == b
  {
  }

  /** An empty persona object loads as the settings `addPersona` writes,
      except that its id is `undefined` rather than `null`. */
  lemma EmptyLoadsAsDefault()
    ensures NormalizePersona(JObj(map[])) == DefaultPersona["id" := JUndefined]
  {
    var n := NormalizePersona(JObj(map[]));
    var d := DefaultPersona["id" := JUndefined];
    forall k | k in PersonaFields ensures n[k] == d[k] {
      assert Field(JObj(map[]), k) == JUndefined;
    }
    SameMap(n, d);
  }

  /** A population size of 0 is falsy and becomes 5. */
  lemma ZeroPopulationBecomesFive(p: Obj)
    requires "population_size" in p && p["population_size"] == JNum(0)
    ensures NormalizePersona(JObj(p))["population_size"] == JNum(5)
  {
    var k := "population_size";
    assert k in PersonaFields && k !in TextFields;
    assert !Truthy(Field(JObj(p), k));
    assert NormalField(JObj(p), k) == Fallback(k) == JNum(5);
  }

  /** Loaded settings are keyed "0" .. "n-1", so the next `addPersona`
      adds a new entry instead of overwriting one. */
  lemma LoadedThenAdd(items: seq<JsValue>)
    requires AllReadable(items)
    ensures Dense(LoadPersonas(items).value)
    ensures NextIndex(LoadPersonas(items).value) !in LoadPersonas(items).value
  {
    var m := LoadPersonas(items).value;
    assert |m.Keys| == |items|;
    DenseAddIsFresh(m);
  }

  /** Only the first chosen file matters. */
  lemma OnlyFirstFile(files: seq<File>, parse: string -> Option<JsValue>)
    requires |files| > 0
    ensures HandleFileChange(files, parse) == HandleFileChange([files[0]], parse)
  {
  }

  /** Each loaded persona written back as a plain object. */
  function Resaved(items: seq<JsValue>): (r: seq<JsValue>)
    requires AllReadable(items)
    ensures |r| == |items| && AllReadable(r)
    ensures forall i | 0 <= i < |items| :: r[i] == JObj(NormalizePersona(items[i]))
  {
    seq(|items|, i requires 0 <= i < |items| && Readable(items[i]) => JObj(NormalizePersona(items[i])))
  }

  /** Loading the personas a load produced, written back as objects in index
      order, gives the same settings again. */
  lemma {:induction false} ReloadLoadedPersonas(items: seq<JsValue>)
    requires AllReadable(items)
    ensures LoadPersonas(Resaved(items)) == LoadPersonas(items)
  {
    var again := Resaved(items);
    var a := seq(|again|, i requires 0 <= i < |again| && Readable(again[i]) => NormalizePersona(again[i]));
    var b := seq(|items|, i requires 0 <= i < |items| && Readable(items[i]) => NormalizePersona(items[i]));
    forall i | 0 <= i < |items| ensures a[i] == b[i] {
      NormalizeIdempotent(items[i]);
    }
    assert a == b;
  }

  /** So a configuration file that holds exactly the loaded personas loads to
      the same settings: the load is a round trip on its own output. */
  lemma ReloadConfiguration(f: File, g: File, parse: string -> Option<JsValue>, items: seq<JsValue>, rest: Obj)
    requires IsJsonName(f.name) && IsJsonName(g.name)
    requires parse(f.content) == Some(JObj(rest["personas" := JArr(items)]))
    requires AllReadable(items)
    requires parse(g.content) == Some(JObj(rest["personas" := JArr(Resaved(items))]))
    ensures HandleFileChange([g], parse).personas == HandleFileChange([f], parse).personas
    ensures HandleFileChange([f], parse).personas.Some?
  {
    var again := Resaved(items);
    ReloadLoadedPersonas(items);
    assert Field(JObj(rest["personas" := JArr(items)]), "personas") == JArr(items);
    assert Field(JObj(rest["personas" := JArr(again)]), "personas") == JArr(again);
    PersonasOfFile(f, parse, items);
    PersonasOfFile(g, parse, again);
  }

  /** The personas a JSON file sets when its data holds a readable array. */
  lemma PersonasOfFile(f: File, parse: string -> Option<JsValue>, items: seq<JsValue>)
    requires IsJsonName(f.name) && parse(f.content).Some? && Readable(parse(f.content).value)
    requires Field(parse(f.content).value, "personas") == JArr(items) && AllReadable(items)
    ensures HandleFileChange([f], parse).personas == LoadPersonas(items)
  {
  }

  /** A `null` among the personas aborts the load after the presentation
      info was already set: the info changes, the personas do not, and the
      alert is shown. */
  lemma NullPersonaHalfLoads(f: File, data: Obj, parse: string -> Option<JsValue>)
    requires IsJsonName(f.name) && parse(f.content) == Some(JObj(data))
    requires "ppt" in data && Truthy(data["ppt"])
    requires "personas" in data && data["personas"] == JArr([JNull])
    ensures HandleFileChange([f], parse) == Effects(Some(f), Some(InfoOf(data["ppt"])), None, true)
  {
    assert !Readable([JNull][0]);
  }
}

=== FILE: js_values.dfy ===
/** JavaScript values as the front end's state handling sees them: parsed
    JSON plus `undefined`.  Numbers are integers here (fractions and NaN do
    not matter to the code modelled). */
module JsValues {

  import opened Wrappers

  datatype JsValue =
    | JUndefined
    | JNull
    | JBool(b: bool)
    | JNum(n: int)
    | JStr(s: string)
    | JArr(items: seq<JsValue>)
    | JObj(fields: Obj)

  /** A plain object: its own enumerable properties. */
  type Obj = map<string, JsValue>

  /** JavaScript's truthiness: `undefined`, `null`, `false`, 0 and "" are
      falsy, every array and object is truthy. */
  predicate Truthy(v: JsValue) {
    match v
    case JUndefined => false
    case JNull => false
    case JBool(b) => b
    case JNum(n) => n != 0
    case JStr(s) => s != ""
    case JArr(_) => true
    case JObj(_) => true
  }

  /** `a || b`: `a` when it is truthy, otherwise `b`. */
  function Or(a: JsValue, b: JsValue): (r: JsValue)
    ensures Truthy(a) ==> r == a
    ensures !Truthy(a) ==> r == b
  {
    if Truthy(a) then a else b
  }

  /** `v.k`: a TypeError (None) on `null` and `undefined`; the property of an
      object, or `undefined` when it has none. Other values have none of the
      properties the modelled code reads. */
  function Prop(v: JsValue, k: string): (r: Option<JsValue>)
    ensures r.None? <==> v == JUndefined || v == JNull
    ensures v.JObj? && k in v.fields ==> r == Some(v.fields[k])
    ensures v.JObj? && k !in v.fields ==> r == Some(JUndefined)
  {
    match v
    case JUndefined => None
    case JNull => None
    case JObj(f) => Some(if k in f then f[k] else JUndefined)
    case _ => Some(JUndefined)
  }

  /** `v?.k`: like `v.k`, but `undefined` instead of a TypeError. */
  function OptProp(v: JsValue, k: string): (r: JsValue)
    ensures Prop(v, k).Some? ==> r == Prop(v, k).value
    ensures Prop(v, k).None? ==> r == JUndefined
  {
    match Prop(v, k)
    case None => JUndefined
    case Some(x) => x
  }

  /** The properties `{...v}` copies: an object's own properties, nothing for
      `null`, `undefined` and the other primitives. */
  function Spread(v: JsValue): (r: Obj)
    ensures v.JObj? ==> r == v.fields
    ensures !v.JObj? ==> r == map[]
  {
    if v.JObj? then v.fields else map[]
  }

  /** `Object.keys(v).length`: the own properties of an object, the indices
      of an array or of a string, none for booleans and numbers.  `null` and
      `undefined` make `Object.keys` throw, so they are excluded. */
  function KeyCount(v: JsValue): (r: nat)
    requires v != JUndefined && v != JNull
    ensures v.JObj? ==> r == |v.fields.Keys|
    ensures v.JArr? ==> r == |v.items|
    ensures v.JStr? ==> r == |v.s|
    ensures v.JBool? || v.JNum? ==> r == 0
  {
    if v.JObj? then |v.fields.Keys|
    else if v.JArr? then |v.items|
    else if v.JStr? then |v.s|
    else 0
  }
}

=== FILE: paths.dfy ===
/** POSIX path handling as `os.path.join` and `os.path.dirname` do it, for the
    loaders that resolve files relative to a root folder. */
module Paths {

  import opened Wrappers
  import opened Text

  /** `os.path.join(a, b)` for two components: an absolute `b` replaces `a`,
      and a separator is inserted unless `a` is empty or already ends in one. */
  function PathJoin(a: string, b: string): (r: string)
    ensures StartsWith(b, "/") ==> r == b
    ensures !StartsWith(b, "/") ==> EndsWith(r, b) && StartsWith(r, a)
    ensures !StartsWith(b, "/") && a != "" && a[|a| - 1] != '/' ==> r == a + "/" + b
  {
    if StartsWith(b, "/") then b
    else if a == "" || a[|a| - 1] == '/' then a + b
    else a + "/" + b
  }

  /** `s.rstrip('/')`. */
  function RStripSlashes(s: string): (r: string)
    ensures |r| <= |s| && r == s[..|r|]
    ensures r == "" || r[|r| - 1] != '/'
    ensures forall i | |r| <= i < |s| :: s[i] == '/'
  {
    if |s| == 0 || s[|s| - 1] != '/' then s else RStripSlashes(s[..|s| - 1])
  }

  /** `os.path.dirname(p)`: everything up to the last separator, with trailing
      separators removed unless it consists of separators only. */
  function Dirname(p: string): (r: string)
    ensures '/' !in p ==> r == ""
    ensures |r| <= |p| && r == p[..|r|]
  {
    match LastIndexOf(p, '/')
    case None => ""
    case Some(i) =>
      var head := p[..i + 1];
      if forall k | 0 <= k < |head| :: head[k] == '/' then head else RStripSlashes(head)
  }

  /** The directory of a file joined onto a folder is that folder, as long as
      the folder is not empty and does not end in a separator and the file name
      holds no separator. */
  lemma DirnameOfJoin(folder: string, name: string)
    requires folder != "" && folder[|folder| - 1] != '/'
    requires '/' !in name
    ensures Dirname(PathJoin(folder, name)) == folder
  {
    var p := folder + "/" + name;
    assert |name| == 0 || name[0] != '/';
    assert PathJoin(folder, name) == p;
    forall j | |folder| < j < |p| ensures p[j] != '/' {
      assert p[j] == name[j - |folder| - 1];
    }
    LastIndexOfIs(p, '/', |folder|);
    var head := p[..|folder| + 1];
    assert head == folder + "/";
    assert head[|folder| - 1] != '/';
    StripOneSlash(folder);
  }

  lemma StripOneSlash(folder: string)
    requires folder != "" && folder[|folder| - 1] != '/'
    ensures RStripSlashes(folder + "/") == folder
  {
    var s := folder + "/";
    assert s[..|s| - 1] == folder;
  }
}

=== FILE: persona.dfy ===
/** The lowercase `Persona` class of backend/utils/persona.py: a cohort
    specification (type, description, id, population size and folder, and a
    nested dict of prompts), the factory that generates its population, and
    the population itself.

    The file system is a `Disk` record: the set of existing paths and, as
    functions, what `json.load` of a spec file returns, what `os.listdir`
    lists and what `TinyPerson.load_specification` yields.  `uuid4()` arrives
    as a parameter; `TinyPersonFactory.generate_people` is a function
    parameter too. */
module Persona {

  import opened Wrappers
  import opened Text
  import opened PyValues

  /** The spec dict.  `fields` holds every top-level key except 'prompts';
      `prompts` is the nested 'prompts' dict, None when the key is absent. */
  datatype Spec = Spec(fields: Dict, prompts: Option<Dict>)

  /** A `TinyPersonFactory`, known by the prompt it was built from. */
  datatype Factory = Factory(personaPrompt: Value)

  /** The `factory` attribute: never assigned (the loading path of the
      constructor skips it), None, or a built factory. */
  datatype FactorySlot = Unset | NoFactory | Built(factory: Factory)

  /** A `Persona` instance. */
  datatype State = State(spec: Spec, factory: FactorySlot, population: seq<Value>)

  /** What the code reads from the file system. */
  datatype Disk = Disk(paths: set<string>, readSpec: string -> Spec,
                       listDir: string -> seq<string>, loadPerson: string -> Value)

  const DefaultCriteria: string := "Return an array of json objects."
  const DefaultPopulationSize: int := 5

  const CreateMessage: string :=
    "Persona type and description or persona spec file must be provided to create a persona."
  const PopulationExistsMessage: string :=
    "Population already exists. Use force=True to recreate population."
  const NoPersonaPromptMessage: string := "Persona prompt not found in persona spec."

  /** The top-level keys of a freshly created spec (besides 'prompts'). */
  const NewSpecKeys: set<string> :=
    {"persona_type", "persona_description", "persona_id", "population_size", "population_folder"}

  // ------------------------------------------------------------ construction

  /** The spec the constructor builds from its arguments. */
  function NewSpec(personaType: Value, description: Value, id: Value, size: Value, freshId: string): (s: Spec)
    ensures s.fields.Keys == NewSpecKeys && s.prompts == Some(map[])
    ensures s.fields["persona_type"] == personaType && s.fields["persona_description"] == description
    ensures s.fields["persona_id"] == (if Truthy(id) then id else VStr(freshId))
    ensures s.fields["population_size"] == size && s.fields["population_folder"] == VNone
  {
    Spec(map["persona_type" := personaType,
             "persona_description" := description,
             "persona_id" := if Truthy(id) then id else VStr(freshId),
             "population_size" := size,
             "population_folder" := VNone],
         Some(map[]))
  }

  /** `Persona(persona_type, persona_description, persona_id, population_size,
      persona_folder)` as written: a truthy folder goes through `load_persona`,
      closing message included; otherwise a truthy type and description are
      required. */
  function Create(personaType: Value, description: Value, id: Value, size: Value, folder: Value,
                  freshId: string, disk: Disk): (r: Result<State, Exc>)
    ensures !Truthy(folder) ==> (r.Success? <==> Truthy(personaType) && Truthy(description))
    ensures !Truthy(folder) && r.Failure? ==> r.error == ValueError(CreateMessage)
    ensures !Truthy(folder) && r.Success? ==>
      r.value.spec == NewSpec(personaType, description, id, size, freshId) &&
      r.value.factory == NoFactory && r.value.population == []
    ensures Truthy(folder) && r.Success? ==>
      SpecFile(Show(folder)) in disk.paths && ValidIdentity(r.value.spec) &&
      "type" in r.value.spec.fields && "description" in r.value.spec.fields &&
      r.value.factory == Unset
    ensures Truthy(folder) && SpecFile(Show(folder)) !in disk.paths ==>
      r == Failure(ValueError("Persona spec file not found in persona folder."))
  {
    if Truthy(folder) then LoadPersonaAsWritten(Show(folder), disk)
    else if Truthy(personaType) && Truthy(description) then
      Success(State(NewSpec(personaType, description, id, size, freshId), NoFactory, []))
    else Failure(ValueError(CreateMessage))
  }

  /** The constructor with the closing message of `load_persona` reading the
      keys the spec actually holds. */
  function CreateIntended(personaType: Value, description: Value, id: Value, size: Value, folder: Value,
                          freshId: string, disk: Disk): (r: Result<State, Exc>)
    ensures !Truthy(folder) ==> r == Create(personaType, description, id, size, folder, freshId, disk)
    ensures Truthy(folder) && r.Success? ==>
      SpecFile(Show(folder)) in disk.paths && ValidIdentity(r.value.spec) && r.value.factory == Unset
    ensures Create(personaType, description, id, size, folder, freshId, disk).Success? ==>
      r == Create(personaType, description, id, size, folder, freshId, disk)
  {
    if Truthy(folder) then LoadPersona(Show(folder), disk)
    else Create(personaType, description, id, size, folder, freshId, disk)
  }

  // ------------------------------------------------------------ folders

  /** The error `_get_folder` raises when neither the argument nor the spec
      names a folder. */
  function NotProvidedMessage(name: string): string {
    name + " not provided or found in persona_spec."
  }

  /** `_get_folder(folder_name, folder)`: the argument if truthy, else the
      spec's value; it must be truthy and an existing path. */
  function GetFolder(name: string, folder: Value, spec: Spec, paths: set<string>): (r: Result<Value, Exc>)
    ensures Truthy(folder) ==> (r.Success? <==> Show(folder) in paths)
    ensures Truthy(folder) && r.Success? ==> r.value == folder
    ensures !Truthy(folder) ==>
      (r.Success? <==> Truthy(Get(spec.fields, name, VNone)) && Show(Get(spec.fields, name, VNone)) in paths)
    ensures !Truthy(folder) && r.Success? ==> r.value == spec.fields[name]
    ensures r.Failure? ==> r.error.ValueError?
  {
    var f := if Truthy(folder) then folder else Get(spec.fields, name, VNone);
    if !Truthy(f) then Failure(ValueError(NotProvidedMessage(name)))
    else if Show(f) !in paths then Failure(ValueError(name + " folder not found."))
    else Success(f)
  }

  /** The names `load_population` picks from a directory listing. */
  function JsonFiles(names: seq<string>): (r: seq<string>)
    ensures |r| <= |names|
    ensures forall n | n in r :: n in names && EndsWith(n, ".json")
    ensures forall n | n in names && EndsWith(n, ".json") :: n in r
  {
    if |names| == 0 then []
    else (if EndsWith(names[0], ".json") then [names[0]] else []) + JsonFiles(names[1..])
  }

  /** Filtering a listing piece by piece gives the filtered listing, so the
      population keeps the listing's order. */
  lemma {:induction false} JsonFilesAppend(a: seq<string>, b: seq<string>)
    ensures JsonFiles(a + b) == JsonFiles(a) + JsonFiles(b)
  {
    if |a| > 0 {
      assert (a + b)[1..] == a[1..] + b;
      JsonFilesAppend(a[1..], b);
    } else {
      assert a + b == b;
    }
  }

  /** `TinyPerson.load_specification` on each picked file, in listing order. */
  function LoadPeople(folder: string, files: seq<string>, disk: Disk): (r: seq<Value>)
    ensures |r| == |files|
    ensures forall i | 0 <= i < |files| :: r[i] == disk.loadPerson(folder + "/" + files[i])
  {
    seq(|files|, i requires 0 <= i < |files| => disk.loadPerson(folder + "/" + files[i]))
  }

  /** The spec with the folder recorded, and the people loaded from it. */
  type Loaded = (Spec, seq<Value>)

  /** `load_population(population_folder)`: resolves the folder, records it in
      the spec and loads every `.json` file in it. */
  function LoadPopulation(spec: Spec, folder: Value, disk: Disk): (r: Result<Loaded, Exc>)
    ensures r.Success? <==> GetFolder("population_folder", folder, spec, disk.paths).Success?
    ensures r.Success? ==>
      var f := GetFolder("population_folder", folder, spec, disk.paths).value;
      r.value.0 == spec.(fields := spec.fields["population_folder" := f]) &&
      |r.value.1| == |JsonFiles(disk.listDir(Show(f)))|
    ensures r.Failure? ==> r.error.ValueError?
  {
    match GetFolder("population_folder", folder, spec, disk.paths)
    case Failure(e) => Failure(e)
    case Success(f) =>
      Success((spec.(fields := spec.fields["population_folder" := f]),
               LoadPeople(Show(f), JsonFiles(disk.listDir(Show(f))), disk)))
  }

  /** The three identity entries the loader insists on. */
  predicate ValidIdentity(spec: Spec) {
    Truthy(Get(spec.fields, "persona_type", VNone)) &&
    Truthy(Get(spec.fields, "persona_description", VNone)) &&
    Truthy(Get(spec.fields, "persona_id", VNone))
  }

  /** The identity checks of `load_persona`, in order. */
  function CheckIdentity(spec: Spec): (r: Option<Exc>)
    ensures r.None? <==> ValidIdentity(spec)
    ensures r.Some? ==> r.value.ValueError?
  {
    if !Truthy(Get(spec.fields, "persona_type", VNone)) then Some(ValueError("Persona type not found in persona spec."))
    else if !Truthy(Get(spec.fields, "persona_description", VNone)) then Some(ValueError("Persona description not found in persona spec."))
    else if !Truthy(Get(spec.fields, "persona_id", VNone)) then Some(ValueError("Persona id not found in persona spec."))
    else None
  }

  /** The spec file of a persona folder. */
  function SpecFile(folder: string): string {
    folder + "/persona_spec.json"
  }

  /** `load_persona(persona_folder)` with its closing message left out: the
      spec file must exist, the population folder must resolve, and the type,
      description and id must be truthy.  The population folder is recorded in
      the loaded spec; no factory is loaded. */
  function LoadPersona(folder: string, disk: Disk): (r: Result<State, Exc>)
    ensures r.Success? <==>
      SpecFile(folder) in disk.paths &&
      LoadPopulation(disk.readSpec(SpecFile(folder)), VNone, disk).Success? &&
      ValidIdentity(LoadPopulation(disk.readSpec(SpecFile(folder)), VNone, disk).value.0)
    ensures SpecFile(folder) !in disk.paths ==>
      r == Failure(ValueError("Persona spec file not found in persona folder."))
    ensures r.Success? ==> ValidIdentity(r.value.spec) && r.value.factory == Unset
    ensures r.Success? ==> "population_folder" in r.value.spec.fields
    ensures r.Success? ==>
      var pf := r.value.spec.fields["population_folder"];
      && Truthy(pf) && Show(pf) in disk.paths
      && r.value.spec == disk.readSpec(SpecFile(folder)).(fields := disk.readSpec(SpecFile(folder)).fields["population_folder" := pf])
      && r.value.population == LoadPeople(Show(pf), JsonFiles(disk.listDir(Show(pf))), disk)
    ensures r.Failure? ==> r.error.ValueError?
  {
    if SpecFile(folder) !in disk.paths then Failure(ValueError("Persona spec file not found in persona folder."))
    else
      match LoadPopulation(disk.readSpec(SpecFile(folder)), VNone, disk)
      case Failure(e) => Failure(e)
      case Success(loaded) =>
        match CheckIdentity(loaded.0)
        case Some(e) => Failure(e)
        case None => Success(State(loaded.0, Unset, loaded.1))
  }

  /** `load_persona` as written: after the checks, its closing message reads
      the keys 'type' and 'description', which no spec written by this class
      holds. */
  function LoadPersonaAsWritten(folder: string, disk: Disk): (r: Result<State, Exc>)
    ensures r.Success? ==> r == LoadPersona(folder, disk)
  {
    match LoadPersona(folder, disk)
    case Failure(e) => Failure(e)
    case Success(st) =>
      if "type" !in st.spec.fields then Failure(KeyError("type"))
      else if "description" !in st.spec.fields then Failure(KeyError("description"))
      else Success(st)
  }

  /** Whenever the checks pass on a spec without a 'type' key, as every spec
      this class creates is, the loader as written raises KeyError('type'). */
  lemma LoadPersonaAsWrittenRejectsOwnSpecs(folder: string, disk: Disk)
    requires LoadPersona(folder, disk).Success?
    requires "type" !in disk.readSpec(SpecFile(folder)).fields
    ensures LoadPersonaAsWritten(folder, disk) == Failure(KeyError("type"))
  {
    var loaded := LoadPopulation(disk.readSpec(SpecFile(folder)), VNone, disk).value.0;
    assert loaded.fields.Keys == disk.readSpec(SpecFile(folder)).fields.Keys + {"population_folder"};
  }

  /** No spec built by the constructor has a 'type' key. */
  lemma NewSpecHasNoTypeKey(personaType: Value, description: Value, id: Value, size: Value, freshId: string)
    ensures "type" !in NewSpec(personaType, description, id, size, freshId).fields
    ensures "description" !in NewSpec(personaType, description, id, size, freshId).fields
  {
    assert "type" != "persona_type" && "type" != "population_size";
  }

  /** The spec a persona constructed with type, description and id holds once
      its population folder has been set. */
  function SavedSpec(personaType: Value, description: Value, id: Value, size: Value, freshId: string,
                     populationFolder: Value): Spec
  {
    var s := NewSpec(personaType, description, id, size, freshId);
    s.(fields := s.fields["population_folder" := populationFolder])
  }

  /** A folder whose spec file holds a constructed spec with an existing
      population folder: the intended loader gives back that spec and the
      folder's people, with no factory assigned, while the constructor as
      written raises KeyError('type') on it.  With a None population folder,
      the spec as first constructed, both raise the ValueError of the folder
      lookup. */
  lemma LoadConstructedSpec(personaType: Value, description: Value, id: Value, size: Value, freshId: string,
                            populationFolder: Value, folder: Value, freshId2: string, disk: Disk)
    requires Truthy(folder) && SpecFile(Show(folder)) in disk.paths
    requires Truthy(personaType) && Truthy(description) && (Truthy(id) || freshId != "")
    requires disk.readSpec(SpecFile(Show(folder))) == SavedSpec(personaType, description, id, size, freshId, populationFolder)
    ensures Truthy(populationFolder) && Show(populationFolder) in disk.paths ==>
      && CreateIntended(VNone, VNone, VNone, VNone, folder, freshId2, disk)
         == Success(State(SavedSpec(personaType, description, id, size, freshId, populationFolder), Unset,
                          LoadPeople(Show(populationFolder), JsonFiles(disk.listDir(Show(populationFolder))), disk)))
      && Create(VNone, VNone, VNone, VNone, folder, freshId2, disk) == Failure(KeyError("type"))
    ensures populationFolder == VNone ==>
      && Create(VNone, VNone, VNone, VNone, folder, freshId2, disk)
         == Failure(ValueError(NotProvidedMessage("population_folder")))
      && CreateIntended(VNone, VNone, VNone, VNone, folder, freshId2, disk)
         == Failure(ValueError(NotProvidedMessage("population_folder")))
  {
    var spec := SavedSpec(personaType, description, id, size, freshId, populationFolder);
    NewSpecHasNoTypeKey(personaType, description, id, size, freshId);
    assert "type" !in spec.fields;
    if Truthy(populationFolder) && Show(populationFolder) in disk.paths {
      assert spec.fields["population_folder" := populationFolder] == spec.fields;
      assert ValidIdentity(spec);
      LoadPersonaAsWrittenRejectsOwnSpecs(Show(folder), disk);
    }
  }

  // ------------------------------------------------------------ saving

  /** The folder name `save_persona` uses when given none:
      `persona_<type with spaces as underscores>_<id>`.  The type must be a
      str (`.replace` is called on it) and both keys must be present. */
  function DefaultFolder(spec: Spec): (r: Result<string, Exc>)
    ensures "persona_type" !in spec.fields ==> r == Failure(KeyError("persona_type"))
    ensures r.Success? <==>
      "persona_type" in spec.fields && spec.fields["persona_type"].VStr? && "persona_id" in spec.fields
    ensures r.Success? ==>
      var t := spec.fields["persona_type"].s;
      |r.value| == 8 + |t| + 1 + |Show(spec.fields["persona_id"])| &&
      r.value[..8] == "persona_" &&
      (forall i | 0 <= i < |t| :: r.value[8 + i] == (if t[i] == ' ' then '_' else t[i])) &&
      r.value[8 + |t|..] == "_" + Show(spec.fields["persona_id"])
  {
    if "persona_type" !in spec.fields then Failure(KeyError("persona_type"))
    else if !spec.fields["persona_type"].VStr? then Failure(AttributeError)
    else if "persona_id" !in spec.fields then Failure(KeyError("persona_id"))
    else
      var u := ReplaceChar(spec.fields["persona_type"].s, ' ', '_');
      var r := "persona_" + u + "_" + Show(spec.fields["persona_id"]);
      assert r[8..8 + |u|] == u;
      Success(r)
  }

  /** The default folder name never contains a space from the type. */
  lemma DefaultFolderHasNoSpaceFromType(spec: Spec)
    requires DefaultFolder(spec).Success?
    ensures ' ' !in DefaultFolder(spec).value[..8 + |spec.fields["persona_type"].s|]
  {
    var r := DefaultFolder(spec).value;
    var t := spec.fields["persona_type"].s;
    forall i | 0 <= i < 8 + |t| ensures r[i] != ' ' {
      if i < 8 { assert r[i] == "persona_"[i]; }
    }
  }

  /** `save_persona(persona_folder)`'s target: the argument when truthy, else
      the default name. */
  function SaveTarget(spec: Spec, folder: Value): (r: Result<Value, Exc>)
    ensures Truthy(folder) ==> r == Success(folder)
    ensures !Truthy(folder) ==> (r.Success? <==> DefaultFolder(spec).Success?)
    ensures !Truthy(folder) && r.Success? ==> r.value == VStr(DefaultFolder(spec).value)
  {
    if Truthy(folder) then Success(folder)
    else match DefaultFolder(spec)
      case Failure(e) => Failure(e)
      case Success(f) => Success(VStr(f))
  }

  /** The population folder `save_persona` hands to `save_population`, as
      written: `spec.get('population_folder', <folder>/population)`, then
      `_get_folder`.  The fallback applies only when the key is absent. */
  function SavePopulationTargetAsWritten(spec: Spec, folder: string, paths: set<string>): (r: Result<Value, Exc>)
    ensures "population_folder" !in spec.fields ==>
      (r.Success? <==> folder + "/population" in paths)
    ensures "population_folder" in spec.fields && !Truthy(spec.fields["population_folder"]) ==>
      r == Failure(ValueError(NotProvidedMessage("population_folder")))
  {
    GetFolder("population_folder", Get(spec.fields, "population_folder", VStr(folder + "/population")), spec, paths)
  }

  /** Saving a freshly created persona fails at the population folder, after
      the spec file has been written: its spec holds population_folder None. */
  lemma NewPersonaSaveFails(personaType: Value, description: Value, id: Value, size: Value,
                            freshId: string, folder: string, paths: set<string>)
    ensures SavePopulationTargetAsWritten(NewSpec(personaType, description, id, size, freshId), folder, paths)
         == Failure(ValueError(NotProvidedMessage("population_folder")))
  {
  }

  // ------------------------------------------------------------ prompts

  /** The eight prompt keys `load_prompts` writes and `update_prompts` accepts. */
  const PromptKeys: set<string> :=
    {"persona_prompt", "persona_gpt_prompt", "analysis_prompt", "analysis_gpt_prompt",
     "analysis_criteria", "qna_prompt", "qna_gpt_prompt", "qna_criteria"}

  /** The two keys whose default is the criteria text rather than ''. */
  const CriteriaKeys: set<string> := {"analysis_criteria", "qna_criteria"}

  /** The default `load_prompts` gives a prompt key. */
  function PromptDefault(k: string): Value {
    if k in CriteriaKeys then VStr(DefaultCriteria) else VStr("")
  }

  /** `load_prompts(prompts_dict)`: replaces the prompts with exactly the
      eight keys, each taken from the dict when present and defaulted
      otherwise.  A None argument is the empty dict here (both are falsy and
      become {}). */
  function LoadPrompts(spec: Spec, d: Dict): (r: Spec)
    ensures r.fields == spec.fields && r.prompts.Some?
    ensures r.prompts.value.Keys == PromptKeys
    ensures forall k | k in PromptKeys && k in d :: r.prompts.value[k] == d[k]
    ensures forall k | k in PromptKeys - CriteriaKeys && k !in d :: r.prompts.value[k] == VStr("")
    ensures forall k | k in CriteriaKeys && k !in d :: r.prompts.value[k] == VStr(DefaultCriteria)
  {
    spec.(prompts := Some(map k | k in PromptKeys :: Get(d, k, PromptDefault(k))))
  }

  /** Loading the prompts a persona already holds changes nothing. */
  lemma LoadPromptsIdempotent(spec: Spec, d: Dict)
    ensures LoadPrompts(LoadPrompts(spec, d), LoadPrompts(spec, d).prompts.value) == LoadPrompts(spec, d)
  {
    var p := LoadPrompts(spec, d).prompts.value;
    assert LoadPrompts(LoadPrompts(spec, d), p).prompts.value == p;
  }

  /** Keys outside the eight do not affect `load_prompts`. */
  lemma LoadPromptsIgnoresUnknown(spec: Spec, d: Dict, k: string, v: Value)
    requires k !in PromptKeys
    ensures LoadPrompts(spec, d[k := v]) == LoadPrompts(spec, d)
  {
    assert LoadPrompts(spec, d[k := v]).prompts.value == LoadPrompts(spec, d).prompts.value;
  }

  /** The prompts `update_prompts` starts from: the current ones, or {} when
      they are absent or empty. */
  function BasePrompts(spec: Spec): Dict {
    if spec.prompts.None? then map[] else spec.prompts.value
  }

  /** What `update_prompts(prompts_dict)` leaves as prompts: the base, with
      every whitelisted key of the argument written over it. */
  function UpdatedPrompts(spec: Spec, d: Dict): (p: Dict)
    ensures p.Keys == BasePrompts(spec).Keys + (d.Keys * PromptKeys)
  {
    map k | k in BasePrompts(spec).Keys + (d.Keys * PromptKeys) ::
      if k in d && k in PromptKeys then d[k] else BasePrompts(spec)[k]
  }

  /** `update_prompts(prompts_dict)`: writes the argument's entries one by one,
      skipping keys outside the eight.  The dict's iteration order is left
      open: any order gives the same prompts, since the keys are distinct. */
  method UpdatePrompts(spec: Spec, d: Dict) returns (r: Spec)
    ensures r.fields == spec.fields && r.prompts.Some?
    ensures forall k | k in d && k in PromptKeys :: k in r.prompts.value && r.prompts.value[k] == d[k]
    ensures forall k | k !in d || k !in PromptKeys ::
      (k in r.prompts.value <==> k in BasePrompts(spec)) &&
      (k in BasePrompts(spec) ==> r.prompts.value[k] == BasePrompts(spec)[k])
    ensures r.prompts.value == UpdatedPrompts(spec, d)
  {
    var p := BasePrompts(spec);
    var todo := d.Keys;
    while todo != {}
      invariant todo <= d.Keys
      invariant forall k | k in d && k in PromptKeys && k !in todo :: k in p && p[k] == d[k]
      invariant forall k | k !in d || k !in PromptKeys || k in todo ::
        (k in p <==> k in BasePrompts(spec)) && (k in BasePrompts(spec) ==> p[k] == BasePrompts(spec)[k])
      decreases |todo|
    {
      var k :| k in todo;
      if k in PromptKeys {
        p := p[k := d[k]];
      }
      todo := todo - {k};
    }
    r := spec.(prompts := Some(p));
  }

  /** Updating with the same dict twice is the same as once. */
  lemma UpdatedPromptsIdempotent(spec: Spec, d: Dict)
    ensures UpdatedPrompts(spec.(prompts := Some(UpdatedPrompts(spec, d))), d) == UpdatedPrompts(spec, d)
  {
  }

  /** After `load_prompts`, an update keeps exactly the eight keys. */
  lemma UpdateAfterLoadKeepsKeys(spec: Spec, d: Dict, u: Dict)
    ensures UpdatedPrompts(LoadPrompts(spec, d), u).Keys == PromptKeys
  {
  }

  /** `change_population_size(population_size)`. */
  function ChangePopulationSize(st: State, size: Value): (r: State)
    ensures r.spec.fields.Keys == st.spec.fields.Keys + {"population_size"}
    ensures r.spec.fields["population_size"] == size
    ensures forall k | k in st.spec.fields && k != "population_size" :: r.spec.fields[k] == st.spec.fields[k]
    ensures r.spec.prompts == st.spec.prompts && r.factory == st.factory && r.population == st.population
  {
    st.(spec := st.spec.(fields := st.spec.fields["population_size" := size]))
  }

  // ------------------------------------------------------------ population

  /** `create_factory()`: needs a truthy top-level 'persona_prompt'. */
  function CreateFactory(spec: Spec): (r: Result<Factory, Exc>)
    ensures r.Success? <==> "persona_prompt" in spec.fields && Truthy(spec.fields["persona_prompt"])
    ensures r.Success? ==> r.value.personaPrompt == spec.fields["persona_prompt"]
    ensures r.Failure? ==> r.error == ValueError(NoPersonaPromptMessage)
  {
    var p := Get(spec.fields, "persona_prompt", VNone);
    if !Truthy(p) then Failure(ValueError(NoPersonaPromptMessage)) else Success(Factory(p))
  }

  /** The prompt under 'prompts' plays no part: only the top-level one counts. */
  lemma CreateFactoryIgnoresPromptsEntry(spec: Spec, prompts: Option<Dict>)
    ensures CreateFactory(spec.(prompts := prompts)) == CreateFactory(spec)
  {
  }

  /** So no freshly created persona can build a factory, whatever prompts it
      is given through `load_prompts`. */
  lemma NewPersonaHasNoFactoryPrompt(personaType: Value, description: Value, id: Value, size: Value,
                                     freshId: string, d: Dict)
    ensures CreateFactory(LoadPrompts(NewSpec(personaType, description, id, size, freshId), d)).Failure?
  {
    assert "persona_prompt" !in NewSpecKeys;
  }

  /** `factory.generate_people(size)`: the people a factory generates for a
      population size. */
  type Generator = (Factory, Value) -> seq<Value>

  /** `create_population(force)`: refuses to replace an existing population
      unless forced, builds the factory when there is none, and generates
      `population_size` people (default 5).  A loaded persona never had its
      `factory` attribute assigned, so reading it raises AttributeError.  On
      failure the persona is left as it was. */
  function CreatePopulation(st: State, force: bool, generate: Generator): (r: Result<State, Exc>)
    ensures !force && |st.population| > 0 ==> r == Failure(ValueError(PopulationExistsMessage))
    ensures (force || |st.population| == 0) && st.factory == Unset ==> r == Failure(AttributeError)
    ensures r.Success? <==>
      (force || |st.population| == 0) &&
      (st.factory.Built? || (st.factory == NoFactory && CreateFactory(st.spec).Success?))
    ensures r.Failure? && st.factory != Unset ==> r.error.ValueError?
    ensures r.Success? ==>
      r.value.spec == st.spec && r.value.factory.Built? &&
      (st.factory.Built? ==> r.value.factory == st.factory) &&
      (st.factory == NoFactory ==> r.value.factory.factory.personaPrompt == st.spec.fields["persona_prompt"]) &&
      r.value.population == generate(r.value.factory.factory, Get(st.spec.fields, "population_size", VInt(DefaultPopulationSize)))
  {
    if !force && |st.population| > 0 then Failure(ValueError(PopulationExistsMessage))
    else
      var factory :- match st.factory
                     case Unset => Failure(AttributeError)
                     case Built(fac) => Success(fac)
                     case NoFactory => CreateFactory(st.spec);
      var size := Get(st.spec.fields, "population_size", VInt(DefaultPopulationSize));
      Success(State(st.spec, Built(factory), generate(factory, size)))
  }

  /** A persona loaded from a folder cannot create a population: the check of
      the existing population comes first, and then the unassigned factory is
      read. */
  lemma LoadedPersonaCannotCreatePopulation(folder: string, disk: Disk, force: bool, generate: Generator)
    requires LoadPersona(folder, disk).Success?
    ensures var st := LoadPersona(folder, disk).value;
            CreatePopulation(st, force, generate)
              == if !force && |st.population| > 0 then Failure(ValueError(PopulationExistsMessage))
                 else Failure(AttributeError)
  {
  }

  /** Forcing a second creation keeps the spec and the factory, and hands the
      generator the same factory and the same size as the first. */
  lemma CreatePopulationForcedTwice(st: State, generate: Generator)
    requires CreatePopulation(st, true, generate).Success?
    ensures var r1 := CreatePopulation(st, true, generate).value;
            var r2 := CreatePopulation(r1, true, generate);
            var size := Get(st.spec.fields, "population_size", VInt(DefaultPopulationSize));
            && r2.Success?
            && r2.value.spec == r1.spec == st.spec
            && r2.value.factory == r1.factory
            && r1.population == generate(r1.factory.factory, size)
            && r2.value.population == generate(r1.factory.factory, size)
  {
  }

  // ------------------------------------------------------------ extractors

  /** The arguments a `ResultsExtractor` is built with. */
  datatype ExtractorConfig = ExtractorConfig(objective: Value, situation: Value, fields: Value, hints: Dict)

  /** The kind's criteria: `spec['prompts'].get('<kind>_criteria', default)`. */
  function Criteria(spec: Spec, kind: string): (r: Result<Value, Exc>)
    ensures r.Success? <==> spec.prompts.Some?
    ensures r.Failure? ==> r.error == KeyError("prompts")
  {
    if spec.prompts.None? then Failure(KeyError("prompts"))
    else Success(Get(spec.prompts.value, kind + "_criteria", VStr(DefaultCriteria)))
  }

  /** `analysis_result_extractor` / `qna_result_extractor` as written: the
      hints test reads the local `field_hints` before it is assigned (the
      parameter is `fields_hints`), so after the objective step the call
      always raises UnboundLocalError. */
  function ResultExtractorAsWritten(spec: Spec, kind: string, objective: Value): (r: Result<ExtractorConfig, Exc>)
    ensures r.Failure?
    ensures Truthy(objective) || spec.prompts.Some? ==> r.error == UnboundLocalError("field_hints")
  {
    if !Truthy(objective) && spec.prompts.None? then Failure(KeyError("prompts"))
    else Failure(UnboundLocalError("field_hints"))
  }

  /** The two extractors with the parameter read under its own name: each
      falsy argument falls back to the kind's default (the criteria, the
      fixed situation, `[kind]`, and `{kind: criteria}`).  A None hints
      argument is the empty dict here. */
  function ResultExtractor(spec: Spec, kind: string, defaultSituation: string,
                           objective: Value, situation: Value, fields: Value, hints: Dict): (r: Result<ExtractorConfig, Exc>)
    ensures r.Success? <==> spec.prompts.Some? || (Truthy(objective) && hints != map[])
    ensures r.Failure? ==> r.error == KeyError("prompts")
    ensures r.Success? && Truthy(objective) ==> r.value.objective == objective
    ensures r.Success? && !Truthy(objective) ==> r.value.objective == Criteria(spec, kind).value
    ensures r.Success? ==> r.value.situation == (if Truthy(situation) then situation else VStr(defaultSituation))
    ensures r.Success? ==> r.value.fields == (if Truthy(fields) then fields else VList([VStr(kind)]))
    ensures r.Success? && hints != map[] ==> r.value.hints == hints
    ensures r.Success? && hints == map[] ==> r.value.hints == map[kind := Criteria(spec, kind).value]
  {
    var o :- if Truthy(objective) then Success(objective) else Criteria(spec, kind);
    var h :- if hints != map[] then Success(hints) else
              match Criteria(spec, kind)
              case Failure(e) => Failure(e)
              case Success(c) => Success(map[kind := c]);
    Success(ExtractorConfig(o, if Truthy(situation) then situation else VStr(defaultSituation),
                            if Truthy(fields) then fields else VList([VStr(kind)]), h))
  }

  /** After `load_prompts`, the default extractor uses the loaded criteria, or
      the default criteria when none was given. */
  lemma ExtractorUsesLoadedCriteria(spec: Spec, d: Dict, kind: string, defaultSituation: string)
    requires kind == "analysis" || kind == "qna"
    ensures ResultExtractor(LoadPrompts(spec, d), kind, defaultSituation, VNone, VNone, VNone, map[]).Success?
    ensures
      var c := if kind + "_criteria" in d then d[kind + "_criteria"] else VStr(DefaultCriteria);
      ResultExtractor(LoadPrompts(spec, d), kind, defaultSituation, VNone, VNone, VNone, map[]).value
        == ExtractorConfig(c, VStr(defaultSituation), VList([VStr(kind)]), map[kind := c])
  {
    assert "analysis" + "_criteria" == "analysis_criteria" && "qna" + "_criteria" == "qna_criteria";
  }

  const AnalysisSituation: string :=
    "The agent was tasked with analyzing a powerpoint presentation to provide feedback on the content of the presentation and the presentation itself."
  const QnaSituation: string :=
    "The agent was tasked with asking questions after analyzing powerpoint presentation, about the content of the presentation and the presentation itself."

  /** `analysis_result_extractor` with the hints parameter read correctly. */
  function AnalysisResultExtractor(spec: Spec, objective: Value, situation: Value, fields: Value, hints: Dict): Result<ExtractorConfig, Exc> {
    ResultExtractor(spec, "analysis", AnalysisSituation, objective, situation, fields, hints)
  }

  /** `qna_result_extractor` with the hints parameter read correctly. */
  function QnaResultExtractor(spec: Spec, objective: Value, situation: Value, fields: Value, hints: Dict): Result<ExtractorConfig, Exc> {
    ResultExtractor(spec, "qna", QnaSituation, objective, situation, fields, hints)
  }
}

=== FILE: persona_action.dfy ===
/** `PersonaAction` of backend/utils/PersonaAction.py: one elicitation phase of a
    persona (analysis or question-and-answer), its namespace entries, its
    export and import, its reset and the sequence of effects of one run.

    The phase's GPT assistant is a function from message to response, the
    world's broadcasts and step and the extractor call are recorded in a trace,
    and the extractor's answer is a parameter. */
module PersonaAction {

  import opened Wrappers
  import opened Text
  import opened PyValues
  import opened Template
  import opened Utils
  import opened Collaborators

  /** The fields of a phase.  Prompts are usually strings but may be None after a
      load, so every field is a Python value. */
  datatype Action = Action(
    kind: string,
    intent: string,
    gptPrompt: Value,
    prompt: Value,
    summarizationPrompt: Value,
    result: Value,
    combinedResult: Value,
    ppt: Option<Deck>)

  /** The constructor of the base class; prompts default to '' and results to None. */
  function NewAction(kind: string, intent: string): (a: Action)
    ensures a.kind == kind && a.intent == intent && a.ppt.None?
    ensures !Truthy(a.gptPrompt) && !Truthy(a.prompt) && !Truthy(a.summarizationPrompt)
    ensures a.result == VNone && a.combinedResult == VNone
  {
    Action(kind, intent, VStr(""), VStr(""), VStr(""), VNone, VNone, None)
  }

  // ------------------------------------------------------------------ mapping

  function PromptKey(kind: string): string { kind + "_prompt" }
  function GptPromptKey(kind: string): string { kind + "_gpt_prompt" }
  function SummarizationKey(kind: string): string { kind + "_summarization_gpt_prompt" }
  function ResultKey(kind: string): string { kind + "_result" }
  function CombinedKey(kind: string): string { kind + "_combined_result" }

  /** The five namespace keys a phase of this kind contributes. */
  function MappingKeys(kind: string): set<string> {
    {PromptKey(kind), GptPromptKey(kind), SummarizationKey(kind), ResultKey(kind), CombinedKey(kind)}
  }

  /** `update_mapping()`: the phase's current fields under its five keys. */
  function Mapping(a: Action): (m: Dict)
    ensures m.Keys == MappingKeys(a.kind)
    ensures m[PromptKey(a.kind)] == a.prompt && m[GptPromptKey(a.kind)] == a.gptPrompt
    ensures m[SummarizationKey(a.kind)] == a.summarizationPrompt
    ensures m[ResultKey(a.kind)] == a.result && m[CombinedKey(a.kind)] == a.combinedResult
  {
    MappingKeysDistinct(a.kind);
    map[PromptKey(a.kind) := a.prompt,
        GptPromptKey(a.kind) := a.gptPrompt,
        SummarizationKey(a.kind) := a.summarizationPrompt,
        ResultKey(a.kind) := a.result,
        CombinedKey(a.kind) := a.combinedResult]
  }

  /** The five keys are pairwise different whatever the kind. */
  lemma MappingKeysDistinct(kind: string)
    ensures |MappingKeys(kind)| == 5
  {
    var n := |kind|;
    assert PromptKey(kind)[n + 1] == 'p' && ResultKey(kind)[n + 1] == 'r';
    assert GptPromptKey(kind)[n + 1] == 'g' && CombinedKey(kind)[n + 1] == 'c';
    assert |PromptKey(kind)| == |ResultKey(kind)| == n + 7;
    assert |GptPromptKey(kind)| == n + 11;
    assert |CombinedKey(kind)| == n + 16;
    assert |SummarizationKey(kind)| == n + 25;
  }

  // ------------------------------------------------------------ export, import

  /** `to_dict()`: the three prompts and the two results, without kind or ppt. */
  function ToDict(a: Action): (d: Dict)
    ensures d.Keys == {"gpt_prompt", "prompt", "summarization_gpt_prompt", "result", "combined_result"}
  {
    map["gpt_prompt" := a.gptPrompt,
        "prompt" := a.prompt,
        "summarization_gpt_prompt" := a.summarizationPrompt,
        "result" := a.result,
        "combined_result" := a.combinedResult]
  }

  /** The base class's `load(type, type_intent, action_dict)`: absent prompts
      become '', absent results None, and the deck comes from `PPT.load`. */
  function Load(kind: string, intent: string, d: Dict, loadDeck: Value -> Option<Deck>): (a: Action)
    ensures a.kind == kind && a.intent == intent
    ensures "prompt" !in d ==> a.prompt == VStr("")
    ensures "result" !in d ==> a.result == VNone
  {
    Action(kind, intent,
           Get(d, "gpt_prompt", VStr("")),
           Get(d, "prompt", VStr("")),
           Get(d, "summarization_gpt_prompt", VStr("")),
           Get(d, "result", VNone),
           Get(d, "combined_result", VNone),
           loadDeck(Get(d, "ppt", EmptyDict)))
  }

  /** Loading an export restores every exported field; the deck is whatever
      `PPT.load({})` gives, since the export holds none. */
  lemma LoadToDict(a: Action, loadDeck: Value -> Option<Deck>)
    ensures Load(a.kind, a.intent, ToDict(a), loadDeck) == a.(ppt := loadDeck(EmptyDict))
  {
  }

  // -------------------------------------------------------------------- reset

  /** The base class's `reset()`: the three prompts become '' and the results stay. */
  function Reset(a: Action): (r: Action)
    ensures r.gptPrompt == VStr("") && r.prompt == VStr("") && r.summarizationPrompt == VStr("")
    ensures r.result == a.result && r.combinedResult == a.combinedResult
    ensures r.kind == a.kind && r.intent == a.intent && r.ppt == a.ppt
  {
    a.(prompt := VStr(""), gptPrompt := VStr(""), summarizationPrompt := VStr(""))
  }

  /** A reset is idempotent, and a reset phase no longer has a prompt to reuse. */
  lemma ResetIdempotent(a: Action)
    ensures Reset(Reset(a)) == Reset(a)
    ensures !Truthy(Reset(a).prompt)
  {
  }

  // ---------------------------------------------------------------------- run

  /** The effects a run has on the outside world, in order. */
  datatype Event =
    | AskGpt(message: string)
    | Broadcast(message: string)
    | WorldRun(steps: nat)
    | Extract(objective: string, situation: string, fields: seq<string>)

  /** The state after `run`: the phase, the shared namespace (which `run`
      updates in place), the effects so far and the exception, if one was raised.
      Changes made before an exception stay, as they do on the Python object. */
  datatype Outcome = Outcome(action: Action, ns: Dict, trace: seq<Event>, error: Option<Exc>)

  const NoPptMessage: string := "No PPT provided to run the action."

  /** The extraction objective shared by all phases. */
  const DefaultObjective: string := "Return an array of json objects, 1 array entry per agent."

  /** Text placed between the formatted summarisation template and the results. */
  const ResponseHeader: string := "\nHere is the response from all the agents:\n"

  function Situation(intent: string): string {
    "The agent was tasked with " + intent
  }

  /** The keys `if v: v.format_map(ns)` looks up: none when `v` is falsy or not a str. */
  function PromptNames(v: Value): set<string> {
    if Truthy(v) && v.VStr? then TemplateNames(v.s) else {}
  }

  /** The keys `v.format_map(ns)` looks up when it is called unconditionally. */
  function SummaryNames(v: Value): set<string> {
    if v.VStr? then TemplateNames(v.s) else {}
  }

  /** The namespace after formatting one prompt, and the prompt's new value or the exception. */
  datatype Resolved = Resolved(ns: Dict, value: Result<Value, Exc>)

  /** `if v: v = v.format_map(ns)`: falsy values are kept; a truthy non-str has no
      `format_map`; a str is formatted, which inserts the keys it looks up. */
  function FormatIfSet(v: Value, ns: Dict, f: Formatter): (r: Resolved)
    ensures Extends(ns, r.ns, f.missing)
    ensures r.ns.Keys <= ns.Keys + PromptNames(v)
    ensures r.value.Success? ==> r.ns.Keys == ns.Keys + PromptNames(v)
    ensures !Truthy(v) ==> r == Resolved(ns, Success(v))
    ensures Truthy(v) && !v.VStr? ==> r == Resolved(ns, Failure(AttributeError))
    ensures Truthy(v) && v.VStr? && Parse(v.s).Failure? ==> r.value.Failure?
    ensures Truthy(v) && r.value.Success? ==> r.value.value.VStr?
    ensures Truthy(v) && v.VStr? && Parse(v.s).Success? && Simple(Parse(v.s).value)
            ==> r.value == Success(VStr(Substitute(Parse(v.s).value, ns, f.missing)))
  {
    if !Truthy(v) then Resolved(ns, Success(v))
    else if !v.VStr? then Resolved(ns, Failure(AttributeError))
    else
      var fm := FormatMap(v.s, ns, f);
      FormatMapNames(v.s, ns, f);
      assert Parse(v.s).Success? && Simple(Parse(v.s).value)
             ==> FormatMap(v.s, ns, f).text == Success(Substitute(Parse(v.s).value, ns, f.missing)) by {
        if Parse(v.s).Success? && Simple(Parse(v.s).value) {
          FormatSimple(v.s, ns, f);
        }
      }
      Resolved(fm.ns, if fm.text.Success? then Success(VStr(fm.text.value)) else Failure(fm.text.error))
  }

  /** Formatting a prompt sees the same entries in a namespace that only
      gained default entries, so it gives the same value. */
  lemma FormatIfSetExtended(v: Value, ns: Dict, ns2: Dict, f: Formatter)
    requires Extends(ns, ns2, f.missing)
    ensures FormatIfSet(v, ns2, f).value == FormatIfSet(v, ns, f).value
  {
    if Truthy(v) && v.VStr? {
      forall n | n in TemplateNames(v.s) ensures Lookup(ns2, n, f.missing) == Lookup(ns, n, f.missing) {
        ExtendsLookup(ns, ns2, f.missing, n);
      }
      FormatDependsOnNames(v.s, ns2, ns, f);
    }
  }

  /** `self.summarization_gpt_prompt.format_map(ns)`, which is unconditional:
      a non-str template raises AttributeError. */
  function FormatSummary(v: Value, ns: Dict, f: Formatter): (r: Formatted)
    ensures Extends(ns, r.ns, f.missing)
    ensures r.ns.Keys <= ns.Keys + SummaryNames(v)
    ensures r.text.Success? ==> r.ns.Keys == ns.Keys + SummaryNames(v)
    ensures !v.VStr? ==> r == Formatted(ns, Failure(AttributeError))
    ensures v.VStr? && Parse(v.s).Failure? ==> r.text.Failure?
    ensures v.VStr? && Parse(v.s).Success? && Simple(Parse(v.s).value)
            ==> r.text == Success(Substitute(Parse(v.s).value, ns, f.missing))
  {
    if !v.VStr? then Formatted(ns, Failure(AttributeError))
    else
      FormatMapNames(v.s, ns, f);
      assert Parse(v.s).Success? && Simple(Parse(v.s).value)
             ==> FormatMap(v.s, ns, f).text == Success(Substitute(Parse(v.s).value, ns, f.missing)) by {
        if Parse(v.s).Success? && Simple(Parse(v.s).value) {
          FormatSimple(v.s, ns, f);
        }
      }
      FormatMap(v.s, ns, f)
  }

  /** The GPT calls recorded for the messages of a prompt resolution. */
  function Asks(messages: seq<string>): (t: seq<Event>)
    ensures |t| == |messages|
    ensures forall i | 0 <= i < |t| :: t[i] == AskGpt(messages[i])
  {
    seq(|messages|, i requires 0 <= i < |messages| => AskGpt(messages[i]))
  }

  /** The effects of a run between prompt resolution and summarisation. */
  function WorldEffects(a: Action, deck: Deck, prompt: string): seq<Event> {
    [Broadcast(deck.pptAndSlidePrompt), Broadcast(prompt), WorldRun(1),
     Extract(DefaultObjective, Situation(a.intent), [a.kind])]
  }

  /** The phase once its prompt and drafting prompt have been formatted and the
      namespace updated: the state `_get_prompt` sees. */
  datatype Prepared = Prepared(action: Action, ns: Dict)

  /** Steps 1-3 of `run`: the ppt check, formatting of the two prompts with the
      caller's namespace, and the merge of the phase's own mapping into it. */
  function Prepare(a: Action, ns: Dict, f: Formatter): (r: Result<Prepared, Outcome>)
    ensures a.ppt.None? ==> r == Failure(Outcome(a, ns, [], Some(ValueError(NoPptMessage))))
    ensures r.Failure? ==> r.error.trace == [] && r.error.error.Some? && Extends(ns, r.error.ns, f.missing)
    ensures r.Failure? ==> r.error.ns.Keys <= ns.Keys + PromptNames(a.prompt) + PromptNames(a.gptPrompt)
    ensures r.Success? ==>
              && r.value.action == a.(prompt := r.value.action.prompt, gptPrompt := r.value.action.gptPrompt)
              && FormatIfSet(a.prompt, ns, f).value == Success(r.value.action.prompt)
              && FormatIfSet(a.gptPrompt, ns, f).value == Success(r.value.action.gptPrompt)
              && r.value.ns.Keys == ns.Keys + PromptNames(a.prompt) + PromptNames(a.gptPrompt) + MappingKeys(a.kind)
              && (forall k | k in r.value.ns && k !in MappingKeys(a.kind) :: r.value.ns[k] == Lookup(ns, k, f.missing))
              && (forall k | k in MappingKeys(a.kind) :: r.value.ns[k] == Mapping(r.value.action)[k])
  {
    if a.ppt.None? then Failure(Outcome(a, ns, [], Some(ValueError(NoPptMessage))))
    else
      var p := FormatIfSet(a.prompt, ns, f);
      if p.value.Failure? then Failure(Outcome(a, p.ns, [], Some(p.value.error)))
      else
        var a1 := a.(prompt := p.value.value);
        var g := FormatIfSet(a1.gptPrompt, p.ns, f);
        FormatIfSetExtended(a.gptPrompt, ns, p.ns, f);
        if g.value.Failure? then Failure(Outcome(a1, g.ns, [], Some(g.value.error)))
        else
          var a2 := a1.(gptPrompt := g.value.value);
          assert forall k | k in g.ns :: g.ns[k] == Lookup(ns, k, f.missing);
          Success(Prepared(a2, g.ns + Mapping(a2)))
  }

  /** `run(tinyWorld, updateDict)`: prepare, resolve the prompt, let the world
      respond, then summarise. */
  function Run(a: Action, ns: Dict, f: Formatter, gpt: string -> string, extracted: Value): (o: Outcome)
    ensures o.action.kind == a.kind && o.action.intent == a.intent && o.action.ppt == a.ppt
    ensures a.ppt.None? ==> o == Outcome(a, ns, [], Some(ValueError(NoPptMessage)))
  {
    match Prepare(a, ns, f)
    case Failure(o) => o
    case Success(pr) => Respond(pr, f, gpt, extracted)
  }

  /** Steps 4-6 of `run`: `_get_prompt` with no default and no additional
      prompts, the two broadcasts, one world step and the extraction. */
  function Respond(pr: Prepared, f: Formatter, gpt: string -> string, extracted: Value): (o: Outcome)
    requires pr.action.ppt.Some?
    ensures o.action.kind == pr.action.kind && o.action.intent == pr.action.intent
    ensures o.action.ppt == pr.action.ppt
    ensures Extends(pr.ns, o.ns, f.missing)
    ensures o.ns.Keys <= pr.ns.Keys + SummaryNames(pr.action.summarizationPrompt)
    ensures o.error.None? ==>
              GetPrompt(gpt, pr.action.gptPrompt, pr.action.prompt, VNone, []).Success?
              && o.action.prompt.VStr?
              && o.action.result == extracted
              && o.ns.Keys == pr.ns.Keys + SummaryNames(pr.action.summarizationPrompt)
              && |o.trace| >= 5
              && o.trace[..|o.trace| - 5] == Asks(GetPrompt(gpt, pr.action.gptPrompt, pr.action.prompt, VNone, []).value.calls)
              && o.trace[|o.trace| - 5..|o.trace| - 1] == WorldEffects(pr.action, pr.action.ppt.value, o.action.prompt.s)
              && o.action.prompt.s == GetPrompt(gpt, pr.action.gptPrompt, pr.action.prompt, VNone, []).value.text
  {
    match GetPrompt(gpt, pr.action.gptPrompt, pr.action.prompt, VNone, [])
    case Failure(e) => Outcome(pr.action, pr.ns, [], Some(e))
    case Success(d) =>
      var a3 := pr.action.(prompt := VStr(d.text), result := extracted);
      var t := Asks(d.calls) + WorldEffects(pr.action, pr.action.ppt.value, d.text);
      var o := Summarise(a3, pr.ns, f, gpt, t);
      assert o.error.None? ==> o.trace[..|o.trace| - 5] == Asks(d.calls)
                               && o.trace[|o.trace| - 5..|o.trace| - 1] == WorldEffects(pr.action, pr.action.ppt.value, d.text);
      o
  }

  /** Steps 7-8 of `run`: the summarisation template is formatted with the
      updated namespace (inserting the keys it looks up), the results are
      appended to it and GPT answers the deck's prompt followed by it. */
  function Summarise(a: Action, ns: Dict, f: Formatter, gpt: string -> string, t: seq<Event>): (o: Outcome)
    requires a.ppt.Some?
    ensures Extends(ns, o.ns, f.missing)
    ensures o.ns.Keys <= ns.Keys + SummaryNames(a.summarizationPrompt)
    ensures o.error.Some? ==> o.action == a && o.trace == t
    ensures o.error.None? ==>
              o.ns.Keys == ns.Keys + SummaryNames(a.summarizationPrompt)
              && o.action == a.(summarizationPrompt := o.action.summarizationPrompt,
                                combinedResult := o.action.combinedResult)
              && o.action.summarizationPrompt.VStr?
              && FormatSummary(a.summarizationPrompt, ns, f).text.Success?
              && StartsWith(o.action.summarizationPrompt.s, FormatSummary(a.summarizationPrompt, ns, f).text.value)
              && EndsWith(o.action.summarizationPrompt.s, ResponseHeader + Show(a.result))
              && o.action.combinedResult == VStr(gpt(a.ppt.value.pptPrompt + o.action.summarizationPrompt.s))
              && o.trace == t + [AskGpt(a.ppt.value.pptPrompt + o.action.summarizationPrompt.s)]
  {
    var fs := FormatSummary(a.summarizationPrompt, ns, f);
    if fs.text.Failure? then Outcome(a, fs.ns, t, Some(fs.text.error))
    else
      var s := fs.text.value + ResponseHeader + Show(a.result);
      assert s == fs.text.value + (ResponseHeader + Show(a.result));
      var message := a.ppt.value.pptPrompt + s;
      Outcome(a.(summarizationPrompt := VStr(s), combinedResult := VStr(gpt(message))),
              fs.ns, t + [AskGpt(message)], None)
  }

  /** A run that completes broadcasts the slides and then the resolved prompt,
      steps the world once, extracts with the fixed objective, the phase's
      intent and the phase's kind as the only field, and finally asks GPT once
      more with the deck's prompt followed by the new summarisation prompt,
      which ends with the extracted results.  At most one drafting call precedes
      the broadcasts. */
  lemma RunEffects(a: Action, ns: Dict, f: Formatter, gpt: string -> string, extracted: Value)
    ensures var o := Run(a, ns, f, gpt, extracted);
            o.error.None? ==>
            && a.ppt.Some?
            && o.action.prompt.VStr?
            && o.action.result == extracted
            && o.action.summarizationPrompt.VStr?
            && EndsWith(o.action.summarizationPrompt.s, ResponseHeader + Show(extracted))
            && o.action.combinedResult == VStr(gpt(a.ppt.value.pptPrompt + o.action.summarizationPrompt.s))
            && (|o.trace| == 5 || |o.trace| == 6)
            && o.trace[|o.trace| - 5..|o.trace| - 1] == WorldEffects(a, a.ppt.value, o.action.prompt.s)
            && o.trace[|o.trace| - 1] == AskGpt(a.ppt.value.pptPrompt + o.action.summarizationPrompt.s)
  {
    if Run(a, ns, f, gpt, extracted).error.None? {
      var pr := Prepare(a, ns, f).value;
      assert WorldEffects(pr.action, a.ppt.value, Run(a, ns, f, gpt, extracted).action.prompt.s)
          == WorldEffects(a, a.ppt.value, Run(a, ns, f, gpt, extracted).action.prompt.s);
    }
  }

  /** The namespace after a run: the caller's, with every key the three
      templates look up inserted with the default when it was missing, and
      the phase's own mapping (formatted prompts, previous results) merged
      over it before the summary template reads it. */
  lemma RunNamespace(a: Action, ns: Dict, f: Formatter, gpt: string -> string, extracted: Value)
    ensures var o := Run(a, ns, f, gpt, extracted);
            var p := FormatIfSet(a.prompt, ns, f).value;
            var g := FormatIfSet(a.gptPrompt, ns, f).value;
            o.error.None? ==>
            && o.ns.Keys == ns.Keys + MappingKeys(a.kind) + PromptNames(a.prompt)
                            + PromptNames(a.gptPrompt) + SummaryNames(a.summarizationPrompt)
            && (forall k | k in o.ns && k !in MappingKeys(a.kind) :: o.ns[k] == Lookup(ns, k, f.missing))
            && p.Success? && o.ns[PromptKey(a.kind)] == p.value
            && g.Success? && o.ns[GptPromptKey(a.kind)] == g.value
            && o.ns[SummarizationKey(a.kind)] == a.summarizationPrompt
            && o.ns[ResultKey(a.kind)] == a.result
            && o.ns[CombinedKey(a.kind)] == a.combinedResult
  {
    var o := Run(a, ns, f, gpt, extracted);
    if o.error.None? {
      var pr := Prepare(a, ns, f).value;
      assert o == Respond(pr, f, gpt, extracted);
      assert pr.action.summarizationPrompt == a.summarizationPrompt;
      forall k | k in o.ns && k !in MappingKeys(a.kind) ensures o.ns[k] == Lookup(ns, k, f.missing) {
        ExtendsLookup(pr.ns, o.ns, f.missing, k);
      }
      forall k | k in MappingKeys(a.kind) ensures o.ns[k] == Mapping(pr.action)[k] {
        ExtendsLookup(pr.ns, o.ns, f.missing, k);
      }
    }
  }

  /** GPT drafts the prompt exactly when the formatted prompt is empty; the
      drafting message is the formatted drafting prompt and its answer becomes
      the phase's prompt. */
  lemma RunDraftsOnlyWithoutPrompt(a: Action, ns: Dict, f: Formatter, gpt: string -> string, extracted: Value)
    ensures var o := Run(a, ns, f, gpt, extracted);
            var p := FormatIfSet(a.prompt, ns, f).value;
            var g := FormatIfSet(a.gptPrompt, ns, f).value;
            o.error.None? ==>
            && p.Success? && g.Success?
            && (|o.trace| == 5 <==> Truthy(p.value))
            && (Truthy(p.value) ==> o.action.prompt == p.value)
            && (!Truthy(p.value) ==> g.value.VStr?
                                     && o.trace[0] == AskGpt(g.value.s)
                                     && o.action.prompt == VStr(gpt(g.value.s)))
  {
    var o := Run(a, ns, f, gpt, extracted);
    if o.error.None? {
      var pr := Prepare(a, ns, f).value;
      assert o == Respond(pr, f, gpt, extracted);
      GetPromptWithoutDefault(gpt, pr.action.gptPrompt, pr.action.prompt);
      var d := GetPrompt(gpt, pr.action.gptPrompt, pr.action.prompt, VNone, []).value;
      assert o.trace[..|o.trace| - 5] == Asks(d.calls);
      assert |o.trace| == |Asks(d.calls)| + 5;
    }
  }

  /** A summarisation template without fields or braces is kept verbatim and the
      results are appended to it. */
  lemma RunAppendsToSummary(a: Action, ns: Dict, f: Formatter, gpt: string -> string, extracted: Value)
    requires a.summarizationPrompt.VStr? && Plain(a.summarizationPrompt.s)
    ensures Run(a, ns, f, gpt, extracted).error.None? ==>
              Run(a, ns, f, gpt, extracted).action.summarizationPrompt
              == VStr(a.summarizationPrompt.s + ResponseHeader + Show(extracted))
  {
    if Run(a, ns, f, gpt, extracted).error.None? {
      var pr := Prepare(a, ns, f).value;
      FormatPlain(a.summarizationPrompt.s, pr.ns, f);
    }
  }

  /** After a run the phase holds its resolved prompt, so a second run whose
      prompt is brace-free text goes straight to the broadcasts: GPT is asked
      only for the summary. */
  lemma SecondRunSkipsDrafting(a: Action, ns: Dict, f: Formatter, gpt: string -> string,
                               extracted1: Value, extracted2: Value)
    ensures var o := Run(a, ns, f, gpt, extracted1);
            var o2 := Run(o.action, o.ns, f, gpt, extracted2);
            var p := o.action.prompt;
            o.error.None? && p.VStr? && p.s != "" && Plain(p.s) && o2.error.None? ==>
            && |o2.trace| == 5
            && o2.action.prompt == o.action.prompt
  {
    var o := Run(a, ns, f, gpt, extracted1);
    var p := o.action.prompt;
    if o.error.None? && p.VStr? && p.s != "" && Plain(p.s) && Run(o.action, o.ns, f, gpt, extracted2).error.None? {
      RunEffects(a, ns, f, gpt, extracted1);
      FormatPlain(p.s, o.ns, f);
      assert FormatIfSet(p, o.ns, f).value == Success(p);
      RunDraftsOnlyWithoutPrompt(o.action, o.ns, f, gpt, extracted2);
    }
  }

  /** No run happens without a deck: the ValueError comes before any
      formatting, namespace update, broadcast or GPT call. */
  lemma RunNeedsPpt(a: Action, ns: Dict, f: Formatter, gpt: string -> string, extracted: Value)
    requires a.ppt.None?
    ensures Run(a, ns, f, gpt, extracted).trace == []
    ensures Run(a, ns, f, gpt, extracted).ns == ns
    ensures Run(a, ns, f, gpt, extracted).action == a
    ensures Run(a, ns, f, gpt, extracted).error == Some(ValueError(NoPptMessage))
  {
  }
}

=== FILE: persona_settings.dfy ===
/** The `usePersonaSettings` hook of the React front end: the map from row
    index to a persona's settings, and the index of the persona whose
    settings panel is open.  Each handler is a function from the state before
    to the state after; React's batching and re-rendering are not modelled. */
module PersonaSettings {

  import opened Wrappers
  import opened Text
  import opened JsValues

  /** The settings of all personas, keyed by row index. */
  type Settings = map<string, Obj>

  datatype HookState = HookState(settings: Settings, active: Option<string>)

  const DefaultPopulation: int := 5

  /** The empty analysis and Q&A sections a new persona starts with. */
  function EmptySection(kind: string): (r: Obj)
    ensures r.Keys == {kind + "_prompt", kind + "_gpt_prompt", "extracted_result", "combined_result"}
    ensures r["extracted_result"] == JObj(map[]) && r["combined_result"] == JStr("")
  {
    map[kind + "_prompt" := JStr(""), kind + "_gpt_prompt" := JStr(""),
        "extracted_result" := JObj(map[]), "combined_result" := JStr("")]
  }

  /** The fields of a persona's settings. */
  const PersonaFields: set<string> :=
    {"id", "name", "description", "persona_prompt", "persona_gpt_prompt",
     "population_size", "agents", "analysis", "qna"}

  /** The fields whose empty value is the empty string. */
  const TextFields: set<string> := {"name", "description", "persona_prompt", "persona_gpt_prompt"}

  /** The empty value of a field other than `id`: "", a population of five,
      no agents, or an empty section. */
  function Fallback(k: string): JsValue {
    if k in TextFields then JStr("")
    else if k == "population_size" then JNum(DefaultPopulation)
    else if k == "agents" then JArr([])
    else JObj(EmptySection(k))
  }

  /** The settings `addPersona` writes: a null id and every other field
      empty. */
  const DefaultPersona: Obj :=
    map k | k in PersonaFields :: if k == "id" then JNull else Fallback(k)

  /** The new entry has every field: a null id, empty texts, a population
      of five and no agents ... */
  lemma DefaultPersonaShape()
    ensures DefaultPersona["id"] == JNull && DefaultPersona["name"] == JStr("")
    ensures DefaultPersona["population_size"] == JNum(5) && DefaultPersona["agents"] == JArr([])
  {
  }

  /** ... and two empty sections. */
  lemma DefaultPersonaSections()
    ensures DefaultPersona["analysis"] == JObj(EmptySection("analysis"))
    ensures DefaultPersona["qna"] == JObj(EmptySection("qna"))
  {
  }

  // ------------------------------------------------------------ row indices

  /** The keys "0" .. "n-1". */
  function IndexKeys(n: nat): (r: set<string>)
    ensures forall i | 0 <= i < n :: NatStr(i) in r
    ensures forall m: nat | n <= m :: NatStr(m) !in r
    ensures |r| == n
  {
    if n == 0 then {}
    else
      var prev := IndexKeys(n - 1);
      forall m: nat | n <= m ensures NatStr(m) != NatStr(n - 1) {
        if NatStr(m) == NatStr(n - 1) {
          NatStrInjective(m, n - 1);
        }
      }
      prev + {NatStr(n - 1)}
  }

  /** The keys are exactly the row indices 0 .. n-1, as after a load or a
      sequence of additions. */
  predicate Dense(st: Settings) {
    st.Keys == IndexKeys(|st.Keys|)
  }

  // ------------------------------------------------------------ handlers

  /** The key `addPersona` writes: the number of keys, as a string. */
  function NextIndex(st: Settings): string {
    NatStr(|st.Keys|)
  }

  /** `addPersona()`: default settings under the next index, replacing
      whatever is stored there. */
  function AddPersona(st: Settings): (r: Settings)
    ensures NextIndex(st) in r && r[NextIndex(st)] == DefaultPersona
    ensures r.Keys == st.Keys + {NextIndex(st)}
    ensures forall k | k in st && k != NextIndex(st) :: r[k] == st[k]
  {
    Put(st, NextIndex(st), DefaultPersona)
  }

  /** `{...prev, [key]: p}`. */
  function Put(st: Settings, key: string, p: Obj): (r: Settings)
    ensures key in r && r[key] == p
    ensures r.Keys == st.Keys + {key}
    ensures forall k | k in st && k != key :: r[k] == st[k]
  {
    st[key := p]
  }

  /** `removePersona(index)`: drops that entry and closes its panel if it is
      the open one. */
  function RemovePersona(h: HookState, index: string): (r: HookState)
    ensures index !in r.settings
    ensures r.settings.Keys == h.settings.Keys - {index}
    ensures forall k | k in r.settings :: r.settings[k] == h.settings[k]
    ensures r.active.None? <==> h.active.None? || h.active == Some(index)
    ensures r.active.Some? ==> r.active == h.active
  {
    HookState(h.settings - {index}, if h.active == Some(index) then None else h.active)
  }

  /** What `...prev[index]` copies: the stored settings, or nothing. */
  function Stored(st: Settings, index: string): (r: Obj)
    ensures index in st ==> r == st[index]
    ensures index !in st ==> r == map[]
  {
    if index in st then st[index] else map[]
  }

  /** `updatePersona(index, updates)`: the entry becomes its prior fields
      overridden by the updates; every other entry stays. */
  function UpdatePersona(st: Settings, index: string, updates: Obj): (r: Settings)
    ensures r.Keys == st.Keys + {index}
    ensures r[index].Keys == Stored(st, index).Keys + updates.Keys
    ensures forall f | f in updates :: r[index][f] == updates[f]
    ensures forall f | f in Stored(st, index) && f !in updates :: r[index][f] == st[index][f]
    ensures forall k | k in st && k != index :: r[k] == st[k]
  {
    st[index := Stored(st, index) + updates]
  }

  /** The six prompt fields `updatePersonaPrompts` accepts. */
  const PromptFields: set<string> :=
    {"persona_prompt", "persona_gpt_prompt", "analysis_prompt", "analysis_gpt_prompt", "qna_prompt", "qna_gpt_prompt"}

  /** Where `updatePersonaPrompts` puts a field. */
  datatype Target = TopLevel | InSection(name: string) | Nowhere

  /** The `persona_` fields go to the top level, fields starting with
      `analysis_` or `qna_` into that section; any other name is dropped. */
  function TargetOf(field: string): (r: Target)
    ensures r == TopLevel <==> field == "persona_prompt" || field == "persona_gpt_prompt"
    ensures r == InSection("analysis") ==> StartsWith(field, "analysis_")
    ensures r == InSection("qna") ==> StartsWith(field, "qna_")
    ensures r.InSection? ==> r.name == "analysis" || r.name == "qna"
  {
    if field == "persona_prompt" || field == "persona_gpt_prompt" then TopLevel
    else if StartsWith(field, "analysis_") then InSection("analysis")
    else if StartsWith(field, "qna_") then InSection("qna")
    else Nowhere
  }

  /** Every field the TypeScript signature admits has a place. */
  lemma PromptFieldsPlaced(field: string)
    requires field in PromptFields
    ensures TargetOf(field) != Nowhere
  {
    if field == "analysis_prompt" || field == "analysis_gpt_prompt" {
      assert field[..9] == "analysis_";
    } else if field == "qna_prompt" || field == "qna_gpt_prompt" {
      assert field[..4] == "qna_";
    }
  }

  /** A persona's section object with one field set. */
  function SetInSection(p: Obj, section: string, field: string, value: string): (r: Obj)
    ensures section in r && r[section].JObj?
    ensures r[section].fields.Keys == Spread(if section in p then p[section] else JUndefined).Keys + {field}
    ensures r[section].fields[field] == JStr(value)
    ensures r.Keys == p.Keys + {section}
    ensures forall k | k in p && k != section :: r[k] == p[k]
  {
    var prior := if section in p then p[section] else JUndefined;
    p[section := JObj(Spread(prior)[field := JStr(value)])]
  }

  /** `updatePersonaPrompts(index, field, value)`: nothing for an unknown
      index; otherwise the field is set at the top level or inside its
      section, under its full name. */
  function UpdatePersonaPrompts(st: Settings, index: string, field: string, value: string): (r: Settings)
    ensures index !in st ==> r == st
    ensures r.Keys == st.Keys
    ensures forall k | k in st && k != index :: r[k] == st[k]
    ensures index in st && TargetOf(field) == TopLevel ==>
      r[index].Keys == st[index].Keys + {field} && r[index][field] == JStr(value)
    ensures index in st && TargetOf(field).InSection? ==>
      var section := TargetOf(field).name;
      r[index].Keys == st[index].Keys + {section} && r[index][section].JObj?
      && field in r[index][section].fields && r[index][section].fields[field] == JStr(value)
    ensures index in st && TargetOf(field) == TopLevel ==>
      forall k | k in st[index] && k != field :: r[index][k] == st[index][k]
    ensures index in st && TargetOf(field).InSection? ==>
      forall k | k in st[index] && k != TargetOf(field).name :: r[index][k] == st[index][k]
  {
    if index !in st then st
    else
      var p := st[index];
      match TargetOf(field)
      case TopLevel => st[index := p[field := JStr(value)]]
      case InSection(section) => st[index := SetInSection(p, section, field, value)]
      case Nowhere => st[index := p]
  }

  /** `openPersonaSettings(index)`. */
  function Open(h: HookState, index: string): (r: HookState)
    ensures r.settings == h.settings && r.active == Some(index)
  {
    h.(active := Some(index))
  }

  /** `closePersonaSettings()`. */
  function Close(h: HookState): (r: HookState)
    ensures r.settings == h.settings && r.active.None?
  {
    h.(active := None)
  }

  // ------------------------------------------------------------ properties

  /** On dense keys the next index is unused, so adding keeps every entry
      and the keys stay dense. */
  lemma DenseAddIsFresh(st: Settings)
    requires Dense(st)
    ensures NextIndex(st) !in st
    ensures |AddPersona(st).Keys| == |st.Keys| + 1
    ensures Dense(AddPersona(st))
  {
    var n := |st.Keys|;
    var key := NextIndex(st);
    assert key == NatStr(n);
    assert key !in IndexKeys(n);
    IndexKeysStep(n);
    assert AddPersona(st).Keys == IndexKeys(n + 1);
  }

  lemma IndexKeysStep(n: nat)
    ensures IndexKeys(n + 1) == IndexKeys(n) + {NatStr(n)}
  {
  }

  /** On dense keys, removing what was just added gives the settings back. */
  lemma RemoveUndoesAdd(st: Settings, active: Option<string>)
    requires Dense(st)
    ensures RemovePersona(HookState(AddPersona(st), active), NextIndex(st)).settings == st
  {
    DenseAddIsFresh(st);
    assert AddPersona(st) == st[NextIndex(st) := DefaultPersona];
    RemoveAfterInsert(st, NextIndex(st), DefaultPersona);
  }

  lemma RemoveAfterInsert(m: Settings, k: string, v: Obj)
    requires k !in m
    ensures m[k := v] - {k} == m
  {
    assert (m[k := v] - {k}).Keys == m.Keys;
  }

  lemma NextIndexOfOne(st: Settings)
    requires |st.Keys| == 1
    ensures NextIndex(st) == "1"
  {
    assert NatStr(1) == "1";
  }

  /** Once a row other than the last is removed, the count names a live key
      and the next addition overwrites that persona. */
  lemma AddAfterRemoveOverwrites(a: Obj, b: Obj)
    ensures
      var h := HookState(map["0" := a, "1" := b], None);
      AddPersona(RemovePersona(h, "0").settings) == map["1" := DefaultPersona]
  {
    var h := HookState(map["0" := a, "1" := b], None);
    var st := RemovePersona(h, "0").settings;
    RemoveFromPair(a, b, "0", "1");
    assert st == map["1" := b];
    NextIndexOfOne(st);
    PutOverSingleton("1", b, DefaultPersona);
  }

  lemma RemoveFromPair(a: Obj, b: Obj, k0: string, k1: string)
    requires k0 != k1
    ensures map[k0 := a, k1 := b] - {k0} == map[k1 := b]
  {
    assert (map[k0 := a, k1 := b] - {k0}).Keys == {k1};
  }

  lemma PutOverSingleton(k: string, b: Obj, d: Obj)
    ensures Put(map[k := b], k, d) == map[k := d]
  {
  }

  /** Removing the open persona closes its panel; removing another keeps it. */
  lemma RemoveOpened(h: HookState, index: string, other: string)
    requires index != other
    ensures RemovePersona(Open(h, index), index).active.None?
    ensures RemovePersona(Open(h, index), other).active == Some(index)
  {
  }

  /** Applying the same updates twice is applying them once. */
  lemma UpdateIdempotent(st: Settings, index: string, updates: Obj)
    ensures UpdatePersona(UpdatePersona(st, index, updates), index, updates) == UpdatePersona(st, index, updates)
  {
    var once := UpdatePersona(st, index, updates);
    assert Stored(once, index) + updates == Stored(st, index) + updates;
  }

  /** Updating a stored persona with nothing leaves the settings alone. */
  lemma UpdateNothing(st: Settings, index: string)
    requires index in st
    ensures UpdatePersona(st, index, map[]) == st
  {
    assert st[index] + map[] == st[index];
  }

  /** A top-level prompt change is the shallow update of that one field. */
  lemma PersonaPromptIsUpdate(st: Settings, index: string, field: string, value: string)
    requires index in st && TargetOf(field) == TopLevel
    ensures UpdatePersonaPrompts(st, index, field, value) == UpdatePersona(st, index, map[field := JStr(value)])
  {
    assert st[index][field := JStr(value)] == st[index] + map[field := JStr(value)];
  }

  /** A section prompt change replaces the section by a copy with that field
      set, and is the shallow update of the section. */
  lemma SectionPromptIsUpdate(st: Settings, index: string, field: string, value: string)
    requires index in st && TargetOf(field).InSection?
    ensures
      var section := TargetOf(field).name;
      var prior := if section in st[index] then st[index][section] else JUndefined;
      UpdatePersonaPrompts(st, index, field, value)
        == UpdatePersona(st, index, map[section := JObj(Spread(prior)[field := JStr(value)])])
  {
    var section := TargetOf(field).name;
    var prior := if section in st[index] then st[index][section] else JUndefined;
    var u := map[section := JObj(Spread(prior)[field := JStr(value)])];
    assert st[index][section := JObj(Spread(prior)[field := JStr(value)])] == st[index] + u;
  }

  lemma SetInSectionTwice(p: Obj, section: string, field: string, value: string)
    ensures SetInSection(SetInSection(p, section, field, value), section, field, value)
      == SetInSection(p, section, field, value)
  {
    var q := SetInSection(p, section, field, value);
    var o := Spread(q[section]);
    assert o[field := JStr(value)] == o;
  }

  /** Setting the same prompt twice is setting it once. */
  lemma PromptsIdempotent(st: Settings, index: string, field: string, value: string)
    ensures UpdatePersonaPrompts(UpdatePersonaPrompts(st, index, field, value), index, field, value)
      == UpdatePersonaPrompts(st, index, field, value)
  {
    if index in st {
      var once := UpdatePersonaPrompts(st, index, field, value);
      var twice := UpdatePersonaPrompts(once, index, field, value);
      match TargetOf(field)
      case TopLevel =>
        assert once == st[index := st[index][field := JStr(value)]];
        assert twice == once[index := once[index][field := JStr(value)]];
        PutTwice(st, index, st[index], field, JStr(value));
      case InSection(section) =>
        SetInSectionTwice(st[index], section, field, value);
      case Nowhere =>
    }
  }

  lemma PutTwice(st: Settings, index: string, p: Obj, field: string, v: JsValue)
    ensures st[index := p[field := v]][index := st[index := p[field := v]][index][field := v]]
      == st[index := p[field := v]]
  {
    assert p[field := v][field := v] == p[field := v];
  }
}

=== FILE: phases.dfy ===
/** The two concrete phases of backend/utils/PersonaAction.py, `PersonaAnalysis`
    and `PersonaQNA`.  Both follow one pattern, written once over a `PhaseKind`
    that names the kind, its intent and its two default templates. */
module Phases {

  import opened Wrappers
  import opened PyValues
  import opened Template
  import opened Constants
  import opened PersonaAction
  import opened Collaborators

  /** What distinguishes one concrete phase class from the other. */
  datatype PhaseKind = PhaseKind(name: string, intent: string, gptPrompt: string, summarizationPrompt: string)

  /** The subclass constructor with its defaults: the kind's drafting and
      summarisation templates, no prompt (None), no results and no deck. */
  function NewPhase(k: PhaseKind): (a: Action)
    ensures a.kind == k.name && a.intent == k.intent && a.ppt.None?
    ensures a.gptPrompt == VStr(k.gptPrompt) && a.summarizationPrompt == VStr(k.summarizationPrompt)
    ensures a.prompt == VNone && a.result == VNone && a.combinedResult == VNone
  {
    Action(k.name, k.intent, VStr(k.gptPrompt), VNone, VStr(k.summarizationPrompt), VNone, VNone, None)
  }

  /** The subclass `load(action_dict)`: absent templates fall back to the kind's
      defaults, absent prompt and results to None; no deck is loaded. */
  function LoadPhase(k: PhaseKind, d: Dict): (a: Action)
    ensures a.kind == k.name && a.intent == k.intent && a.ppt.None?
    ensures "gpt_prompt" in d ==> a.gptPrompt == d["gpt_prompt"]
    ensures "gpt_prompt" !in d ==> a.gptPrompt == VStr(k.gptPrompt)
    ensures "summarization_gpt_prompt" in d ==> a.summarizationPrompt == d["summarization_gpt_prompt"]
    ensures "summarization_gpt_prompt" !in d ==> a.summarizationPrompt == VStr(k.summarizationPrompt)
  {
    Action(k.name, k.intent,
           Get(d, "gpt_prompt", VStr(k.gptPrompt)),
           Get(d, "prompt", VNone),
           Get(d, "summarization_gpt_prompt", VStr(k.summarizationPrompt)),
           Get(d, "result", VNone),
           Get(d, "combined_result", VNone),
           None)
  }

  /** The subclass `reset()`: the base reset, then the kind's two templates again. */
  function ResetPhase(k: PhaseKind, a: Action): (r: Action)
    ensures r.prompt == VStr("")
    ensures r.gptPrompt == VStr(k.gptPrompt) && r.summarizationPrompt == VStr(k.summarizationPrompt)
    ensures r.result == a.result && r.combinedResult == a.combinedResult && r.ppt == a.ppt
    ensures r.kind == a.kind && r.intent == a.intent
  {
    Reset(a).(gptPrompt := VStr(k.gptPrompt), summarizationPrompt := VStr(k.summarizationPrompt))
  }

  /** Loading an export of a phase of this kind restores all five exported
      fields; the deck is not part of the export and comes back as None. */
  lemma LoadPhaseToDict(k: PhaseKind, a: Action)
    requires a.kind == k.name && a.intent == k.intent
    ensures LoadPhase(k, ToDict(a)) == a.(ppt := None)
  {
  }

  /** Loading an empty dict gives the freshly constructed phase. */
  lemma LoadPhaseEmpty(k: PhaseKind)
    ensures LoadPhase(k, map[]) == NewPhase(k)
  {
  }

  /** A reset phase differs from a new one only in keeping its results and deck
      and in holding '' rather than None as its prompt. */
  lemma ResetPhaseOfNew(k: PhaseKind, a: Action)
    requires a.kind == k.name && a.intent == k.intent
    ensures ResetPhase(k, a) == NewPhase(k).(prompt := VStr(""), result := a.result,
                                             combinedResult := a.combinedResult, ppt := a.ppt)
  {
  }

  // ------------------------------------------------------------ the two kinds

  const AnalysisIntent: string := "Analyze a powerpoint presentation and provide feedback"
  const QnaIntent: string := "Ask questions about a powerpoint presentation"

  /** `PersonaAnalysis`. */
  const Analysis: PhaseKind := PhaseKind("analysis", AnalysisIntent, AnalysisGptPrompt, AnalysisSummarizationPrompt)

  /** `PersonaQNA`. */
  const Qna: PhaseKind := PhaseKind("qna", QnaIntent, QnaGptPrompt, QnaSummarizationPrompt)

  /** The phase kind called `kind`: analysis, and otherwise question-and-answer. */
  function KindNamed(kind: string): PhaseKind {
    if kind == "analysis" then Analysis else Qna
  }

  /** Of the analysis summary template's fields, exactly the phase's prompt and
      result come from the phase's own mapping; the other three must be
      supplied by the caller's namespace. */
  lemma AnalysisSummaryReadsOwnMapping()
    ensures Parse(AnalysisSummarizationPrompt).Success?
    ensures Placeholders(Parse(AnalysisSummarizationPrompt).value) * MappingKeys("analysis")
         == {PromptKey("analysis"), ResultKey("analysis")}
  {
    AnalysisSummarizationPromptPlaceholders();
    var fields := {"persona_name", "persona_description", "ppt_details", "analysis_prompt", "analysis_result"};
    assert Placeholders(Parse(AnalysisSummarizationPrompt).value) == fields;
    KeysSpelled();
    OwnFieldsSplit("analysis", fields);
  }

  /** The same for the question-and-answer summary template. */
  lemma QnaSummaryReadsOwnMapping()
    ensures Parse(QnaSummarizationPrompt).Success?
    ensures Placeholders(Parse(QnaSummarizationPrompt).value) * MappingKeys("qna")
         == {PromptKey("qna"), ResultKey("qna")}
  {
    QnaSummarizationPromptPlaceholders();
    var fields := {"persona_name", "persona_description", "ppt_details", "qna_prompt", "qna_result"};
    assert Placeholders(Parse(QnaSummarizationPrompt).value) == fields;
    KeysSpelled();
    OwnFieldsSplit("qna", fields);
  }

  /** The two kinds' prompt and result keys, spelled out. */
  lemma KeysSpelled()
    ensures PromptKey("analysis") == "analysis_prompt" && ResultKey("analysis") == "analysis_result"
    ensures PromptKey("qna") == "qna_prompt" && ResultKey("qna") == "qna_result"
  {
  }

  /** A summary template's fields are the three persona and deck fields plus the
      kind's prompt and result; only the last two are mapping keys. */
  lemma OwnFieldsSplit(kind: string, fields: set<string>)
    requires kind == "analysis" || kind == "qna"
    requires fields == {"persona_name", "persona_description", "ppt_details", PromptKey(kind), ResultKey(kind)}
    ensures fields * MappingKeys(kind) == {PromptKey(kind), ResultKey(kind)}
  {
    var others := {"persona_name", "persona_description", "ppt_details"};
    assert fields == others + {PromptKey(kind), ResultKey(kind)};
    forall o | o in others ensures o !in MappingKeys(kind) {
      assert o[0] == 'p' && kind[0] != 'p';
      assert PromptKey(kind)[0] == GptPromptKey(kind)[0] == SummarizationKey(kind)[0] == kind[0];
      assert ResultKey(kind)[0] == CombinedKey(kind)[0] == kind[0];
    }
  }

  /** After the first run of a new phase, the caller's namespace has gained the
      phase's five mapping keys and the three persona and deck keys its summary
      template names (inserted with the default when the caller lacked them);
      the drafting template names nothing. */
  lemma NewPhaseRunNamespace(kind: string, deck: Deck, ns: Dict, f: Formatter,
                             gpt: string -> string, extracted: Value)
    requires kind == "analysis" || kind == "qna"
    ensures var o := Run(NewPhase(KindNamed(kind)).(ppt := Some(deck)), ns, f, gpt, extracted);
            o.error.None? ==>
              o.ns.Keys == ns.Keys + MappingKeys(kind) + {"persona_name", "persona_description", "ppt_details"}
  {
    var k := KindNamed(kind);
    var a := NewPhase(k).(ppt := Some(deck));
    if Run(a, ns, f, gpt, extracted).error.None? {
      RunNamespace(a, ns, f, gpt, extracted);
      KindNames(kind);
      assert PromptNames(a.gptPrompt) == {} && PromptNames(a.prompt) == {};
      assert SummaryNames(a.summarizationPrompt) <= {"persona_name", "persona_description", "ppt_details"} + MappingKeys(kind);
    }
  }

  /** The keys each kind's templates look up: none in the drafting template,
      the persona and deck keys and the phase's prompt and result in the
      summary template. */
  lemma KindNames(kind: string)
    requires kind == "analysis" || kind == "qna"
    ensures KindNamed(kind).name == kind
    ensures TemplateNames(KindNamed(kind).gptPrompt) == {}
    ensures TemplateNames(KindNamed(kind).summarizationPrompt)
         == {"persona_name", "persona_description", "ppt_details", PromptKey(kind), ResultKey(kind)}
  {
    KeysSpelled();
    if kind == "analysis" {
      AnalysisGptPromptIsPlain();
      PlainHasNoPlaceholders(AnalysisGptPrompt);
      TemplateNamesOfPlaceholders(AnalysisGptPrompt, {});
      AnalysisSummarizationPromptPlaceholders();
      TemplateNamesOfPlaceholders(AnalysisSummarizationPrompt,
        {"persona_name", "persona_description", "ppt_details", "analysis_prompt", "analysis_result"});
    } else {
      QnaGptPromptIsPlain();
      PlainHasNoPlaceholders(QnaGptPrompt);
      TemplateNamesOfPlaceholders(QnaGptPrompt, {});
      QnaSummarizationPromptPlaceholders();
      TemplateNamesOfPlaceholders(QnaSummarizationPrompt,
        {"persona_name", "persona_description", "ppt_details", "qna_prompt", "qna_result"});
    }
  }

  /** A new phase has no prompt, so its first run asks GPT to draft one from
      the kind's drafting template; a template without fields reaches GPT
      verbatim. */
  lemma NewPhaseDraftsFromTemplate(k: PhaseKind, deck: Deck, ns: Dict, f: Formatter,
                                   gpt: string -> string, extracted: Value)
    requires Plain(k.gptPrompt) && |k.gptPrompt| > 0
    ensures var o := Run(NewPhase(k).(ppt := Some(deck)), ns, f, gpt, extracted);
            o.error.None? ==> o.trace[0] == AskGpt(k.gptPrompt)
  {
    FormatPlain(k.gptPrompt, ns, f);
    RunDraftsOnlyWithoutPrompt(NewPhase(k).(ppt := Some(deck)), ns, f, gpt, extracted);
  }

  /** The analysis drafting template is non-empty and free of fields, so a new
      analysis phase drafts from it verbatim. */
  lemma AnalysisDraftsVerbatim()
    ensures Plain(Analysis.gptPrompt) && |Analysis.gptPrompt| > 0
  {
    AnalysisGptPromptIsPlain();
    AnalysisGptPromptNonEmpty();
  }

  /** The same for the question-and-answer drafting template. */
  lemma QnaDraftsVerbatim()
    ensures Plain(Qna.gptPrompt) && |Qna.gptPrompt| > 0
  {
    QnaGptPromptIsPlain();
    QnaGptPromptNonEmpty();
  }
}

=== FILE: ppt.dfy ===
/** The lower-case `PPT` class of backend/utils/ppt.py: a presentation's details
    and its per-slide content rendered into prompt text. */
module Ppt {

  import opened Wrappers
  import opened Text
  import opened PyValues

  /** One slide as the extractor's JSON gives it: a dict that may hold 'text' and 'notes'. */
  type Slide = Dict

  /** `PPT(ppt_details, ppt_json)`; the slides are keyed "slide1", "slide2", ... */
  datatype PPT = PPT(details: Dict, slides: map<string, Slide>)

  // ------------------------------------------------------------------ details

  /** The value shown for one detail: the stored value's `str()`, or '' when absent. */
  function Detail(details: Dict, key: string): string {
    Show(Get(details, key, VStr("")))
  }

  /** One labelled line of the details prompt. */
  function DetailLine(caption: string, details: Dict, key: string): string {
    caption + Detail(details, key)
  }

  /** `ppt_details_prompt()`: four labelled lines between a leading and a trailing newline. */
  function DetailsPrompt(p: PPT): string {
    "\n" + DetailLine("Presentation Name: ", p.details, "title")
    + "\n" + DetailLine("Presentation Description: ", p.details, "description")
    + "\n" + DetailLine("Presentation Intent: ", p.details, "intent")
    + "\n" + DetailLine("Presentation Audience: ", p.details, "audience")
    + "\n"
  }

  /** The four lines of the details prompt, in order. */
  function DetailLines(p: PPT): seq<string> {
    [DetailLine("Presentation Name: ", p.details, "title"),
     DetailLine("Presentation Description: ", p.details, "description"),
     DetailLine("Presentation Intent: ", p.details, "intent"),
     DetailLine("Presentation Audience: ", p.details, "audience")]
  }

  /** When no detail spans several lines, splitting the prompt at newlines gives
      exactly the four labelled lines, framed by an empty first and last piece. */
  lemma DetailsPromptLines(p: PPT)
    requires forall k | 0 <= k < |DetailLines(p)| :: '\n' !in DetailLines(p)[k]
    ensures Split(DetailsPrompt(p), '\n') == [""] + DetailLines(p) + [""]
  {
    var ls := DetailLines(p);
    var parts := [""] + ls + [""];
    assert parts == ["", ls[0], ls[1], ls[2], ls[3], ""];
    JoinFramed4("\n", ls[0], ls[1], ls[2], ls[3]);
    forall k | 0 <= k < |parts| ensures '\n' !in parts[k] {
      if 1 <= k <= 4 {
        assert parts[k] == ls[k - 1];
      }
    }
    SplitJoin(parts, '\n');
  }

  /** Four pieces framed by empty pieces join with the separator at both ends. */
  lemma JoinFramed4(sep: string, a: string, b: string, c: string, d: string)
    ensures Join(sep, ["", a, b, c, d, ""]) == sep + a + sep + b + sep + c + sep + d + sep
  {
    assert Join(sep, [""]) == "";
    JoinSnoc(sep, [""], a);
    assert [""] + [a] == ["", a];
    JoinSnoc(sep, ["", a], b);
    assert ["", a] + [b] == ["", a, b];
    JoinSnoc(sep, ["", a, b], c);
    assert ["", a, b] + [c] == ["", a, b, c];
    JoinSnoc(sep, ["", a, b, c], d);
    assert ["", a, b, c] + [d] == ["", a, b, c, d];
    JoinSnoc(sep, ["", a, b, c, d], "");
    assert ["", a, b, c, d] + [""] == ["", a, b, c, d, ""];
    assert "" + sep == sep;
  }

  /** A detail the dict lacks renders as the empty string after its label. */
  lemma MissingDetailsRenderEmpty(p: PPT)
    requires p.details == map[]
    ensures DetailLines(p)
         == ["Presentation Name: ", "Presentation Description: ", "Presentation Intent: ", "Presentation Audience: "]
  {
    forall caption: string, key: string ensures DetailLine(caption, p.details, key) == caption {
      assert Detail(p.details, key) == "";
      assert caption + "" == caption;
    }
  }

  // ------------------------------------------------------------- slide content

  /** The key under which slide `i` is stored. */
  function SlideKey(i: nat): string {
    "slide" + NatStr(i)
  }

  lemma SlideKeyInjective(a: nat, b: nat)
    requires SlideKey(a) == SlideKey(b)
    ensures a == b
  {
    assert NatStr(a) == SlideKey(a)[5..] == SlideKey(b)[5..] == NatStr(b);
    NatStrInjective(a, b);
  }

  /** The keys "slide1" ... "sliden". */
  function SlideKeys(n: nat): set<string> {
    set k | 1 <= k <= n :: SlideKey(k)
  }

  /** Indentation of the slide template's lines. */
  const Indent: string := Repeat(' ', 16)

  /** What precedes and follows the slide's text inside the template. */
  const Lead: string := "\n" + Indent
  const Trail: string := "\n" + Repeat(' ', 12)

  /** The label every block starts with. */
  function SlideLabel(i: nat): string {
    "Slide " + NatStr(i) + "\n"
  }

  /** The text and notes lines of the template, indentation included. */
  function TextAndNotes(text: string, notes: string): string {
    Indent + "Slide Text: " + text + "\n" + Indent + "Slide Notes: " + notes
  }

  /** The slide template before stripping. */
  function RawSlideBlock(i: nat, text: string, notes: string): string {
    Lead + (SlideLabel(i) + TextAndNotes(text, notes)) + Trail
  }

  /** Slide `i` rendered and stripped; 'No Text' and 'No Notes' stand in for absent keys. */
  function SlideBlock(i: nat, slide: Slide): string {
    PyStrip(RawSlideBlock(i, Show(Get(slide, "text", VStr("No Text"))),
                          Show(Get(slide, "notes", VStr("No Notes")))))
  }

  /** Stripping a rendered slide drops exactly the template's surrounding indentation. */
  lemma StripSlideBlock(i: nat, text: string, notes: string)
    ensures PyStrip(RawSlideBlock(i, text, notes)) == PyStrip(SlideLabel(i) + TextAndNotes(text, notes))
  {
    assert AllIn(Lead, IsPySpace) by {
      forall j | 0 <= j < |Lead| ensures IsPySpace(Lead[j]) {
        if j > 0 {
          assert Lead[j] == Indent[j - 1];
        }
      }
    }
    assert AllIn(Trail, IsPySpace) by {
      forall j | 0 <= j < |Trail| ensures IsPySpace(Trail[j]) {
        if j > 0 {
          assert Trail[j] == Repeat(' ', 12)[j - 1];
        }
      }
    }
    var body := SlideLabel(i) + TextAndNotes(text, notes);
    TrimDropsTrailing(Lead + body, Trail, IsPySpace);
    TrimDropsLeading(Lead, body, IsPySpace);
  }

  /** The adjacent literals "Presentation content:\n\n" and "\n\n--------\n" form one separator. */
  const ContentSeparator: string := "Presentation content:\n\n\n\n--------\n"

  /** The slides stored under "slide<from>" .. "slide<n>", in that order, or the
      KeyError of the first key that is missing. */
  function OrderedSlides(slides: map<string, Slide>, from: nat, n: nat): (r: Result<seq<Slide>, Exc>)
    requires 1 <= from <= n + 1
    ensures r.Success? <==> forall k | from <= k <= n :: SlideKey(k) in slides
    ensures r.Success? ==>
              |r.value| == n + 1 - from
              && forall j | 0 <= j < |r.value| :: r.value[j] == slides[SlideKey(from + j)]
    ensures r.Failure? ==> r.error.KeyError?
    decreases n + 1 - from
  {
    if from == n + 1 then Success([])
    else if SlideKey(from) !in slides then Failure(KeyError(SlideKey(from)))
    else
      var rest := OrderedSlides(slides, from + 1, n);
      if rest.Failure? then
        Failure(rest.error)
      else
        Success([slides[SlideKey(from)]] + rest.value)
  }

  /** The lookup fails on the first missing key in index order. */
  lemma {:induction false} OrderedSlidesReportsFirstMissing(slides: map<string, Slide>, from: nat, n: nat, k: nat)
    requires 1 <= from <= k <= n
    requires SlideKey(k) !in slides
    requires forall j | from <= j < k :: SlideKey(j) in slides
    ensures OrderedSlides(slides, from, n) == Failure(KeyError(SlideKey(k)))
    decreases k - from
  {
    if from < k {
      assert SlideKey(from) in slides;
      OrderedSlidesReportsFirstMissing(slides, from + 1, n, k);
    }
  }

  /** Each slide rendered as a block numbered by its position, from 1. */
  function SlideBlocks(ordered: seq<Slide>): (blocks: seq<string>)
    ensures |blocks| == |ordered|
    ensures forall j | 0 <= j < |ordered| :: blocks[j] == SlideBlock(j + 1, ordered[j])
  {
    Numbered(ordered, SlideBlock)
  }

  /** Renders a slide given its position. */
  type SlideRender = (nat, Slide) -> string

  /** Each slide rendered with its position, counted from 1. */
  function Numbered(xs: seq<Slide>, render: SlideRender): (r: seq<string>)
    ensures |r| == |xs|
    ensures forall j | 0 <= j < |xs| :: r[j] == render(j + 1, xs[j])
  {
    seq(|xs|, j requires 0 <= j < |xs| => render(j + 1, xs[j]))
  }

  /** `slide_content_prompt()`: slides 1 .. len(ppt_json) in index order, each block
      stripped, joined by the separator. */
  function SlideContentPrompt(p: PPT): (r: Result<string, Exc>)
    ensures r.Success? <==> forall k | 1 <= k <= |p.slides| :: SlideKey(k) in p.slides
    ensures r.Failure? ==> r.error.KeyError?
    ensures r.Success? && |p.slides| == 0 ==> r.value == ""
    ensures r.Success? && |p.slides| == 1 ==> r.value == SlideBlock(1, p.slides[SlideKey(1)])
  {
    var ordered :- OrderedSlides(p.slides, 1, |p.slides|);
    Success(Join(ContentSeparator, SlideBlocks(ordered)))
  }

  /** Rendering succeeds exactly when the slide keys are "slide1" .. "slide<n>" for n slides. */
  lemma SlideContentNeedsExactKeys(p: PPT)
    ensures SlideContentPrompt(p).Success? <==> p.slides.Keys == SlideKeys(|p.slides|)
  {
    var n := |p.slides|;
    if SlideContentPrompt(p).Success? {
      var ks := SlideKeys(n);
      assert ks <= p.slides.Keys;
      SlideKeysCount(n);
      SubsetOfSameSize(ks, p.slides.Keys);
    } else {
      var k :| 1 <= k <= n && SlideKey(k) !in p.slides;
      assert SlideKey(k) in SlideKeys(n);
    }
  }

  lemma {:induction false} SlideKeysCount(n: nat)
    ensures |SlideKeys(n)| == n
  {
    if n > 0 {
      SlideKeysCount(n - 1);
      assert SlideKeys(n) == SlideKeys(n - 1) + {SlideKey(n)};
      if SlideKey(n) in SlideKeys(n - 1) {
        var k :| 1 <= k <= n - 1 && SlideKey(k) == SlideKey(n);
        SlideKeyInjective(k, n);
      }
    }
  }

  lemma SubsetOfSameSize<T>(a: set<T>, b: set<T>)
    requires a <= b && |a| == |b|
    ensures a == b
  {
    if a != b {
      var x :| x in b && x !in a;
      SubsetSize(a, b - {x});
    }
  }

  lemma SubsetSize<T>(a: set<T>, b: set<T>)
    requires a <= b
    ensures |a| <= |b|
  {
    assert b == a + (b - a);
  }

  /** The rendered content holds one block per slide, in slide order, each opening
      with its "Slide i" label. */
  lemma SlideContentBlocks(p: PPT) returns (blocks: seq<string>)
    requires SlideContentPrompt(p).Success?
    ensures |blocks| == |p.slides|
    ensures SlideContentPrompt(p).value == Join(ContentSeparator, blocks)
    ensures forall j | 0 <= j < |blocks| :: StartsWith(blocks[j], SlideLabel(j + 1))
  {
    var ordered := OrderedSlides(p.slides, 1, |p.slides|).value;
    blocks := SlideBlocks(ordered);
    assert SlideContentPrompt(p) == Success(Join(ContentSeparator, blocks));
    BlocksLabelled(ordered);
  }

  lemma BlocksLabelled(ordered: seq<Slide>)
    ensures forall j | 0 <= j < |ordered| :: StartsWith(SlideBlocks(ordered)[j], SlideLabel(j + 1))
  {
    forall j | 0 <= j < |ordered| ensures StartsWith(SlideBlocks(ordered)[j], SlideLabel(j + 1)) {
      SlideBlockLabel(j + 1, ordered[j]);
    }
  }

  /** Stripping removes only the template's indentation before the label. */
  lemma SlideBlockLabel(i: nat, slide: Slide)
    ensures StartsWith(SlideBlock(i, slide), SlideLabel(i))
  {
    var t := Show(Get(slide, "text", VStr("No Text")));
    var n := Show(Get(slide, "notes", VStr("No Notes")));
    StripSlideBlock(i, t, n);
    TextAndNotesVisible(t, n);
    assert SlideLabel(i)[0] == 'S';
    TrimKeepsPrefix(SlideLabel(i), TextAndNotes(t, n), IsPySpace);
  }

  /** The text line's caption is visible, so the lines after the label never strip away. */
  lemma TextAndNotesVisible(text: string, notes: string)
    ensures !AllIn(TextAndNotes(text, notes), IsPySpace)
  {
    var tn := TextAndNotes(text, notes);
    var head := Indent + "Slide Text: ";
    assert head[16] == 'S';
    assert tn[16] == head[16];
  }

  /** A slide whose notes end in visible text renders as exactly the label, the
      text line and the notes line, with the template's inner indentation kept. */
  lemma SlideBlockExact(i: nat, slide: Slide)
    requires var n := Show(Get(slide, "notes", VStr("No Notes")));
             |n| > 0 && !IsPySpace(n[|n| - 1])
    ensures SlideBlock(i, slide)
         == SlideLabel(i) + TextAndNotes(Show(Get(slide, "text", VStr("No Text"))),
                                         Show(Get(slide, "notes", VStr("No Notes"))))
  {
    var t := Show(Get(slide, "text", VStr("No Text")));
    var n := Show(Get(slide, "notes", VStr("No Notes")));
    StripSlideBlock(i, t, n);
    var body := SlideLabel(i) + TextAndNotes(t, n);
    assert body[|body| - 1] == n[|n| - 1];
    assert body[0] == 'S';
    TrimKeepsTight(body, IsPySpace);
  }

  /** A slide with neither text nor notes shows the two placeholders. */
  lemma EmptySlideBlock(i: nat)
    ensures SlideBlock(i, map[]) == SlideLabel(i) + TextAndNotes("No Text", "No Notes")
  {
    SlideBlockExact(i, map[]);
  }
}

=== FILE: pptx.dfy ===
/** `PPTXExtractor` of pptx_extractor.py: collects the visible text of each
    slide and of each notes page of an unpacked .pptx archive, and the names of
    its media files.

    Unzipping is not modelled: the archive arrives already unpacked, as the
    listings and file contents of its ppt/slides, ppt/notesSlides and
    ppt/media directories (each None when the directory does not exist).
    `ET.fromstring` is a function parameter returning the parsed element tree,
    or None for a ParseError. */
module Pptx {

  import opened Wrappers
  import opened Text
  import opened PyValues
  import opened Sorting

  /** An XML element: its tag (with any `{namespace}` prefix), its text
      (None when it has none) and its children in document order. */
  datatype Node = Node(tag: string, text: Option<string>, children: seq<Node>)

  /** `root.iter()`: the element and all its descendants in document order. */
  function Iter(n: Node): (r: seq<Node>)
    ensures |r| >= 1 && r[0] == n
    decreases n, 1
  {
    [n] + IterAll(n.children)
  }

  function IterAll(ns: seq<Node>): seq<Node>
    decreases ns, 0
  {
    if |ns| == 0 then [] else Iter(ns[0]) + IterAll(ns[1..])
  }

  /** Whether an element contributes text: a tag in some namespace ending in
      `t`, and text that is not blank. */
  predicate IsText(n: Node) {
    EndsWith(n.tag, "}t") && n.text.Some? && PyStrip(n.text.value) != ""
  }

  /** The stripped texts of the contributing elements, in order. */
  function Texts(ns: seq<Node>): (r: seq<string>)
    ensures |r| <= |ns|
    ensures forall k | 0 <= k < |r| :: r[k] != ""
  {
    if |ns| == 0 then []
    else (if IsText(ns[0]) then [PyStrip(ns[0].text.value)] else []) + Texts(ns[1..])
  }

  /** Collecting piece by piece gives the collection of the whole, so the
      texts keep document order. */
  lemma {:induction false} TextsAppend(a: seq<Node>, b: seq<Node>)
    ensures Texts(a + b) == Texts(a) + Texts(b)
  {
    if |a| > 0 {
      assert (a + b)[1..] == a[1..] + b;
      TextsAppend(a[1..], b);
    } else {
      assert a + b == b;
    }
  }

  /** An element's own text comes before the texts of its descendants. */
  lemma ElementBeforeDescendants(n: Node)
    ensures Texts(Iter(n)) == (if IsText(n) then [PyStrip(n.text.value)] else []) + Texts(IterAll(n.children))
  {
    TextsAppend([n], IterAll(n.children));
  }

  /** A tag without a namespace is not collected, whatever its text. */
  lemma PlainTagIgnored(text: Option<string>, children: seq<Node>)
    ensures !IsText(Node("t", text, children))
  {
  }

  /** A namespaced text element with non-blank text is collected, stripped. */
  lemma NamespacedTagCollected(ns: string, text: string)
    requires PyStrip(text) != ""
    ensures Texts([Node("{" + ns + "}t", Some(text), [])]) == [PyStrip(text)]
  {
    var tag := "{" + ns + "}t";
    assert tag[|tag| - 2..] == "}t";
  }

  /** `extract_text_from_xml(xml)`: the collected texts joined by newlines, or
      "" when the XML does not parse. */
  function ExtractText(xml: string, parse: string -> Option<Node>): (r: string)
    ensures parse(xml).None? ==> r == ""
    ensures parse(xml).Some? ==> r == Join("\n", Texts(Iter(parse(xml).value)))
  {
    match parse(xml)
    case None => ""
    case Some(root) => Join("\n", Texts(Iter(root)))
  }

  /** Only non-empty collections give non-empty text. */
  lemma ExtractTextEmpty(xml: string, parse: string -> Option<Node>)
    requires parse(xml).Some?
    ensures ExtractText(xml, parse) == "" <==> Texts(Iter(parse(xml).value)) == []
  {
    var t := Texts(Iter(parse(xml).value));
    if |t| > 0 {
      JoinHead(t);
    }
  }

  lemma JoinHead(parts: seq<string>)
    requires |parts| > 0 && parts[0] != ""
    ensures Join("\n", parts) != ""
  {
    if |parts| > 1 {
      assert Join("\n", parts) == parts[0] + "\n" + Join("\n", parts[1..]);
    }
  }

  // ------------------------------------------------------------ slide numbers

  /** The longest run of digits `s` starts with. */
  function DigitRun(s: string): (r: string)
    ensures |r| <= |s| && r == s[..|r|]
    ensures forall k | 0 <= k < |r| :: IsDigit(r[k])
    ensures |r| == |s| || !IsDigit(s[|r|])
  {
    if |s| == 0 || !IsDigit(s[0]) then "" else [s[0]] + DigitRun(s[1..])
  }

  /** `re.search(p + r'(\d+)', s).group(1)`: the digits after the leftmost
      occurrence of `p` that is followed by a digit; None when there is none
      (the code then raises AttributeError on `.group`). */
  function SearchNumber(s: string, p: string): (r: Option<string>)
    ensures r.Some? ==> |r.value| > 0 && forall k | 0 <= k < |r.value| :: IsDigit(r.value[k])
    decreases |s|
  {
    if |s| <= |p| then None
    else if StartsWith(s, p) && IsDigit(s[|p|]) then Some(DigitRun(s[|p|..]))
    else SearchNumber(s[1..], p)
  }

  /** `p` occurs in `s` at `i` and a digit follows it. */
  ghost predicate MatchAt(s: string, p: string, i: int) {
    0 <= i && i + |p| < |s| && s[i..i + |p|] == p && IsDigit(s[i + |p|])
  }

  /** The search finds nothing exactly when no occurrence of `p` is followed
      by a digit, and otherwise reads the digits after the leftmost one. */
  lemma {:induction false} SearchNumberLeftmost(s: string, p: string)
    ensures SearchNumber(s, p).None? <==> forall i :: !MatchAt(s, p, i)
    ensures SearchNumber(s, p).Some? ==>
      exists i :: MatchAt(s, p, i) && (forall j | j < i :: !MatchAt(s, p, j))
                  && SearchNumber(s, p).value == DigitRun(s[i + |p|..])
    decreases |s|
  {
    if |s| <= |p| {
    } else if StartsWith(s, p) && IsDigit(s[|p|]) {
      assert s[0..|p|] == p;
      assert MatchAt(s, p, 0);
    } else {
      assert s[..|p|] == s[0..|p|];
      SearchNumberLeftmost(s[1..], p);
      forall i ensures MatchAt(s, p, i + 1) <==> MatchAt(s[1..], p, i) {
        if 0 <= i && i + 1 + |p| < |s| {
          assert s[i + 1..i + 1 + |p|] == s[1..][i..i + |p|];
        }
      }
      if SearchNumber(s, p).Some? {
        var i :| MatchAt(s[1..], p, i) && (forall j | j < i :: !MatchAt(s[1..], p, j))
                 && SearchNumber(s, p).value == DigitRun(s[1..][i + |p|..]);
        assert s[1..][i + |p|..] == s[i + 1 + |p|..];
        forall j | j < i + 1 ensures !MatchAt(s, p, j) {
          if j > 0 { assert !MatchAt(s[1..], p, j - 1); }
        }
        assert MatchAt(s, p, i + 1);
      } else {
        forall i ensures !MatchAt(s, p, i) {
          if i > 0 { assert !MatchAt(s[1..], p, i - 1); }
        }
      }
    }
  }

  /** A file named `<p><n>.xml` yields the digits of n. */
  lemma SearchNumberOfName(p: string, n: nat)
    ensures SearchNumber(p + NatStr(n) + ".xml", p) == Some(NatStr(n))
  {
    var d := NatStr(n);
    var s := p + d + ".xml";
    NatStrDigits(n);
    assert s[..|p|] == p && s[|p|..] == d + ".xml";
    assert s[|p|] == d[0];
    DigitRunOf(d, ".xml");
  }

  lemma DigitRunOf(d: string, rest: string)
    requires forall k | 0 <= k < |d| :: IsDigit(d[k])
    requires rest == "" || !IsDigit(rest[0])
    ensures DigitRun(d + rest) == d
  {
    if |d| > 0 {
      assert (d + rest)[1..] == d[1..] + rest;
      DigitRunOf(d[1..], rest);
    } else {
      assert d + rest == rest;
    }
  }

  lemma NatStrDigits(n: nat)
    ensures |NatStr(n)| > 0 && forall k | 0 <= k < |NatStr(n)| :: IsDigit(NatStr(n)[k])
  {
    DigitsValueOfNatStr(n);
  }

  // ------------------------------------------------------------ the archive

  /** A directory of the unpacked archive: its listing and the contents of
      its files. */
  datatype Dir = Dir(names: seq<string>, read: string -> string)

  /** The unpacked archive's three directories. */
  datatype Archive = Archive(slides: Option<Dir>, notes: Option<Dir>, media: Option<seq<string>>)

  /** The entry one file contributes: "Slide <n><tail>\n<text>" when its
      text is not empty. */
  function Entry(number: string, tail: string, text: string): (r: string)
    ensures StartsWith(r, "Slide ") && '\n' in r
  {
    var r := "Slide " + number + tail + "\n" + text;
    assert r[6 + |number| + |tail|] == '\n';
    r
  }

  /** Entry lists computed one after the other: the first error wins,
      otherwise the lists are concatenated. */
  function Then(x: Result<seq<string>, Exc>, y: Result<seq<string>, Exc>): (r: Result<seq<string>, Exc>)
    ensures x.Failure? ==> r == x
    ensures x.Success? && y.Failure? ==> r == y
    ensures x.Success? && y.Success? ==> r == Success(x.value + y.value)
  {
    match x
    case Failure(e) => Failure(e)
    case Success(u) =>
      match y
      case Failure(e) => Failure(e)
      case Success(v) => Success(u + v)
  }

  lemma ThenAssoc(x: Result<seq<string>, Exc>, y: Result<seq<string>, Exc>, z: Result<seq<string>, Exc>)
    ensures Then(Then(x, y), z) == Then(x, Then(y, z))
  {
    if x.Success? && y.Success? && z.Success? {
      assert (x.value + y.value) + z.value == x.value + (y.value + z.value);
    }
  }

  /** What one file of a directory contributes: nothing unless it is an
      `.xml` file; AttributeError when its name has no digits after `p`;
      otherwise one entry when its text is not empty. */
  function FileEntry(name: string, d: Dir, p: string, tail: string,
                     parse: string -> Option<Node>): (r: Result<seq<string>, Exc>)
    ensures !EndsWith(name, ".xml") ==> r == Success([])
    ensures EndsWith(name, ".xml") ==> (r.Failure? <==> SearchNumber(name, p).None?)
    ensures r.Failure? ==> r.error == AttributeError
    ensures r.Success? ==> |r.value| <= 1
    ensures r.Success? ==> forall k | 0 <= k < |r.value| :: StartsWith(r.value[k], "Slide ") && '\n' in r.value[k]
    ensures r.Success? && EndsWith(name, ".xml") ==>
      (|r.value| == 1 <==> ExtractText(d.read(name), parse) != "")
  {
    if !EndsWith(name, ".xml") then Success([])
    else match SearchNumber(name, p)
      case None => Failure(AttributeError)
      case Some(n) =>
        var text := ExtractText(d.read(name), parse);
        if text != "" then Success([Entry(n, tail, text)]) else Success([])
  }

  /** The entries of a directory's files, taken in the given order; the first
      file whose name has no number raises. */
  function Entries(names: seq<string>, d: Dir, p: string, tail: string,
                   parse: string -> Option<Node>): (r: Result<seq<string>, Exc>)
    ensures r.Failure? ==> r.error == AttributeError
    ensures r.Success? ==> |r.value| <= |names|
    ensures r.Success? ==> forall k | 0 <= k < |r.value| :: StartsWith(r.value[k], "Slide ") && '\n' in r.value[k]
  {
    if |names| == 0 then Success([])
    else Then(FileEntry(names[0], d, p, tail, parse), Entries(names[1..], d, p, tail, parse))
  }

  /** The entries of a listing are the entries of its parts, in order, and the
      first failing file decides the error. */
  lemma {:induction false} EntriesAppend(a: seq<string>, b: seq<string>, d: Dir, p: string, tail: string,
                                         parse: string -> Option<Node>)
    ensures Entries(a + b, d, p, tail, parse) == Then(Entries(a, d, p, tail, parse), Entries(b, d, p, tail, parse))
  {
    if |a| == 0 {
      assert a + b == b;
      assert Entries(a, d, p, tail, parse) == Success([]);
      var y := Entries(b, d, p, tail, parse);
      if y.Success? {
        assert [] + y.value == y.value;
      }
    } else {
      assert (a + b)[0] == a[0] && (a + b)[1..] == a[1..] + b;
      EntriesAppend(a[1..], b, d, p, tail, parse);
      ThenAssoc(FileEntry(a[0], d, p, tail, parse), Entries(a[1..], d, p, tail, parse), Entries(b, d, p, tail, parse));
    }
  }

  /** A listing without `.xml` files contributes nothing. */
  lemma {:induction false} NoXmlNoEntries(names: seq<string>, d: Dir, p: string, tail: string,
                                          parse: string -> Option<Node>)
    requires forall k | 0 <= k < |names| :: !EndsWith(names[k], ".xml")
    ensures Entries(names, d, p, tail, parse) == Success([])
  {
    if |names| > 0 {
      NoXmlNoEntries(names[1..], d, p, tail, parse);
    }
  }

  /** One numbered slide file with text gives exactly its entry. */
  lemma OneSlideEntry(name: string, d: Dir, p: string, tail: string, parse: string -> Option<Node>)
    requires EndsWith(name, ".xml") && SearchNumber(name, p).Some?
    requires ExtractText(d.read(name), parse) != ""
    ensures Entries([name], d, p, tail, parse) ==
      Success([Entry(SearchNumber(name, p).value, tail, ExtractText(d.read(name), parse))])
  {
    assert [name][1..] == [];
    assert Entries([], d, p, tail, parse) == Success([]);
    assert [Entry(SearchNumber(name, p).value, tail, ExtractText(d.read(name), parse))] + [] ==
      [Entry(SearchNumber(name, p).value, tail, ExtractText(d.read(name), parse))];
  }

  /** What the extractor collects. */
  datatype Content = Content(text: seq<string>, notes: seq<string>, media: seq<string>)

  /** `extract_content()`: the slides in sorted name order, then (inside the
      same directory check) the notes pages in sorted name order and the
      media names in listing order.  Nothing is collected when the slides
      directory is missing. */
  function ExtractContent(arc: Archive, parse: string -> Option<Node>): (r: Result<Content, Exc>)
    ensures arc.slides.None? ==> r == Success(Content([], [], []))
    ensures r.Failure? ==> r.error == AttributeError
    ensures r.Success? && arc.slides.Some? ==>
      Entries(Sort(arc.slides.value.names), arc.slides.value, "slide", ":", parse) == Success(r.value.text)
    ensures r.Success? && arc.slides.Some? && arc.notes.Some? ==>
      Entries(Sort(arc.notes.value.names), arc.notes.value, "notesSlide", " Notes:", parse) == Success(r.value.notes)
    ensures r.Success? && arc.notes.None? ==> r.value.notes == []
    ensures r.Success? && arc.slides.Some? ==> r.value.media == (if arc.media.Some? then arc.media.value else [])
  {
    match arc.slides
    case None => Success(Content([], [], []))
    case Some(sd) =>
      var text :- Entries(Sort(sd.names), sd, "slide", ":", parse);
      var notes :- if arc.notes.Some? then Entries(Sort(arc.notes.value.names), arc.notes.value, "notesSlide", " Notes:", parse)
                   else Success([]);
      Success(Content(text, notes, if arc.media.Some? then arc.media.value else []))
  }

  /** Sorted order is by code point, so slide10.xml is processed before
      slide2.xml. */
  lemma TenBeforeTwo()
    ensures Sort(["slide2.xml", "slide10.xml"]) == ["slide10.xml", "slide2.xml"]
  {
    var a := "slide2.xml";
    var b := "slide10.xml";
    TwoAfterTen();
    assert [b][1..] == [];
    assert Sort([b]) == [b];
    assert [a, b][1..] == [b];
    assert [a, b][0] == a;
    assert Sort([a, b]) == Insert(a, [b]);
  }

  lemma TwoAfterTen()
    ensures !LexLe("slide2.xml", "slide10.xml")
  {
    assert "slide2.xml" == "slide" + "2.xml" && "slide10.xml" == "slide" + "10.xml";
    assert !LexLe("2.xml", "10.xml");
    LexLeCommonPrefix("slide", "2.xml", "10.xml");
  }

  /** A common prefix does not change the order. */
  lemma {:induction false} LexLeCommonPrefix(p: string, x: string, y: string)
    ensures LexLe(p + x, p + y) == LexLe(x, y)
  {
    if |p| > 0 {
      assert (p + x)[0] == (p + y)[0];
      assert (p + x)[1..] == p[1..] + x && (p + y)[1..] == p[1..] + y;
      LexLeCommonPrefix(p[1..], x, y);
    } else {
      assert p + x == x && p + y == y;
    }
  }
}

=== FILE: prompt_text.dfy ===
/** The literal text of the back end's prompt templates, cut into short parts
    so that the verifier can check each part for braces on its own. */
module PromptText {

  /** Text that holds no brace, so a template reads it as plain text. */
  type BraceFree = s: string | '{' !in s && '}' !in s witness ""

  const InfoPart1: BraceFree :=
    "\nI am" + " usin" + "g a p" + "ackag" + "e cal" + "led T" + "InyTr" + "oupe "

  const InfoPart2: BraceFree :=
    "in my" + " proj" + "ect, " + "to an" + "alyze" + " a po" + "werpo" + "int a"

  const InfoPart3: BraceFree :=
    "nd si" + "mulat" + "e rea" + "l-per" + "son p" + "erson" + "a bas" + "ed fe"

  const InfoPart4: BraceFree :=
    "edbac" + "k.\n\nH" + "ere i" + "s som" + "e det" + "ail a" + "bout " + "the T"

  const InfoPart5: BraceFree :=
    "inyTr" + "oupe " + "packa" + "ge:\n*" + "TinyT" + "roupe" + "* is " + "an ex"

  const InfoPart6: BraceFree :=
    "perim" + "ental" + " Pyth" + "on li" + "brary" + " that" + " allo" + "ws th"

  const InfoPart7: BraceFree :=
    "e **s" + "imula" + "tion*" + "* of " + "peopl" + "e wit" + "h spe" + "cific"

  const InfoPart8: BraceFree :=
    " pers" + "onali" + "ties," + " inte" + "rests" + ", and" + " goal" + "s. Th"

  const InfoPart9: BraceFree :=
    "ese a" + "rtifi" + "cial " + "agent" + "s - `" + "TinyP" + "erson" + "`s - "

  const InfoPart10: BraceFree :=
    "can l" + "isten" + " to u" + "s and" + " one " + "anoth" + "er, r" + "eply "

  const InfoPart11: BraceFree :=
    "back," + " and " + "go ab" + "out t" + "heir " + "lives" + " in s" + "imula"

  const InfoPart12: BraceFree :=
    "ted `" + "TinyW" + "orld`" + " envi" + "ronme" + "nts. " + "This " + "is ac"

  const InfoPart13: BraceFree :=
    "hieve" + "d by " + "lever" + "aging" + " the " + "power" + " of L" + "arge "

  const InfoPart14: BraceFree :=
    "Langu" + "age M" + "odels" + " (LLM" + "s), n" + "otabl" + "y GPT" + "-4, t"

  const InfoPart15: BraceFree :=
    "o gen" + "erate" + " real" + "istic" + " simu" + "lated" + " beha" + "vior."

  const InfoPart16: BraceFree :=
    " This" + " allo" + "ws us" + " to i" + "nvest" + "igate" + " a wi" + "de ra"

  const InfoPart17: BraceFree :=
    "nge o" + "f **c" + "onvin" + "cing " + "inter" + "actio" + "ns** " + "and *"

  const InfoPart18: BraceFree :=
    "*cons" + "umer " + "types" + "**, w" + "ith *" + "*high" + "ly cu" + "stomi"

  const InfoPart19: BraceFree :=
    "zable" + " pers" + "onas*" + "*, un" + "der *" + "*cond" + "ition" + "s of "

  const InfoPart20: BraceFree :=
    "our c" + "hoosi" + "ng**." + " The " + "focus" + " is t" + "hus o" + "n *un"

  const InfoPart21: BraceFree :=
    "derst" + "andin" + "g* hu" + "man b" + "ehavi" + "or an" + "d not" + " on d"

  const InfoPart22: BraceFree :=
    "irect" + "ly *s" + "uppor" + "ting " + "it* (" + "like," + " say," + " AI a"

  const InfoPart23: BraceFree :=
    "ssist" + "ants " + "do) -" + "- thi" + "s res" + "ults " + "in, a" + "mong "

  const InfoPart24: BraceFree :=
    "other" + " thin" + "gs, s" + "pecia" + "lized" + " mech" + "anism" + "s tha"

  const InfoPart25: BraceFree :=
    "t mak" + "e sen" + "se on" + "ly in" + " a si" + "mulat" + "ion s" + "ettin"

  const InfoPart26: BraceFree :=
    "g. Fu" + "rther" + ", unl" + "ike o" + "ther " + "*game" + "-like" + "* LLM"

  const InfoPart27: BraceFree :=
    "-base" + "d sim" + "ulati" + "on ap" + "proac" + "hes, " + "TinyT" + "roupe"

  const InfoPart28: BraceFree :=
    " aims" + " at e" + "nligh" + "tenin" + "g pro" + "ducti" + "vity " + "and b"

  const InfoPart29: BraceFree :=
    "usine" + "ss sc" + "enari" + "os, t" + "hereb" + "y con" + "tribu" + "ting "

  const InfoPart30: BraceFree :=
    "to mo" + "re su" + "ccess" + "ful p" + "rojec" + "ts an" + "d pro" + "ducts"

  const InfoPart31: BraceFree :=
    ". Her" + "e are" + " some" + " appl" + "icati" + "on id" + "eas t" + "o **e"

  const InfoPart32: BraceFree :=
    "nhanc" + "e hum" + "an im" + "agina" + "tion*" + "*:\n\n " + " - **" + "Adver"

  const InfoPart33: BraceFree :=
    "tisem" + "ent:*" + "* Tin" + "yTrou" + "pe ca" + "n **e" + "valua" + "te di"

  const InfoPart34: BraceFree :=
    "gital" + " ads " + "(e.g." + ", Bin" + "g Ads" + ")** o" + "fflin" + "e wit"

  const InfoPart35: BraceFree :=
    "h a s" + "imula" + "ted a" + "udien" + "ce be" + "fore " + "spend" + "ing m"

  const InfoPart36: BraceFree :=
    "oney " + "on th" + "em!\n " + " - **" + "Softw" + "are T" + "estin" + "g:** "

  const InfoPart37: BraceFree :=
    "TinyT" + "roupe" + " can " + "**pro" + "vide " + "test " + "input" + "** to"

  const InfoPart38: BraceFree :=
    " syst" + "ems (" + "e.g.," + " sear" + "ch en" + "gines" + ", cha" + "tbots"

  const InfoPart39: BraceFree :=
    " or c" + "opilo" + "ts) a" + "nd th" + "en **" + "evalu" + "ate t" + "he re"

  const InfoPart40: BraceFree :=
    "sults" + "**.\n " + " - **" + "Train" + "ing a" + "nd ex" + "plora" + "tory "

  const InfoPart41: BraceFree :=
    "data:" + "** Ti" + "nyTro" + "upe c" + "an ge" + "nerat" + "e rea" + "listi"

  const InfoPart42: BraceFree :=
    "c **s" + "ynthe" + "tic d" + "ata**" + " that" + " can " + "be la" + "ter u"

  const InfoPart43: BraceFree :=
    "sed t" + "o tra" + "in mo" + "dels " + "or be" + " subj" + "ect t" + "o opp"

  const InfoPart44: BraceFree :=
    "ortun" + "ity a" + "nalys" + "es.\n " + " - **" + "Produ" + "ct an" + "d pro"

  const InfoPart45: BraceFree :=
    "ject " + "manag" + "ement" + ":** T" + "inyTr" + "oupe " + "can *" + "*read"

  const InfoPart46: BraceFree :=
    " proj" + "ect o" + "r pro" + "duct " + "propo" + "sals*" + "* and" + " **gi"

  const InfoPart47: BraceFree :=
    "ve fe" + "edbac" + "k** f" + "rom t" + "he pe" + "rspec" + "tive " + "of **"

  const InfoPart48: BraceFree :=
    "speci" + "fic p" + "erson" + "as** " + "(e.g." + ", phy" + "sicia" + "ns, l"

  const InfoPart49: BraceFree :=
    "awyer" + "s, an" + "d kno" + "wledg" + "e wor" + "kers " + "in ge" + "neral"

  const InfoPart50: BraceFree :=
    ").\n  " + "- **B" + "rains" + "tormi" + "ng:**" + " Tiny" + "Troup" + "e can"

  const InfoPart51: BraceFree :=
    " simu" + "late " + "**foc" + "us gr" + "oups*" + "* and" + " deli" + "ver g"

  const InfoPart52: BraceFree :=
    "reat " + "produ" + "ct fe" + "edbac" + "k at " + "a fra" + "ction" + " of t"

  const InfoPart53: BraceFree :=
    "he co" + "st!\n\n" + "In al" + "l of " + "the a" + "bove," + " and " + "many "

  const InfoPart54: BraceFree :=
    "other" + "s, we" + " hope" + " expe" + "rimen" + "ters " + "can *" + "*gain"

  const InfoPart55: BraceFree :=
    " insi" + "ghts*" + "* abo" + "ut th" + "eir d" + "omain" + " of i" + "ntere"

  const InfoPart56: BraceFree :=
    "st, a" + "nd th" + "us ma" + "ke be" + "tter " + "decis" + "ions." + " \n---"

  const InfoPart57: BraceFree :=
    "--\nYo" + "u are" + " task" + "ed wi" + "th he" + "lping" + " me w" + "ith d"

  const InfoPart58: BraceFree :=
    "iffer" + "ent t" + "asks " + "relat" + "ed to" + " this" + " pack" + "age.\n"

  const PersonaSeg1Part1: BraceFree :=
    "\nHelp" + " me c" + "reate" + " a pr" + "ompt " + "to ge" + "nerat" + "e a T"

  const PersonaSeg1Part2: BraceFree :=
    "iny T" + "roupe" + " pers" + "ona f" + "or "

  const PersonaSeg2: BraceFree :=
    " whic" + "h is " + "descr" + "ibed " + "by "

  const PersonaSeg3Part1: BraceFree :=
    ". The" + " deta" + "ils i" + "n the" + " pers" + "ona d" + "escri" + "ption"

  const PersonaSeg3Part2: BraceFree :=
    " are " + "fixed" + " and " + "must " + "influ" + "ence " + "perso" + "na cr"

  const PersonaSeg3Part3: BraceFree :=
    "eatio" + "n. In" + "fer a" + "ny ot" + "her c" + "harac" + "teris" + "tics "

  const PersonaSeg3Part4: BraceFree :=
    "that " + "the p" + "erson" + "a mus" + "t hav" + "e, to" + " crea" + "te a "

  const PersonaSeg3Part5: BraceFree :=
    "promp" + "t bas" + "ed on" + " the " + "power" + "point" + " desc" + "ripti"

  const PersonaSeg3Part6: BraceFree :=
    "on an" + "d int" + "ent. " + "Perso" + "nas m" + "ust b" + "e div" + "erse "

  const PersonaSeg3Part7: BraceFree :=
    "to en" + "sure " + "they " + "can e" + "valua" + "te th" + "e pow" + "erpoi"

  const PersonaSeg3Part8: BraceFree :=
    "nt pr" + "esent" + "ation" + " and " + "power" + "point" + "_cont" + "ent ("

  const PersonaSeg3Part9: BraceFree :=
    "both)" + " effe" + "ctive" + "ly an" + "d fro" + "m all" + " angl" + "es. P"

  const PersonaSeg3Part10: BraceFree :=
    "erson" + "a cre" + "ated " + "must " + "also " + "keep " + "in mi" + "nd di"

  const PersonaSeg3Part11: BraceFree :=
    "versi" + "ty an" + "d acc" + "essib" + "ility" + ".\nCre" + "ate "

  const PersonaSeg4Part1: BraceFree :=
    " numb" + "er of" + " pers" + "onas " + "only." + "\n----" + "-----" + "  \nYo"

  const PersonaSeg4Part2: BraceFree :=
    "u can" + " base" + " your" + " prom" + "pt of" + "f thi" + "s sam" + "ple p"

  const PersonaSeg4Part3: BraceFree :=
    "rompt" + " (whi" + "ch wa" + "s use" + "d to " + "creat" + "e per" + "sona "

  const PersonaSeg4Part4: BraceFree :=
    "of a " + "custo" + "mer f" + "or a " + "techn" + "ical " + "produ" + "ct pi"

  const PersonaSeg4Part5: BraceFree :=
    "tch):" + "\n \nA " + "diver" + "se gr" + "oup o" + "f cus" + "tomer" + "s wit"

  const PersonaSeg4Part6: BraceFree :=
    "h var" + "ying\n" + "- Nee" + "d of " + "produ" + "ct (H" + "igh, " + "low, "

  const PersonaSeg4Part7: BraceFree :=
    "none)" + "\n- Us" + "age i" + "ntens" + "ive (" + "light" + ", mod" + "erate"

  const PersonaSeg4Part8: BraceFree :=
    ", hea" + "vy)\n-" + " Tech" + "nical" + " comf" + "ort l" + "evels" + " (nov"

  const PersonaSeg4Part9: BraceFree :=
    "ice, " + "inter" + "media" + "te, a" + "dvanc" + "e, po" + "wer u" + "sers)"

  const PersonaSeg4Part10: BraceFree :=
    "\n- Pa" + "in po" + "ints " + "and c" + "halle" + "nges\n" + "- Dec" + "ision"

  const PersonaSeg4Part11: BraceFree :=
    "-maki" + "ng in" + "fluen" + "ce \n-" + " Tech" + "nolog" + "y ado" + "ption"

  const PersonaSeg4Part12: BraceFree :=
    " pref" + "erenc" + "es (E" + "arly " + "adopt" + "ers, " + "pragm" + "atic "

  const PersonaSeg4Part13: BraceFree :=
    "users" + ", con" + "serva" + "tive " + "users" + ", ske" + "ptica" + "l use"

  const PersonaSeg4Part14: BraceFree :=
    "rs)\n-" + " Diff" + "erent" + " budg" + "et au" + "thori" + "ties " + "and R"

  const PersonaSeg4Part15: BraceFree :=
    "esour" + "ce co" + "nstra" + "ints " + " \n- I" + "ndust" + "ry se" + "ctors"

  const PersonaSeg4Part16: BraceFree :=
    "\n- Ag" + "e dem" + "ograp" + "hic\n-" + " Geog" + "raphi" + "cal l" + "ocati"

  const PersonaSeg4Part17: BraceFree :=
    "on\n- " + "Cultu" + "ral b" + "ackgr" + "ound\n" + "- Suc" + "cess " + "crite"

  const PersonaSeg4Part18: BraceFree :=
    "rias " + "(must" + " have" + " feat" + "ures," + " deal" + " brea" + "kers,"

  const PersonaSeg4Part19: BraceFree :=
    " open" + " to a" + "nythi" + "ng)  " + "\n\nSom" + "e of " + "the c" + "ustom"

  const PersonaSeg4Part20: BraceFree :=
    "ers m" + "ust: " + " \n- H" + "ave u" + "sed t" + "he pr" + "oduct" + " in t"

  const PersonaSeg4Part21: BraceFree :=
    "he pa" + "st (o" + "r an " + "inter" + "ation" + " of t" + "he pr" + "oduct"

  const PersonaSeg4Part22: BraceFree :=
    ").  \n" + "- Hav" + "e use" + "d sim" + "ilar " + "produ" + "cts i" + "n the"

  const PersonaSeg4Part23: BraceFree :=
    " past" + ".  \n-" + " Have" + " stro" + "ng op" + "inion" + "s abo" + "ut th"

  const PersonaSeg4Part24: BraceFree :=
    "e pro" + "duct " + "or si" + "milar" + " prod" + "ucts." + "  \n\nE" + "nsure"

  const PersonaSeg4Part25: BraceFree :=
    " they" + " have" + ":  \n-" + " Real" + "istic" + " usag" + "e sce" + "nario"

  const PersonaSeg4Part26: BraceFree :=
    "s.  \n" + "- Cle" + "ar pr" + "efere" + "nces " + "based" + " on t" + "heir "

  const PersonaSeg4Part27: BraceFree :=
    "backg" + "round" + ".  \n-" + " Spec" + "ific " + "frust" + "ratio" + "ns wi"

  const PersonaSeg4Part28: BraceFree :=
    "th cu" + "rrent" + " solu" + "tions" + " (if " + "they " + "have " + "used "

  const PersonaSeg4Part29: BraceFree :=
    "simil" + "ar pr" + "oduct" + "s).  " + "\n- Un" + "ique " + "persp" + "ectiv"

  const PersonaSeg4Part30: BraceFree :=
    "es on" + " valu" + "e.  \n" + "- Nat" + "ural " + "biase" + "s and" + " conc"

  const PersonaSeg4Part31: BraceFree :=
    "erns." + "  \n--" + "-----" + "---  " + "\n"

  const AnalysisPart1: BraceFree :=
    "\nTiny" + " Trou" + "pe pe" + "rsona" + "s are" + " aske" + "d to " + "CRITI"

  const AnalysisPart2: BraceFree :=
    "CALLY" + " eval" + "uate " + "a pre" + "senta" + "tion " + "with " + "the a"

  const AnalysisPart3: BraceFree :=
    "bove " + "prese" + "ntati" + "on de" + "tails" + ". The" + " goal" + " is t"

  const AnalysisPart4: BraceFree :=
    "o gen" + "erate" + " feed" + "back " + "on th" + "e con" + "tent " + "of th"

  const AnalysisPart5: BraceFree :=
    "e pre" + "senta" + "tion " + "and t" + "he pr" + "esent" + "ation" + " itse"

  const AnalysisPart6: BraceFree :=
    "lf.\n\n" + "Help " + "me cr" + "eate " + "a pro" + "mpt t" + "o pas" + "s to "

  const AnalysisPart7: BraceFree :=
    "these" + " pers" + "onas " + "to as" + "k the" + "m to " + "evalu" + "ate t"

  const AnalysisPart8: BraceFree :=
    "he po" + "werpo" + "int p" + "resen" + "tatio" + "n and" + " its " + "conte"

  const AnalysisPart9: BraceFree :=
    "nt.  " + "\n- Ag" + "ents " + "must " + "evalu" + "ate t" + "he po" + "werpo"

  const AnalysisPart10: BraceFree :=
    "int p" + "resen" + "tatio" + "n and" + " its " + "conte" + "nt.\n-" + " IMPO"

  const AnalysisPart11: BraceFree :=
    "RTANT" + " Agen" + "ts ha" + "ve ac" + "cess " + "only " + "to th" + "e pre"

  const AnalysisPart12: BraceFree :=
    "senta" + "tion " + "text," + " not " + "to th" + "e pre" + "senta" + "tion "

  const AnalysisPart13: BraceFree :=
    "itsel" + "f. Th" + "is me" + "ans t" + "hey c" + "annot" + " see " + "the p"

  const AnalysisPart14: BraceFree :=
    "resen" + "tatio" + "n and" + " don'" + "t kno" + "w of " + "any v" + "isual"

  const AnalysisPart15: BraceFree :=
    " elem" + "ents " + "or me" + "dia i" + "n it." + "\n- Th" + "e pro" + "mpt m"

  const AnalysisPart16: BraceFree :=
    "ust d" + "efine" + ", in " + "clear" + " term" + "s, th" + "e dif" + "feren"

  const AnalysisPart17: BraceFree :=
    "t cat" + "egori" + "es fo" + "r fee" + "dback" + " and " + "what " + "feedb"

  const AnalysisPart18: BraceFree :=
    "ack i" + "s to " + "be gi" + "ven f" + "or ea" + "ch ca" + "tegor" + "y.\n- "

  const AnalysisPart19: BraceFree :=
    "Where" + " poss" + "ible " + "refer" + "ence " + "the s" + "lide " + "numbe"

  const AnalysisPart20: BraceFree :=
    "r or " + "conte" + "nt of" + " the " + "prese" + "ntati" + "on to" + " make"

  const AnalysisPart21: BraceFree :=
    " the " + "feedb" + "ack m" + "ore s" + "pecif" + "ic.\n-" + " Ensu" + "re th"

  const AnalysisPart22: BraceFree :=
    "at th" + "e fee" + "dback" + " is n" + "ot ge" + "neric" + ", but" + " high"

  const AnalysisPart23: BraceFree :=
    "ly sp" + "ecifi" + "c to " + "the p" + "erson" + "a's p" + "erson" + "ality"

  const AnalysisPart24: BraceFree :=
    " and " + "backg" + "round" + ". It " + "must " + "be cr" + "itica" + "l fee"

  const AnalysisPart25: BraceFree :=
    "dback" + " that" + " will" + " impr" + "ove t" + "he pr" + "esent" + "ation"

  const AnalysisPart26: BraceFree :=
    " and " + "must " + "lever" + "age t" + "he fa" + "ct th" + "at pe" + "rsona"

  const AnalysisPart27: BraceFree :=
    "s hav" + "e dif" + "feren" + "t int" + "erest" + "s, be" + "havio" + "rs, p"

  const AnalysisPart28: BraceFree :=
    "erson" + "aliti" + "es et" + "c to " + "impro" + "ve th" + "e fee" + "dback"

  const AnalysisPart29: BraceFree :=
    " prov" + "ided " + "to ma" + "ke it" + " pers" + "onali" + "zed a" + "nd su"

  const AnalysisPart30: BraceFree :=
    "bject" + "ive.\n" + "-----" + "--\nYo" + "u can" + " use " + "this " + "as a "

  const AnalysisPart31: BraceFree :=
    "sampl" + "e to " + "creat" + "e the" + " eval" + "uatio" + "n pro" + "mpt ("

  const AnalysisPart32: BraceFree :=
    "used " + "for a" + " pres" + "rnati" + "on gi" + "ven t" + "o a c" + "ustom"

  const AnalysisPart33: BraceFree :=
    "er fo" + "r a t" + "echni" + "cal p" + "roduc" + "t pit" + "ch):\n" + "From "

  const AnalysisPart34: BraceFree :=
    "your " + "persp" + "ectiv" + "e as " + "a pot" + "entia" + "l use" + "r/cus"

  const AnalysisPart35: BraceFree :=
    "tomer" + ", ana" + "lyze " + "this " + "prese" + "ntati" + "on:\n1" + ". Val"

  const AnalysisPart36: BraceFree :=
    "ue & " + "Relev" + "ance:" + "\n   -" + " How " + "well " + "does " + "this "

  const AnalysisPart37: BraceFree :=
    "addre" + "ss yo" + "ur ne" + "eds a" + "nd pa" + "in po" + "ints?" + "\n   -"

  const AnalysisPart38: BraceFree :=
    " Are " + "the b" + "enefi" + "ts cl" + "ear a" + "nd me" + "aning" + "ful t"

  const AnalysisPart39: BraceFree :=
    "o you" + "?\n   " + "- Wha" + "t asp" + "ects " + "matte" + "r mos" + "t to "

  const AnalysisPart40: BraceFree :=
    "your " + "situa" + "tion?" + "\n2. P" + "racti" + "cal A" + "pplic" + "ation"

  const AnalysisPart41: BraceFree :=
    ":\n   " + "- How" + " woul" + "d thi" + "s fit" + " into" + " your" + " curr"

  const AnalysisPart42: BraceFree :=
    "ent w" + "orkfl" + "ow?\n " + "  - W" + "hat c" + "halle" + "nges " + "do yo"

  const AnalysisPart43: BraceFree :=
    "u see" + " in a" + "dopti" + "ng th" + "is?\n " + "  - W" + "hat s" + "uppor"

  const AnalysisPart44: BraceFree :=
    "t or " + "resou" + "rces " + "would" + " you " + "need?" + "\n3. C" + "ost &"

  const AnalysisPart45: BraceFree :=
    " Bene" + "fit A" + "nalys" + "is:\n " + "  - I" + "s the" + " valu" + "e pro"

  const AnalysisPart46: BraceFree :=
    "posit" + "ion c" + "ompel" + "ling " + "for y" + "our n" + "eeds?" + "\n   -"

  const AnalysisPart47: BraceFree :=
    " What" + " retu" + "rn on" + " inve" + "stmen" + "t do " + "you a" + "ntici"

  const AnalysisPart48: BraceFree :=
    "pate?" + "\n   -" + " What" + " hidd" + "en co" + "sts o" + "r eff" + "orts "

  const AnalysisPart49: BraceFree :=
    "do yo" + "u for" + "esee?" + "\n4. C" + "ompar" + "ison " + "& Alt" + "ernat"

  const AnalysisPart50: BraceFree :=
    "ives:" + "\n   -" + " How " + "does " + "this " + "compa" + "re to" + " your"

  const AnalysisPart51: BraceFree :=
    " curr" + "ent s" + "oluti" + "on?\n " + "  - W" + "hat a" + "dvant" + "ages "

  const AnalysisPart52: BraceFree :=
    "stand" + " out " + "to yo" + "u?\n  " + " - Wh" + "at co" + "ncern" + "s wou"

  const AnalysisPart53: BraceFree :=
    "ld pr" + "event" + " you " + "from " + "adopt" + "ing t" + "his?\n" + "Remem"

  const AnalysisPart54: BraceFree :=
    "ber (" + "IMPOR" + "TANT)" + ":\n- Y" + "our f" + "eedba" + "ck sh" + "ould "

  const AnalysisPart55: BraceFree :=
    "be ba" + "sed o" + "n you" + "r rea" + "l-wor" + "ld ne" + "eds a" + "nd ex"

  const AnalysisPart56: BraceFree :=
    "perie" + "nces " + "while" + " cons" + "ideri" + "ng th" + "e pre" + "senta"

  const AnalysisPart57: BraceFree :=
    "tion'" + "s sta" + "ted p" + "urpos" + "e.\n- " + "Givin" + "g fee" + "dback"

  const AnalysisPart58: BraceFree :=
    " on a" + "ll ab" + "ove c" + "atego" + "ries " + "is no" + "t imp" + "ortan"

  const AnalysisPart59: BraceFree :=
    "t. If" + " ther" + "e is " + "no fe" + "edbac" + "k, re" + "turn " + "an em"

  const AnalysisPart60: BraceFree :=
    "pty a" + "rray " + "for t" + "hat c" + "atego" + "ry.\n-" + " You " + "must "

  const AnalysisPart61: BraceFree :=
    "give " + "atlea" + "st on" + "e fee" + "dback" + ".\n---" + "----\n" + "Remem"

  const AnalysisPart62: BraceFree :=
    "ber\n-" + " Agen" + "ts do" + "n't h" + "ave a" + "ccess" + " to v" + "isual"

  const AnalysisPart63: BraceFree :=
    " elem" + "ents " + "of me" + "dia i" + "n the" + " pres" + "entat" + "ion. "

  const AnalysisPart64: BraceFree :=
    "Only " + "text " + "of th" + "e pre" + "senta" + "tion\n" + "- Age" + "nts M"

  const AnalysisPart65: BraceFree :=
    "UST m" + "entio" + "n the" + " slid" + "e num" + "ber o" + "r con" + "tent "

  const AnalysisPart66: BraceFree :=
    "of th" + "e pre" + "senta" + "tion " + "to ma" + "ke th" + "e fee" + "dback"

  const AnalysisPart67: BraceFree :=
    " more" + " spec" + "ific." + " REFE" + "RENCE" + " THE " + "SLIDE" + " NUMB"

  const AnalysisPart68: BraceFree :=
    "ER OR" + " CONT" + "ENT.\n"

  const QnaPart1: BraceFree :=
    "\nTiny" + " Trou" + "pe pe" + "rsona" + "s are" + " aske" + "d to " + "ask c"

  const QnaPart2: BraceFree :=
    "ritic" + "al qu" + "estio" + "ns ab" + "out t" + "he co" + "ntent" + " of t"

  const QnaPart3: BraceFree :=
    "he pr" + "esent" + "ation" + " to h" + "elp t" + "he pr" + "esent" + "er pr"

  const QnaPart4: BraceFree :=
    "epare" + " for " + "a rea" + "l pre" + "senta" + "tion." + " The " + "goal "

  const QnaPart5: BraceFree :=
    "is to" + " gene" + "rate " + "quest" + "ions " + "that " + "the p" + "resen"

  const QnaPart6: BraceFree :=
    "ter m" + "ust b" + "e pre" + "pared" + " to a" + "nswer" + ".\n \nH" + "elp m"

  const QnaPart7: BraceFree :=
    "e cre" + "ate a" + " prom" + "pt to" + " pass" + " to t" + "hese " + "perso"

  const QnaPart8: BraceFree :=
    "nas t" + "o pro" + "mpt t" + "hem t" + "o ask" + " ques" + "tions" + " abou"

  const QnaPart9: BraceFree :=
    "t the" + " powe" + "rpoin" + "t pre" + "senta" + "tion." + "  \n- " + "Agent"

  const QnaPart10: BraceFree :=
    "s mus" + "t ask" + " ques" + "tions" + " abou" + "t the" + " cont" + "ent o"

  const QnaPart11: BraceFree :=
    "f the" + " pres" + "entat" + "ion.\n" + "- Age" + "nts h" + "ave b" + "een a"

  const QnaPart12: BraceFree :=
    "sked " + "to an" + "alyze" + " the " + "prese" + "ntati" + "on be" + "fore "

  const QnaPart13: BraceFree :=
    "(to p" + "rovid" + "e cri" + "tical" + " feed" + "back)" + " and " + "are a"

  const QnaPart14: BraceFree :=
    "ware " + "of th" + "e ana" + "lysis" + " they" + " have" + " prov" + "ided."

  const QnaPart15: BraceFree :=
    "\n- En" + "sure " + "that " + "the q" + "uesti" + "ons a" + "sked " + "are n"

  const QnaPart16: BraceFree :=
    "ot ge" + "neric" + ", but" + " high" + "ly sp" + "ecifi" + "c to " + "the p"

  const QnaPart17: BraceFree :=
    "erson" + "a's p" + "erson" + "ality" + " and " + "backg" + "round" + ". The"

  const QnaPart18: BraceFree :=
    "y mus" + "t be " + "criti" + "cal q" + "uesti" + "ons w" + "hich " + "will "

  const QnaPart19: BraceFree :=
    "help " + "the p" + "resen" + "ter i" + "mprov" + "e the" + " pres" + "entat"

  const QnaPart20: BraceFree :=
    "ion a" + "nd pr" + "epare" + " for " + "the r" + "eal o" + "ne an" + "d MUS"

  const QnaPart21: BraceFree :=
    "T lev" + "erage" + " the " + "fact " + "that " + "perso" + "nas h" + "ave d"

  const QnaPart22: BraceFree :=
    "iffer" + "ent i" + "ntere" + "sts, " + "behav" + "iors," + " pers" + "onali"

  const QnaPart23: BraceFree :=
    "ties " + "etc t" + "o gen" + "erate" + " the " + "quest" + "ions," + " maki"

  const QnaPart24: BraceFree :=
    "ng th" + "em pe" + "rsona" + "lized" + " and " + "subje" + "ctive" + ".\n- A"

  const QnaPart25: BraceFree :=
    "gents" + " must" + " cons" + "ider " + "quest" + "ions " + "aroun" + "d add"

  const QnaPart26: BraceFree :=
    "ressi" + "ng di" + "versi" + "ty an" + "d acc" + "essib" + "ility" + " in t"

  const QnaPart27: BraceFree :=
    "he pr" + "esent" + "ation" + " cont" + "ent.\n" + "- IMP" + "ORTAN" + "T Age"

  const QnaPart28: BraceFree :=
    "nts h" + "ave a" + "ccess" + " only" + " to t" + "he pr" + "esent" + "ation"

  const QnaPart29: BraceFree :=
    " text" + ", not" + " to t" + "he pr" + "esent" + "ation" + " itse" + "lf. T"

  const QnaPart30: BraceFree :=
    "his m" + "eans " + "they " + "canno" + "t see" + " the " + "prese" + "ntati"

  const QnaPart31: BraceFree :=
    "on an" + "d don" + "'t kn" + "ow of" + " any " + "visua" + "l ele" + "ments"

  const QnaPart32: BraceFree :=
    " or m" + "edia " + "in it" + ". \n- " + "The p" + "rompt" + " must" + " spec"

  const QnaPart33: BraceFree :=
    "ify, " + "in cl" + "ear t" + "erms," + " what" + " kind" + " of q" + "uesti"

  const QnaPart34: BraceFree :=
    "ons a" + "re th" + "e age" + "nts e" + "xpect" + "ed to" + " ask " + "the p"

  const QnaPart35: BraceFree :=
    "resen" + "ter. " + " \n- T" + "he pr" + "ompt " + "must " + "also " + "speci"

  const QnaPart36: BraceFree :=
    "fy th" + "at th" + "e res" + "ult s" + "hould" + " be a" + " list" + " of q"

  const QnaPart37: BraceFree :=
    "uesti" + "ons.\n" + "-----" + "--  \n" + "You c" + "an us" + "e thi" + "s as "

  const QnaPart38: BraceFree :=
    "a sam" + "ple t" + "o cre" + "ate t" + "he qn" + "a pro" + "mpt (" + "used "

  const QnaPart39: BraceFree :=
    "for a" + " pres" + "rnati" + "on gi" + "ven t" + "o a c" + "ustom" + "er fo"

  const QnaPart40: BraceFree :=
    "r a t" + "echni" + "cal p" + "roduc" + "t pit" + "ch):\n" + "\nDraw" + "ing f"

  const QnaPart41: BraceFree :=
    "rom y" + "our e" + "xperi" + "ence " + "and n" + "eeds," + " revi" + "ew th"

  const QnaPart42: BraceFree :=
    "is pr" + "esent" + "ation" + " and " + "formu" + "late " + "quest" + "ions "

  const QnaPart43: BraceFree :=
    "that " + "would" + ":  \n1" + ". Cla" + "rify " + "how t" + "his a" + "ddres"

  const QnaPart44: BraceFree :=
    "ses y" + "our s" + "pecif" + "ic ne" + "eds  " + "\n2. A" + "ddres" + "s pra"

  const QnaPart45: BraceFree :=
    "ctica" + "l imp" + "lemen" + "tatio" + "n con" + "cerns" + "  \n3." + " Vali"

  const QnaPart46: BraceFree :=
    "date " + "assum" + "ption" + "s abo" + "ut us" + "er be" + "nefit" + "s  \n "

  const QnaPart47: BraceFree :=
    "\nEnsu" + "re yo" + "ur qu" + "estio" + "ns:  " + "\n- Re" + "flect" + " your"

  const QnaPart48: BraceFree :=
    " real" + " need" + "s and" + " conc" + "erns " + " \n- A" + "ddres" + "s pra"

  const QnaPart49: BraceFree :=
    "ctica" + "l usa" + "ge co" + "nside" + "ratio" + "ns  \n" + "- Foc" + "us on"

  const QnaPart50: BraceFree :=
    " valu" + "e and" + " impl" + "ement" + "ation" + "  \n- " + "Help " + "you m"

  const QnaPart51: BraceFree :=
    "ake a" + "n inf" + "ormed" + " deci" + "sion " + " \n  \n" + "Remem" + "ber ("

  const QnaPart52: BraceFree :=
    "IMPOR" + "TANT)" + "  \n- " + "You m" + "ust a" + "sk at" + "least" + " one "

  const QnaPart53: BraceFree :=
    "quest" + "ion. " + "  \n--" + "-----" + "---  " + "\nReme" + "mber " + " \n- A"

  const QnaPart54: BraceFree :=
    "gents" + " don'" + "t hav" + "e acc" + "ess t" + "o vis" + "ual e" + "lemen"

  const QnaPart55: BraceFree :=
    "ts of" + " medi" + "a in " + "the p" + "resen" + "tatio" + "n. On" + "ly te"

  const QnaPart56: BraceFree :=
    "xt of" + " the " + "prese" + "ntati" + "on.\n"

  const AnalysisSummSeg1Part1: BraceFree :=
    "\nTiny" + "Troup" + "e age" + "nts w" + "ere c" + "reate" + "d for" + " a pe"

  const AnalysisSummSeg1Part2: BraceFree :=
    "rsona" + " name" + "d "

  const AnalysisSummSeg2: BraceFree :=
    " whic" + "h is " + "descr" + "ibed " + "by "

  const AnalysisSummSeg3Part1: BraceFree :=
    "\nThe " + "agent" + "s wer" + "e tas" + "ked w" + "ith c" + "ritic" + "ally "

  const AnalysisSummSeg3Part2: BraceFree :=
    "analy" + "sing " + "a pow" + "erpoi" + "nt pr" + "esent" + "ation" + ". Her"

  const AnalysisSummSeg3Part3: BraceFree :=
    "e are" + " the " + "power" + "point" + " deta" + "ils: " + "     " + "\n"

  const AnalysisSummSeg4Part1: BraceFree :=
    "\n----" + "---  " + "    \n" + "Here " + "is th" + "e pro" + "mpt t" + "hat t"

  const AnalysisSummSeg4Part2: BraceFree :=
    "he ag" + "ent w" + "as gi" + "ven, " + "to an" + "alyze" + " the " + "power"

  const AnalysisSummSeg4Part3: BraceFree :=
    "point" + " pres" + "entat" + "ion: " + "     " + "\n"

  const AnalysisSummSeg5Part1: BraceFree :=
    " \n---" + "-----" + "--   " + "   \nH" + "ere i" + "s the" + " resp" + "onse "

  const AnalysisSummSeg5Part2: BraceFree :=
    "from " + "all t" + "he ag" + "ent: " + "     " + "\n"

  const AnalysisSummSeg6Part1: BraceFree :=
    "\n----" + "-----" + "-\nCan" + " you " + "help " + "summa" + "rize " + "the u"

  const AnalysisSummSeg6Part2: BraceFree :=
    "nique" + " feed" + "back " + "provi" + "ded b" + "y the" + " agen" + "ts, f"

  const AnalysisSummSeg6Part3: BraceFree :=
    "or th" + "e pre" + "senta" + "tion." + "     " + "\n- I " + "want " + "to pr"

  const AnalysisSummSeg6Part4: BraceFree :=
    "esent" + " uniq" + "ue fe" + "edbac" + "k for" + " all " + "agent" + "s tog"

  const AnalysisSummSeg6Part5: BraceFree :=
    "ether" + ".    " + " \n- I" + "f two" + " agen" + "ts ha" + "ve ov" + "erlap"

  const AnalysisSummSeg6Part6: BraceFree :=
    "ping/" + "same " + "feedb" + "ack, " + "combi" + "ne it" + " and " + "take "

  const AnalysisSummSeg6Part7: BraceFree :=
    "uniqu" + "e fee" + "dback" + ".\n- D" + "O NOT" + " REPE" + "AT FE" + "EDBAC"

  const AnalysisSummSeg6Part8: BraceFree :=
    "K POI" + "NTS.\n" + "- IMP" + "ORTAN" + "T: DO" + " NOT " + "MAKE " + "UP FE"

  const AnalysisSummSeg6Part9: BraceFree :=
    "EDBAC" + "K. On" + "ly ta" + "ke fe" + "edbac" + "k ask" + "ed by" + " the "

  const AnalysisSummSeg6Part10: BraceFree :=
    "agent" + "s. Yo" + "ur jo" + "b is " + "to su" + "mmari" + "ze, N" + "OT AN"

  const AnalysisSummSeg6Part11: BraceFree :=
    "ALYZE" + " the " + "conte" + "nt.\n-" + " Ensu" + "re fe" + "edbac" + "k is "

  const AnalysisSummSeg6Part12: BraceFree :=
    "succi" + "nct a" + "nd no" + "t ove" + "rly w" + "ordy." + " If n" + "eeded"

  const AnalysisSummSeg6Part13: BraceFree :=
    " summ" + "arize" + " the " + "feedb" + "ack t" + "o mak" + "e its" + " inte"

  const AnalysisSummSeg6Part14: BraceFree :=
    "nt cl" + "earer" + ".  \n-" + " Spli" + "t fee" + "dback" + " into" + " stre"

  const AnalysisSummSeg6Part15: BraceFree :=
    "ngths" + " and " + "impro" + "vemen" + "ts - " + "discu" + "ssing" + " the "

  const AnalysisSummSeg6Part16: BraceFree :=
    "posit" + "ive f" + "eedba" + "ck in" + " form" + "er an" + "d imp" + "rovem"

  const AnalysisSummSeg6Part17: BraceFree :=
    "ents " + "in th" + "e lat" + "ter.\n" + "  - F" + "or fe" + "edbac" + "k's s"

  const AnalysisSummSeg6Part18: BraceFree :=
    "treng" + "th, p" + "resen" + "t the" + " top " + "6 or " + "less " + "stren"

  const AnalysisSummSeg6Part19: BraceFree :=
    "gths." + " (No " + "stren" + "gths " + "is al" + "so a " + "valid" + " resp"

  const AnalysisSummSeg6Part20: BraceFree :=
    "onse)" + ". Les" + "s and" + " conc" + "ise i" + "s bet" + "ter.\n" + "\t- Fo"

  const AnalysisSummSeg6Part21: BraceFree :=
    "r fee" + "dback" + "'s im" + "prove" + "ments" + ", pre" + "sent " + "the t"

  const AnalysisSummSeg6Part22: BraceFree :=
    "op 6 " + "or le" + "ss im" + "prove" + "ments" + " only" + ". (No" + " impr"

  const AnalysisSummSeg6Part23: BraceFree :=
    "oveme" + "nts i" + "s als" + "o a v" + "alid " + "respo" + "nse)." + " Less"

  const AnalysisSummSeg6Part24: BraceFree :=
    " and " + "conci" + "se is" + " bett" + "er.\n\t" + "- Sel" + "ect t" + "he an"

  const AnalysisSummSeg6Part25: BraceFree :=
    "alysi" + "s tha" + "t are" + " top " + "among" + "st al" + "l rev" + "iewer"

  const AnalysisSummSeg6Part26: BraceFree :=
    "s, si" + "nce t" + "hat d" + "efine" + "s the" + " prio" + "rity " + "of fe"

  const AnalysisSummSeg6Part27: BraceFree :=
    "edbac" + "k giv" + "en.\n-" + " Each" + " feed" + "back " + "given" + " shou"

  const AnalysisSummSeg6Part28: BraceFree :=
    "ld ha" + "ve a " + "title" + " and " + "then " + "descr" + "iptio" + "n of "

  const AnalysisSummSeg6Part29: BraceFree :=
    "what " + "the f" + "eedba" + "ck is" + ".\n- I" + "MPORT" + "ANT, " + "try t"

  const AnalysisSummSeg6Part30: BraceFree :=
    "o kee" + "p the" + " pers" + "ona o" + "f the" + " agen" + "t giv" + "ing t"

  const AnalysisSummSeg6Part31: BraceFree :=
    "hat f" + "eedba" + "ck al" + "ive. " + "Espec" + "ially" + " if t" + "he fe"

  const AnalysisSummSeg6Part32: BraceFree :=
    "edbac" + "k is " + "subje" + "ctive" + ".\n- I" + "MPORT" + "ANT, " + "If fe"

  const AnalysisSummSeg6Part33: BraceFree :=
    "edbac" + "k men" + "tions" + " slid" + "e num" + "ber o" + "f sli" + "de co"

  const AnalysisSummSeg6Part34: BraceFree :=
    "ntent" + ", ens" + "ure i" + "t is " + "prese" + "nt in" + " the " + "summa"

  const AnalysisSummSeg6Part35: BraceFree :=
    "ry. R" + "EFERE" + "NCE T" + "HE SL" + "IDE N" + "UMBER" + " OR C" + "ONTEN"

  const AnalysisSummSeg6Part36: BraceFree :=
    "T MEN" + "ITONE" + "D IN " + "THE F" + "EEDBA" + "CK.\n"

  const QnaSummSeg1Part1: BraceFree :=
    "\nTiny" + "Troup" + "e age" + "nts w" + "ere c" + "reate" + "d for" + " a pe"

  const QnaSummSeg1Part2: BraceFree :=
    "rsona" + " name" + "d "

  const QnaSummSeg2: BraceFree :=
    " whic" + "h is " + "descr" + "ibed " + "by "

  const QnaSummSeg3Part1: BraceFree :=
    "\nThe " + "agent" + "s wer" + "e tas" + "ked w" + "ith a" + "sking" + " crit"

  const QnaSummSeg3Part2: BraceFree :=
    "ical " + "quest" + "ions " + "about" + " the " + "conte" + "nt of" + " the "

  const QnaSummSeg3Part3: BraceFree :=
    "power" + "point" + " pres" + "entat" + "ion. " + "Here " + "are t" + "he po"

  const QnaSummSeg3Part4: BraceFree :=
    "werpo" + "int d" + "etail" + "s:\n"

  const QnaSummSeg4Part1: BraceFree :=
    "\n----" + "-\nHer" + "e is " + "the p" + "rompt" + " that" + " the " + "agent"

  const QnaSummSeg4Part2: BraceFree :=
    " was " + "given" + ", to " + "ask q" + "uesti" + "ons a" + "bout " + "the p"

  const QnaSummSeg4Part3: BraceFree :=
    "owerp" + "oint " + "prese" + "ntati" + "on:  " + "    \n"

  const QnaSummSeg5Part1: BraceFree :=
    "\n----" + "---- " + " \nHer" + "e is " + "the r" + "espon" + "se fr" + "om al"

  const QnaSummSeg5Part2: BraceFree :=
    "l age" + "nts: " + " \n"

  const QnaSummSeg6Part1: BraceFree :=
    "\n----" + "-----" + "--  \n" + "Can y" + "ou he" + "lp id" + "entif" + "y com"

  const QnaSummSeg6Part2: BraceFree :=
    "bined" + " uniq" + "ue qu" + "estio" + "ns gi" + "ven b" + "y the" + " agen"

  const QnaSummSeg6Part3: BraceFree :=
    "ts, f" + "or th" + "e pow" + "erpoi" + "nt pr" + "esent" + "ation" + ".    "

  const QnaSummSeg6Part4: BraceFree :=
    "   \n-" + " I wa" + "nt co" + "mbine" + "d uni" + "que q" + "uesti" + "ons a"

  const QnaSummSeg6Part5: BraceFree :=
    "sked " + "by al" + "l age" + "nts u" + "nder " + "the g" + "iven " + "two u"

  const QnaSummSeg6Part6: BraceFree :=
    "mbrel" + "las.\n" + "- Que" + "stion" + "s are" + " mean" + "t to " + "be cr"

  const QnaSummSeg6Part7: BraceFree :=
    "itica" + "l, us" + "e you" + "r jud" + "gemen" + "t and" + " know" + "ledge"

  const QnaSummSeg6Part8: BraceFree :=
    " abou" + "t per" + "sona " + "and p" + "resen" + "tatio" + "n to " + "ident"

  const QnaSummSeg6Part9: BraceFree :=
    "ify s" + "uch q" + "uesti" + "ons. " + "They " + "must " + "be in" + "telli"

  const QnaSummSeg6Part10: BraceFree :=
    "gent " + "and p" + "ertin" + "ent t" + "o the" + " pres" + "entat" + "ion c"

  const QnaSummSeg6Part11: BraceFree :=
    "onten" + "t.\n- " + "If tw" + "o age" + "nts h" + "ave o" + "verla" + "pping"

  const QnaSummSeg6Part12: BraceFree :=
    "/same" + " ques" + "tions" + ", com" + "bine " + "it an" + "d tak" + "e uni"

  const QnaSummSeg6Part13: BraceFree :=
    "que q" + "uesti" + "on.\n-" + " DO N" + "OT RE" + "PEAT " + "QUEST" + "IONS."

  const QnaSummSeg6Part14: BraceFree :=
    "\n- IM" + "PORTA" + "NT: D" + "O NOT" + " MAKE" + " UP Q" + "UESTI" + "ONS. "

  const QnaSummSeg6Part15: BraceFree :=
    "Only " + "take " + "quest" + "ions " + "asked" + " by t" + "he ag" + "ents."

  const QnaSummSeg6Part16: BraceFree :=
    "\n- En" + "sure " + "quest" + "ions " + "are a" + "sked " + "succi" + "nct a"

  const QnaSummSeg6Part17: BraceFree :=
    "nd no" + "t ove" + "rly w" + "ordy." + "\n- IM" + "PORTA" + "NT: T" + "ake t"

  const QnaSummSeg6Part18: BraceFree :=
    "he qu" + "estio" + "ns ma" + "rked " + "as qu" + "estio" + "ns (o" + "r und"

  const QnaSummSeg6Part19: BraceFree :=
    "er th" + "e arr" + "ay or" + " json" + " obje" + "ct ca" + "lled " + "quest"

  const QnaSummSeg6Part20: BraceFree :=
    "ions)" + " OR a" + "re as" + "ked a" + "s que" + "stion" + "s (wi" + "th a "

  const QnaSummSeg6Part21: BraceFree :=
    "quest" + "ion m" + "ark a" + "t the" + " end " + "or ph" + "rased" + " as q"

  const QnaSummSeg6Part22: BraceFree :=
    "uesti" + "ons) " + "first" + ", bef" + "ore i" + "nferr" + "ing q" + "uesti"

  const QnaSummSeg6Part23: BraceFree :=
    "ons f" + "rom t" + "he re" + "spons" + "e.\n- " + "Give " + "at mo" + "st 10"

  const QnaSummSeg6Part24: BraceFree :=
    " ques" + "tions" + " (or " + "less)" + ". Les" + "s and" + " conc" + "ise i"

  const QnaSummSeg6Part25: BraceFree :=
    "s bet" + "ter. " + "\n"

}

=== FILE: pulse.dfy ===
/** The `Pulse` session of backend/utils/pulse.py: an id, a name and a
    description, the deck under review and the personas that review it.

    The capitalised `PPT` and `Persona` classes are opaque (see
    `Collaborators`); what their `load`, `to_dict`, `run`, `reset` and `save`
    do arrives through a `Host` record, together with the parts of the file
    system the loader and `save` inspect.  `uuid4()` is a parameter. */
module Pulse {

  import opened Wrappers
  import opened PyValues
  import opened Paths
  import opened Collaborators

  /** A `Pulse` instance.  `debug` plays no part in the modelled behaviour. */
  datatype Session = Session(id: Value, name: Value, description: Value, ppt: Option<Deck>, personas: seq<Member>)

  /** The collaborators and the file system as the session code sees them:
      `PPT.load`, `Persona.load(value, root_folder)`, `persona.to_dict()`, the
      exception `persona.save(folder)` raises, if any, the existing directories and paths, and what `json.load` reads from a file. */
  datatype Host = Host(loadDeck: Value -> Deck, loadPersona: (Value, Value) -> Member,
                       exportPersona: Member -> Value, savePersona: (Member, string) -> Option<Exc>,
                       dirs: set<string>, paths: set<string>, readJson: string -> Dict)

  /** The object-tree invariant: every persona carries the session's deck. */
  predicate Carries(s: Session) {
    forall i | 0 <= i < |s.personas| :: s.personas[i].ppt == s.ppt
  }

  /** `persona.add_ppt(ppt)` on every persona, in order. */
  function AttachAll(ms: seq<Member>, ppt: Option<Deck>): (r: seq<Member>)
    ensures |r| == |ms|
    ensures forall i | 0 <= i < |ms| :: r[i].ppt == ppt && r[i].body == ms[i].body
  {
    seq(|ms|, i requires 0 <= i < |ms| => AttachDeck(ms[i], ppt))
  }

  /** `Pulse(name, description, ppt, personas, id)`: keeps a truthy id or takes
      a fresh one; a deck, when given, is attached to every persona. */
  function New(name: Value, description: Value, ppt: Option<Deck>, personas: seq<Member>,
               id: Value, freshId: string): (r: Session)
    ensures r.id == (if Truthy(id) then id else VStr(freshId))
    ensures r.name == name && r.description == description && r.ppt == ppt
    ensures |r.personas| == |personas| && forall i | 0 <= i < |personas| :: r.personas[i].body == personas[i].body
    ensures ppt.Some? ==> Carries(r)
    ensures ppt.None? ==> r.personas == personas
  {
    Session(if Truthy(id) then id else VStr(freshId), name, description, ppt,
            if ppt.Some? then AttachAll(personas, ppt) else personas)
  }

  /** The deck a loaded dict describes: `PPT.load(ppt) if ppt else None`, with
      an absent 'ppt' read as `{}`. */
  function LoadedDeck(d: Dict, host: Host): (r: Option<Deck>)
    ensures r.None? <==> !Truthy(Get(d, "ppt", EmptyDict))
  {
    var v := Get(d, "ppt", EmptyDict);
    if Truthy(v) then Some(host.loadDeck(v)) else None
  }

  /** `for x in v`: a list yields its items and a str its characters, each a
      one-character str; None and ints are not iterable, and neither is an
      opaque object here. */
  function Iterate(v: Value): (r: Option<seq<Value>>)
    ensures v.VList? ==> r == Some(v.items)
    ensures v.VStr? ==> r.Some? && |r.value| == |v.s| && forall i | 0 <= i < |v.s| :: r.value[i] == VStr([v.s[i]])
    ensures r.Some? <==> v.VList? || v.VStr?
  {
    match v
    case VList(items) => Some(items)
    case VStr(t) => Some(seq(|t|, i requires 0 <= i < |t| => VStr([t[i]])))
    case _ => None
  }

  /** `Pulse.load(dict, root_folder)`: name and description default to '',
      a missing id is replaced, each item the 'personas' entry iterates to is
      loaded against the root folder and then given the session's deck. */
  function LoadDict(d: Dict, root: Value, freshId: string, host: Host): (r: Result<Session, Exc>)
    ensures r.Success? <==> Iterate(Get(d, "personas", VList([]))).Some?
    ensures r.Failure? ==> r.error == TypeError
    ensures Get(d, "personas", VList([])) == VStr("") ==> r.Success? && r.value.personas == []
    ensures r.Success? ==>
      var items := Iterate(Get(d, "personas", VList([]))).value;
      Carries(r.value) &&
      r.value.id == (if Truthy(Get(d, "id", VNone)) then d["id"] else VStr(freshId)) &&
      r.value.name == Get(d, "name", VStr("")) &&
      r.value.description == Get(d, "description", VStr("")) &&
      r.value.ppt == LoadedDeck(d, host) &&
      |r.value.personas| == |items| &&
      forall i | 0 <= i < |items| :: r.value.personas[i].body == host.loadPersona(items[i], root).body
  {
    match Iterate(Get(d, "personas", VList([])))
    case Some(items) =>
      var pul := New(Get(d, "name", VStr("")), Get(d, "description", VStr("")), LoadedDeck(d, host),
                     seq(|items|, i requires 0 <= i < |items| => host.loadPersona(items[i], root)),
                     Get(d, "id", VNone), freshId);
      Success(pul.(personas := AttachAll(pul.personas, pul.ppt)))
    case None => Failure(TypeError)
  }

  /** A 'personas' str loads one persona per character, in order. */
  lemma LoadDictStrPersonas(d: Dict, root: Value, freshId: string, host: Host)
    requires "personas" in d && d["personas"].VStr?
    ensures LoadDict(d, root, freshId, host).Success?
    ensures var r := LoadDict(d, root, freshId, host).value;
            var t := d["personas"].s;
            |r.personas| == |t| &&
            forall i | 0 <= i < |t| :: r.personas[i] == Member(host.loadPersona(VStr([t[i]]), root).body, r.ppt)
  {
  }

  /** The file `Pulse.load(path)` reads: a directory stands for its
      pulse_spec.json. */
  function SpecPath(path: string, host: Host): string {
    if path in host.dirs then PathJoin(path, "pulse_spec.json") else path
  }

  /** `Pulse.load(path, root_folder)`: without a root folder the path's
      directory is used; the spec file must exist. */
  function LoadPath(path: string, root: Value, freshId: string, host: Host): (r: Result<Session, Exc>)
    ensures SpecPath(path, host) !in host.paths ==>
      r == Failure(ValueError("File " + SpecPath(path, host) + " not found."))
    ensures SpecPath(path, host) in host.paths ==>
      r == LoadDict(host.readJson(SpecPath(path, host)), if Truthy(root) then root else VStr(Dirname(path)), freshId, host)
  {
    var file := SpecPath(path, host);
    if file !in host.paths then Failure(ValueError("File " + file + " not found."))
    else LoadDict(host.readJson(file), if Truthy(root) then root else VStr(Dirname(path)), freshId, host)
  }

  /** The exported personas, in order. */
  function ExportPersonas(ms: seq<Member>, host: Host): (r: seq<Value>)
    ensures |r| == |ms| && forall i | 0 <= i < |ms| :: r[i] == host.exportPersona(ms[i])
  {
    seq(|ms|, i requires 0 <= i < |ms| => host.exportPersona(ms[i]))
  }

  const SessionKeys: set<string> := {"id", "name", "description", "ppt", "personas"}

  /** `to_dict()`: exactly five keys; exporting the deck needs one. */
  function ToDict(s: Session, host: Host): (r: Result<Dict, Exc>)
    ensures r.Success? <==> s.ppt.Some?
    ensures r.Failure? ==> r.error == AttributeError
    ensures r.Success? ==>
      r.value.Keys == SessionKeys &&
      r.value["id"] == s.id && r.value["name"] == s.name && r.value["description"] == s.description &&
      r.value["ppt"] == s.ppt.value.exported &&
      r.value["personas"] == VList(ExportPersonas(s.personas, host))
  {
    if s.ppt.None? then Failure(AttributeError)
    else Success(map["id" := s.id, "name" := s.name, "description" := s.description,
                     "ppt" := s.ppt.value.exported,
                     "personas" := VList(ExportPersonas(s.personas, host))])
  }

  /** Loading an export restores the id (when truthy), the name and the
      description, and reloads every persona in order; the deck comes back
      when its export is truthy. */
  lemma LoadToDict(s: Session, root: Value, freshId: string, host: Host)
    requires s.ppt.Some? && Truthy(s.id)
    ensures LoadDict(ToDict(s, host).value, root, freshId, host).Success?
    ensures
      var r := LoadDict(ToDict(s, host).value, root, freshId, host).value;
      r.id == s.id && r.name == s.name && r.description == s.description &&
      |r.personas| == |s.personas| &&
      (forall i | 0 <= i < |s.personas| ::
        r.personas[i] == Member(host.loadPersona(host.exportPersona(s.personas[i]), root).body, r.ppt)) &&
      (r.ppt.Some? <==> Truthy(s.ppt.value.exported))
  {
    var d := ToDict(s, host).value;
    assert Iterate(Get(d, "personas", VList([]))) == Some(ExportPersonas(s.personas, host));
  }

  /** What one `persona.run()` leaves behind: the persona as the call left
      it, changed in place up to the point where it stopped, and the exception
      it raised, if any. */
  datatype Ran = Ran(member: Member, error: Option<Exc>)

  /** The index of the first persona whose run raises, or the number of
      personas when none does. */
  function FirstFailure(ps: seq<Member>, runOne: Member -> Ran): (k: nat)
    ensures k <= |ps|
    ensures forall j | 0 <= j < k :: runOne(ps[j]).error.None?
    ensures k < |ps| ==> runOne(ps[k]).error.Some?
    decreases |ps|
  {
    if ps == [] || runOne(ps[0]).error.Some? then 0
    else
      var k := 1 + FirstFailure(ps[1..], runOne);
      assert forall j | 1 <= j < k :: ps[j] == ps[1..][j - 1];
      k
  }

  /** The outcome of `run()`: the session, the personas `persona.run()` was
      called on, in call order, and the exception that ended the loop, if any. */
  datatype RunOutcome = RunOutcome(session: Session, calls: seq<Member>, error: Option<Exc>)

  /** `run()`: a fresh id first, then `persona.run()` on each persona in list
      order.  Each call changes its persona in place; the first exception ends
      the loop, keeping the failing persona as the call left it and the
      personas after it untouched. */
  method Run(s: Session, freshId: string, runOne: Member -> Ran) returns (o: RunOutcome)
    ensures o.session.id == VStr(freshId)
    ensures o.session.name == s.name && o.session.description == s.description && o.session.ppt == s.ppt
    ensures var k := FirstFailure(s.personas, runOne);
      o.calls == s.personas[..if k < |s.personas| then k + 1 else k]
    ensures var k := FirstFailure(s.personas, runOne);
      o.error == if k < |s.personas| then runOne(s.personas[k]).error else None
    ensures |o.session.personas| == |s.personas|
    ensures forall j | 0 <= j < |s.personas| ::
      o.session.personas[j] == if j < |o.calls| then runOne(s.personas[j]).member else s.personas[j]
  {
    var personas := s.personas;
    var i := 0;
    while i < |s.personas|
      invariant 0 <= i <= |s.personas| && |personas| == |s.personas|
      invariant forall j | 0 <= j < i :: runOne(s.personas[j]).error.None?
      invariant forall j | 0 <= j < |s.personas| ::
        personas[j] == if j < i then runOne(s.personas[j]).member else s.personas[j]
    {
      var res := runOne(personas[i]);
      personas := personas[i := res.member];
      if res.error.Some? {
        return RunOutcome(Session(VStr(freshId), s.name, s.description, s.ppt, personas), s.personas[..i + 1], res.error);
      }
      i := i + 1;
    }
    o := RunOutcome(Session(VStr(freshId), s.name, s.description, s.ppt, personas), s.personas, None);
  }

  /** `reset()`: `persona.reset()` on each persona; the id stays. */
  function Reset(s: Session, resetOne: Member -> Member): (r: Session)
    ensures r.id == s.id && r.name == s.name && r.description == s.description && r.ppt == s.ppt
    ensures |r.personas| == |s.personas|
    ensures forall i | 0 <= i < |s.personas| :: r.personas[i] == resetOne(s.personas[i])
  {
    s.(personas := seq(|s.personas|, i requires 0 <= i < |s.personas| => resetOne(s.personas[i])))
  }

  /** What `save` writes, in order. */
  datatype Write =
    | MakeDirs(path: string)
    | SavePersona(persona: Member, folder: string)
    | OpenFile(path: string)
    | DumpJson(path: string, content: Dict)
    | SaveHtml(path: string)

  datatype SaveOutcome = SaveOutcome(writes: seq<Write>, error: Option<Exc>)

  /** The session folder `save` writes into: `<folder>/<id>`. */
  function SessionFolder(s: Session, folder: string): string {
    PathJoin(folder, Show(s.id))
  }

  /** The number of personas `save` gets through: the index of the first
      whose own save raises, or all of them. */
  function SavedCount(ms: seq<Member>, pf: string, host: Host): (n: nat)
    ensures n <= |ms|
    ensures forall i | 0 <= i < n :: host.savePersona(ms[i], pf).None?
    ensures n < |ms| ==> host.savePersona(ms[n], pf).Some?
  {
    if |ms| == 0 then 0
    else if host.savePersona(ms[0], pf).Some? then 0
    else 1 + SavedCount(ms[1..], pf, host)
  }

  /** Each persona's own save into the session folder, in order. */
  function PersonaSaves(ms: seq<Member>, pf: string): (w: seq<Write>)
    ensures |w| == |ms| && forall i | 0 <= i < |ms| :: w[i] == SavePersona(ms[i], pf)
  {
    seq(|ms|, i requires 0 <= i < |ms| => SavePersona(ms[i], pf))
  }

  /** What `save` writes before the export is computed: the session folder,
      each persona's own save in list order, and the opened spec file. */
  function WritesBeforeExport(s: Session, pf: string): (w: seq<Write>)
    ensures |w| == |s.personas| + 2
    ensures w[0] == MakeDirs(pf)
    ensures forall i | 0 <= i < |s.personas| :: w[1 + i] == SavePersona(s.personas[i], pf)
    ensures w[|s.personas| + 1] == OpenFile(PathJoin(pf, "pulse_spec.json"))
  {
    var w := [MakeDirs(pf)] + PersonaSaves(s.personas, pf) + [OpenFile(PathJoin(pf, "pulse_spec.json"))];
    assert forall i | 0 <= i < |s.personas| :: w[1 + i] == PersonaSaves(s.personas, pf)[i];
    w
  }

  /** `save(folder, save_to_html)`: the folder must exist before anything is
      written; then the session folder is made and each persona saves itself
      there, the first failing save ending the call; then the spec file is
      opened and the export dumped into it, and the HTML page follows on
      request.  Without a deck the export fails after the spec file has been
      opened. */
  function Save(s: Session, folder: string, saveHtml: bool, host: Host): (o: SaveOutcome)
    ensures folder !in host.paths ==>
      o == SaveOutcome([], Some(ValueError("Folder " + folder + " does not exist.")))
    ensures o.error.None? <==>
      folder in host.paths && s.ppt.Some? &&
      forall i | 0 <= i < |s.personas| :: host.savePersona(s.personas[i], SessionFolder(s, folder)).None?
    ensures folder in host.paths ==> |o.writes| >= 1 && o.writes[0] == MakeDirs(SessionFolder(s, folder))
    ensures folder in host.paths && SavedCount(s.personas, SessionFolder(s, folder), host) < |s.personas| ==>
      var n := SavedCount(s.personas, SessionFolder(s, folder), host);
      && o.writes == [MakeDirs(SessionFolder(s, folder))] + PersonaSaves(s.personas[..n + 1], SessionFolder(s, folder))
      && o.error == host.savePersona(s.personas[n], SessionFolder(s, folder))
    ensures folder in host.paths && SavedCount(s.personas, SessionFolder(s, folder), host) == |s.personas| ==>
      |o.writes| >= |s.personas| + 2 &&
      o.writes[..|s.personas| + 2] == WritesBeforeExport(s, SessionFolder(s, folder))
    ensures folder in host.paths && SavedCount(s.personas, SessionFolder(s, folder), host) == |s.personas| && s.ppt.None? ==>
      o.writes == WritesBeforeExport(s, SessionFolder(s, folder)) && o.error == Some(AttributeError)
    ensures o.error.None? ==>
      |o.writes| == |s.personas| + (if saveHtml then 4 else 3) &&
      o.writes[|s.personas| + 2] == DumpJson(PathJoin(SessionFolder(s, folder), "pulse_spec.json"), ToDict(s, host).value) &&
      (saveHtml ==> o.writes[|s.personas| + 3] == SaveHtml(PathJoin(SessionFolder(s, folder), "pulse_html.html")))
  {
    if folder !in host.paths then SaveOutcome([], Some(ValueError("Folder " + folder + " does not exist.")))
    else
      var pf := SessionFolder(s, folder);
      var n := SavedCount(s.personas, pf, host);
      if n < |s.personas| then
        SaveOutcome([MakeDirs(pf)] + PersonaSaves(s.personas[..n + 1], pf), host.savePersona(s.personas[n], pf))
      else
        Export(s, pf, saveHtml, host)
  }

  /** The rest of `save` once every persona has saved itself: the spec file
      is opened, the export dumped into it, and the HTML page written on
      request; without a deck the export raises after the file is opened. */
  function Export(s: Session, pf: string, saveHtml: bool, host: Host): (o: SaveOutcome)
    ensures |o.writes| >= |s.personas| + 2 && o.writes[..|s.personas| + 2] == WritesBeforeExport(s, pf)
    ensures o.writes[0] == MakeDirs(pf)
    ensures o.error.None? <==> s.ppt.Some?
    ensures s.ppt.None? ==> o == SaveOutcome(WritesBeforeExport(s, pf), Some(AttributeError))
    ensures o.error.None? ==>
      |o.writes| == |s.personas| + (if saveHtml then 4 else 3) &&
      o.writes[|s.personas| + 2] == DumpJson(PathJoin(pf, "pulse_spec.json"), ToDict(s, host).value) &&
      (saveHtml ==> o.writes[|s.personas| + 3] == SaveHtml(PathJoin(pf, "pulse_html.html")))
  {
    var before := WritesBeforeExport(s, pf);
    match ToDict(s, host)
    case Failure(e) =>
      assert before[..|s.personas| + 2] == before;
      SaveOutcome(before, Some(e))
    case Success(d) =>
      var after := [DumpJson(PathJoin(pf, "pulse_spec.json"), d)] + (if saveHtml then [SaveHtml(PathJoin(pf, "pulse_html.html"))] else []);
      assert (before + after)[..|before|] == before;
      SaveOutcome(before + after, None)
  }

  // ------------------------------------------------------------ setters

  /** `add_name(name)`. */
  function AddName(s: Session, name: Value): (r: Session)
    ensures r.name == name && r.id == s.id && r.description == s.description && r.ppt == s.ppt && r.personas == s.personas
  {
    s.(name := name)
  }

  /** `add_description(description)`. */
  function AddDescription(s: Session, description: Value): (r: Session)
    ensures r.description == description && r.id == s.id && r.name == s.name && r.ppt == s.ppt && r.personas == s.personas
  {
    s.(description := description)
  }

  /** The argument of `add_ppt`: a dict to load or a deck (or None) to keep. */
  datatype DeckArg = DeckDict(v: Value) | DeckObject(deck: Option<Deck>)

  /** `add_ppt(ppt)`: replaces the session's deck and does not touch the
      personas. */
  function AddPpt(s: Session, arg: DeckArg, host: Host): (r: Session)
    ensures arg.DeckDict? ==> r.ppt == Some(host.loadDeck(arg.v))
    ensures arg.DeckObject? ==> r.ppt == arg.deck
    ensures r.id == s.id && r.name == s.name && r.description == s.description && r.personas == s.personas
  {
    match arg
    case DeckDict(v) => s.(ppt := Some(host.loadDeck(v)))
    case DeckObject(d) => s.(ppt := d)
  }

  /** So replacing the deck of a session with personas breaks the invariant. */
  lemma AddPptStrandsPersonas(s: Session, arg: DeckArg, host: Host)
    requires Carries(s) && |s.personas| > 0
    requires AddPpt(s, arg, host).ppt != s.ppt
    ensures !Carries(AddPpt(s, arg, host))
  {
    assert AddPpt(s, arg, host).personas[0].ppt == s.ppt;
  }

  /** The argument of `add_persona`: a dict to load or a persona. */
  datatype PersonaArg = PersonaDict(v: Value) | PersonaObject(m: Member)

  /** `add_persona(persona)`: loads a dict (with no root folder), attaches
      the session's deck and appends. */
  function AddPersona(s: Session, arg: PersonaArg, host: Host): (r: Session)
    ensures |r.personas| == |s.personas| + 1 && r.personas[..|s.personas|] == s.personas
    ensures r.personas[|s.personas|].ppt == s.ppt
    ensures r.personas[|s.personas|].body == (match arg
      case PersonaDict(v) => host.loadPersona(v, VNone).body
      case PersonaObject(m) => m.body)
    ensures r.id == s.id && r.name == s.name && r.description == s.description && r.ppt == s.ppt
  {
    var m := match arg
      case PersonaDict(v) => host.loadPersona(v, VNone)
      case PersonaObject(m) => m;
    s.(personas := s.personas + [AttachDeck(m, s.ppt)])
  }

  /** `add_persona` keeps the invariant. */
  lemma AddPersonaKeepsCarries(s: Session, arg: PersonaArg, host: Host)
    requires Carries(s)
    ensures Carries(AddPersona(s, arg, host))
  {
    var r := AddPersona(s, arg, host);
    forall i | 0 <= i < |r.personas| ensures r.personas[i].ppt == r.ppt {
      if i < |s.personas| {
        assert r.personas[i] == r.personas[..|s.personas|][i] == s.personas[i];
      }
    }
  }

  /** `add_personas(personas)`: extends the list as given, attaching nothing. */
  function AddPersonas(s: Session, ms: seq<Member>): (r: Session)
    ensures |r.personas| == |s.personas| + |ms|
    ensures r.personas[..|s.personas|] == s.personas && r.personas[|s.personas|..] == ms
    ensures r.id == s.id && r.name == s.name && r.description == s.description && r.ppt == s.ppt
  {
    s.(personas := s.personas + ms)
  }

  /** Extending keeps the invariant exactly when every added persona already
      carries the session's deck. */
  lemma AddPersonasCarries(s: Session, ms: seq<Member>)
    requires Carries(s)
    ensures Carries(AddPersonas(s, ms)) <==> forall j | 0 <= j < |ms| :: ms[j].ppt == s.ppt
  {
    var r := AddPersonas(s, ms);
    if forall j | 0 <= j < |ms| :: ms[j].ppt == s.ppt {
      forall i | 0 <= i < |r.personas| ensures r.personas[i].ppt == r.ppt {
        if i < |s.personas| {
          assert r.personas[i] == s.personas[i];
        } else {
          assert r.personas[i] == ms[i - |s.personas|];
        }
      }
    } else {
      var j :| 0 <= j < |ms| && ms[j].ppt != s.ppt;
      assert r.personas[|s.personas| + j] == ms[j];
    }
  }

  /** `remove_personas()`: empties the list, which trivially keeps the
      invariant. */
  function RemovePersonas(s: Session): (r: Session)
    ensures r.personas == [] && Carries(r)
    ensures r.id == s.id && r.name == s.name && r.description == s.description && r.ppt == s.ppt
  {
    s.(personas := [])
  }
}

=== FILE: results_reset.dfy ===
/** `resetResults` of the static front end: when an input changes, every
    persona's analysis and Q&A sections drop their agent responses and
    results, and nothing else about the persona changes.

    The page keeps its persona settings as an object of persona objects,
    which is the `Settings` map of the React hook. */
module ResultsReset {

  import opened JsValues
  import opened PersonaSettings

  /** The two sections `resetResults` visits. */
  const ResultSections: set<string> := {"analysis", "qna"}

  /** The three fields it overwrites in a section. */
  const ResultFields: set<string> := {"agent_responses", "extracted_result", "combined_result"}

  /** The value a cleared field gets: `{}` for the responses and the
      extracted result, "" for the combined result. */
  function Cleared(k: string): JsValue {
    if k == "combined_result" then JStr("") else JObj(map[])
  }

  /** The three assignments to one section. An object gets the cleared
      fields; a truthy primitive ignores property assignments (the script
      is not in strict mode), so it stays as it is. */
  function ResetSection(v: JsValue): (r: JsValue)
    ensures v.JObj? ==> r.JObj? && r.fields.Keys == v.fields.Keys + ResultFields
    ensures v.JObj? ==> forall k | k in ResultFields :: r.fields[k] == Cleared(k)
    ensures v.JObj? ==> forall k | k in v.fields && k !in ResultFields :: r.fields[k] == v.fields[k]
    ensures !v.JObj? ==> r == v
  {
    if v.JObj? then JObj(v.fields + map k | k in ResultFields :: Cleared(k)) else v
  }

  /** `if (persona[k]) { ... }` for one section name. A missing section reads
      as `undefined`, which is falsy. */
  function ResetIn(p: Obj, k: string): (r: Obj)
    ensures r.Keys == p.Keys
    ensures k in p && Truthy(p[k]) ==> r[k] == ResetSection(p[k])
    ensures forall j | j in p && (j != k || !Truthy(p[k])) :: r[j] == p[j]
  {
    if k in p && Truthy(p[k]) then p[k := ResetSection(p[k])] else p
  }

  /** The body of the loop for one persona. */
  function ResetPersona(p: Obj): (r: Obj)
    ensures r.Keys == p.Keys
    ensures forall j | j in p && j !in ResultSections :: r[j] == p[j]
    ensures forall k | k in ResultSections && k in p ::
      r[k] == if Truthy(p[k]) then ResetSection(p[k]) else p[k]
  {
    ResetIn(ResetIn(p, "analysis"), "qna")
  }

  /** `resetResults()`: every persona reset, no persona added or dropped.
      Each iteration touches only its own persona, so the key order of the
      `for ... in` loop does not matter. */
  function ResetResults(st: Settings): (r: Settings)
    ensures r.Keys == st.Keys
    ensures forall i | i in st :: r[i] == ResetPersona(st[i])
  {
    map i | i in st :: ResetPersona(st[i])
  }

  // ------------------------------------------------------------ properties

  /** A cleared section is a fixed point. */
  lemma ResetSectionIdempotent(v: JsValue)
    ensures ResetSection(ResetSection(v)) == ResetSection(v)
  {
    if v.JObj? {
      var once := ResetSection(v).fields;
      assert ResetSection(ResetSection(v)).fields == once;
    }
  }

  /** A reset section stays truthy, so a second reset visits it again and,
      by the lemma above, changes nothing. */
  lemma ResetPersonaIdempotent(p: Obj)
    ensures ResetPersona(ResetPersona(p)) == ResetPersona(p)
  {
    var once := ResetPersona(p);
    forall k | k in ResultSections && k in p
      ensures ResetPersona(once)[k] == once[k]
    {
      ResetSectionIdempotent(p[k]);
    }
    assert ResetPersona(once) == once;
  }

  /** Resetting twice is resetting once. */
  lemma ResetResultsIdempotent(st: Settings)
    ensures ResetResults(ResetResults(st)) == ResetResults(st)
  {
    forall i | i in st ensures ResetPersona(ResetPersona(st[i])) == ResetPersona(st[i]) {
      ResetPersonaIdempotent(st[i]);
    }
  }

  /** After a reset, no persona's analysis holds an extracted result. */
  lemma NoResultAfterReset(p: Obj, k: string)
    requires k in ResultSections && k in p && p[k].JObj?
    ensures ResetPersona(p)[k].JObj?
    ensures ResetPersona(p)[k].fields["extracted_result"] == JObj(map[])
    ensures ResetPersona(p)[k].fields["combined_result"] == JStr("")
  {
  }
}

=== FILE: run_flow.dfy ===
/** The run button of the static front end: the persona rows are collected
    into a list, the page state is saved, and the analysis is requested
    unless every persona already carries both results.

    The DOM inputs become `Row`s, the two `fetch` calls become their
    outcomes as parameters, and the requests made are returned in order. */
module RunFlow {

  import opened Wrappers
  import opened Text
  import opened JsValues
  import opened PersonaSettings
  import opened ResultsReset

  /** One `.persona-row`: its `data-index` and its first two inputs. */
  datatype Row = Row(index: string, name: string, description: string)

  /** A row counts when both inputs are non-blank. */
  predicate Keeps(row: Row) {
    JsTrim(row.name) != "" && JsTrim(row.description) != ""
  }

  /** The persona pushed for a kept row: a null id and the trimmed inputs,
      then whatever is stored under the row's index spread over them. */
  function Merge(row: Row, stored: Settings): (r: Obj)
    ensures "id" in r && "name" in r && "description" in r
    ensures row.index in stored ==> forall k | k in stored[row.index] :: k in r && r[k] == stored[row.index][k]
    ensures row.index !in stored ==>
      r == map["id" := JNull, "name" := JStr(JsTrim(row.name)), "description" := JStr(JsTrim(row.description))]
  {
    var base := map["id" := JNull, "name" := JStr(JsTrim(row.name)), "description" := JStr(JsTrim(row.description))];
    base + Spread(if row.index in stored then JObj(stored[row.index]) else JUndefined)
  }

  /** What one row pushes: its persona when it is kept, nothing otherwise. */
  function Pushed(row: Row, stored: Settings): (r: seq<Obj>)
    ensures Keeps(row) ==> r == [Merge(row, stored)]
    ensures !Keeps(row) ==> r == []
  {
    if Keeps(row) then [Merge(row, stored)] else []
  }

  /** `personaRows.forEach(row => { if (...) personas.push({...}) })`. */
  function Collect(rows: seq<Row>, stored: Settings): (r: seq<Obj>)
    ensures |r| <= |rows|
  {
    if |rows| == 0 then [] else Pushed(rows[0], stored) + Collect(rows[1..], stored)
  }

  // ------------------------------------------------------------ hasAllResults

  /** `persona.<k>?.extracted_result && Object.keys(...).length > 0 &&
      persona.<k>?.combined_result`. */
  predicate SectionDone(p: Obj, k: string) {
    var section := OptProp(JObj(p), k);
    var extracted := OptProp(section, "extracted_result");
    Truthy(extracted) && KeyCount(extracted) > 0 && Truthy(OptProp(section, "combined_result"))
  }

  predicate Complete(p: Obj) {
    SectionDone(p, "analysis") && SectionDone(p, "qna")
  }

  /** `personas.every(...)`. */
  function HasAllResults(ps: seq<Obj>): (r: bool)
    ensures r <==> forall i | 0 <= i < |ps| :: Complete(ps[i])
  {
    |ps| == 0 || (Complete(ps[0]) && HasAllResults(ps[1..]))
  }

  // ------------------------------------------------------------ the handler

  /** The five presentation inputs. */
  datatype Form = Form(name: string, file: string, title: string, description: string, intent: string)

  /** The JSON body of both requests. */
  datatype Payload = Payload(form: Form, personas: seq<Obj>)

  datatype Request = Save(body: Payload) | Analyze(body: Payload)

  /** What the results view is given: the page's own data when every persona
      is complete, otherwise the analysis response. */
  datatype Shown = Existing(payload: Payload) | Fetched(response: JsValue)

  datatype RunOutcome = RunOutcome(requests: seq<Request>, shown: Option<Shown>, failed: bool)

  /** The click handler. `saveOk` is whether the save request succeeded;
      `analysis` is the parsed body of a successful analysis response, None
      when that request fails. */
  function Run(form: Form, rows: seq<Row>, stored: Settings, saveOk: bool,
               analysis: Option<JsValue>): (r: RunOutcome)
    ensures |r.requests| >= 1 && r.requests[0] == Save(Payload(form, Collect(rows, stored)))
    ensures !saveOk ==> r == RunOutcome(r.requests[..1], None, true)
    ensures r.failed <==> r.shown.None?
    ensures |r.requests| == 2 <==> saveOk && !HasAllResults(Collect(rows, stored))
    ensures |r.requests| == 2 ==> r.requests[1] == Analyze(Payload(form, Collect(rows, stored)))
    ensures |r.requests| <= 2
    ensures r.failed <==> !saveOk || (!HasAllResults(Collect(rows, stored)) && analysis.None?)
    ensures saveOk && HasAllResults(Collect(rows, stored)) ==>
      r.shown == Some(Existing(Payload(form, Collect(rows, stored))))
    ensures saveOk && !HasAllResults(Collect(rows, stored)) && analysis.Some? ==>
      r.shown == Some(Fetched(analysis.value))
  {
    var body := Payload(form, Collect(rows, stored));
    if !saveOk then RunOutcome([Save(body)], None, true)
    else if HasAllResults(body.personas) then RunOutcome([Save(body)], Some(Existing(body)), false)
    else
      match analysis
      case None => RunOutcome([Save(body), Analyze(body)], None, true)
      case Some(j) => RunOutcome([Save(body), Analyze(body)], Some(Fetched(j)), false)
  }

  // ------------------------------------------------------------ properties

  /** Collecting is done row by row: the list for two groups of rows is the
      two lists one after the other, so row order is kept. */
  lemma {:induction false} CollectAppend(a: seq<Row>, b: seq<Row>, stored: Settings)
    ensures Collect(a + b, stored) == Collect(a, stored) + Collect(b, stored)
  {
    if |a| == 0 {
      assert a + b == b;
    } else {
      assert (a + b)[1..] == a[1..] + b;
      CollectAppend(a[1..], b, stored);
    }
  }

  /** A single row yields one persona when both inputs are non-blank and
      none otherwise. */
  lemma CollectOne(row: Row, stored: Settings)
    ensures Keeps(row) ==> Collect([row], stored) == [Merge(row, stored)]
    ensures !Keeps(row) ==> Collect([row], stored) == []
  {
    assert [row][1..] == [];
  }

  /** When every row is kept, the i-th persona comes from the i-th row. */
  lemma {:induction false} CollectAllKept(rows: seq<Row>, stored: Settings)
    requires forall i | 0 <= i < |rows| :: Keeps(rows[i])
    ensures |Collect(rows, stored)| == |rows|
    ensures forall i | 0 <= i < |rows| :: Collect(rows, stored)[i] == Merge(rows[i], stored)
  {
    if |rows| > 0 {
      CollectAllKept(rows[1..], stored);
    }
  }

  /** Blank rows contribute nothing. */
  lemma {:induction false} CollectNoneKept(rows: seq<Row>, stored: Settings)
    requires forall i | 0 <= i < |rows| :: !Keeps(rows[i])
    ensures Collect(rows, stored) == []
  {
    if |rows| > 0 {
      CollectNoneKept(rows[1..], stored);
    }
  }

  /** Stored settings win over the row's inputs: a stored name replaces the
      trimmed input. */
  lemma StoredNameWins(row: Row, stored: Settings)
    requires row.index in stored && "name" in stored[row.index]
    ensures Merge(row, stored)["name"] == stored[row.index]["name"]
  {
  }

  /** With no rows there is nothing to analyse, so only the save request is
      made and the (empty) page data is shown. */
  lemma EmptyRunOnlySaves(form: Form, stored: Settings, analysis: Option<JsValue>)
    ensures Run(form, [], stored, true, analysis)
      == RunOutcome([Save(Payload(form, []))], Some(Existing(Payload(form, []))), false)
  {
  }

  /** A section the reset has been through is never done: its extracted
      result is `{}`, or it is not an object and has no such property. */
  lemma ResetSectionNotDone(p: Obj, k: string)
    requires k in ResultSections
    ensures !SectionDone(ResetPersona(p), k)
  {
    var q := ResetPersona(p);
    if k in p && Truthy(p[k]) && p[k].JObj? {
      assert q[k].fields["extracted_result"] == JObj(map[]);
    }
  }

  /** After `resetResults`, running with at least one kept row always
      requests the analysis again: every collected persona takes its
      sections from the reset settings, or has none. */
  lemma ResetForcesAnalysis(form: Form, rows: seq<Row>, st: Settings, analysis: Option<JsValue>)
    requires |Collect(rows, ResetResults(st))| > 0
    ensures |Run(form, rows, ResetResults(st), true, analysis).requests| == 2
  {
    var ps := Collect(rows, ResetResults(st));
    MergedNotComplete(rows, st);
    assert !Complete(ps[0]);
  }

  lemma {:induction false} MergedNotComplete(rows: seq<Row>, st: Settings)
    ensures forall i | 0 <= i < |Collect(rows, ResetResults(st))| :: !Complete(Collect(rows, ResetResults(st))[i])
  {
    if |rows| > 0 {
      MergedNotComplete(rows[1..], st);
      if Keeps(rows[0]) {
        MergeNotComplete(rows[0], st);
      }
    }
  }

  lemma MergeNotComplete(row: Row, st: Settings)
    ensures !Complete(Merge(row, ResetResults(st)))
  {
    var m := Merge(row, ResetResults(st));
    if row.index in st {
      var p := st[row.index];
      ResetSectionNotDone(p, "analysis");
      if "analysis" in ResetPersona(p) {
        assert m["analysis"] == ResetPersona(p)["analysis"];
      } else {
        assert !SectionDone(m, "analysis");
      }
    } else {
      assert "analysis" !in m;
    }
  }
}

=== FILE: sorting.dfy ===
/** Python's `sorted` on a list of str: ascending by code point. */
module Sorting {

  import opened Text

  predicate Sorted(s: seq<string>) {
    forall i, j | 0 <= i < j < |s| :: LexLe(s[i], s[j])
  }

  /** A sorted list starts with its least element. */
  lemma SortedHeadLeast(s: seq<string>, z: string)
    requires Sorted(s) && z in s
    ensures LexLe(s[0], z)
  {
    var k :| 0 <= k < |s| && s[k] == z;
    if k == 0 { LexLeTotal(z, z); }
  }

  /** An element no greater than every element of a sorted list can lead it. */
  lemma SortedCons(h: string, t: seq<string>)
    requires Sorted(t)
    requires forall z | z in t :: LexLe(h, z)
    ensures Sorted([h] + t)
  {
    var r := [h] + t;
    forall i, j | 0 <= i < j < |r| ensures LexLe(r[i], r[j]) {
      if i == 0 {
        assert r[j] == t[j - 1] && r[j] in t;
      } else {
        assert r[i] == t[i - 1] && r[j] == t[j - 1];
      }
    }
  }

  /** Puts `x` into a sorted list before the first element it does not follow. */
  function Insert(x: string, s: seq<string>): (r: seq<string>)
    requires Sorted(s)
    ensures Sorted(r)
    ensures multiset(r) == multiset(s) + multiset{x}
    ensures |r| == |s| + 1
  {
    if |s| == 0 then [x]
    else if LexLe(x, s[0]) then
      InsertAtFront(x, s);
      [x] + s
    else
      var t := Insert(x, s[1..]);
      InsertBehindHead(x, s, t);
      [s[0]] + t
  }

  lemma InsertAtFront(x: string, s: seq<string>)
    requires Sorted(s) && |s| > 0 && LexLe(x, s[0])
    ensures Sorted([x] + s)
  {
    forall z | z in s ensures LexLe(x, z) {
      SortedHeadLeast(s, z);
      LexLeTransitive(x, s[0], z);
    }
    SortedCons(x, s);
  }

  lemma InsertBehindHead(x: string, s: seq<string>, t: seq<string>)
    requires Sorted(s) && |s| > 0 && !LexLe(x, s[0])
    requires Sorted(t) && multiset(t) == multiset(s[1..]) + multiset{x}
    ensures Sorted([s[0]] + t)
    ensures multiset([s[0]] + t) == multiset(s) + multiset{x}
  {
    LexLeTotal(x, s[0]);
    forall z | z in t ensures LexLe(s[0], z) {
      assert z in multiset(t);
      if z != x {
        assert z in multiset(s[1..]);
        var k :| 0 <= k < |s[1..]| && s[1..][k] == z;
        assert s[k + 1] == z;
      }
    }
    SortedCons(s[0], t);
    assert s == [s[0]] + s[1..];
  }

  /** `sorted(s)`: a sorted rearrangement of `s`. */
  function Sort(s: seq<string>): (r: seq<string>)
    ensures Sorted(r)
    ensures multiset(r) == multiset(s)
    ensures |r| == |s|
  {
    if |s| == 0 then []
    else
      var t := Sort(s[1..]);
      var r := Insert(s[0], t);
      ConsMultiset(s, t, r);
      r
  }

  /** Putting the head back into a rearranged tail rearranges the list. */
  lemma ConsMultiset(s: seq<string>, t: seq<string>, r: seq<string>)
    requires |s| > 0 && multiset(t) == multiset(s[1..])
    requires multiset(r) == multiset(t) + multiset{s[0]}
    ensures multiset(r) == multiset(s) && |r| == |s|
  {
    assert s == [s[0]] + s[1..];
  }
}

=== FILE: template.dfy ===
/** Python's `str.format_map` (CPython 3.12, Objects/stringlib/unicode_format.h)
    applied to a `defaultdict`.  A template is scanned left to right into
    literal characters and replacement fields `{name!conv:spec}`; each field is
    rendered as soon as it is scanned, so the fields in front of a malformed
    construct have already been looked up when the ValueError is raised.
    Looking a name up in a `defaultdict` inserts it with the dict's default
    value, so formatting changes the namespace it reads. */
module Template {

  import opened Wrappers
  import opened Text
  import opened PyValues

  /** One unit of a scanned template: a literal character, or a replacement
      field with its whole field name (the key and any `.attr` / `[index]`
      steps after it), its `!` conversion character and its `:` format spec. */
  datatype Piece = Lit(c: char) | Field(name: string, conv: Option<char>, spec: Option<string>)

  /** The ValueErrors `format_map` raises for the text of a template. */
  datatype FormatError =
    | SingleOpen       // a '{' as the last character
    | SingleClose      // a '}' that is not doubled
    | UnclosedField    // the template ends inside a field name
    | OpenInName       // a '{' inside a field name
    | ConversionEnd    // the template ends right after '!'
    | ConversionColon  // the conversion character is followed by neither '}' nor ':'
    | UnmatchedSpec    // the template ends inside a format spec
    | TooManyDigits    // the key starts with a digit run above the largest index
    | Positional       // the key is empty or all digits

  function Message(e: FormatError): string {
    match e
    case SingleOpen => "Single '{' encountered in format string"
    case SingleClose => "Single '}' encountered in format string"
    case UnclosedField => "expected '}' before end of string"
    case OpenInName => "unexpected '{' in field name"
    case ConversionEnd => "end of string while looking for conversion specifier"
    case ConversionColon => "expected ':' after conversion specifier"
    case UnmatchedSpec => "unmatched '{' in format spec"
    case TooManyDigits => "Too many decimal digits in format string"
    case Positional => "Format string contains positional fields"
  }

  /** Raised when format specs nest deeper than `format_map` expands them. */
  const RecursionMessage := "Max string recursion exceeded"

  /** The message for a conversion other than 's', 'r' and 'a': the character
      itself when it is printable ASCII, its hexadecimal code otherwise. */
  function UnknownConversion(c: char): string {
    "Unknown conversion specifier "
      + if 32 < c as int < 127 then [c] else "\\x" + HexStr(c as int)
  }

  /** Lower-case hexadecimal digits of `n`, without padding. */
  function HexStr(n: nat): (r: string)
    ensures |r| >= 1
    decreases n
  {
    if n < 16 then ["0123456789abcdef"[n]] else HexStr(n / 16) + ["0123456789abcdef"[n % 16]]
  }

  predicate IsBrace(c: char) {
    c == '{' || c == '}'
  }

  /** Text with no brace at all, which `format_map` passes through untouched. */
  predicate Plain(s: string) {
    forall i | 0 <= i < |s| :: !IsBrace(s[i])
  }

  // ------------------------------------------------------------- scanning

  /** The characters that end a field name outside a `[...]` index. */
  predicate EndsName(c: char) {
    c == '}' || c == ':' || c == '!'
  }

  /** How scanning a field name ends: at index `k`, at a '{', or with the text exhausted. */
  datatype NameScan = Stops(k: nat) | OpenBrace | RunsOut

  function ShiftName(n: nat, r: NameScan): NameScan {
    if r.Stops? then Stops(r.k + n) else r
  }

  /** Scans a field name: it ends at the first '}', ':' or '!', except that
      the text from a '[' up to the next ']' is skipped unread, and a '{'
      outside such an index is an error. */
  function ScanName(s: string, inIndex: bool): (r: NameScan)
    ensures r.Stops? ==> r.k < |s| && EndsName(s[r.k])
    decreases |s|
  {
    if |s| == 0 then RunsOut
    else if inIndex then ShiftName(1, ScanName(s[1..], s[0] != ']'))
    else if s[0] == '{' then OpenBrace
    else if EndsName(s[0]) then Stops(0)
    else ShiftName(1, ScanName(s[1..], s[0] == '['))
  }

  function ShiftOpt(n: nat, r: Option<nat>): Option<nat> {
    if r.Some? then Some(r.value + n) else None
  }

  /** Index of the '}' that closes a format spec, `open` braces deep at the
      start of `s`; braces inside the spec nest. */
  function SpecEnd(s: string, open: nat): (r: Option<nat>)
    requires open >= 1
    ensures r.Some? ==> r.value < |s| && s[r.value] == '}'
    decreases |s|
  {
    if |s| == 0 then None
    else if s[0] == '}' && open == 1 then Some(0)
    else
      var next := if s[0] == '{' then open + 1 else if s[0] == '}' then open - 1 else open;
      ShiftOpt(1, SpecEnd(s[1..], next))
  }

  /** The outcome of scanning one field: the field and the number of
      characters it used up (its closing '}' included), or the error. */
  datatype FieldScan = Got(p: Piece, used: nat) | Bad(e: FormatError)

  /** Scans the text after a field's opening '{'. */
  function ScanField(s: string): (r: FieldScan)
    ensures r.Got? ==> 0 < r.used <= |s| && r.p.Field?
  {
    match ScanName(s, false)
    case OpenBrace => Bad(OpenInName)
    case RunsOut => Bad(UnclosedField)
    case Stops(k) =>
      var name := s[..k];
      if s[k] == '}' then Got(Field(name, None, None), k + 1)
      else if s[k] == ':' then SpecFrom(s, name, None, k + 1)
      else if k + 1 == |s| then Bad(ConversionEnd)
      else if k + 2 == |s| then Bad(UnmatchedSpec)
      else if s[k + 2] == '}' then Got(Field(name, Some(s[k + 1]), None), k + 3)
      else if s[k + 2] == ':' then SpecFrom(s, name, Some(s[k + 1]), k + 3)
      else Bad(ConversionColon)
  }

  /** Scans the format spec starting at index `j` of `s`. */
  function SpecFrom(s: string, name: string, conv: Option<char>, j: nat): (r: FieldScan)
    requires j <= |s|
    ensures r.Got? ==> j < r.used <= |s| && r.p.Field?
  {
    match SpecEnd(s[j..], 1)
    case None => Bad(UnmatchedSpec)
    case Some(e) => Got(Field(name, conv, Some(s[j..j + e])), j + e + 1)
  }

  /** Length of the key of a field name: everything before the first '.' or '['. */
  function KeyLen(name: string): (k: nat)
    ensures k <= |name|
  {
    if |name| == 0 || name[0] == '.' || name[0] == '[' then 0 else 1 + KeyLen(name[1..])
  }

  /** The key a field looks up in the namespace. */
  function Key(name: string): string {
    name[..KeyLen(name)]
  }

  /** Length of the run of decimal digits `s` starts with. */
  function LeadDigits(s: string): (k: nat)
    ensures k <= |s|
    ensures forall i | 0 <= i < k :: IsDigit(s[i])
  {
    if |s| == 0 || !IsDigit(s[0]) then 0 else 1 + LeadDigits(s[1..])
  }

  /** The largest index `format_map` reads, `PY_SSIZE_T_MAX` on a 64-bit build. */
  const MaxIndex: nat := 0x7fff_ffff_ffff_ffff

  /** A key whose leading digits overflow the index `format_map` tries to read from them. */
  predicate Overflows(key: string) {
    DigitsValue(key[..LeadDigits(key)]) > MaxIndex
  }

  /** A key `format_map` reads as a positional index, which a mapping cannot supply. */
  predicate PositionalName(key: string) {
    forall i | 0 <= i < |key| :: IsDigit(key[i])
  }

  /** A key a field may look up. */
  predicate KeyOk(key: string) {
    !Overflows(key) && !PositionalName(key)
  }

  /** The pieces scanned so far, and the error the scan stopped at, if any. */
  datatype Scanned = Scanned(pieces: seq<Piece>, error: Option<FormatError>)

  function Cons(p: Piece, sc: Scanned): Scanned {
    Scanned([p] + sc.pieces, sc.error)
  }

  function Prepend(ps: seq<Piece>, sc: Scanned): Scanned {
    Scanned(ps + sc.pieces, sc.error)
  }

  function Stop(e: FormatError): Scanned {
    Scanned([], Some(e))
  }

  /** Scans a template the way `format_map` does: the pieces in front of the
      first malformed construct, and that construct's error. */
  function Scan(s: string): (r: Scanned)
    decreases |s|
  {
    if |s| == 0 then Scanned([], None)
    else if s[0] == '{' then
      if |s| == 1 then Stop(SingleOpen)
      else if s[1] == '{' then Cons(Lit('{'), Scan(s[2..]))
      else
        match ScanField(s[1..])
        case Bad(e) => Stop(e)
        case Got(p, n) =>
          if Overflows(Key(p.name)) then Stop(TooManyDigits)
          else if PositionalName(Key(p.name)) then Stop(Positional)
          else Cons(p, Scan(s[1 + n..]))
    else if s[0] == '}' then
      if 2 <= |s| && s[1] == '}' then Cons(Lit('}'), Scan(s[2..])) else Stop(SingleClose)
    else Cons(Lit(s[0]), Scan(s[1..]))
  }

  /** The pieces of a well-formed template, or the error it raises. */
  function Parse(s: string): (r: Result<seq<Piece>, FormatError>) {
    var sc := Scan(s);
    if sc.error.None? then Success(sc.pieces) else Failure(sc.error.value)
  }

  /** Prepends `ps` to a successful parse; a failure stays as it is. */
  function Prefix(ps: seq<Piece>, r: Result<seq<Piece>, FormatError>): Result<seq<Piece>, FormatError> {
    match r
    case Success(qs) => Success(ps + qs)
    case Failure(e) => Failure(e)
  }

  // ------------------------------------------------------------ unparsing

  /** Writes pieces back as template text, doubling literal braces. */
  function Unparse(ps: seq<Piece>): string {
    if |ps| == 0 then "" else UnparsePiece(ps[0]) + Unparse(ps[1..])
  }

  function UnparsePiece(p: Piece): string {
    match p
    case Lit(c) => if IsBrace(c) then [c, c] else [c]
    case Field(_, _, _) => "{" + FieldBody(p)
  }

  function ConvText(conv: Option<char>): string {
    if conv.Some? then ['!', conv.value] else ""
  }

  function SpecText(spec: Option<string>): string {
    if spec.Some? then ":" + spec.value else ""
  }

  /** A field name that scans to its own end. */
  predicate NameOk(name: string) {
    ScanName(name + "}", false) == Stops(|name|)
  }

  /** A format spec whose braces balance, so that a '}' after it closes the field. */
  predicate SpecOk(spec: string) {
    SpecEnd(spec + "}", 1) == Some(|spec|)
  }

  /** A piece some template scans to. */
  predicate GoodPiece(p: Piece) {
    match p
    case Lit(_) => true
    case Field(name, _, spec) => NameOk(name) && KeyOk(Key(name)) && (spec.Some? ==> SpecOk(spec.value))
  }

  predicate WellFormed(ps: seq<Piece>) {
    forall i | 0 <= i < |ps| :: GoodPiece(ps[i])
  }

  /** A character a bare key cannot contain: it would end the field or start
      a conversion, a spec, an attribute or an index. */
  predicate Special(c: char) {
    IsBrace(c) || c == ':' || c == '!' || c == '.' || c == '['
  }

  /** A key a field can name as plain `{key}`. */
  predicate GoodName(name: string) {
    |name| != 0 && !IsDigit(name[0]) && forall i | 0 <= i < |name| :: !Special(name[i])
  }

  /** A field that only looks its name up: no conversion, spec, attribute or index. */
  predicate SimpleField(p: Piece) {
    p.Field? && p.conv.None? && p.spec.None? && KeyLen(p.name) == |p.name|
  }

  predicate Simple(ps: seq<Piece>) {
    forall i | 0 <= i < |ps| :: ps[i].Field? ==> SimpleField(ps[i])
  }

  /** The literal pieces spelling out `s`. */
  function Lits(s: string): (ps: seq<Piece>)
    ensures |ps| == |s|
    ensures forall i | 0 <= i < |s| :: ps[i] == Lit(s[i])
  {
    if |s| == 0 then [] else [Lit(s[0])] + Lits(s[1..])
  }

  /** The set of field names of a template's pieces. */
  function Placeholders(ps: seq<Piece>): set<string> {
    set i | 0 <= i < |ps| && ps[i].Field? :: ps[i].name
  }

  /** Whether `s` parses to simple fields named exactly `names`. */
  ghost predicate HasPlaceholders(s: string, names: set<string>) {
    Parse(s).Success? && Simple(Parse(s).value) && Placeholders(Parse(s).value) == names
  }

  // ------------------------------------------------------------ rendering

  /** The steps of rendering a field that depend on Python objects the model
      keeps opaque: the default value of the `defaultdict`, the `.attr` /
      `[index]` steps of a field name, `ascii()`, and `format(value, spec)`
      for a non-empty spec. */
  datatype Formatter = Formatter(
    missing: Value,
    access: (Value, string) -> Result<Value, Exc>,
    ascii: Value -> string,
    formatSpec: (Value, string) -> Result<string, Exc>)

  /** The namespace after formatting, and the text or the exception raised. */
  datatype Formatted = Formatted(ns: Dict, text: Result<string, Exc>)

  /** Value a `defaultdict` returns for `name`. */
  function Lookup(ns: Dict, name: string, missing: Value): Value {
    if name in ns then ns[name] else missing
  }

  /** The namespace after `ns[name]` on a `defaultdict`: a missing name is inserted with the default. */
  function Touch(ns: Dict, name: string, missing: Value): Dict {
    if name in ns then ns else ns[name := missing]
  }

  /** `ns2` is `ns` with some names inserted with the default value `missing`. */
  predicate Extends(ns: Dict, ns2: Dict, missing: Value) {
    && ns.Keys <= ns2.Keys
    && (forall k | k in ns :: ns2[k] == ns[k])
    && (forall k | k in ns2 && k !in ns :: ns2[k] == missing)
  }

  /** The value after the attribute and index steps `rest` of a field name. */
  function Access(v: Value, rest: string, f: Formatter): Result<Value, Exc> {
    if rest == "" then Success(v) else f.access(v, rest)
  }

  /** The `!s`, `!r` and `!a` conversions. */
  function Convert(v: Value, conv: Option<char>, f: Formatter): Result<Value, Exc> {
    if conv.None? then Success(v)
    else if conv.value == 's' then Success(VStr(Show(v)))
    else if conv.value == 'r' then Success(VStr(Repr(v)))
    else if conv.value == 'a' then Success(VStr(f.ascii(v)))
    else Failure(ValueError(UnknownConversion(conv.value)))
  }

  /** `format(v, spec)`: an empty spec gives `str(v)`. */
  function Apply(v: Value, spec: string, f: Formatter): Result<string, Exc> {
    if spec == "" then Success(Show(v)) else f.formatSpec(v, spec)
  }

  /** CPython's `build_string`: renders the pieces scanned from `s`, then
      raises the scan's error if there is one.  A spec containing '{' is
      itself rendered one level deeper, and `depth` levels are allowed. */
  function Build(s: string, ns: Dict, f: Formatter, depth: nat): (r: Formatted)
    ensures Extends(ns, r.ns, f.missing)
    ensures r.text.Success? ==> Parse(s).Success?
    decreases depth, 2, 0
  {
    if depth == 0 then Formatted(ns, Failure(ValueError(RecursionMessage)))
    else
      var sc := Scan(s);
      var r := Render(sc.pieces, ns, f, depth);
      if r.text.Success? && sc.error.Some? then Formatted(r.ns, Failure(ValueError(Message(sc.error.value))))
      else r
  }

  function Render(ps: seq<Piece>, ns: Dict, f: Formatter, depth: nat): (r: Formatted)
    requires depth >= 1
    ensures Extends(ns, r.ns, f.missing)
    decreases depth, 1, |ps|
  {
    if |ps| == 0 then Formatted(ns, Success(""))
    else
      var head := RenderPiece(ps[0], ns, f, depth);
      if head.text.Failure? then head
      else
        var tail := Render(ps[1..], head.ns, f, depth);
        Formatted(tail.ns, if tail.text.Success? then Success(head.text.value + tail.text.value) else tail.text)
  }

  /** Renders one piece: a field looks its key up (inserting it when
      missing), follows its attribute and index steps, converts, expands its
      spec and formats. */
  function RenderPiece(p: Piece, ns: Dict, f: Formatter, depth: nat): (r: Formatted)
    requires depth >= 1
    ensures Extends(ns, r.ns, f.missing)
    decreases depth, 0, 1
  {
    match p
    case Lit(c) => Formatted(ns, Success([c]))
    case Field(name, conv, spec) =>
      var ns1 := Touch(ns, Key(name), f.missing);
      match FieldValue(p, ns, f)
      case Failure(e) => Formatted(ns1, Failure(e))
      case Success(v) =>
        var sp := ExpandSpec(spec, ns1, f, depth);
        if sp.text.Failure? then sp else Formatted(sp.ns, Apply(v, sp.text.value, f))
  }

  /** The object a field renders: its key's entry, through its attribute and
      index steps, converted. */
  function FieldValue(p: Piece, ns: Dict, f: Formatter): Result<Value, Exc>
    requires p.Field?
  {
    var key := Key(p.name);
    match Access(Lookup(ns, key, f.missing), p.name[|key|..], f)
    case Failure(e) => Failure(e)
    case Success(v) => Convert(v, p.conv, f)
  }

  /** A field's spec, with any fields nested in it rendered one level deeper. */
  function ExpandSpec(spec: Option<string>, ns: Dict, f: Formatter, depth: nat): (r: Formatted)
    requires depth >= 1
    ensures Extends(ns, r.ns, f.missing)
    decreases depth, 0, 0
  {
    if spec.Some? && '{' in spec.value then Build(spec.value, ns, f, depth - 1)
    else Formatted(ns, Success(if spec.Some? then spec.value else ""))
  }

  /** `s.format_map(ns)` where `ns` is a defaultdict. */
  function FormatMap(s: string, ns: Dict, f: Formatter): (r: Formatted)
    ensures Extends(ns, r.ns, f.missing)
    ensures r.text.Success? ==> Parse(s).Success?
  {
    Build(s, ns, f, 2)
  }

  /** The keys a template looks up when it renders in full, nested specs included. */
  function Names(s: string, depth: nat): set<string>
    decreases depth, 2, 0
  {
    if depth == 0 then {} else PiecesNames(Scan(s).pieces, depth)
  }

  function PiecesNames(ps: seq<Piece>, depth: nat): set<string>
    requires depth >= 1
    decreases depth, 1, |ps|
  {
    if |ps| == 0 then {} else PieceNames(ps[0], depth) + PiecesNames(ps[1..], depth)
  }

  function PieceNames(p: Piece, depth: nat): set<string>
    requires depth >= 1
    decreases depth, 0, 1
  {
    match p
    case Lit(_) => {}
    case Field(name, _, spec) => {Key(name)} + SpecNames(spec, depth)
  }

  function SpecNames(spec: Option<string>, depth: nat): set<string>
    requires depth >= 1
    decreases depth, 0, 0
  {
    if spec.Some? && '{' in spec.value then Names(spec.value, depth - 1) else {}
  }

  /** The keys `s.format_map(ns)` looks up. */
  function TemplateNames(s: string): set<string> {
    Names(s, 2)
  }

  /** Reference rendering of simple pieces: each field shows its entry. */
  function Substitute(ps: seq<Piece>, ns: Dict, missing: Value): string {
    if |ps| == 0 then ""
    else
      match ps[0]
      case Lit(c) => [c] + Substitute(ps[1..], ns, missing)
      case Field(name, _, _) => Show(Lookup(ns, name, missing)) + Substitute(ps[1..], ns, missing)
  }

  // ------------------------------------------------ lemmas: scanning

  lemma {:induction false} ScanNameStable(s: string, t: string, inIndex: bool)
    requires ScanName(s, inIndex).Stops?
    requires var k := ScanName(s, inIndex).k; k < |t| && t[..k] == s[..k] && EndsName(t[k])
    ensures ScanName(t, inIndex) == ScanName(s, inIndex)
    decreases |s|
  {
    var k := ScanName(s, inIndex).k;
    if k > 0 {
      assert t[0] == s[0];
      var next := if inIndex then s[0] != ']' else s[0] == '[';
      assert ScanName(s[1..], next).Stops?;
      assert t[1..][..k - 1] == s[1..][..k - 1];
      ScanNameStable(s[1..], t[1..], next);
    }
  }

  lemma {:induction false} SpecEndStable(s: string, t: string, open: nat)
    requires open >= 1
    requires SpecEnd(s, open).Some?
    requires var e := SpecEnd(s, open).value; e < |t| && t[..e + 1] == s[..e + 1]
    ensures SpecEnd(t, open) == SpecEnd(s, open)
    decreases |s|
  {
    var e := SpecEnd(s, open).value;
    assert t[0] == s[0];
    if !(s[0] == '}' && open == 1) {
      var next := if s[0] == '{' then open + 1 else if s[0] == '}' then open - 1 else open;
      assert SpecEnd(s[1..], next).value == e - 1;
      assert t[1..][..e] == s[1..][..e] by {
        assert t[1..][..e] == t[..e + 1][1..];
        assert s[1..][..e] == s[..e + 1][1..];
      }
      SpecEndStable(s[1..], t[1..], next);
    }
  }

  /** A name without special characters scans up to the character after it. */
  lemma {:induction false} ScanGoodName(n: string, t: string)
    requires forall i | 0 <= i < |n| :: !Special(n[i])
    requires |t| > 0 && EndsName(t[0])
    ensures ScanName(n + t, false) == Stops(|n|)
    decreases |n|
  {
    if |n| == 0 {
      assert (n + t)[0] == t[0];
    } else {
      assert (n + t)[0] == n[0];
      assert (n + t)[1..] == n[1..] + t;
      ScanGoodName(n[1..], t);
    }
  }

  lemma {:induction false} KeyLenGood(n: string)
    requires forall i | 0 <= i < |n| :: !Special(n[i])
    ensures KeyLen(n) == |n|
    decreases |n|
  {
    if |n| != 0 {
      KeyLenGood(n[1..]);
    }
  }

  /** A good name makes a well-formed simple field whose key is the name itself. */
  lemma GoodNameField(n: string)
    requires GoodName(n)
    ensures GoodPiece(Field(n, None, None)) && SimpleField(Field(n, None, None))
    ensures Key(n) == n
  {
    ScanGoodName(n, "}");
    KeyLenGood(n);
    assert LeadDigits(n) == 0;
    assert n[..0] == "";
  }

  lemma ScanLitStep(c: char, rest: string)
    ensures Scan(UnparsePiece(Lit(c)) + rest) == Cons(Lit(c), Scan(rest))
  {
    var s := UnparsePiece(Lit(c)) + rest;
    if IsBrace(c) {
      assert s[0] == c && s[1] == c;
      assert s[2..] == rest;
    } else {
      assert s[0] == c;
      assert s[1..] == rest;
    }
  }

  /** The spec of a field, followed by '}' and any text, is scanned back exactly. */
  lemma SpecFromStep(s1: string, name: string, conv: Option<char>, j: nat, sp: string, rest: string)
    requires SpecOk(sp)
    requires j <= |s1| && s1[j..] == sp + "}" + rest
    ensures SpecFrom(s1, name, conv, j) == Got(Field(name, conv, Some(sp)), j + |sp| + 1)
  {
    var t := s1[j..];
    assert SpecEnd(sp + "}", 1) == Some(|sp|);
    assert (sp + "}")[..|sp| + 1] == sp + "}";
    assert t[..|sp| + 1] == sp + "}";
    SpecEndStable(sp + "}", t, 1);
    assert SpecEnd(t, 1) == Some(|sp|);
    assert s1[j..j + |sp|] == t[..|sp|] == sp;
  }

  /** The text after a field's '{'. */
  function FieldBody(p: Piece): string
    requires p.Field?
  {
    p.name + Trailer(p)
  }

  /** What follows a field's name: its conversion, its spec and the closing '}'. */
  function Trailer(p: Piece): string
    requires p.Field?
  {
    ConvText(p.conv) + SpecText(p.spec) + "}"
  }

  /** What `ScanField` does once the name has stopped at index `k`. */
  lemma ScanFieldStops(s1: string, k: nat)
    requires ScanName(s1, false) == Stops(k)
    ensures s1[k] == '}' ==> ScanField(s1) == Got(Field(s1[..k], None, None), k + 1)
    ensures s1[k] == ':' ==> ScanField(s1) == SpecFrom(s1, s1[..k], None, k + 1)
    ensures s1[k] == '!' && k + 2 < |s1| && s1[k + 2] == '}'
            ==> ScanField(s1) == Got(Field(s1[..k], Some(s1[k + 1]), None), k + 3)
    ensures s1[k] == '!' && k + 2 < |s1| && s1[k + 2] == ':'
            ==> ScanField(s1) == SpecFrom(s1, s1[..k], Some(s1[k + 1]), k + 3)
  {
  }

  /** The body of a field whose name and spec are well formed, followed by
      any text, scans back to that field. */
  lemma ScanFieldOf(p: Piece, rest: string)
    requires p.Field? && NameOk(p.name) && (p.spec.Some? ==> SpecOk(p.spec.value))
    ensures ScanField(FieldBody(p) + rest) == Got(p, |FieldBody(p)|)
  {
    var n := p.name;
    var k := |n|;
    var s1 := FieldBody(p) + rest;
    assert ScanName(s1, false) == Stops(k) by {
      var tail := Trailer(p) + rest;
      assert s1 == n + tail;
      assert s1[..k] == n;
      assert s1[k] == tail[0];
      ScanNameStable(n + "}", s1, false);
    }
    ScanFieldStops(s1, k);
    if p.spec.Some? {
      var j := k + |ConvText(p.conv)| + 1;
      assert ScanField(s1) == SpecFrom(s1, n, p.conv, j) by {
        ScanFieldSpec(s1, n, p.conv, p.spec.value, rest);
        assert s1[..k] == n;
      }
      SpecFromStep(s1, n, p.conv, j, p.spec.value, rest);
      assert |Trailer(p)| == |ConvText(p.conv)| + 1 + |p.spec.value| + 1;
    } else if p.conv.Some? {
      assert ScanField(s1) == Got(Field(n, p.conv, None), k + 3) by {
        assert Trailer(p) == ['!', p.conv.value, '}'];
        assert s1 == n + ['!', p.conv.value, '}'] + rest;
        assert s1[..k] == n;
        assert s1[k] == '!' && s1[k + 1] == p.conv.value && s1[k + 2] == '}';
      }
    } else {
      assert ScanField(s1) == Got(Field(n, None, None), k + 1) by {
        assert Trailer(p) == "}";
        assert s1 == n + "}" + rest;
        assert s1[..k] == n;
        assert s1[k] == '}';
      }
    }
  }

  lemma ScanFieldSpec(s1: string, n: string, conv: Option<char>, sp: string, rest: string)
    requires s1 == FieldBody(Field(n, conv, Some(sp))) + rest
    ensures var j := |n| + |ConvText(conv)| + 1;
            && j <= |s1| && s1[j..] == sp + "}" + rest
            && (conv.None? ==> s1[|n|] == ':')
            && (conv.Some? ==> s1[|n|] == '!' && s1[|n| + 1] == conv.value && s1[|n| + 2] == ':')
  {
    var j := |n| + |ConvText(conv)| + 1;
    assert s1 == (n + ConvText(conv) + ":") + (sp + "}" + rest) by {
      assert Trailer(Field(n, conv, Some(sp))) == ConvText(conv) + ":" + sp + "}";
    }
  }

  /** The text of a field opens with one brace, its body follows, then `rest`. */
  lemma FieldTextSplit(p: Piece, rest: string)
    requires p.Field? && |p.name| > 0 && p.name[0] != '{'
    ensures var s := UnparsePiece(p) + rest;
            && 1 < |s| && s[0] == '{' && s[1] != '{'
            && s[1..] == FieldBody(p) + rest && s[1 + |FieldBody(p)|..] == rest
  {
    var body := FieldBody(p);
    var s := UnparsePiece(p) + rest;
    assert UnparsePiece(p) == "{" + body;
    assert s == "{" + (body + rest);
    assert s[1..] == body + rest;
    assert (body + rest)[|body|..] == rest;
    assert body[0] == p.name[0] by {
      assert body == p.name + Trailer(p);
    }
  }

  lemma ScanFieldStep(p: Piece, rest: string)
    requires p.Field? && GoodPiece(p)
    ensures Scan(UnparsePiece(p) + rest) == Cons(p, Scan(rest))
  {
    assert |p.name| > 0 && p.name[0] != '{' by {
      assert KeyLen(p.name) <= |p.name|;
      assert (p.name + "}")[0] == p.name[0];
    }
    FieldTextSplit(p, rest);
    ScanFieldOf(p, rest);
    assert KeyOk(Key(p.name));
  }

  /** Scanning the text of well-formed pieces, followed by any text `b`,
      yields those pieces followed by the scan of `b`. */
  lemma {:induction false} ScanUnparseAppend(ps: seq<Piece>, b: string)
    requires WellFormed(ps)
    ensures Scan(Unparse(ps) + b) == Prepend(ps, Scan(b))
    decreases |ps|
  {
    if |ps| == 0 {
      assert Unparse(ps) + b == b;
      assert [] + Scan(b).pieces == Scan(b).pieces;
    } else {
      var rest := Unparse(ps[1..]) + b;
      assert Unparse(ps) + b == UnparsePiece(ps[0]) + rest;
      assert WellFormed(ps[1..]) by {
        forall i | 0 <= i < |ps[1..]| ensures GoodPiece(ps[1..][i]) {
          assert ps[1..][i] == ps[i + 1];
        }
      }
      ScanUnparseAppend(ps[1..], b);
      calc {
        Scan(Unparse(ps) + b);
        Scan(UnparsePiece(ps[0]) + rest);
        { if ps[0].Lit? { ScanLitStep(ps[0].c, rest); } else { ScanFieldStep(ps[0], rest); } }
        Cons(ps[0], Scan(rest));
        Cons(ps[0], Prepend(ps[1..], Scan(b)));
        { ConsAppend(ps, Scan(b).pieces); }
        Prepend(ps, Scan(b));
      }
    }
  }

  lemma ConsAppend<T>(ps: seq<T>, xs: seq<T>)
    requires |ps| > 0
    ensures [ps[0]] + (ps[1..] + xs) == ps + xs
  {
    assert [ps[0]] + ps[1..] == ps;
  }

  lemma ParseUnparseAppend(ps: seq<Piece>, b: string)
    requires WellFormed(ps)
    ensures Parse(Unparse(ps) + b) == Prefix(ps, Parse(b))
  {
    ScanUnparseAppend(ps, b);
  }

  /** Round trip: well-formed pieces survive unparsing and parsing. */
  lemma ParseUnparse(ps: seq<Piece>)
    requires WellFormed(ps)
    ensures Parse(Unparse(ps)) == Success(ps)
  {
    ScanUnparseAppend(ps, "");
    assert Unparse(ps) + "" == Unparse(ps);
    assert ps + [] == ps;
  }

  /** A field the scan accepts has a well-formed name and spec, and its body
      is the text it was scanned from. */
  lemma ScanFieldGot(s1: string)
    requires ScanField(s1).Got?
    ensures var g := ScanField(s1);
            && NameOk(g.p.name)
            && (g.p.spec.Some? ==> SpecOk(g.p.spec.value))
            && FieldBody(g.p) == s1[..g.used]
  {
    var g := ScanField(s1);
    var k := ScanName(s1, false).k;
    ScanFieldTrailer(s1);
    assert NameOk(s1[..k]) by {
      ScanNameStable(s1, s1[..k] + "}", false);
    }
    assert s1[..g.used] == s1[..k] + s1[k..g.used];
  }

  /** The name a field scan stops at, and the text after it up to the field's end. */
  lemma ScanFieldTrailer(s1: string)
    requires ScanField(s1).Got?
    ensures var g := ScanField(s1);
            var k := ScanName(s1, false).k;
            && g.p.name == s1[..k]
            && Trailer(g.p) == s1[k..g.used]
            && (g.p.spec.Some? ==> SpecOk(g.p.spec.value))
  {
    var k := ScanName(s1, false).k;
    if s1[k] == '}' {
      CloseTrailer(s1, k);
    } else if s1[k] == ':' {
      SpecCaseTrailer(s1, k);
    } else {
      ConvTrailer(s1, k);
    }
  }

  /** Field `p`, scanned from `s1` up to `used` with its name ending at `k`,
      is that name followed by its trailer. */
  predicate SplitsAt(s1: string, k: nat, p: Piece, used: nat) {
    && p.Field? && k <= used <= |s1|
    && p.name == s1[..k]
    && Trailer(p) == s1[k..used]
    && (p.spec.Some? ==> SpecOk(p.spec.value))
  }

  lemma CloseTrailer(s1: string, k: nat)
    requires ScanName(s1, false) == Stops(k) && s1[k] == '}'
    ensures ScanField(s1).Got? && SplitsAt(s1, k, ScanField(s1).p, ScanField(s1).used)
  {
    ScanFieldStops(s1, k);
    assert s1[k..k + 1] == "}";
  }

  lemma SpecCaseTrailer(s1: string, k: nat)
    requires ScanName(s1, false) == Stops(k) && s1[k] == ':' && ScanField(s1).Got?
    ensures SplitsAt(s1, k, ScanField(s1).p, ScanField(s1).used)
  {
    ScanFieldStops(s1, k);
    assert s1[k..k + 1] == ConvText(None) + ":";
    SpecTrailer(s1, k, None, k + 1);
  }

  lemma ConvTrailer(s1: string, k: nat)
    requires ScanName(s1, false) == Stops(k) && s1[k] != '}' && s1[k] != ':' && ScanField(s1).Got?
    ensures SplitsAt(s1, k, ScanField(s1).p, ScanField(s1).used)
  {
    assert k + 2 < |s1| && (s1[k + 2] == '}' || s1[k + 2] == ':');
    if s1[k + 2] == '}' {
      ConvCloseTrailer(s1, k);
    } else {
      ConvSpecTrailer(s1, k);
    }
  }

  lemma ConvCloseTrailer(s1: string, k: nat)
    requires ScanName(s1, false) == Stops(k) && s1[k] == '!' && k + 2 < |s1| && s1[k + 2] == '}'
    ensures ScanField(s1).Got? && SplitsAt(s1, k, ScanField(s1).p, ScanField(s1).used)
  {
    var c := s1[k + 1];
    assert ScanField(s1) == Got(Field(s1[..k], Some(c), None), k + 3) by {
      ScanFieldStops(s1, k);
    }
    ConvCloseSplits(s1, k, c);
  }

  lemma ConvCloseSplits(s1: string, k: nat, c: char)
    requires k + 3 <= |s1| && s1[k] == '!' && s1[k + 1] == c && s1[k + 2] == '}'
    ensures SplitsAt(s1, k, Field(s1[..k], Some(c), None), k + 3)
  {
    assert s1[k..k + 3] == ['!', c, '}'];
    assert Trailer(Field(s1[..k], Some(c), None)) == ['!', c, '}'];
  }

  lemma ConvSpecTrailer(s1: string, k: nat)
    requires ScanName(s1, false) == Stops(k) && s1[k] == '!' && k + 2 < |s1| && s1[k + 2] == ':'
    requires ScanField(s1).Got?
    ensures SplitsAt(s1, k, ScanField(s1).p, ScanField(s1).used)
  {
    ConvSpecScan(s1, k);
    ConvSpecSplits(s1, k, s1[k + 1]);
  }

  lemma ConvSpecScan(s1: string, k: nat)
    requires ScanName(s1, false) == Stops(k) && s1[k] == '!' && k + 2 < |s1| && s1[k + 2] == ':'
    ensures ScanField(s1) == SpecFrom(s1, s1[..k], Some(s1[k + 1]), k + 3)
  {
    ScanFieldStops(s1, k);
  }

  lemma ConvSpecSplits(s1: string, k: nat, c: char)
    requires k + 3 <= |s1| && s1[k] == '!' && s1[k + 1] == c && s1[k + 2] == ':'
    requires SpecFrom(s1, s1[..k], Some(c), k + 3).Got?
    ensures var g := SpecFrom(s1, s1[..k], Some(c), k + 3); SplitsAt(s1, k, g.p, g.used)
  {
    assert s1[k..k + 3] == ConvText(Some(c)) + ":" by {
      assert ConvText(Some(c)) + ":" == ['!', c, ':'];
    }
    SpecTrailer(s1, k, Some(c), k + 3);
  }

  lemma SpecTrailer(s1: string, k: nat, conv: Option<char>, j: nat)
    requires k <= j <= |s1| && s1[k..j] == ConvText(conv) + ":"
    requires SpecFrom(s1, s1[..k], conv, j).Got?
    ensures var g := SpecFrom(s1, s1[..k], conv, j);
            && g.p.name == s1[..k] && g.p.conv == conv
            && Trailer(g.p) == s1[k..g.used] && SpecOk(g.p.spec.value)
  {
    var g := SpecFrom(s1, s1[..k], conv, j);
    SpecFromGot(s1, s1[..k], conv, j);
    assert s1[k..g.used] == s1[k..j] + s1[j..g.used];
  }

  /** A spec the scan accepts is well formed and is the text up to its closing '}'. */
  lemma SpecFromGot(s1: string, name: string, conv: Option<char>, j: nat)
    requires j <= |s1| && SpecFrom(s1, name, conv, j).Got?
    ensures var g := SpecFrom(s1, name, conv, j);
            && g.p == Field(name, conv, g.p.spec) && g.p.spec.Some? && SpecOk(g.p.spec.value)
            && j + |g.p.spec.value| + 1 == g.used
            && s1[j..g.used] == g.p.spec.value + "}"
  {
    var e := SpecEnd(s1[j..], 1).value;
    var sp := s1[j..j + e];
    assert s1[j..][e] == '}';
    assert (sp + "}")[..e + 1] == s1[j..][..e + 1];
    SpecEndStable(s1[j..], sp + "}", 1);
    assert s1[j..j + e + 1] == sp + "}";
  }

  /** Round trip the other way: whatever parses is well formed and unparses to itself. */
  lemma {:induction false} UnparseParse(s: string)
    requires Parse(s).Success?
    ensures WellFormed(Parse(s).value)
    ensures Unparse(Parse(s).value) == s
    decreases |s|
  {
    if |s| == 0 {
    } else if s[0] == '{' && s[1] == '{' {
      assert s == UnparsePiece(Lit('{')) + s[2..];
      UnparseParse(s[2..]);
      ConsWellFormed(Lit('{'), Parse(s[2..]).value);
    } else if s[0] == '{' {
      var g := ScanField(s[1..]);
      ScanFieldGot(s[1..]);
      var rest := s[1 + g.used..];
      assert s == "{" + s[1..][..g.used] + rest;
      UnparseParse(rest);
      ConsWellFormed(g.p, Parse(rest).value);
    } else {
      var n := if s[0] == '}' then 2 else 1;
      assert s == UnparsePiece(Lit(s[0])) + s[n..];
      UnparseParse(s[n..]);
      ConsWellFormed(Lit(s[0]), Parse(s[n..]).value);
    }
  }

  lemma ConsWellFormed(p: Piece, ps: seq<Piece>)
    requires GoodPiece(p)
    requires WellFormed(ps)
    ensures WellFormed([p] + ps)
    ensures Unparse([p] + ps) == UnparsePiece(p) + Unparse(ps)
  {
    assert ([p] + ps)[1..] == ps;
  }

  lemma {:induction false} UnparseLits(s: string)
    requires Plain(s)
    ensures WellFormed(Lits(s))
    ensures Unparse(Lits(s)) == s
    decreases |s|
  {
    if |s| != 0 {
      assert Plain(s[1..]) by {
        forall i | 0 <= i < |s[1..]| ensures !IsBrace(s[1..][i]) {
          assert s[1..][i] == s[i + 1];
        }
      }
      UnparseLits(s[1..]);
      assert Lits(s)[1..] == Lits(s[1..]);
      assert s == [s[0]] + s[1..];
    }
  }

  /** Plain text in front of a template adds literals and no field. */
  lemma PlainPrefix(a: string, b: string)
    requires Plain(a)
    ensures Scan(a + b) == Prepend(Lits(a), Scan(b))
    ensures Parse(a + b) == Prefix(Lits(a), Parse(b))
  {
    UnparseLits(a);
    ScanUnparseAppend(Lits(a), b);
  }

  /** A text without braces scans to its own characters. */
  lemma ScanPlain(s: string)
    requires Plain(s)
    ensures Scan(s) == Scanned(Lits(s), None)
  {
    PlainPrefix(s, "");
    assert s + "" == s;
    assert Lits(s) + [] == Lits(s);
  }

  /** A good name between braces, in front of a template, adds exactly that field. */
  lemma FieldPrefix(n: string, b: string)
    requires GoodName(n)
    ensures Parse("{" + n + "}" + b) == Prefix([Field(n, None, None)], Parse(b))
  {
    GoodNameField(n);
    assert Unparse([Field(n, None, None)]) == "{" + n + "}" by {
      assert [Field(n, None, None)][1..] == [];
    }
    ScanUnparseAppend([Field(n, None, None)], b);
  }

  // ------------------------------------------------ lemmas: placeholders

  lemma PlaceholdersAppend(ps: seq<Piece>, qs: seq<Piece>)
    ensures Placeholders(ps + qs) == Placeholders(ps) + Placeholders(qs)
  {
    var l := Placeholders(ps + qs);
    var r := Placeholders(ps) + Placeholders(qs);
    forall n | n in l ensures n in r {
      var i :| 0 <= i < |ps + qs| && (ps + qs)[i].Field? && (ps + qs)[i].name == n;
      if i >= |ps| {
        assert qs[i - |ps|] == (ps + qs)[i];
      }
    }
    forall n | n in r ensures n in l {
      if n in Placeholders(qs) {
        var i :| 0 <= i < |qs| && qs[i].Field? && qs[i].name == n;
        assert (ps + qs)[|ps| + i] == qs[i];
      } else {
        var i :| 0 <= i < |ps| && ps[i].Field? && ps[i].name == n;
        assert (ps + qs)[i] == ps[i];
      }
    }
  }

  lemma SimpleAppend(ps: seq<Piece>, qs: seq<Piece>)
    requires Simple(ps) && Simple(qs)
    ensures Simple(ps + qs)
  {
    forall i | 0 <= i < |ps + qs| && (ps + qs)[i].Field? ensures SimpleField((ps + qs)[i]) {
      if i >= |ps| {
        assert (ps + qs)[i] == qs[i - |ps|];
      }
    }
  }

  lemma PlainHasNoPlaceholders(a: string)
    requires Plain(a)
    ensures HasPlaceholders(a, {})
  {
    ScanPlain(a);
    assert Placeholders(Lits(a)) == {};
  }

  lemma PlainPrefixPlaceholders(a: string, b: string, names: set<string>)
    requires Plain(a)
    requires HasPlaceholders(b, names)
    ensures HasPlaceholders(a + b, names)
  {
    PlainPrefix(a, b);
    PlaceholdersAppend(Lits(a), Parse(b).value);
    SimpleAppend(Lits(a), Parse(b).value);
    assert Placeholders(Lits(a)) == {};
  }

  lemma FieldPrefixPlaceholders(n: string, b: string, names: set<string>)
    requires GoodName(n)
    requires HasPlaceholders(b, names)
    ensures HasPlaceholders("{" + n + "}" + b, {n} + names)
  {
    FieldPrefix(n, b);
    GoodNameField(n);
    PlaceholdersAppend([Field(n, None, None)], Parse(b).value);
    SimpleAppend([Field(n, None, None)], Parse(b).value);
    assert Placeholders([Field(n, None, None)]) == {n} by {
      assert [Field(n, None, None)][0].name == n;
    }
  }

  // ------------------------------------------------ lemmas: rendering

  /** A namespace that only gained default entries answers every lookup as before. */
  lemma ExtendsLookup(ns: Dict, ns2: Dict, missing: Value, name: string)
    requires Extends(ns, ns2, missing)
    ensures Lookup(ns2, name, missing) == Lookup(ns, name, missing)
  {
  }

  /** Text without braces formats to itself and inserts nothing, whatever the namespace. */
  lemma FormatPlain(s: string, ns: Dict, f: Formatter)
    requires Plain(s)
    ensures FormatMap(s, ns, f) == Formatted(ns, Success(s))
  {
    ScanPlain(s);
    RenderLits(s, ns, f, 2);
  }

  lemma {:induction false} RenderLits(s: string, ns: Dict, f: Formatter, depth: nat)
    requires depth >= 1
    ensures Render(Lits(s), ns, f, depth) == Formatted(ns, Success(s))
    decreases |s|
  {
    if |s| != 0 {
      assert Lits(s)[1..] == Lits(s[1..]);
      RenderLits(s[1..], ns, f, depth);
      assert s == [s[0]] + s[1..];
    }
  }

  /** Simple pieces render to their reference substitution: each field shows
      its entry, or the default value when the name is missing. */
  lemma {:induction false} RenderSimple(ps: seq<Piece>, ns: Dict, f: Formatter, depth: nat)
    requires depth >= 1
    requires Simple(ps)
    ensures Render(ps, ns, f, depth).text == Success(Substitute(ps, ns, f.missing))
    decreases |ps|
  {
    if |ps| != 0 {
      var head := RenderPiece(ps[0], ns, f, depth);
      assert Simple(ps[1..]) by {
        forall i | 0 <= i < |ps[1..]| && ps[1..][i].Field? ensures SimpleField(ps[1..][i]) {
          assert ps[1..][i] == ps[i + 1];
        }
      }
      if ps[0].Field? {
        assert SimpleField(ps[0]);
        assert Key(ps[0].name) == ps[0].name;
        assert ps[0].name[|ps[0].name|..] == "";
        assert FieldValue(ps[0], ns, f) == Success(Lookup(ns, ps[0].name, f.missing));
        assert ExpandSpec(None, Touch(ns, ps[0].name, f.missing), f, depth).text == Success("");
      }
      RenderSimple(ps[1..], head.ns, f, depth);
      SubstituteExtends(ps[1..], ns, head.ns, f.missing);
    }
  }

  lemma {:induction false} SubstituteExtends(ps: seq<Piece>, ns: Dict, ns2: Dict, missing: Value)
    requires Extends(ns, ns2, missing)
    ensures Substitute(ps, ns2, missing) == Substitute(ps, ns, missing)
    decreases |ps|
  {
    if |ps| != 0 {
      SubstituteExtends(ps[1..], ns, ns2, missing);
      if ps[0].Field? {
        ExtendsLookup(ns, ns2, missing, ps[0].name);
      }
    }
  }

  /** A template of simple fields that parses formats to its reference substitution. */
  lemma FormatSimple(s: string, ns: Dict, f: Formatter)
    requires Parse(s).Success? && Simple(Parse(s).value)
    ensures FormatMap(s, ns, f).text == Success(Substitute(Parse(s).value, ns, f.missing))
  {
    RenderSimple(Scan(s).pieces, ns, f, 2);
  }

  /** A malformed template whose fields in front of the error are simple
      raises the ValueError of that error. */
  lemma FormatScanError(s: string, ns: Dict, f: Formatter)
    requires Scan(s).error.Some? && Simple(Scan(s).pieces)
    ensures FormatMap(s, ns, f).text == Failure(ValueError(Message(Scan(s).error.value)))
  {
    RenderSimple(Scan(s).pieces, ns, f, 2);
  }

  /** The keys inserted by formatting: only the template's own keys, and all
      of them when formatting succeeds. */
  lemma {:induction false} BuildNames(s: string, ns: Dict, f: Formatter, depth: nat)
    ensures var r := Build(s, ns, f, depth);
            && r.ns.Keys <= ns.Keys + Names(s, depth)
            && (r.text.Success? ==> r.ns.Keys == ns.Keys + Names(s, depth))
    decreases depth, 2, 0
  {
    if depth > 0 {
      RenderNames(Scan(s).pieces, ns, f, depth);
    }
  }

  lemma {:induction false} RenderNames(ps: seq<Piece>, ns: Dict, f: Formatter, depth: nat)
    requires depth >= 1
    ensures var r := Render(ps, ns, f, depth);
            && r.ns.Keys <= ns.Keys + PiecesNames(ps, depth)
            && (r.text.Success? ==> r.ns.Keys == ns.Keys + PiecesNames(ps, depth))
    decreases depth, 1, |ps|
  {
    if |ps| != 0 {
      RenderPieceNames(ps[0], ns, f, depth);
      var head := RenderPiece(ps[0], ns, f, depth);
      if head.text.Success? {
        RenderNames(ps[1..], head.ns, f, depth);
      }
    }
  }

  lemma {:induction false} RenderPieceNames(p: Piece, ns: Dict, f: Formatter, depth: nat)
    requires depth >= 1
    ensures var r := RenderPiece(p, ns, f, depth);
            && r.ns.Keys <= ns.Keys + PieceNames(p, depth)
            && (r.text.Success? ==> r.ns.Keys == ns.Keys + PieceNames(p, depth))
    decreases depth, 0, 1
  {
    if p.Field? {
      ExpandSpecNames(p.spec, Touch(ns, Key(p.name), f.missing), f, depth);
    }
  }

  lemma {:induction false} ExpandSpecNames(spec: Option<string>, ns: Dict, f: Formatter, depth: nat)
    requires depth >= 1
    ensures var r := ExpandSpec(spec, ns, f, depth);
            && r.ns.Keys <= ns.Keys + SpecNames(spec, depth)
            && (r.text.Success? ==> r.ns.Keys == ns.Keys + SpecNames(spec, depth))
    decreases depth, 0, 0
  {
    if spec.Some? && '{' in spec.value {
      BuildNames(spec.value, ns, f, depth - 1);
    }
  }

  /** After a successful `format_map`, the namespace is the old one with every
      key the template looks up that it lacked inserted with the default. */
  lemma FormatMapNames(s: string, ns: Dict, f: Formatter)
    ensures var r := FormatMap(s, ns, f);
            && r.ns.Keys <= ns.Keys + TemplateNames(s)
            && (r.text.Success? ==> r.ns.Keys == ns.Keys + TemplateNames(s))
  {
    BuildNames(s, ns, f, 2);
  }

  /** Lookups in `ns1` and `ns2` agree on every name in `names`. */
  predicate AgreeOn(ns1: Dict, ns2: Dict, names: set<string>, missing: Value) {
    forall n | n in names :: Lookup(ns1, n, missing) == Lookup(ns2, n, missing)
  }

  lemma AgreeAfter(ns1: Dict, ns2: Dict, ns1': Dict, ns2': Dict, names: set<string>, missing: Value)
    requires AgreeOn(ns1, ns2, names, missing)
    requires Extends(ns1, ns1', missing) && Extends(ns2, ns2', missing)
    ensures AgreeOn(ns1', ns2', names, missing)
  {
    forall n | n in names ensures Lookup(ns1', n, missing) == Lookup(ns2', n, missing) {
      ExtendsLookup(ns1, ns1', missing, n);
      ExtendsLookup(ns2, ns2', missing, n);
    }
  }

  lemma {:induction false} BuildAgrees(s: string, ns1: Dict, ns2: Dict, f: Formatter, depth: nat)
    requires AgreeOn(ns1, ns2, Names(s, depth), f.missing)
    ensures Build(s, ns1, f, depth).text == Build(s, ns2, f, depth).text
    decreases depth, 2, 0
  {
    if depth > 0 {
      RenderAgrees(Scan(s).pieces, ns1, ns2, f, depth);
    }
  }

  lemma {:induction false} RenderAgrees(ps: seq<Piece>, ns1: Dict, ns2: Dict, f: Formatter, depth: nat)
    requires depth >= 1
    requires AgreeOn(ns1, ns2, PiecesNames(ps, depth), f.missing)
    ensures Render(ps, ns1, f, depth).text == Render(ps, ns2, f, depth).text
    decreases depth, 1, |ps|
  {
    if |ps| != 0 {
      RenderPieceAgrees(ps[0], ns1, ns2, f, depth);
      var h1 := RenderPiece(ps[0], ns1, f, depth);
      var h2 := RenderPiece(ps[0], ns2, f, depth);
      AgreeAfter(ns1, ns2, h1.ns, h2.ns, PiecesNames(ps[1..], depth), f.missing);
      RenderAgrees(ps[1..], h1.ns, h2.ns, f, depth);
    }
  }

  lemma {:induction false} RenderPieceAgrees(p: Piece, ns1: Dict, ns2: Dict, f: Formatter, depth: nat)
    requires depth >= 1
    requires AgreeOn(ns1, ns2, PieceNames(p, depth), f.missing)
    ensures RenderPiece(p, ns1, f, depth).text == RenderPiece(p, ns2, f, depth).text
    decreases depth, 0, 1
  {
    if p.Field? {
      var key := Key(p.name);
      assert key in PieceNames(p, depth);
      assert FieldValue(p, ns1, f) == FieldValue(p, ns2, f);
      var t1 := Touch(ns1, key, f.missing);
      var t2 := Touch(ns2, key, f.missing);
      AgreeAfter(ns1, ns2, t1, t2, SpecNames(p.spec, depth), f.missing);
      ExpandSpecAgrees(p.spec, t1, t2, f, depth);
    }
  }

  lemma {:induction false} ExpandSpecAgrees(spec: Option<string>, ns1: Dict, ns2: Dict, f: Formatter, depth: nat)
    requires depth >= 1
    requires AgreeOn(ns1, ns2, SpecNames(spec, depth), f.missing)
    ensures ExpandSpec(spec, ns1, f, depth).text == ExpandSpec(spec, ns2, f, depth).text
    decreases depth, 0, 0
  {
    if spec.Some? && '{' in spec.value {
      BuildAgrees(spec.value, ns1, ns2, f, depth - 1);
    }
  }

  /** What a template formats to depends only on the entries of the keys it
      looks up, so entries merged in under other keys cannot change it. */
  lemma FormatDependsOnNames(s: string, ns1: Dict, ns2: Dict, f: Formatter)
    requires AgreeOn(ns1, ns2, TemplateNames(s), f.missing)
    ensures FormatMap(s, ns1, f).text == FormatMap(s, ns2, f).text
  {
    BuildAgrees(s, ns1, ns2, f, 2);
  }

  /** The keys of a simple template are its placeholders. */
  lemma {:induction false} SimpleNames(ps: seq<Piece>, depth: nat)
    requires depth >= 1
    requires Simple(ps)
    ensures PiecesNames(ps, depth) == Placeholders(ps)
    decreases |ps|
  {
    if |ps| != 0 {
      assert Simple(ps[1..]) by {
        forall i | 0 <= i < |ps[1..]| && ps[1..][i].Field? ensures SimpleField(ps[1..][i]) {
          assert ps[1..][i] == ps[i + 1];
        }
      }
      SimpleNames(ps[1..], depth);
      PlaceholdersAppend([ps[0]], ps[1..]);
      assert [ps[0]] + ps[1..] == ps;
      if ps[0].Field? {
        assert SimpleField(ps[0]);
        assert Key(ps[0].name) == ps[0].name;
        assert SpecNames(ps[0].spec, depth) == {};
        assert Placeholders([ps[0]]) == {ps[0].name} by {
          assert [ps[0]][0] == ps[0];
        }
      } else {
        assert Placeholders([ps[0]]) == {};
      }
    }
  }

  lemma TemplateNamesOfPlaceholders(s: string, names: set<string>)
    requires HasPlaceholders(s, names)
    ensures TemplateNames(s) == names
  {
    SimpleNames(Parse(s).value, 2);
  }

  // ------------------------------------------------- assembling templates

  lemma PlainOfNoBraces(s: string)
    requires '{' !in s && '}' !in s
    ensures Plain(s)
  {
    forall i | 0 <= i < |s| ensures !IsBrace(s[i]) {
      assert s[i] in s;
    }
  }

  /** Two brace-free texts joined stay brace free. */
  lemma PlainConcat(a: string, b: string)
    requires Plain(a) && Plain(b)
    ensures Plain(a + b)
  {
    forall i | 0 <= i < |a + b| ensures !IsBrace((a + b)[i]) {
      if i >= |a| {
        assert (a + b)[i] == b[i - |a|];
      }
    }
  }

  /** The texts of `parts` one after another. */
  function Concat(parts: seq<string>): string {
    if |parts| == 0 then "" else parts[0] + Concat(parts[1..])
  }

  /** The assembled text begins with its first part. */
  lemma ConcatHead(parts: seq<string>)
    requires |parts| > 0
    ensures StartsWith(Concat(parts), parts[0])
  {
    assert Concat(parts)[..|parts[0]|] == parts[0];
  }

  lemma {:induction false} PlainConcatAll(parts: seq<string>)
    requires forall i | 0 <= i < |parts| :: Plain(parts[i])
    ensures Plain(Concat(parts))
  {
    if |parts| != 0 {
      PlainConcatAll(parts[1..]);
      PlainConcat(parts[0], Concat(parts[1..]));
    }
  }

  /** The template `texts[0]{names[0]}texts[1]...{names[k-1]}texts[k]`. */
  function Interleave(texts: seq<string>, names: seq<string>): string
    requires |texts| == |names| + 1
  {
    if |names| == 0 then texts[0]
    else texts[0] + ("{" + names[0] + "}" + Interleave(texts[1..], names[1..]))
  }

  /** The distinct entries of `names`. */
  function NamesOf(names: seq<string>): set<string> {
    set i | 0 <= i < |names| :: names[i]
  }

  lemma NamesOfCons(n: string, names: seq<string>)
    ensures NamesOf([n] + names) == {n} + NamesOf(names)
  {
    var all := [n] + names;
    forall m | m in NamesOf(all) ensures m in {n} + NamesOf(names) {
      var i :| 0 <= i < |all| && all[i] == m;
      if i > 0 {
        assert names[i - 1] == m;
      }
    }
    forall m | m in NamesOf(names) ensures m in NamesOf(all) {
      var i :| 0 <= i < |names| && names[i] == m;
      assert all[i + 1] == m;
    }
    assert all[0] == n;
  }

  /** The names of a list, gathered one element at a time. */
  function NameSet(names: seq<string>): (r: set<string>)
    ensures forall i | 0 <= i < |names| :: names[i] in r
    decreases |names|
  {
    if names == [] then {} else {names[0]} + NameSet(names[1..])
  }

  /** `NamesOf` is the element-by-element set, so it can be computed on a
      literal list. */
  lemma {:induction false} NamesOfIsNameSet(names: seq<string>)
    ensures NamesOf(names) == NameSet(names)
    decreases |names|
  {
    if names != [] {
      assert [names[0]] + names[1..] == names;
      NamesOfCons(names[0], names[1..]);
      NamesOfIsNameSet(names[1..]);
    }
  }

  /** A template assembled from brace-free texts and good names parses to
      simple fields, and those fields are exactly the names. */
  lemma {:induction false} InterleavePlaceholders(texts: seq<string>, names: seq<string>)
    requires |texts| == |names| + 1
    requires forall i | 0 <= i < |texts| :: Plain(texts[i])
    requires forall i | 0 <= i < |names| :: GoodName(names[i])
    ensures HasPlaceholders(Interleave(texts, names), NamesOf(names))
  {
    if |names| == 0 {
      PlainHasNoPlaceholders(texts[0]);
    } else {
      InterleavePlaceholders(texts[1..], names[1..]);
      var rest := Interleave(texts[1..], names[1..]);
      FieldPrefixPlaceholders(names[0], rest, NamesOf(names[1..]));
      PlainPrefixPlaceholders(texts[0], "{" + names[0] + "}" + rest, {names[0]} + NamesOf(names[1..]));
      assert NamesOf(names) == {names[0]} + NamesOf(names[1..]) by {
        forall n | n in NamesOf(names) ensures n in {names[0]} + NamesOf(names[1..]) {
          var i :| 0 <= i < |names| && names[i] == n;
          if i > 0 {
            assert names[1..][i - 1] == n;
          }
        }
      }
    }
  }

  // ------------------------------------------------------------ examples

  /** A field name runs to the closing '}' across a '.', and the key it looks
      up stops at that '.'. */
  lemma AttributeFieldExample()
    ensures Parse("{a.b}") == Success([Field("a.b", None, None)])
    ensures Key("a.b") == "a"
  {
    var p := Field("a.b", None, None);
    assert ScanField("a.b}") == Got(p, 4) by {
      assert "a.b}"[1..] == ".b}" && ".b}"[1..] == "b}" && "b}"[1..] == "}";
      assert ScanName("b}", false) == Stops(1);
      assert ScanName(".b}", false) == Stops(2);
      assert ScanName("a.b}", false) == Stops(3);
      assert "a.b}"[..3] == "a.b";
    }
    assert Key("a.b") == "a" by {
      assert "a.b"[1..] == ".b";
      assert KeyLen("a.b") == 1;
    }
    assert KeyOk("a") by {
      assert LeadDigits("a") == 0 && "a"[..0] == "";
    }
    assert Scan("{a.b}") == Scanned([p], None) by {
      assert "{a.b}"[1..] == "a.b}" && "{a.b}"[1 + 4..] == "";
      assert Scan("") == Scanned([], None);
      assert [p] + [] == [p];
    }
  }

  /** A field whose key is empty or all digits is positional, which a
      mapping cannot serve: `format_map` raises before looking anything up. */
  lemma PositionalExample()
    ensures Parse("{}") == Failure(Positional)
    ensures Parse("{0}") == Failure(Positional)
  {
    assert ScanField("}") == Got(Field("", None, None), 1) by {
      assert ScanName("}", false) == Stops(0);
      assert "}"[..0] == "";
    }
    assert Key("") == "" && LeadDigits("") == 0 && ""[..0] == "";
    assert Scan("{}") == Stop(Positional) by {
      assert "{}"[1..] == "}";
    }
    assert ScanField("0}") == Got(Field("0", None, None), 2) by {
      assert "0}"[1..] == "}";
      assert ScanName("}", false) == Stops(0);
      assert ScanName("0}", false) == Stops(1);
      assert "0}"[..1] == "0";
    }
    assert Key("0") == "0" by {
      assert "0"[1..] == "";
      assert KeyLen("0") == 1;
    }
    assert !Overflows("0") && PositionalName("0") by {
      assert "0"[1..] == "";
      assert LeadDigits("0") == 1 && "0"[..1] == "0";
      assert "0"[..0] == "";
      assert DigitsValue("0") == 0;
    }
    assert Scan("{0}") == Stop(Positional) by {
      assert "{0}"[1..] == "0}";
    }
  }

  /** A conversion ends the name at '!': `{a!r}` looks up "a", inserting it
      with the default when it is missing, and renders the value's repr. */
  lemma ConversionExample(ns: Dict, f: Formatter)
    ensures Parse("{a!r}") == Success([Field("a", Some('r'), None)])
    ensures FormatMap("{a!r}", ns, f)
         == Formatted(Touch(ns, "a", f.missing), Success(Repr(Lookup(ns, "a", f.missing))))
  {
    var p := Field("a", Some('r'), None);
    assert ScanField("a!r}") == Got(p, 4) by {
      assert ScanName("a!r}", false) == Stops(1) by {
        assert "a!r}"[1..] == "!r}";
        assert ScanName("!r}", false) == Stops(0);
      }
      assert "a!r}"[..1] == "a";
      assert "a!r}"[1 + 2] == '}' && "a!r}"[1 + 1] == 'r';
    }
    assert Key("a") == "a" by {
      assert "a"[1..] == "";
      assert KeyLen("a") == 1;
    }
    assert KeyOk("a") by {
      assert LeadDigits("a") == 0 && "a"[..0] == "";
    }
    assert Scan("{a!r}") == Scanned([p], None) by {
      assert "{a!r}"[1..] == "a!r}" && "{a!r}"[1 + 4..] == "";
      assert Scan("") == Scanned([], None);
      assert [p] + [] == [p];
    }
    var v := Lookup(ns, "a", f.missing);
    assert "a"[|"a"|..] == "";
    assert FieldValue(p, ns, f) == Success(VStr(Repr(v)));
    assert RenderPiece(p, ns, f, 2) == Formatted(Touch(ns, "a", f.missing), Success(Repr(v)));
    assert [p][1..] == [];
    assert Repr(v) + "" == Repr(v);
  }
}

=== FILE: text.dfy ===
/** String helpers shared by the Python back end and the JavaScript front end:
    whitespace trimming (with the two languages' different whitespace sets),
    joining and splitting on a separator, decimal rendering of numbers,
    ASCII case folding, prefix/suffix tests and byte-wise lexicographic order. */
module Text {

  import opened Wrappers

  /** The characters for which Python's `str.isspace()` holds; `str.strip()` removes these. */
  predicate IsPySpace(c: char) {
    || c == ' '
    || ('\t' <= c <= '\r')
    || ('\U{1c}' <= c <= '\U{1f}')
    || c == '\U{85}' || c == '\U{a0}' || c == '\U{1680}'
    || ('\U{2000}' <= c <= '\U{200a}')
    || c == '\U{2028}' || c == '\U{2029}' || c == '\U{202f}' || c == '\U{205f}' || c == '\U{3000}'
  }

  /** The characters JavaScript's `String.prototype.trim()` removes
      (WhiteSpace and LineTerminator of ECMAScript). */
  predicate IsJsSpace(c: char) {
    || c == ' '
    || ('\t' <= c <= '\r')
    || c == '\U{a0}' || c == '\U{1680}'
    || ('\U{2000}' <= c <= '\U{200a}')
    || c == '\U{2028}' || c == '\U{2029}' || c == '\U{202f}' || c == '\U{205f}' || c == '\U{3000}'
    || c == '\U{feff}'
  }

  ghost predicate AllIn(s: string, ws: char -> bool) {
    forall j | 0 <= j < |s| :: ws(s[j])
  }

  /** Index of the first character not in `ws` (or |s| when there is none). */
  function FirstKept(s: string, ws: char -> bool): (k: nat)
    ensures k <= |s|
    ensures forall j | 0 <= j < k :: ws(s[j])
    ensures k < |s| ==> !ws(s[k])
  {
    if |s| == 0 || !ws(s[0]) then 0 else 1 + FirstKept(s[1..], ws)
  }

  /** One past the index of the last character not in `ws` (or 0 when there is none). */
  function LastKept(s: string, ws: char -> bool): (k: nat)
    ensures k <= |s|
    ensures forall j | k <= j < |s| :: ws(s[j])
    ensures k > 0 ==> !ws(s[k - 1])
  {
    if |s| == 0 || !ws(s[|s| - 1]) then |s| else LastKept(s[..|s| - 1], ws)
  }

  /** Removes leading and trailing characters of `ws`. */
  function Trim(s: string, ws: char -> bool): (r: string)
    ensures |r| == 0 || (!ws(r[0]) && !ws(r[|r| - 1]))
    ensures |r| == 0 <==> AllIn(s, ws)
    ensures |r| <= |s|
  {
    var lo := FirstKept(s, ws);
    var hi := LastKept(s, ws);
    if hi <= lo then [] else s[lo..hi]
  }

  /** The trimmed string is a middle slice of the input, and what lies on
      either side of it is all in `ws`. */
  lemma TrimIsMiddle(s: string, ws: char -> bool)
    ensures var r := Trim(s, ws);
      exists lo | 0 <= lo <= |s| - |r| ::
        r == s[lo..lo + |r|] && AllIn(s[..lo], ws) && AllIn(s[lo + |r|..], ws)
  {
    var lo, hi := FirstKept(s, ws), LastKept(s, ws);
    if hi <= lo {
      assert AllIn(s[..0], ws) && AllIn(s[0..], ws);
    } else {
      assert AllIn(s[..lo], ws) && AllIn(s[hi..], ws);
    }
  }

  /** Python's `str.strip()` with no argument. */
  function PyStrip(s: string): string {
    Trim(s, IsPySpace)
  }

  /** JavaScript's `String.prototype.trim()`. */
  function JsTrim(s: string): string {
    Trim(s, IsJsSpace)
  }

  /** A string that neither starts nor ends with a character of `ws` is left alone. */
  lemma TrimKeepsTight(s: string, ws: char -> bool)
    requires |s| > 0 && !ws(s[0]) && !ws(s[|s| - 1])
    ensures Trim(s, ws) == s
  {
  }

  /** A head that starts outside `ws` survives trimming when something outside
      `ws` follows it. */
  lemma TrimKeepsPrefix(p: string, q: string, ws: char -> bool)
    requires |p| > 0 && !ws(p[0]) && !AllIn(q, ws)
    ensures StartsWith(Trim(p + q, ws), p)
  {
    var s := p + q;
    var j :| 0 <= j < |q| && !ws(q[j]);
    assert s[0] == p[0] && s[|p| + j] == q[j];
    assert FirstKept(s, ws) == 0;
    assert LastKept(s, ws) > |p|;
    assert Trim(s, ws)[..|p|] == s[..|p|] == p;
  }

  /** Leading characters of `ws` do not change the trimmed result. */
  lemma TrimDropsLeading(w: string, s: string, ws: char -> bool)
    requires AllIn(w, ws)
    ensures Trim(w + s, ws) == Trim(s, ws)
  {
    FirstKeptIgnoresPrefix(w, s, ws);
    LastKeptIgnoresPrefix(w, s, ws);
    var lo, hi := FirstKept(s, ws), LastKept(s, ws);
    var lo', hi' := FirstKept(w + s, ws), LastKept(w + s, ws);
    if lo < hi {
      assert lo' == |w| + lo && hi' == |w| + hi;
      SliceAfterPrefix(w, s, lo, hi);
      assert Trim(w + s, ws) == (w + s)[lo'..hi'];
      assert Trim(s, ws) == s[lo..hi];
    } else {
      assert hi' <= lo';
      assert Trim(w + s, ws) == [] == Trim(s, ws);
    }
  }

  lemma SliceAfterPrefix(w: string, s: string, lo: nat, hi: nat)
    requires lo <= hi <= |s|
    ensures (w + s)[|w| + lo..|w| + hi] == s[lo..hi]
  {
  }

  lemma {:induction false} FirstKeptIgnoresPrefix(w: string, s: string, ws: char -> bool)
    requires AllIn(w, ws)
    ensures FirstKept(w + s, ws) == |w| + FirstKept(s, ws)
    decreases |w|
  {
    if |w| == 0 {
      assert w + s == s;
    } else {
      assert (w + s)[1..] == w[1..] + s;
      FirstKeptIgnoresPrefix(w[1..], s, ws);
    }
  }

  lemma {:induction false} LastKeptIgnoresPrefix(w: string, s: string, ws: char -> bool)
    requires AllIn(w, ws)
    ensures LastKept(w + s, ws) == if LastKept(s, ws) == 0 then 0 else |w| + LastKept(s, ws)
    decreases |s|
  {
    if |s| == 0 {
      assert w + s == w;
      LastKeptAllIn(w, ws);
    } else if !ws(s[|s| - 1]) {
    } else {
      assert (w + s)[..|w + s| - 1] == w + s[..|s| - 1];
      LastKeptIgnoresPrefix(w, s[..|s| - 1], ws);
    }
  }

  lemma {:induction false} LastKeptAllIn(w: string, ws: char -> bool)
    requires AllIn(w, ws)
    ensures LastKept(w, ws) == 0
    decreases |w|
  {
    if |w| > 0 {
      LastKeptAllIn(w[..|w| - 1], ws);
    }
  }

  /** Trailing characters of `ws` do not change the trimmed result. */
  lemma TrimDropsTrailing(s: string, w: string, ws: char -> bool)
    requires AllIn(w, ws)
    ensures Trim(s + w, ws) == Trim(s, ws)
  {
    FirstKeptIgnoresSuffix(s, w, ws);
    LastKeptIgnoresSuffix(s, w, ws);
    var lo, hi := FirstKept(s, ws), LastKept(s, ws);
    if lo < hi {
      assert (s + w)[lo..hi] == s[lo..hi];
    }
  }

  lemma {:induction false} LastKeptIgnoresSuffix(s: string, w: string, ws: char -> bool)
    requires AllIn(w, ws)
    ensures LastKept(s + w, ws) == LastKept(s, ws)
    decreases |w|
  {
    if |w| == 0 {
      assert s + w == s;
    } else {
      assert (s + w)[..|s + w| - 1] == s + w[..|w| - 1];
      LastKeptIgnoresSuffix(s, w[..|w| - 1], ws);
    }
  }

  lemma {:induction false} FirstKeptIgnoresSuffix(s: string, w: string, ws: char -> bool)
    requires AllIn(w, ws)
    ensures FirstKept(s + w, ws) == if FirstKept(s, ws) == |s| then |s + w| else FirstKept(s, ws)
    decreases |s|
  {
    if |s| == 0 {
      assert s + w == w;
      FirstKeptAllIn(w, ws);
    } else if !ws(s[0]) {
    } else {
      assert (s + w)[1..] == s[1..] + w;
      FirstKeptIgnoresSuffix(s[1..], w, ws);
    }
  }

  lemma {:induction false} FirstKeptAllIn(w: string, ws: char -> bool)
    requires AllIn(w, ws)
    ensures FirstKept(w, ws) == |w|
    decreases |w|
  {
    if |w| > 0 {
      FirstKeptAllIn(w[1..], ws);
    }
  }

  /** Python's `sep.join(parts)` (and JavaScript's `parts.join(sep)`). */
  function Join(sep: string, parts: seq<string>): string {
    if |parts| == 0 then ""
    else if |parts| == 1 then parts[0]
    else parts[0] + sep + Join(sep, parts[1..])
  }

  /** Appending a piece adds the separator and the piece at the end. */
  lemma {:induction false} JoinSnoc(sep: string, parts: seq<string>, x: string)
    requires |parts| > 0
    ensures Join(sep, parts + [x]) == Join(sep, parts) + sep + x
  {
    if |parts| == 1 {
      assert (parts + [x])[1..] == [x];
    } else {
      assert (parts + [x])[1..] == parts[1..] + [x];
      JoinSnoc(sep, parts[1..], x);
    }
  }

  /** Index of the first occurrence of `c` in `s`, or |s|. */
  function IndexOf(s: string, c: char): (k: nat)
    ensures k <= |s|
    ensures k < |s| ==> s[k] == c
    ensures forall j | 0 <= j < k :: s[j] != c
  {
    if |s| == 0 then 0 else if s[0] == c then 0 else 1 + IndexOf(s[1..], c)
  }

  /** Python's `s.split(c)` for a one-character separator. */
  function Split(s: string, c: char): (r: seq<string>)
    ensures |r| >= 1
    ensures forall i | 0 <= i < |r| :: c !in r[i]
    decreases |s|
  {
    var k := IndexOf(s, c);
    if k == |s| then [s] else [s[..k]] + Split(s[k + 1..], c)
  }

  /** Joining the pieces of a split with the separator gives back the original string. */
  lemma {:induction false} JoinSplit(s: string, c: char)
    ensures Join([c], Split(s, c)) == s
    decreases |s|
  {
    var k := IndexOf(s, c);
    if k < |s| {
      var t := s[k + 1..];
      JoinSplit(t, c);
      assert Split(s, c) == [s[..k]] + Split(t, c);
      JoinCons([c], s[..k], Split(t, c));
      Around(s, k);
      assert [s[k]] == [c];
    }
  }

  lemma Around(s: string, k: nat)
    requires k < |s|
    ensures s == s[..k] + [s[k]] + s[k + 1..]
  {
  }

  /** A join of two or more pieces: the first piece, the separator, the join of the rest. */
  lemma JoinCons(sep: string, h: string, rest: seq<string>)
    requires |rest| >= 1
    ensures Join(sep, [h] + rest) == h + sep + Join(sep, rest)
  {
    assert ([h] + rest)[1..] == rest;
  }

  /** Splitting a join gives back the pieces, provided no piece holds the separator. */
  lemma {:induction false} SplitJoin(parts: seq<string>, c: char)
    requires |parts| >= 1
    requires forall i | 0 <= i < |parts| :: c !in parts[i]
    ensures Split(Join([c], parts), c) == parts
  {
    var s := Join([c], parts);
    if |parts| == 1 {
      assert IndexOf(s, c) == |s|;
    } else {
      var rest := Join([c], parts[1..]);
      assert s == parts[0] + [c] + rest;
      IndexOfAfterFree(parts[0], rest, c);
      assert s[|parts[0]| + 1..] == rest;
      assert s[..|parts[0]|] == parts[0];
      SplitJoin(parts[1..], c);
    }
  }

  lemma IndexOfAfterFree(a: string, b: string, c: char)
    requires c !in a
    ensures IndexOf(a + [c] + b, c) == |a|
  {
    var s := a + [c] + b;
    assert s[|a|] == c;
    assert forall j | 0 <= j < |a| :: s[j] == a[j];
  }

  function DigitChar(d: nat): char
    requires d < 10
  {
    "0123456789"[d]
  }

  predicate IsDigit(c: char) {
    '0' <= c <= '9'
  }

  function DigitValue(c: char): nat
    requires IsDigit(c)
  {
    (c as int - '0' as int) as nat
  }

  /** Decimal rendering of a natural number, as Python's `str(n)` and JavaScript's `String(n)`. */
  function NatStr(n: nat): (r: string)
    ensures |r| >= 1
    ensures forall i | 0 <= i < |r| :: IsDigit(r[i])
    decreases n
  {
    if n < 10 then [DigitChar(n)] else NatStr(n / 10) + [DigitChar(n % 10)]
  }

  /** Decimal rendering of an integer (with a leading '-' when negative). */
  function IntStr(i: int): string {
    if i < 0 then "-" + NatStr(-i) else NatStr(i)
  }

  /** The value of a string of decimal digits; the inverse of `NatStr`. */
  function DigitsValue(s: string): nat
    requires forall i | 0 <= i < |s| :: IsDigit(s[i])
  {
    if |s| == 0 then 0 else 10 * DigitsValue(s[..|s| - 1]) + DigitValue(s[|s| - 1])
  }

  lemma {:induction false} DigitsValueOfNatStr(n: nat)
    ensures DigitsValue(NatStr(n)) == n
    decreases n
  {
    if n >= 10 {
      var s := NatStr(n);
      assert s[..|s| - 1] == NatStr(n / 10);
      DigitsValueOfNatStr(n / 10);
    }
  }

  /** Different numbers render differently. */
  lemma NatStrInjective(a: nat, b: nat)
    requires NatStr(a) == NatStr(b)
    ensures a == b
  {
    DigitsValueOfNatStr(a);
    DigitsValueOfNatStr(b);
  }

  /** ASCII lower-casing of one character.  For the suffix tests of this model
      (".pptx", ".json") it agrees with the full Unicode lower-casing of Python
      and JavaScript: no other character lowers to one of these ASCII letters. */
  function LowerChar(c: char): char {
    if 'A' <= c <= 'Z' then (c as int + 32) as char else c
  }

  function Lower(s: string): (r: string)
    ensures |r| == |s|
    ensures forall i | 0 <= i < |s| :: r[i] == LowerChar(s[i])
  {
    seq(|s|, i requires 0 <= i < |s| => LowerChar(s[i]))
  }

  predicate StartsWith(s: string, p: string) {
    |p| <= |s| && s[..|p|] == p
  }

  predicate EndsWith(s: string, p: string) {
    |p| <= |s| && s[|s| - |p|..] == p
  }

  /** Python's `s.replace(a, b)` for single characters. */
  function ReplaceChar(s: string, a: char, b: char): (r: string)
    ensures |r| == |s|
    ensures forall i | 0 <= i < |s| :: r[i] == (if s[i] == a then b else s[i])
  {
    seq(|s|, i requires 0 <= i < |s| => if s[i] == a then b else s[i])
  }

  /** Python's `c * n` for a one-character string. */
  function Repeat(c: char, n: nat): (r: string)
    ensures |r| == n
    ensures forall i | 0 <= i < n :: r[i] == c
  {
    seq(n, _ => c)
  }

  /** Index of the last occurrence of `c`, if any. */
  function LastIndexOf(s: string, c: char): (r: Option<nat>)
    ensures r.None? <==> c !in s
    ensures r.Some? ==> r.value < |s| && s[r.value] == c && c !in s[r.value + 1..]
  {
    if |s| == 0 then None
    else if s[|s| - 1] == c then Some(|s| - 1)
    else
      var r := LastIndexOf(s[..|s| - 1], c);
      assert s == s[..|s| - 1] + [s[|s| - 1]];
      r
  }

  /** The last occurrence is the one no later character repeats. */
  lemma LastIndexOfIs(s: string, c: char, i: nat)
    requires i < |s| && s[i] == c
    requires forall j | i < j < |s| :: s[j] != c
    ensures LastIndexOf(s, c) == Some(i)
  {
  }

  /** Python's and JavaScript's ordering of strings: lexicographic by code point. */
  predicate LexLe(a: string, b: string) {
    if |a| == 0 then true
    else if |b| == 0 then false
    else if a[0] != b[0] then a[0] < b[0]
    else LexLe(a[1..], b[1..])
  }

  lemma {:induction false} LexLeTotal(a: string, b: string)
    ensures LexLe(a, b) || LexLe(b, a)
  {
    if |a| > 0 && |b| > 0 && a[0] == b[0] {
      LexLeTotal(a[1..], b[1..]);
    }
  }

  lemma {:induction false} LexLeTransitive(a: string, b: string, c: string)
    requires LexLe(a, b) && LexLe(b, c)
    ensures LexLe(a, c)
  {
    if |a| > 0 && |b| > 0 && |c| > 0 && a[0] == b[0] && b[0] == c[0] {
      LexLeTransitive(a[1..], b[1..], c[1..]);
    }
  }

  lemma {:induction false} LexLeAntisymmetric(a: string, b: string)
    requires LexLe(a, b) && LexLe(b, a)
    ensures a == b
  {
    if |a| > 0 && |b| > 0 {
      LexLeAntisymmetric(a[1..], b[1..]);
      assert a == [a[0]] + a[1..];
      assert b == [b[0]] + b[1..];
    }
  }
}

=== FILE: upload.dfy ===
/** The upload route of app.py: the extension filter, the check of the file's
    first four bytes, and the page built from what the extractor collects.

    Flask's request, flash messages and templates become data: a request is
    either a GET or a POST with its uploaded files, and the outcome names the
    response, the file saved under the upload folder (if any) and whether it
    was removed again.  `secure_filename`, the unpacking of the archive and
    the XML parser are function parameters. */
module Upload {

  import opened Wrappers
  import opened Text
  import opened PyValues
  import opened Paths
  import opened Pptx
  import opened Sorting

  // ------------------------------------------------------------ extension

  const UploadFolder: string := "uploads"
  const AllowedExtensions: set<string> := {"pptx"}

  /** `allowed_file(filename)`: the name holds a '.' and what follows the last
      one, lower-cased, is an allowed extension. */
  function AllowedFile(name: string): (r: bool)
    ensures '.' !in name ==> !r
    ensures r ==> '.' in name
  {
    match LastIndexOf(name, '.')
    case None => false
    case Some(i) => Lower(name[i + 1..]) in AllowedExtensions
  }

  lemma LowerSuffix(s: string, i: nat)
    requires i <= |s|
    ensures Lower(s[i..]) == Lower(s)[i..]
  {
  }

  /** Lower-casing leaves the dot alone and makes no other character a dot. */
  lemma LowerCharDot(c: char)
    ensures LowerChar(c) == '.' <==> c == '.'
  {
  }

  /** The lower-cased extension is "pptx" exactly when its four characters
      lower-case to those letters. */
  lemma LowerIsPptx(x: string)
    ensures Lower(x) == "pptx" <==>
      |x| == 4 && LowerChar(x[0]) == 'p' && LowerChar(x[1]) == 'p' && LowerChar(x[2]) == 't' && LowerChar(x[3]) == 'x'
  {
    if |x| == 4 && LowerChar(x[0]) == 'p' && LowerChar(x[1]) == 'p' && LowerChar(x[2]) == 't' && LowerChar(x[3]) == 'x' {
      assert forall k | 0 <= k < 4 :: Lower(x)[k] == "pptx"[k];
    }
  }

  /** Ending in ".pptx", character by character. */
  lemma EndsWithPptx(l: string)
    ensures EndsWith(l, ".pptx") <==>
      |l| >= 5 && l[|l| - 5] == '.' && l[|l| - 4] == 'p' && l[|l| - 3] == 'p' && l[|l| - 2] == 't' && l[|l| - 1] == 'x'
  {
    var n := |l|;
    if n >= 5 {
      assert l[n - 5..] == [l[n - 5], l[n - 4], l[n - 3], l[n - 2], l[n - 1]];
    }
  }

  /** An allowed name ends in ".pptx" once lower-cased. */
  lemma AllowedHasSuffix(name: string)
    requires AllowedFile(name)
    ensures EndsWith(Lower(name), ".pptx")
  {
    var n := |name|;
    var i := LastIndexOf(name, '.').value;
    var x := name[i + 1..];
    assert Lower(x) == "pptx";
    LowerIsPptx(x);
    assert x[0] == name[n - 4] && x[1] == name[n - 3] && x[2] == name[n - 2] && x[3] == name[n - 1];
    EndsWithPptx(Lower(name));
  }

  /** A name that ends in ".pptx" once lower-cased is allowed. */
  lemma SuffixAllowed(name: string)
    requires EndsWith(Lower(name), ".pptx")
    ensures AllowedFile(name)
  {
    var n := |name|;
    EndsWithPptx(Lower(name));
    LowerCharDot(name[n - 5]);
    LowerCharDot(name[n - 4]);
    LowerCharDot(name[n - 3]);
    LowerCharDot(name[n - 2]);
    LowerCharDot(name[n - 1]);
    LastIndexOfIs(name, '.', n - 5);
    var x := name[n - 4..];
    assert x[0] == name[n - 4] && x[1] == name[n - 3] && x[2] == name[n - 2] && x[3] == name[n - 1];
    LowerIsPptx(x);
  }

  /** A name is allowed exactly when, lower-cased, it ends in ".pptx". */
  lemma AllowedIffSuffix(name: string)
    ensures AllowedFile(name) <==> EndsWith(Lower(name), ".pptx")
  {
    if AllowedFile(name) {
      AllowedHasSuffix(name);
    }
    if EndsWith(Lower(name), ".pptx") {
      SuffixAllowed(name);
    }
  }

  /** Only the last extension counts. */
  lemma LaterExtensionRejected()
    ensures !AllowedFile("a.pptx.zip")
  {
    LastIndexOfIs("a.pptx.zip", '.', 6);
    assert "a.pptx.zip"[7..] == "zip";
  }

  // ------------------------------------------------------------ signature

  newtype Byte = x: int | 0 <= x < 256

  /** What the first four bytes say about a file. */
  datatype Signature = Zip | OldFormat | Unknown

  const ZipMagic: seq<Byte> := [0x50, 0x4B, 0x03, 0x04]
  const OleMagic: seq<Byte> := [0xD0, 0xCF, 0x11, 0xE0]

  /** `f.read(4)`: at most the first four bytes. */
  function Magic(data: seq<Byte>): (r: seq<Byte>)
    ensures |r| <= 4 && StartsWithBytes(data, r)
    ensures |data| >= 4 ==> |r| == 4
  {
    if |data| < 4 then data else data[..4]
  }

  predicate StartsWithBytes(data: seq<Byte>, p: seq<Byte>) {
    |p| <= |data| && data[..|p|] == p
  }

  /** The file is a ZIP archive (a .pptx) exactly when it starts with
      50 4B 03 04 and an OLE compound file (an old .ppt) when it starts with
      D0 CF 11 E0. */
  function Classify(data: seq<Byte>): (r: Signature)
    ensures r == Zip <==> StartsWithBytes(data, ZipMagic)
    ensures r == OldFormat <==> StartsWithBytes(data, OleMagic)
  {
    var m := Magic(data);
    if m == ZipMagic then Zip else if m == OleMagic then OldFormat else Unknown
  }

  /** Only the first four bytes decide. */
  lemma ClassifyFirstFour(a: seq<Byte>, b: seq<Byte>)
    requires |a| >= 4 && |b| >= 4 && a[..4] == b[..4]
    ensures Classify(a) == Classify(b)
  {
  }

  /** A file shorter than four bytes is neither. */
  lemma ShortFileUnknown(data: seq<Byte>)
    requires |data| < 4
    ensures Classify(data) == Unknown
  {
  }

  const OldFormatMessage: string :=
    "Error: This appears to be an old format PowerPoint file (.ppt). "
    + "Please save it as .pptx format and try again."
  const NotPptxMessage: string := "Error: Not a valid PowerPoint file"
  const NoFileMessage: string := "No file selected"
  const OnlyPptxMessage: string := "Only .pptx files are allowed"

  // ------------------------------------------------------------ page parts

  /** `s.split('\n', 1)[1]`: what follows the first newline; IndexError when
      there is none. */
  function AfterFirstNewline(s: string): (r: Result<string, Exc>)
    ensures r.Failure? <==> '\n' !in s
    ensures r.Failure? ==> r.error == IndexError
    ensures r.Success? ==> EndsWith(s, r.value) && |r.value| < |s|
  {
    var k := IndexOf(s, '\n');
    if k == |s| then Failure(IndexError) else Success(s[k + 1..])
  }

  /** The first extraction without its "Slide n:" line, or "" when there is
      no extraction. */
  function FirstSlideContent(texts: seq<string>): (r: Result<string, Exc>)
    ensures |texts| == 0 ==> r == Success("")
    ensures r.Failure? <==> |texts| > 0 && '\n' !in texts[0]
  {
    if |texts| == 0 then Success("") else AfterFirstNewline(texts[0])
  }

  /** Of an entry the extractor built, the first-slide content is the slide's
      text. */
  lemma FirstSlideOfEntry(number: string, tail: string, text: string)
    requires '\n' !in number && '\n' !in tail
    ensures FirstSlideContent([Entry(number, tail, text)]) == Success(text)
  {
    var e := Entry(number, tail, text);
    var h := "Slide " + number + tail;
    assert e == h + ['\n'] + text;
    assert '\n' !in h;
    IndexOfAfterFree(h, text, '\n');
    assert e[|h| + 1..] == text;
  }

  /** `"\n\n".join(texts[1:])` when there are at least two extractions, else "". */
  function TextContent(texts: seq<string>): (r: string)
    ensures |texts| == 2 ==> r == texts[1]
  {
    if |texts| > 1 then Join("\n\n", texts[1..]) else ""
  }

  /** `"\n\n".join(notes)` when there are notes, else "". */
  function NotesContent(notes: seq<string>): (r: string)
    ensures |notes| == 1 ==> r == notes[0]
  {
    if |notes| > 0 then Join("\n\n", notes) else ""
  }

  /** The text content is the first extraction's successors laid out as the
      notes are: the first slide never appears in it. */
  lemma TextSkipsFirst(texts: seq<string>)
    requires |texts| >= 1
    ensures TextContent(texts) == NotesContent(texts[1..])
  {
  }

  /** The guard on the notes is redundant: joining no notes already gives "". */
  lemma NotesContentIsJoin(notes: seq<string>)
    ensures NotesContent(notes) == Join("\n\n", notes)
  {
  }

  /** A join of non-empty parts is empty only when there are no parts. */
  lemma {:induction false} JoinEmpty(sep: string, parts: seq<string>)
    requires forall k | 0 <= k < |parts| :: parts[k] != ""
    ensures Join(sep, parts) == "" <==> |parts| == 0
  {
    if |parts| > 1 {
      assert Join(sep, parts) == parts[0] + sep + Join(sep, parts[1..]);
    }
  }

  /** With extractions that are never empty, the text content is empty
      exactly when there is at most one slide with text. */
  lemma TextContentEmpty(texts: seq<string>)
    requires forall k | 0 <= k < |texts| :: texts[k] != ""
    ensures TextContent(texts) == "" <==> |texts| <= 1
  {
    if |texts| > 1 {
      JoinEmpty("\n\n", texts[1..]);
    }
  }

  const SummaryTitle: string := "PowerPoint Extraction Summary"
  const SourceHead: string := "Source File: "
  const TextHead: string := "Text Extractions: "
  const TextTail: string := " slides with text"
  const NotesHead: string := "Notes Extractions: "
  const NotesTail: string := " slides with notes"
  const MediaHead: string := "Media Files: "
  const MediaTail: string := " files extracted"

  /** A count between a fixed head and tail. */
  function CountLine(head: string, n: nat, tail: string): string {
    head + NatStr(n) + tail
  }

  /** The lines of the summary: a title, a rule of 30 '=', a blank line, the
      source file and the three counts, ending with a newline. */
  function SummaryLines(path: string, texts: nat, notes: nat, media: nat): seq<string> {
    [ SummaryTitle,
      Repeat('=', 30),
      "",
      SourceHead + path,
      CountLine(TextHead, texts, TextTail),
      CountLine(NotesHead, notes, NotesTail),
      CountLine(MediaHead, media, MediaTail),
      "" ]
  }

  function Summary(path: string, texts: nat, notes: nat, media: nat): string {
    Join("\n", SummaryLines(path, texts, notes, media))
  }

  lemma NatStrNoNewline(n: nat)
    ensures '\n' !in NatStr(n)
  {
  }

  /** None of the fixed captions contains a line break. */
  lemma CaptionsOneLine()
    ensures '\n' !in SummaryTitle && '\n' !in SourceHead
    ensures '\n' !in TextHead && '\n' !in TextTail
    ensures '\n' !in NotesHead && '\n' !in NotesTail
    ensures '\n' !in MediaHead && '\n' !in MediaTail
  {
  }

  lemma CountLineOneLine(head: string, n: nat, tail: string)
    requires '\n' !in head && '\n' !in tail
    ensures '\n' !in CountLine(head, n, tail)
  {
    NatStrNoNewline(n);
  }

  /** Read line by line, the summary gives back its lines, so each count
      appears on its own line. */
  lemma SummaryReadsBack(path: string, texts: nat, notes: nat, media: nat)
    requires '\n' !in path
    ensures Split(Summary(path, texts, notes, media), '\n') == SummaryLines(path, texts, notes, media)
  {
    var lines := SummaryLines(path, texts, notes, media);
    CaptionsOneLine();
    CountLineOneLine(TextHead, texts, TextTail);
    CountLineOneLine(NotesHead, notes, NotesTail);
    CountLineOneLine(MediaHead, media, MediaTail);
    assert '\n' !in Repeat('=', 30);
    assert forall i | 0 <= i < |lines| :: '\n' !in lines[i];
    assert "\n" == ['\n'];
    SplitJoin(lines, '\n');
  }

  /** The middle of a line with a fixed head and tail is determined by the line. */
  lemma MiddleDetermined(h: string, a: string, b: string, t: string)
    requires h + a + t == h + b + t
    ensures a == b
  {
    var x := h + a + t;
    assert |a| == |b|;
    assert x[|h|..|h| + |a|] == a;
    assert (h + b + t)[|h|..|h| + |b|] == b;
  }

  /** Summaries of the same file with different counts differ. */
  lemma SummaryDeterminesCounts(path: string, t1: nat, n1: nat, m1: nat, t2: nat, n2: nat, m2: nat)
    requires '\n' !in path
    requires Summary(path, t1, n1, m1) == Summary(path, t2, n2, m2)
    ensures t1 == t2 && n1 == n2 && m1 == m2
  {
    SummaryReadsBack(path, t1, n1, m1);
    SummaryReadsBack(path, t2, n2, m2);
    var l1 := SummaryLines(path, t1, n1, m1);
    var l2 := SummaryLines(path, t2, n2, m2);
    assert l1[4] == l2[4] && l1[5] == l2[5] && l1[6] == l2[6];
    MiddleDetermined(TextHead, NatStr(t1), NatStr(t2), TextTail);
    MiddleDetermined(NotesHead, NatStr(n1), NatStr(n2), NotesTail);
    MiddleDetermined(MediaHead, NatStr(m1), NatStr(m2), MediaTail);
    NatStrInjective(t1, t2);
    NatStrInjective(n1, n2);
    NatStrInjective(m1, m2);
  }

  // ------------------------------------------------------------ the route

  /** The page's four parts. */
  datatype View = View(summary: string, firstSlide: string, text: string, notes: string)

  /** Builds the page from the saved file's bytes: unpack, extract, summarise.
      The first-slide split never raises, because every extraction carries a
      "Slide n:" line. */
  function Extract(path: string, data: seq<Byte>, unpack: seq<Byte> -> Result<Archive, Exc>,
                   parse: string -> Option<Node>): (r: Result<View, Exc>)
    ensures r.Failure? <==> unpack(data).Failure? || ExtractContent(unpack(data).value, parse).Failure?
    ensures r.Success? ==>
      var c := ExtractContent(unpack(data).value, parse).value;
      r.value.summary == Summary(path, |c.text|, |c.notes|, |c.media|)
      && r.value.text == TextContent(c.text) && r.value.notes == NotesContent(c.notes)
      && (|c.text| == 0 ==> r.value.firstSlide == "")
      && (|c.text| > 0 ==> EndsWith(c.text[0], r.value.firstSlide))
  {
    var arc :- unpack(data);
    var c :- ExtractContent(arc, parse);
    FirstSlideNeverFails(arc, parse);
    var first := FirstSlideContent(c.text).value;
    Success(View(Summary(path, |c.text|, |c.notes|, |c.media|), first, TextContent(c.text), NotesContent(c.notes)))
  }

  lemma FirstSlideNeverFails(arc: Archive, parse: string -> Option<Node>)
    requires ExtractContent(arc, parse).Success?
    ensures FirstSlideContent(ExtractContent(arc, parse).value.text).Success?
  {
    var c := ExtractContent(arc, parse).value;
    if |c.text| > 0 {
      var sd := arc.slides.value;
      assert Entries(Sort(sd.names), sd, "slide", ":", parse) == Success(c.text);
      assert '\n' in c.text[0];
    }
  }

  datatype Request = Get | Post(files: map<string, UploadedFile>)
  datatype UploadedFile = UploadedFile(filename: string, data: seq<Byte>)

  /** A flashed message: plain text, or 'Error processing file: ' followed by
      `str()` of the exception raised. */
  datatype Flash = Flash(text: string) | ProcessingError(error: Exc)

  /** A redirect back to the form, or the rendered upload page. */
  datatype Response = Redirect(flash: Flash) | Page(message: Option<Flash>, view: Option<View>)

  /** The response and the fate of the uploaded copy: the path it was saved
      under, and whether it was deleted again. */
  datatype Outcome = Outcome(response: Response, saved: Option<string>, removed: bool)

  /** Checks the saved file's signature and, for a ZIP archive, builds the
      page. */
  function Process(path: string, data: seq<Byte>, unpack: seq<Byte> -> Result<Archive, Exc>,
                   parse: string -> Option<Node>): (r: Outcome)
    ensures r.saved == Some(path) && r.removed
    ensures Classify(data) == OldFormat ==> r.response == Redirect(Flash(OldFormatMessage))
    ensures Classify(data) == Unknown ==> r.response == Redirect(Flash(NotPptxMessage))
    ensures Classify(data) == Zip ==> r.response.Page?
    ensures r.response.Page? && r.response.view.Some? ==>
      Classify(data) == Zip && Extract(path, data, unpack, parse) == Success(r.response.view.value)
    ensures r.response.Page? && r.response.message.Some? ==>
      Classify(data) == Zip && Extract(path, data, unpack, parse).Failure?
  {
    match Classify(data)
    case OldFormat => Outcome(Redirect(Flash(OldFormatMessage)), Some(path), true)
    case Unknown => Outcome(Redirect(Flash(NotPptxMessage)), Some(path), true)
    case Zip =>
      match Extract(path, data, unpack, parse)
      case Failure(e) => Outcome(Page(Some(ProcessingError(e)), None), Some(path), true)
      case Success(v) => Outcome(Page(None, Some(v)), Some(path), true)
  }

  /** `upload_file()`. */
  function UploadFile(req: Request, secure: string -> string, unpack: seq<Byte> -> Result<Archive, Exc>,
                      parse: string -> Option<Node>): (r: Outcome)
    ensures req.Get? ==> r == Outcome(Page(None, None), None, false)
    ensures req.Post? && ("file" !in req.files || req.files["file"].filename == "") ==>
      r == Outcome(Redirect(Flash(NoFileMessage)), None, false)
    ensures r.saved.Some? <==>
      req.Post? && "file" in req.files && AllowedFile(req.files["file"].filename)
    ensures r.saved.Some? ==>
      r.removed && r.saved.value == PathJoin(UploadFolder, secure(req.files["file"].filename))
    ensures req.Post? && "file" in req.files && req.files["file"].filename != ""
            && !AllowedFile(req.files["file"].filename) ==>
      r == Outcome(Page(Some(Flash(OnlyPptxMessage)), None), None, false)
  {
    match req
    case Get => Outcome(Page(None, None), None, false)
    case Post(files) =>
      if "file" !in files || files["file"].filename == "" then
        Outcome(Redirect(Flash(NoFileMessage)), None, false)
      else
        var f := files["file"];
        if !AllowedFile(f.filename) then
          Outcome(Page(Some(Flash(OnlyPptxMessage)), None), None, false)
        else
          Process(PathJoin(UploadFolder, secure(f.filename)), f.data, unpack, parse)
  }

  /** Whatever is uploaded, nothing stays in the upload folder. */
  lemma NothingLeftBehind(req: Request, secure: string -> string, unpack: seq<Byte> -> Result<Archive, Exc>,
                          parse: string -> Option<Node>)
    ensures UploadFile(req, secure, unpack, parse).saved.Some? ==> UploadFile(req, secure, unpack, parse).removed
  {
  }

  /** A page with content reports in its summary the number of slides with
      text, of slides with notes and of media files, each on its own line. */
  lemma PageCounts(path: string, data: seq<Byte>, unpack: seq<Byte> -> Result<Archive, Exc>,
                   parse: string -> Option<Node>)
    requires '\n' !in path
    ensures Extract(path, data, unpack, parse).Success? ==>
      var c := ExtractContent(unpack(data).value, parse).value;
      Split(Extract(path, data, unpack, parse).value.summary, '\n') == SummaryLines(path, |c.text|, |c.notes|, |c.media|)
  {
    if Extract(path, data, unpack, parse).Success? {
      var c := ExtractContent(unpack(data).value, parse).value;
      assert Extract(path, data, unpack, parse).value.summary == Summary(path, |c.text|, |c.notes|, |c.media|);
      SummaryReadsBack(path, |c.text|, |c.notes|, |c.media|);
    }
  }
}

=== FILE: utils.dfy ===
/** The two helpers of backend/utils/utils.py: the key validator used when
    loading agents, and the three-way prompt resolution every phase uses. */
module Utils {

  import opened Wrappers
  import opened Text
  import opened PyValues

  // ------------------------------------------------------------ key validation

  /** Text of the ValueError raised for a missing key: the f-string is stripped,
      so an empty extra message leaves no trailing space. */
  function MissingKeyMessage(key: string, extra: string): string {
    PyStrip(key + " not found in agent data. " + extra)
  }

  /** `_ensure_keys_exist(d, keys, extra)`: the keys are checked in list order and
      the first missing one is reported. */
  function EnsureKeysExist(d: Dict, keys: seq<string>, extra: string): (r: Result<(), Exc>)
    ensures r.Success? <==> forall j | 0 <= j < |keys| :: keys[j] in d
    ensures r.Failure? ==> r.error.ValueError?
  {
    if |keys| == 0 then Success(())
    else if keys[0] !in d then Failure(ValueError(MissingKeyMessage(keys[0], extra)))
    else
      var r := EnsureKeysExist(d, keys[1..], extra);
      assert r.Success? ==> forall j | 0 <= j < |keys| :: keys[j] in d by {
        if r.Success? {
          forall j | 0 <= j < |keys| ensures keys[j] in d {
            if j > 0 {
              assert keys[j] == keys[1..][j - 1];
            }
          }
        }
      }
      r
  }

  /** The error names the first key, in list order, that the dict lacks. */
  lemma {:induction false} EnsureKeysExistReportsFirstMissing(d: Dict, keys: seq<string>, extra: string, i: nat)
    requires i < |keys| && keys[i] !in d
    requires forall j | 0 <= j < i :: keys[j] in d
    ensures EnsureKeysExist(d, keys, extra) == Failure(ValueError(MissingKeyMessage(keys[i], extra)))
    decreases i
  {
    if i > 0 {
      assert keys[0] in d;
      EnsureKeysExistReportsFirstMissing(d, keys[1..], extra, i - 1);
    }
  }

  /** With no extra message the error text ends at "data." with no trailing space. */
  lemma MissingKeyMessageWithoutExtra(key: string)
    requires |key| > 0 && !IsPySpace(key[0])
    ensures MissingKeyMessage(key, "") == key + " not found in agent data."
  {
    var s := key + " not found in agent data.";
    assert key + " not found in agent data. " + "" == s + " ";
    assert AllIn(" ", IsPySpace);
    TrimDropsTrailing(s, " ", IsPySpace);
    assert s[0] == key[0];
    TrimKeepsTight(s, IsPySpace);
  }

  // ---------------------------------------------------------- prompt resolution

  /** A resolved prompt and the messages sent to GPT to obtain it. */
  datatype Drafted = Drafted(text: string, calls: seq<string>)

  /** The additional prompts joined into one prefix. */
  function PromptPrefix(additional: seq<string>): string {
    Join("\n--------\n", additional)
  }

  /** `_get_prompt(gpt, gpt_prompt, prompt, default_prompt, additional_prompts)`,
      with `gpt` the response GPT gives to a message.  A truthy explicit prompt
      wins; otherwise GPT drafts from the truthy drafting prompt; otherwise from
      the default, where the None default fails on `str + None` before GPT is
      called.  Non-str truthy prompts fail the same way. */
  function GetPrompt(gpt: string -> string, gptPrompt: Value, prompt: Value, defaultPrompt: Value,
                     additional: seq<string>): (r: Result<Drafted, Exc>)
    ensures r.Failure? ==> r.error == TypeError
    ensures r.Success? ==> StartsWith(r.value.text, PromptPrefix(additional))
    ensures r.Success? ==> |r.value.calls| <= 1
    ensures r.Success? ==> (r.value.calls == [] <==> Truthy(prompt))
    ensures r.Success? && r.value.calls != [] ==>
              StartsWith(r.value.calls[0], PromptPrefix(additional))
              && r.value.text == PromptPrefix(additional) + gpt(r.value.calls[0])
  {
    var prefix := PromptPrefix(additional);
    if Truthy(prompt) then
      if prompt.VStr? then Success(Drafted(prefix + prompt.s, [])) else Failure(TypeError)
    else
      var template := if Truthy(gptPrompt) then gptPrompt else defaultPrompt;
      if template.VStr? then
        Success(Drafted(prefix + gpt(prefix + template.s), [prefix + template.s]))
      else Failure(TypeError)
  }

  /** A truthy explicit prompt decides the result alone: GPT, the drafting
      prompt and the default are never consulted. */
  lemma ExplicitPromptWins(gpt1: string -> string, gpt2: string -> string, g1: Value, g2: Value,
                           d1: Value, d2: Value, prompt: string, additional: seq<string>)
    requires prompt != ""
    ensures GetPrompt(gpt1, g1, VStr(prompt), d1, additional)
         == GetPrompt(gpt2, g2, VStr(prompt), d2, additional)
         == Success(Drafted(PromptPrefix(additional) + prompt, []))
  {
  }

  /** With no explicit prompt, a truthy drafting prompt is sent to GPT exactly
      once, behind the prefix, and the default is ignored. */
  lemma DraftingPromptCallsGptOnce(gpt: string -> string, g: string, p: Value, d1: Value, d2: Value,
                                   additional: seq<string>)
    requires !Truthy(p) && g != ""
    ensures GetPrompt(gpt, VStr(g), p, d1, additional) == GetPrompt(gpt, VStr(g), p, d2, additional)
    ensures GetPrompt(gpt, VStr(g), p, d1, additional).Success?
    ensures GetPrompt(gpt, VStr(g), p, d1, additional).value.calls == [PromptPrefix(additional) + g]
  {
  }

  /** With neither prompt truthy, the default is what GPT drafts from, and the
      None default fails before any call. */
  lemma DefaultPromptFallback(gpt: string -> string, g: Value, p: Value, d: Value, additional: seq<string>)
    requires !Truthy(p) && !Truthy(g)
    ensures d == VNone ==> GetPrompt(gpt, g, p, d, additional) == Failure(TypeError)
    ensures d.VStr? ==>
              GetPrompt(gpt, g, p, d, additional)
                == Success(Drafted(PromptPrefix(additional) + gpt(PromptPrefix(additional) + d.s),
                                   [PromptPrefix(additional) + d.s]))
  {
  }

  /** The call `run` makes: no default and no additional prompts.  It succeeds
      with the explicit prompt, or with GPT's answer to the drafting prompt, or
      fails with TypeError when neither is a non-empty string. */
  lemma GetPromptWithoutDefault(gpt: string -> string, g: Value, p: Value)
    ensures var r := GetPrompt(gpt, g, p, VNone, []);
            && (Truthy(p) && p.VStr? ==> r == Success(Drafted(p.s, [])))
            && (!Truthy(p) && Truthy(g) && g.VStr? ==> r == Success(Drafted(gpt(g.s), [g.s])))
            && (r.Success? <==> (Truthy(p) && p.VStr?) || (!Truthy(p) && Truthy(g) && g.VStr?))
  {
    EmptyPrefix();
    if g.VStr? {
      assert "" + g.s == g.s;
      assert "" + gpt(g.s) == gpt(g.s);
    }
    if p.VStr? {
      assert "" + p.s == p.s;
    }
  }

  /** No additional prompts means an empty prefix. */
  lemma EmptyPrefix()
    ensures PromptPrefix([]) == ""
  {
  }
}

=== FILE: values.dfy ===
/** Python values as the back end sees them.  Only what the modelled code
    inspects is kept: whether a value is None, a str, an int or a list, its
    `str()` rendering and its truth value.  Every other object (a nested dict,
    a bool, the extractor's output) is an opaque `VObj` carrying exactly its
    `str()` text and its truth value. */
module PyValues {

  import opened Text

  datatype Value =
    | VNone
    | VStr(s: string)
    | VInt(i: int)
    | VList(items: seq<Value>)
    | VObj(text: string, truthy: bool)

  /** A top-level Python dict with string keys. */
  type Dict = map<string, Value>

  /** Python's `bool(v)`. */
  predicate Truthy(v: Value) {
    match v
    case VNone => false
    case VStr(s) => s != ""
    case VInt(i) => i != 0
    case VList(items) => |items| > 0
    case VObj(_, t) => t
  }

  /** A literal `{}` nested in a value: falsy, and shown as "{}". */
  const EmptyDict: Value := VObj("{}", false)

  /** `d.get(k, default)`. */
  function Get(d: Dict, k: string, default: Value): (r: Value)
    ensures k in d ==> r == d[k]
    ensures k !in d ==> r == default
  {
    if k in d then d[k] else default
  }

  /** Python's `str(v)`, which is also what `format(v, '')` and an f-string produce. */
  function Show(v: Value): string {
    match v
    case VStr(s) => s
    case _ => Repr(v)
  }

  /** Python's `repr(v)`; a list shows the reprs of its items. */
  function Repr(v: Value): string {
    match v
    case VNone => "None"
    case VStr(s) => StrRepr(s)
    case VInt(i) => IntStr(i)
    case VList(items) =>
      "[" + Join(", ", seq(|items|, k requires 0 <= k < |items| => Repr(items[k]))) + "]"
    case VObj(text, _) => text
  }

  /** Python's `repr` of a str: single quotes unless the text holds a single quote
      and no double quote.  Non-printable characters above U+00FF (which Python
      writes as \u or \U escapes) are not distinguished here. */
  function StrRepr(s: string): string {
    var q := if '\'' in s && '"' !in s then '"' else '\'';
    [q] + EscapeAll(s, q) + [q]
  }

  function EscapeAll(s: string, q: char): string {
    if |s| == 0 then "" else EscapeChar(s[0], q) + EscapeAll(s[1..], q)
  }

  function EscapeChar(c: char, q: char): string {
    if c == '\\' then "\\\\"
    else if c == q then ['\\', q]
    else if c == '\t' then "\\t"
    else if c == '\n' then "\\n"
    else if c == '\r' then "\\r"
    else if c < ' ' || ('\U{7f}' <= c <= '\U{a0}') || c == '\U{ad}' then "\\x" + Hex2(c as int)
    else [c]
  }

  function Hex2(n: int): string
    requires 0 <= n < 256
  {
    ["0123456789abcdef"[n / 16], "0123456789abcdef"[n % 16]]
  }

  /** The Python exceptions the modelled code raises. */
  datatype Exc =
    | ValueError(message: string)
    | KeyError(key: string)
    | TypeError
    | AttributeError
    | IndexError
    | FileNotFoundError(path: string)
    | UnboundLocalError(name: string)
    | Exception(message: string)
      /** A generic Exception whose message is `prefix` followed by `str()` of
          the exception it wraps. */
    | Chained(prefix: string, cause: Exc)
}

=== FILE: wrappers.dfy ===
/** Option and Result types shared by every module of the model. */
module Wrappers {

  datatype Option<+T> = None | Some(value: T)
  {
    function GetOr(default: T): T {
      match this
      case Some(v) => v
      case None => default
    }
  }

  /** A computation that either succeeds with a value or raises an error. */
  datatype Result<+T, +E> = Success(value: T) | Failure(error: E)
  {
    predicate IsFailure() { Failure? }

    function PropagateFailure<U>(): Result<U, E>
      requires Failure?
    {
      Failure(error)
    }

    function Extract(): T
      requires Success?
    {
      value
    }
  }
}
